=== FILE: README.md ===
# raves_metadata in Dafny

A model of the metadata core of `raves_metadata`, a Rust library that finds
and decodes the Exif, XMP and IPTC metadata embedded in image and video
files, together with proofs about it. Each module follows one source file
or component:

- Exif: the TIFF header and the chain of image file directories (IFDs).
  Entries are 12 bytes. A value of four bytes or fewer sits inline; a
  longer one is read at its offset. Sub-IFDs are followed through the
  Exif, GPS and Interoperability pointer tags, with a 32-slot recursion
  stack. The tag tables are taken entry by entry from the generated tag
  enum.
- ISO base media files: box headers (32-bit size, 64-bit largesize, to
  end of file, UUID types) and `ftyp`. The box search covers HEIF/AVIF
  (`meta`, `iinf`, `iloc`, `pitm`, `idat`, and the `Exif` and `mime` items
  they locate) and MP4 (the XMP `uuid` box).
- JPEG: the marker walk, the APP1 Exif and XMP segments, and ExtendedXMP
  chunks reassembled by offset.
- WebP: the RIFF header, chunk headers and the VP8X flags that announce the
  `EXIF` and `XMP ` chunks.
- GIF: every GIF89a block parser, including the raw XMP application
  extension with its 257-byte "magic trailer".
- XMP: reading an XML element tree by a known schema kind or by heuristics.
  This covers primitives, structs, unions, `rdf:Seq`/`rdf:Bag` arrays and
  `rdf:Alt` alternatives. Also modelled is how the IPTC Photo Metadata
  fields are read out of an XMP packet.
- The IPTC code generator's pure helpers (case conversion, IPTC datatype to
  Rust type, `match` arm generation). Also the PNG chunk length and CRC-32
  helpers of the test scripts.

Every parser takes the remaining input and gives back what it read with the
input after it. Errors are `Result` values whose variants are the source's
error enums. Integers are unbounded. Where the source's fixed-width
arithmetic matters, it is written out: `u32` products and sums wrap
(release build), and `saturating_add` saturates.

Where the source indexes or slices without a check, the model has a
precondition. Examples are `input[0]` in the GIF comment and application
loops, the `blob[ptr..]` slices of the Exif walk, and the HEIF item slices.
No invented error case stands in for these.

Where the code and the formats it reads disagree, the model follows the
code. Unknown Exif type codes are rejected, not kept. The GIF graphic
control extension's packed byte, which the source decodes with the
disposal method in bits 3 to 5 and the flags in bits 6 and 7, is listed
under Findings against section 23 of the GIF89a specification.
WebP's `new` (`webp/mod.rs:85-89`) stops before the nine remaining VP8X
bytes when neither the Exif nor the XMP flag is set, and the model does
too.

For each source bug listed under Findings (the Exif chain loop, the
wrapping Exif data width, the HEIF `idat` payload, the GIF graphic control
packed byte, the IPTC lookups and an XMP union capacity), the model keeps the code as written beside a corrected version and uses the
corrected one in the rest of the model. `Heif.ParseHeifLikeWith` takes that
choice as a parameter.

## Model

| member | source | states |
|---|---|---|
| ExifPrimitives.TryFromCode | raves_metadata_types/src/exif/primitives.rs:43-66 | exactly the nine Exif type codes are recognised, and a code decodes to a type iff that type's code is the code |
| ExifPrimitives.SizeBytes | raves_metadata_types/src/exif/primitives.rs:31-41 | one-byte, two-byte, four-byte and eight-byte types are exactly the byte-like, Short, Long/SLong and rational types |
| ExifTypes.Count | raves_metadata_types/src/exif/mod.rs:27-34 | an absent value counts 0, a single primitive 1, a list its length (as u32) |
| ExifTypes.Ty | raves_metadata_types/src/exif/mod.rs:36-46 | the type of a field is the stored type for empty and list data and the primitive's own type otherwise |
| ExifTags.Ifd0TagId | raves_metadata_types/src/exif/tags.rs:281-472 | every IFD0 tag is found again by the lookup on its own id |
| ExifTags.Ifd0FromIdInverse | raves_metadata_types/src/exif/tags.rs:124-135 | every id the IFD0 lookup accepts is the id of the tag it returns |
| ExifTags.ExifTagId | raves_metadata_types/src/exif/tags.rs:492-959 | every Exif-group tag is found again by the lookup on its own id |
| ExifTags.ExifFromIdInverse | raves_metadata_types/src/exif/tags.rs:124-135 | every id the Exif-group lookup accepts is the id of the tag it returns |
| ExifTags.GpsTagId | raves_metadata_types/src/exif/tags.rs:979-1140 | every GPS tag is found again by the lookup on its own id |
| ExifTags.GpsFromIdInverse | raves_metadata_types/src/exif/tags.rs:124-135 | every id the GPS lookup accepts is the id of the tag it returns |
| ExifTags.InteropTagId | raves_metadata_types/src/exif/tags.rs:1160-1167 | every interoperability tag is found again by the lookup on its own id |
| ExifTags.InteropFromIdInverse | raves_metadata_types/src/exif/tags.rs:124-135 | every id the interoperability lookup accepts is the id of the tag it returns |
| ExifTags.TryFromGroupId | raves_metadata_types/src/exif/tags.rs:241-254 | a found tag belongs to the requested group and carries the requested id; nothing is found only when no tag of that group has the id |
| ExifTags.TagIdRoundTrip | raves_metadata_types/src/exif/tags.rs:241-254 | every known tag is recovered from its group and id |
| ExifTags.IdOneDependsOnGroup | raves_metadata_types/src/exif/tags.rs:985 | the same id names different tags in different groups: 1 is GPSLatitudeRef in GPS, InteroperabilityIndex in Interop and unknown in IFD0 and Exif |
| ExifTags.ImageWidthEntry | raves_metadata_types/src/exif/tags.rs:284 | the ImageWidth entry has id 256, its name, types Short or Long, count 1 and group IFD0 |
| ExifTags.SubIfdPointerTagsFacts | raves_metadata_types/src/exif/tags.rs:257-261 | the sub-IFD pointer tags are the three IFD0 Long tags 34665, 34853 and 40965 with count 1 |
| ExifValue.FromI32 | raves_metadata_types/src/exif/primitives.rs:90 | a signed 32-bit value is stored as the bit pattern that reads back as the same value |
| ExifValue.AsI32Inverse | raves_metadata/src/exif/value.rs:245-249 | reading a stored SLong and storing it again gives the same 32-bit word |
| ExifValue.EncodePrimitive | raves_metadata_types/src/exif/primitives.rs:31-41 | a primitive occupies exactly the size its type declares |
| ExifValue.EncodePrimitiveInjective | raves_metadata/src/exif/value.rs:198-265 | two primitives of one type with the same bytes are the same primitive |
| ExifValue.ReadU32Pair | raves_metadata/src/exif/value.rs:231-238 | a rational's two words are read iff eight bytes remain, and they are exactly those bytes |
| ExifValue.ParsePrimitive | raves_metadata/src/exif/value.rs:198-265 | succeeds iff the type's size is available, yields a primitive of the requested type whose encoding is the bytes consumed, and otherwise fails with OuttaData of that type |
| ExifValue.ParsePrimitiveRoundTrip | raves_metadata/src/exif/value.rs:198-265 | decoding an encoded primitive gives it back and leaves what followed |
| ExifValue.ParsePrimitiveList | raves_metadata/src/exif/value.rs:182-195 | succeeds iff count primitives fit, yields exactly count primitives of the type whose encodings are the prefix consumed, and otherwise fails with OuttaData |
| ExifValue.EncodeEntry | raves_metadata/src/exif/value.rs:18-50 | an IFD entry is the twelve bytes tag, type, count, value-or-offset |
| ExifValue.ReadEntry | raves_metadata/src/exif/value.rs:18-50 | an entry is read iff twelve bytes remain, and it encodes back to them |
| ExifValue.ReadEntryRoundTrip | raves_metadata/src/exif/value.rs:18-50 | an entry reads back as the entry that was laid out |
| ExifValue.TagFor | raves_metadata/src/exif/value.rs:18-26 | a raw tag is Known exactly when the current group's table has that id, and Unknown keeps the raw id |
| ExifValue.PointerTagFor | raves_metadata/src/exif/value.rs:18-26 | only the three pointer ids, and only in IFD0, read as sub-IFD pointer tags |
| ExifValue.DecodeFieldData | raves_metadata/src/exif/value.rs:142-163 | count 0 gives no data, 1 one primitive, more a list; it succeeds iff the data holds count values, which encode back to the bytes consumed, and otherwise fails with OuttaData |
| ExifValue.EntryData | raves_metadata/src/exif/value.rs:83-128 | inline data is the four value bytes; out-of-line data is the blob from the offset, and the offset is refused with OffsetTooFar exactly when it passes the blob's last index |
| ExifValue.EntryField | raves_metadata/src/exif/value.rs:142-169 | a decoded field keeps the tag, the declared type and the declared count |
| ExifValue.EntryFieldInline | raves_metadata/src/exif/value.rs:122-127 | inline data fits in the four value bytes and is their prefix |
| ExifValue.EntryFieldOutOfLine | raves_metadata/src/exif/value.rs:93-120 | out-of-line data lies inside the blob at the entry's offset |
| ExifValue.EntryFieldErr | raves_metadata/src/exif/value.rs:96-119 | an offset past the blob fails with OffsetTooFar, and every other failure is OuttaData of the declared type |
| ExifValue.ParseValueWith | raves_metadata/src/exif/value.rs:14-170 | a missing tag, type, count or value fails with its own error; an unknown type code fails with FieldUnknownType; a whole entry is decoded through its tag, type and placement and the cursor always moves past the twelve bytes |
| ExifValue.ParseValueRest | raves_metadata/src/exif/value.rs:14-50 | a complete entry with a known type always consumes exactly twelve bytes, whatever its data |
| ExifValue.EntryStep | raves_metadata/src/exif/value.rs:14-170 | reading a laid-out entry decodes its field from that entry and leaves what followed |
| ExifValue.WrappedWidthMisread | raves_metadata/src/exif/value.rs:77 | a Short entry of count 2^31 is read inline and fails with OuttaData as written, where the unwrapped size sends it out of line and gives OffsetTooFar |
| ExifIfd.MaxDepth | raves_metadata/src/exif/ifd.rs:33-40 | the nesting depth of a list of sibling IFDs bounds every sibling's depth |
| ExifIfd.EmptyStack | raves_metadata/src/exif/ifd.rs:21-25 | a fresh parse has RECURSION_LIMIT (32) empty stack slots |
| ExifIfd.UpdateRecursionStack | raves_metadata/src/exif/ifd.rs:176-204 | fails with HitRecursionLimit, carrying the group and the full stack, iff the count has reached 32; otherwise records the pointer in the slot at the count and changes no other slot and nothing else |
| ExifIfd.ParseFields | raves_metadata/src/exif/ifd.rs:81-84 | exactly entry_count results are collected, and the cursor ends after entry_count entries |
| ExifIfd.ParseFieldsAt | raves_metadata/src/exif/ifd.rs:82 | entry i is read where entry i - 1 stopped |
| ExifIfd.SubIfdTarget | raves_metadata/src/exif/ifd.rs:89-117 | a field names a sub-IFD iff it parsed, its tag is a pointer tag and its data is one Long, and the target is that Long in an optional group |
| ExifIfd.SubIfdTargetGroups | raves_metadata/src/exif/ifd.rs:105-114 | the Exif, GPS and interoperability pointers lead to the Exif, GPS and interoperability groups, and other tags lead nowhere |
| ExifIfd.PointerAt | raves_metadata/src/exif/ifd.rs:47 | the pointer of an IFD read from the blob at p is p |
| ExifIfd.IfdHead | raves_metadata/src/exif/ifd.rs:45-84 | a pointer already on the stack is SelfRecursion; a full stack is HitRecursionLimit; a missing or zero entry count is IfdNoEntryCount or IfdHadZeroFields; on success the pointer is pushed, and entry_count fields are read in order |
| ExifIfd.IfdHeadEntries | raves_metadata/src/exif/ifd.rs:82 | field i is the entry parsed after i earlier entries |
| ExifIfd.OneEntryHead | raves_metadata/src/exif/ifd.rs:69-84 | an IFD whose count is one holds exactly the entry after the count |
| ExifIfd.NextIfdLocation | raves_metadata/src/exif/ifd.rs:149-166 | fewer than four bytes or a zero pointer means no next IFD; otherwise the next IFD is the pointer read |
| ExifIfd.ParseIfd | raves_metadata/src/exif/ifd.rs:42-147 | a failing head is the IFD's error; a parsed IFD has the head's fields, at most one sub-IFD per pointer field, a depth within the remaining recursion budget, and the next pointer after its entries |
| ExifIfd.SubAttempts | raves_metadata/src/exif/ifd.rs:118-139 | one attempt per pointer field, each successful one within the remaining recursion budget |
| ExifIfd.SubAttemptsMeaning | raves_metadata/src/exif/ifd.rs:118-139 | attempt i succeeds exactly when the pointer's sub-IFD parses with a state one level deeper that records the pointer, and then it is that sub-IFD |
| ExifIfd.SubIfds | raves_metadata/src/exif/ifd.rs:89-140 | failed sub-IFDs are dropped, so no more sub-IFDs than pointer fields, each within the budget |
| ExifIfd.SubIfdsInOrder | raves_metadata/src/exif/ifd.rs:89-144 | the sub-IFDs are exactly the successful attempts, in pointer-field order, each parsed at its own pointer |
| ExifIfd.SubIfdCycleRejected | raves_metadata/src/exif/ifd.rs:49-63 | a sub-IFD pointer back to its parent or any IFD above it fails as SelfRecursion |
| ExifIfd.RevisitRejected | raves_metadata/src/exif/ifd.rs:49-63 | reading the IFD at a position already on the stack is SelfRecursion |
| ExifIfd.SubStateRecords | raves_metadata/src/exif/ifd.rs:123-135 | a sub-IFD's state records its parent and every IFD above it |
| ExifIfd.NoSubTargets | raves_metadata/src/exif/ifd.rs:93 | entries none of which is a sub-IFD pointer name no sub-IFD |
| ExifIfd.NoSubIfds | raves_metadata/src/exif/ifd.rs:89-146 | an IFD with no pointer fields is its fields, no sub-IFDs and the next pointer |
| ExifBlob.ByteOrderMark | raves_metadata/src/exif/mod.rs:140-142 | each byte order has its two-byte mark |
| ExifBlob.ParseBlobEndianness | raves_metadata/src/exif/mod.rs:121-151 | fewer than two bytes is NoByteOrderMarker carrying the length as u8; succeeds iff the bytes are II or MM, and otherwise WeirdByteOrderMarker carries the two bytes |
| ExifBlob.ByteOrderMarkRoundTrip | raves_metadata/src/exif/mod.rs:121-151 | the byte-order mark reads back as the byte order it was written for |
| ExifBlob.ParseTiffMagicNumber | raves_metadata/src/exif/mod.rs:181-205 | fewer than two bytes is NoTiffMagicNumber; succeeds iff the value is 42, and otherwise MagicNumberWasntTiff carries the value |
| ExifBlob.ParseTiffHeaderOffset | raves_metadata/src/exif/mod.rs:211-226 | fewer than four bytes is NoTiffHeaderOffset; an offset below 8 is HeaderOffsetBeforeHeader; otherwise the offset minus 8 |
| ExifBlob.ParseHeaderSteps | raves_metadata/src/exif/mod.rs:55-87 | a parsed header has the mark of its byte order, the magic 42 and an offset of at least 8 inside the blob, and the IFDs start at that offset |
| ExifBlob.ParseHeaderOk | raves_metadata/src/exif/mod.rs:55-87 | a parsed header's first eight bytes are the header that byte order and offset encode |
| ExifBlob.ParseHeaderErr | raves_metadata/src/exif/mod.rs:78-87 | after a good mark, a header fails only for a wrong magic, an offset before the header or an offset past the blob |
| ExifBlob.HeaderRoundTrip | raves_metadata/src/exif/mod.rs:55-87 | an encoded header reads back as its byte order, with the input moved to its offset |
| ExifBlob.HeaderAt | raves_metadata/src/exif/mod.rs:55-87 | a header naming offset off puts the first IFD at that offset |
| ExifBlob.InitialState | raves_metadata/src/exif/mod.rs:66-73 | every Exif parse starts in IFD 0 with no recursion recorded |
| ExifBlob.ChainStateNext | raves_metadata/src/exif/mod.rs:102-114 | each chained IFD is recorded on the stack one slot higher, on the same blob |
| ExifBlob.ParseChain | raves_metadata/src/exif/mod.rs:96-116 | a chain starts with the IFD at its pointer, fails with that IFD's error, ends when there is no next pointer, and never exceeds the recursion budget |
| ExifBlob.ChainLinks | raves_metadata/src/exif/mod.rs:102-114 | the chain's positions start at its first pointer |
| ExifBlob.ParseChainInOrder | raves_metadata/src/exif/mod.rs:102-114 | the IFDs of a chain are, in order, the IFDs read at successive next pointers |
| ExifBlob.ReadInOrderCons | raves_metadata/src/exif/mod.rs:102-114 | an IFD read at a position linked to a chain read in order extends it in order |
| ExifBlob.ChainTurn | raves_metadata/src/exif/mod.rs:102-114 | one turn of the chain: this IFD, then the chain from its next pointer with a state that records it |
| ExifBlob.ChainTurnLinked | raves_metadata/src/exif/mod.rs:102-114 | the IFD at a chain position reads as itself and is linked to the next position |
| ExifBlob.ChainCycleRejected | raves_metadata/src/exif/mod.rs:102-114 | a next-IFD pointer back to any IFD already on the chain is rejected |
| ExifBlob.ParseExifHeaderErr | raves_metadata/src/exif/mod.rs:55-87 | a header that does not parse is the whole parse's error |
| ExifBlob.ParseExifOk | raves_metadata/src/exif/mod.rs:48-116 | a parsed blob keeps the header's byte order and has no IFDs exactly when nothing follows the offset; the corrected chain also caps it at 32 IFDs |
| ExifBlob.ParseExifFirst | raves_metadata/src/exif/mod.rs:89-100 | the first IFD of a successful parse is the one at the header's offset |
| ExifBlob.SelfChainNeverEnds | raves_metadata/src/exif/mod.rs:102-114 | as written, an IFD whose next pointer is its own position makes the loop run out of any fuel |
| ExifBlob.SelfChainBlobShape | raves_metadata/src/exif/mod.rs:102-114 | the 26-byte witness blob has a header, one plain entry and a next pointer back to offset 8 |
| ExifBlob.SelfChainLoopsAsWritten | raves_metadata/src/exif/mod.rs:102-114 | the source's chain loop never finishes on the witness blob |
| ExifBlob.SelfChainCycle | raves_metadata/src/exif/mod.rs:102-114 | the corrected chain rejects the witness's self-pointer as SelfRecursion |
| ExifBlob.SelfChainRejected | raves_metadata/src/exif/mod.rs:48-116 | the corrected Exif parse fails on the witness blob with SelfRecursion |
| ExifBlob.RevisitFirstSlot | raves_metadata/src/exif/ifd.rs:49-63 | an IFD already in the first stack slot is rejected as SelfRecursion |
| BmffBox.HeaderLen | raves_metadata/src/providers/shared/bmff/box_header.rs:88-170 | a header is 8 bytes, plus 8 for a largesize and 16 for a UUID type |
| BmffBox.EncodeBoxHeader | raves_metadata/src/providers/shared/bmff/box_header.rs:97-157 | the header bytes of a box of a size and type are as long as that header |
| BmffBox.ParseBoxSize | raves_metadata/src/providers/shared/bmff/box_header.rs:109-128 | a raw size of 1 needs an eight-byte largesize and fails without it; 0 is to-end-of-file; anything else is the small size, with nothing more read |
| BmffBox.ParseBoxType | raves_metadata/src/providers/shared/bmff/box_header.rs:133-157 | the type uuid is followed by the 16-byte UUID and fails without it; other codes are plain ids, with nothing more read |
| BmffBox.ParseBoxHeader | raves_metadata/src/providers/shared/bmff/box_header.rs:88-170 | fewer than four bytes fails for the size and fewer than eight for the type; a parsed header's length is the bytes consumed, and those bytes are the encoding of its size and type |
| BmffBox.HeaderLeft | raves_metadata/src/providers/shared/bmff/box_header.rs:88-170 | the header parser does not backtrack: after a failure the fields read before the missing one stay consumed (none when the size is short, four bytes when the type is, eight when the largesize is, eight or sixteen when the UUID is), and after a success the whole header is consumed |
| BmffBox.HeaderFields | raves_metadata/src/providers/shared/bmff/box_header.rs:97-166 | the header bytes the four fields were read from are the encoded header |
| BmffBox.BoxHeaderRoundTrip | raves_metadata/src/providers/shared/bmff/box_header.rs:88-170 | every encodable header reads back as itself, with its length, leaving what followed |
| BmffBox.SizeRoundTrip | raves_metadata/src/providers/shared/bmff/box_header.rs:109-128 | the size field and its largesize read back |
| BmffBox.TypeRoundTrip | raves_metadata/src/providers/shared/bmff/box_header.rs:133-157 | the type field and its extended type read back |
| BmffBox.PayloadLen | raves_metadata/src/providers/shared/bmff/box_header.rs:43-49 | a to-end-of-file box has no known length; otherwise the size minus the header, saturating at 0 |
| BmffBox.Payload | raves_metadata/src/providers/shared/bmff/box_header.rs:55-67 | the payload is taken iff the input is long enough; a to-end-of-file payload is all the input; the payload and what is left make up the input |
| BmffBox.EatPayload | raves_metadata/src/providers/shared/bmff/box_header.rs:76-85 | skipping a payload succeeds exactly when taking it would, and leaves the same input |
| BmffFtyp.ParseFourCC | raves_metadata/src/providers/shared/bmff/ftyp.rs:49-55 | four bytes are read iff four remain; `iinf`'s item type (iinf.rs:369-378) is read by the same parser |
| BmffFtyp.Brands | raves_metadata/src/providers/shared/bmff/ftyp.rs:33-38 | as many brands as both the room and the input allow are read, and they are the input's prefix |
| BmffFtyp.BrandsRoundTrip | raves_metadata/src/providers/shared/bmff/ftyp.rs:33-38 | brands are read back when there is room for exactly them |
| BmffFtyp.ParseFtypSpec | raves_metadata/src/providers/shared/bmff/ftyp.rs:13-46 | an ftyp box is read iff the header parses, names ftyp, has a known size and eight payload bytes follow; it is the header, the major brand, the minor version and the brands that fit, read in order |
| BmffFtyp.ParseFtypAfterHeader | raves_metadata/src/providers/shared/bmff/ftyp.rs:13-46 | after a sized ftyp header the box is the major brand, the minor version and the brands read from what follows |
| BmffFtyp.FtypRoundTrip | raves_metadata/src/providers/shared/bmff/ftyp.rs:13-46 | an encoded ftyp box reads back as itself |
| BmffSearch.NextBox | raves_metadata/src/providers/shared/bmff/search.rs:13-35 | one box is a header that encodes back to its bytes and a payload of the declared length, and the input strictly shrinks |
| BmffSearch.Walk | raves_metadata/src/providers/shared/bmff/search.rs:13-36 | the boxes walked are laid out one after another at the front of the input, each with a payload of its declared length |
| BmffSearch.Select | raves_metadata/src/providers/shared/bmff/search.rs:22 | the boxes kept are boxes of the walk whose type is listed |
| BmffSearch.FindBoxesSelects | raves_metadata/src/providers/shared/bmff/search.rs:4-39 | the boxes found are exactly the listed-type boxes of the walk of the input, in order |
| BmffSearch.FindBoxesFound | raves_metadata/src/providers/shared/bmff/search.rs:4-39 | every box found has a listed type and a payload of its declared length |
| HeifIinf.ParseFullBox | raves_metadata/src/providers/shared/bmff/heif/iinf.rs:31-58 | a full box is read iff its box header parses and four more bytes follow; it is that header, the version byte and three flag bytes |
| HeifIinf.FullBoxRoundTrip | raves_metadata/src/providers/shared/bmff/heif/iinf.rs:31-58 | a laid-out full box header reads back, leaving what follows it |
| HeifIinf.FullBoxLeft | raves_metadata/src/providers/shared/bmff/heif/iinf.rs:31-58 | a failing full box header leaves the stream as its box header left it, less the version byte when only the flags are missing; a successful one consumes all of it |
| HeifIinf.ParseFullBoxAfterHeader | raves_metadata/src/providers/shared/bmff/heif/iinf.rs:31-58 | once the box header is read, the full box is the next byte and the three after it |
| HeifIinf.NulTerminated | raves_metadata/src/providers/shared/bmff/heif/iinf.rs:333-337 | a string is read iff a NUL byte remains; it is the bytes before the first NUL, and the input is the string, the NUL and what is left |
| HeifIinf.NulTerminatedRoundTrip | raves_metadata/src/providers/shared/bmff/heif/iinf.rs:333-337 | a string without NUL, terminated, reads back |
| HeifIinf.NulSplitUnique | raves_metadata/src/providers/shared/bmff/heif/iinf.rs:333-337 | there is one way to split an input at its first NUL |
| HeifIinf.ContentEncoding | raves_metadata/src/providers/shared/bmff/heif/iinf.rs:354-365 | reads a NUL-terminated string exactly when one is there, and gives no encoding exactly when the string is empty |
| HeifIinf.ContentEncodingBytes | raves_metadata/src/providers/shared/bmff/heif/iinf.rs:354-365 | an encoding that was read is the string in front of the NUL, an empty string standing for none, so the input is its layout followed by what is left |
| HeifIinf.ContentEncodingRoundTrip | raves_metadata/src/providers/shared/bmff/heif/iinf.rs:354-365 | an absent encoding written as a lone NUL, or a nonempty one without NUL written with its NUL, reads back |
| HeifIinf.ItemId | raves_metadata/src/providers/shared/bmff/heif/iinf.rs:260-267 | versions 0 to 2 carry a 16-bit id, version 3 a 32-bit id |
| HeifIinf.ItemType | raves_metadata/src/providers/shared/bmff/heif/iinf.rs:296-302 | only version 2 and 3 entries have an item type, and it is the one read |
| HeifIinf.MimeType | raves_metadata/src/providers/shared/bmff/heif/iinf.rs:270-292 | an entry has a MIME type exactly when it is version 2 or 3 and carries a MIME description, and it is that description's content type |
| HeifIinf.ParseMimeOrUri | raves_metadata/src/providers/shared/bmff/heif/iinf.rs:380-424 | the item type mime gives a MIME description and uri a URI one; any other type gives none and reads nothing |
| HeifIinf.MimeOrUriRoundTrip | raves_metadata/src/providers/shared/bmff/heif/iinf.rs:380-424 | the description a version 2 or 3 entry carries reads back |
| HeifIinf.MimeOrUriBytes | raves_metadata/src/providers/shared/bmff/heif/iinf.rs:380-424 | a description that was read is the one its item type calls for, and the input is its layout followed by what is left |
| HeifIinf.ParseV0V1 | raves_metadata/src/providers/shared/bmff/heif/iinf.rs:130-189 | version 0 and 1 bodies give entries of their own version and read something; the input is the layout of the id, protection index, name, content type, content encoding and (version 1) extension type that were read, followed by what is left, and those fields fit their layout |
| HeifIinf.V0V1ReadBytes | raves_metadata/src/providers/shared/bmff/heif/iinf.rs:130-189 | a version 0 or 1 body whose reads succeeded fits, and its fields laid out in order are the input up to what is left; a blank extension type stands for none |
| HeifIinf.V0V1BodyRoundTrip | raves_metadata/src/providers/shared/bmff/heif/iinf.rs:130-189 | a version 0 or 1 body reads back as the id, protection index, name, content type, encoding and extension type it was laid out from |
| HeifIinf.ParseV2V3 | raves_metadata/src/providers/shared/bmff/heif/iinf.rs:191-244 | version 2 and 3 bodies give entries of their own version and read something; the input is the layout of the id, protection index, item type, name and description that were read, followed by what is left, and those fields fit their layout |
| HeifIinf.ParseEntryId | raves_metadata/src/providers/shared/bmff/heif/iinf.rs:191-227 | a version 2 id is 16 bits and a version 3 id 32 bits, read iff that many bytes remain, and laid out in front of what is left |
| HeifIinf.V2BodyRoundTrip | raves_metadata/src/providers/shared/bmff/heif/iinf.rs:191-216 | a version 2 entry body reads back as the id, protection index, type, name and description it was laid out from |
| HeifIinf.V3BodyRoundTrip | raves_metadata/src/providers/shared/bmff/heif/iinf.rs:218-244 | a version 3 entry body reads back as the id, protection index, type, name and description it was laid out from |
| HeifIinf.ParseItemInfoEntry | raves_metadata/src/providers/shared/bmff/heif/iinf.rs:117-257 | an entry is an infe full box of version 0 to 3 whose body has that version's shape, other types and versions failing; the body after the full box header is the layout of the protection index, name and version-specific fields that were read, followed by what is left |
| HeifIinf.BodyRoundTrip | raves_metadata/src/providers/shared/bmff/heif/iinf.rs:129-254 | a body of any version 0 to 3 whose strings hold no NUL reads back as its protection index, name and fields |
| HeifIinf.EntryRoundTrip | raves_metadata/src/providers/shared/bmff/heif/iinf.rs:117-257 | an infe box whose version matches its body reads back as the entry, leaving what follows it |
| HeifIinf.ParseEntries | raves_metadata/src/providers/shared/bmff/heif/iinf.rs:82-88 | exactly the counted entries are read, all infe boxes, and any failure fails them all |
| HeifIinf.EntriesRoundTrip | raves_metadata/src/providers/shared/bmff/heif/iinf.rs:82-88 | entries laid out one after the other read back, all of them, in order |
| HeifIinf.ParseItemInfoBox | raves_metadata/src/providers/shared/bmff/heif/iinf.rs:68-96 | the iinf box holds as many entries as its count, a 16-bit count in version 0 and 32-bit otherwise; the count is laid out after the full box header and the entries are those read, in order, from the bytes after it |
| HeifIinf.ItemInfoBoxRoundTrip | raves_metadata/src/providers/shared/bmff/heif/iinf.rs:68-96 | a laid-out iinf box reads back as the box with its count and its entries in order |
| HeifIloc.MapBytesToU64 | raves_metadata/src/providers/shared/bmff/heif/iloc.rs:255-264 | the bytes as a big-endian number, reduced modulo 2^64 as the shifts do |
| HeifIloc.MapBytesToU64Loop | raves_metadata/src/providers/shared/bmff/heif/iloc.rs:255-264 | the shift-and-or loop computes that number, and up to eight bytes lose nothing |
| HeifIloc.MapStep | raves_metadata/src/providers/shared/bmff/heif/iloc.rs:260 | one more byte shifted into the accumulator multiplies by 256 and adds it, modulo 2^64 |
| HeifIloc.MapBytesToU64Exact | raves_metadata/src/providers/shared/bmff/heif/iloc.rs:255-264 | up to eight bytes fit, so nothing is shifted out |
| HeifIloc.ParseSized | raves_metadata/src/providers/shared/bmff/heif/iloc.rs:198-201 | a field of size bytes is read iff they remain, as their big-endian value |
| HeifIloc.SizedRoundTrip | raves_metadata/src/providers/shared/bmff/heif/iloc.rs:198-201 | a field of 0, 4 or 8 bytes reads back the value laid out in it |
| HeifIloc.SizedBytes | raves_metadata/src/providers/shared/bmff/heif/iloc.rs:255-264 | up to eight bytes are exactly the big-endian layout of the number read from them |
| HeifIloc.ConstructionFromCode | raves_metadata/src/providers/shared/bmff/heif/iloc.rs:178-191 | the low nibble of the byte selects the construction method, and only 0, 1 and 2 are accepted |
| HeifIloc.ConstructionCodeRoundTrip | raves_metadata/src/providers/shared/bmff/heif/iloc.rs:178-191 | every method is read back from its code, whatever the high nibble |
| HeifIloc.ParseConstruction | raves_metadata/src/providers/shared/bmff/heif/iloc.rs:166-192 | version 0 reads nothing and means Set0; later versions skip one byte and read the method from the next, failing on a nibble above 2; the two bytes read are a field that reads as the method |
| HeifIloc.ConstructionRoundTrip | raves_metadata/src/providers/shared/bmff/heif/iloc.rs:166-192 | any construction method field that reads as a method, whatever its padding byte and high nibble, reads back as that method |
| HeifIloc.ParseIndex | raves_metadata/src/providers/shared/bmff/heif/iloc.rs:209-218 | an extent index is present and read exactly when the index size and the version are nonzero |
| HeifIloc.ParseExtent | raves_metadata/src/providers/shared/bmff/heif/iloc.rs:208-227 | an extent is its optional index, then the offset and the length, each of its declared size; with sizes of 0, 4 or 8 the values fit and the input is the extent's layout followed by what is left |
| HeifIloc.ExtentReadBytes | raves_metadata/src/providers/shared/bmff/heif/iloc.rs:208-227 | an extent whose three reads succeeded with sizes of 0, 4 or 8 fits them and is laid out in front of what is left |
| HeifIloc.ExtentRoundTrip | raves_metadata/src/providers/shared/bmff/heif/iloc.rs:208-227 | a laid-out extent reads back, leaving what follows it |
| HeifIloc.IndexRoundTrip | raves_metadata/src/providers/shared/bmff/heif/iloc.rs:209-218 | a laid-out extent index reads back |
| HeifIloc.ParseExtentSteps | raves_metadata/src/providers/shared/bmff/heif/iloc.rs:208-227 | the extent is assembled from its three reads in order |
| HeifIloc.ParseExtents | raves_metadata/src/providers/shared/bmff/heif/iloc.rs:203-230 | exactly the counted extents are read and any failure fails them all; with sizes of 0, 4 or 8 they fit and are laid out, in order, in front of what is left |
| HeifIloc.ExtentsRoundTrip | raves_metadata/src/providers/shared/bmff/heif/iloc.rs:203-230 | extents laid out one after the other read back, all of them, in order |
| HeifIloc.ParseIdField | raves_metadata/src/providers/shared/bmff/heif/iloc.rs:160-164 | the item id is 16 bits before version 2 and 32 bits from version 2 on, laid out in front of what is left |
| HeifIloc.IdFieldRoundTrip | raves_metadata/src/providers/shared/bmff/heif/iloc.rs:160-164 | a laid-out item id or item count reads back |
| HeifIloc.ParseLocationEntry | raves_metadata/src/providers/shared/bmff/heif/iloc.rs:148-239 | a version 0 entry uses Set0, ids before version 2 fit 16 bits, and extents have an index exactly when index size and version allow; with sizes of 0, 4 or 8 the entry fits them and the input is the layout of its id, the construction method field as found, its data reference index, base offset, extent count and extents, followed by what is left |
| HeifIloc.LocationEntryReadBytes | raves_metadata/src/providers/shared/bmff/heif/iloc.rs:148-239 | an entry whose six reads succeeded is laid out in the input, for sizes of 0, 4 or 8 |
| HeifIloc.IdAndMethodBytes | raves_metadata/src/providers/shared/bmff/heif/iloc.rs:160-192 | the id and the construction method field that were read are laid out in that order, and the field reads as the method |
| HeifIloc.MiddleFieldBytes | raves_metadata/src/providers/shared/bmff/heif/iloc.rs:194-203 | the data reference index, the base offset and the extent count that were read are laid out in that order, the base offset exactly when its size is at most 8 |
| HeifIloc.LocationEntryRoundTrip | raves_metadata/src/providers/shared/bmff/heif/iloc.rs:148-239 | an entry laid out with any construction method field that reads as its method reads back as the id, method, data reference index, base offset and extents it was laid out from |
| HeifIloc.EncodedLocationEntryRoundTrip | raves_metadata/src/providers/shared/bmff/heif/iloc.rs:148-239 | an entry written with a zero padding byte reads back |
| HeifIloc.ParseLocationEntries | raves_metadata/src/providers/shared/bmff/heif/iloc.rs:96-106 | exactly the counted location entries are read, and any failure fails them all |
| HeifIloc.LocationEntriesRoundTrip | raves_metadata/src/providers/shared/bmff/heif/iloc.rs:96-106 | location entries laid out one after the other read back, all of them, in order |
| HeifIloc.ParseSizes | raves_metadata/src/providers/shared/bmff/heif/iloc.rs:35-88 | the two size bytes are read iff each nibble in use is 0, 4 or 8; version 0 has index size 0 whatever its nibble |
| HeifIloc.SizesRoundTrip | raves_metadata/src/providers/shared/bmff/heif/iloc.rs:35-88 | laid-out size nibbles read back as the four sizes |
| HeifIloc.ParseItemLocationBox | raves_metadata/src/providers/shared/bmff/heif/iloc.rs:31-121 | the iloc box's sizes are 0, 4 or 8, its item count fits 16 bits before version 2, and it holds that many items; the size nibbles, the count and the items are those laid out after the full box header, the items read in order with the box's sizes |
| HeifIloc.ItemLocationBoxRoundTrip | raves_metadata/src/providers/shared/bmff/heif/iloc.rs:31-121 | a laid-out iloc box reads back as the box with its sizes, count and entries in order |
| HeifPitm.ParseItemId | raves_metadata/src/providers/shared/bmff/heif/pitm.rs:41-45 | the primary item id is 16 bits in version 0 and 32 bits otherwise |
| HeifPitm.ParsePrimaryItem | raves_metadata/src/providers/shared/bmff/heif/pitm.rs:21-51 | a pitm box is a full box of type pitm followed by its item id; another type fails |
| HeifPitm.ItemIdRoundTrip | raves_metadata/src/providers/shared/bmff/heif/pitm.rs:41-45 | an item id field reads back |
| HeifPitm.PrimaryItemRoundTrip | raves_metadata/src/providers/shared/bmff/heif/pitm.rs:21-51 | a laid-out pitm box reads back, leaving what follows it |
| HeifSearch.BodySize | raves_metadata/src/providers/shared/bmff/heif/search.rs:44-51 | a meta box's payload is its size minus a fixed 12- or 20-byte header, saturating, capped by the input for a large size, and the rest of the input for a to-end size |
| HeifSearch.MetaStep | raves_metadata/src/providers/shared/bmff/heif/search.rs:14-76 | one turn of the scan consumes input, and a kept box is a meta box whose payload lies in the input |
| HeifSearch.FindMetaBoxes | raves_metadata/src/providers/shared/bmff/heif/search.rs:6-80 | every box found is a meta box |
| HeifSearch.FoundInInput | raves_metadata/src/providers/shared/bmff/heif/search.rs:6-80 | each meta box's payload is kept as it lies in the input |
| HeifSearch.SkipsOtherBox | raves_metadata/src/providers/shared/bmff/heif/search.rs:62-76 | a box that is not meta is skipped whole |
| HeifSearch.DescendsIntoMeta | raves_metadata/src/providers/shared/bmff/heif/search.rs:36-61 | a meta box is kept, and the scan goes on from the start of its payload, into its children |
| HeifSearch.FindMetaRest | raves_metadata/src/providers/shared/bmff/heif/search.rs:14-77 | the stream after the scan is a tail of the stream before it, and the turn that stops the scan leaves it as the failing full box header left it |
| HeifSearch.FindMetaConsumed | raves_metadata/src/providers/shared/bmff/heif/search.rs:14-77 | the scan consumes no more than its input holds |
| HeifSearch.FindMetaRestStep | raves_metadata/src/providers/shared/bmff/heif/search.rs:14-77 | a turn that is taken hands the scan on to a tail of its input, and the scan then leaves what it leaves from that tail |
| HeifSearch.FindMetaRestStops | raves_metadata/src/providers/shared/bmff/heif/search.rs:14-20 | at the end of the input nothing is left, and where no full box can be read the scan leaves what that failed read left |
| HeifSearch.OverrunMetaConsumesHeader | raves_metadata/src/providers/shared/bmff/heif/search.rs:53-56 | a `meta` box whose payload overruns the input breaks the loop after its full box header has been consumed |
| HeifSearch.StoppedScanConsumesSize | raves_metadata/src/providers/shared/bmff/heif/search.rs:14-20 | the six bytes 00 00 00 09 01 02 break off after the size field, and the scan leaves 01 02 |
| Heif.LocateMeta | raves_metadata/src/providers/shared/bmff/heif/mod.rs:77-150 | no ftyp box is NoFtypBox; a major brand and compatible brands none of which is supported is NotAHeifLike with the major brand; more than one meta box is MultipleMetaBoxes with their number; otherwise the one meta box, or none |
| Heif.IdatTurn | raves_metadata/src/providers/shared/bmff/heif/mod.rs:206-217 | from the meta box, an idat payload is the box's own payload; as written, it is taken from the file input, which moves on past it |
| Heif.MetaTurn | raves_metadata/src/providers/shared/bmff/heif/mod.rs:170-242 | one turn of the meta scan consumes input, keeps what was found, and fails only with the item box errors |
| Heif.ScanMeta | raves_metadata/src/providers/shared/bmff/heif/mod.rs:160-243 | the meta scan keeps every box it has found, fails only with the item box errors, and stops once item info and locations are both found |
| Heif.IdatReadFromMeta | raves_metadata/src/providers/shared/bmff/heif/mod.rs:206-217 | corrected: an idat box's data is its own payload, and the scan goes on after it |
| Heif.IdatReadFromStream | raves_metadata/src/providers/shared/bmff/heif/mod.rs:206-217 | as written: an idat box's data is the next bytes of the file input, and the scan goes on inside the idat payload |
| Heif.IdatStep | raves_metadata/src/providers/shared/bmff/heif/mod.rs:206-217 | one idat turn records the data it read and continues |
| Heif.IdatMisread | raves_metadata/src/providers/shared/bmff/heif/mod.rs:206-217 | an idat box holding 1 2 3 4 gives that data from the meta box, and no data as written when the file input is used up |
| Heif.IndexInfos | raves_metadata/src/providers/shared/bmff/heif/mod.rs:326-338 | the map from item ids holds every entry's id, each id mapped to an entry carrying it |
| Heif.IndexInfosLastWins | raves_metadata/src/providers/shared/bmff/heif/mod.rs:335 | of several entries with one id, the map keeps the last |
| Heif.MatchItems | raves_metadata/src/providers/shared/bmff/heif/mod.rs:342-365 | each item pairs a location with the info of the same id, and no id is used twice |
| Heif.MatchItemsFirst | raves_metadata/src/providers/shared/bmff/heif/mod.rs:342-365 | the first location with an id that has info is paired with that info |
| Heif.SatAddU64 | raves_metadata/src/providers/shared/bmff/heif/mod.rs:438-442 | the sum when it fits in 64 bits, and the largest u64 otherwise |
| Heif.MakeSliceRange | raves_metadata/src/providers/shared/bmff/heif/mod.rs:434-450 | the range never runs backwards, and without saturation it starts at base plus extent offset and spans the extent length |
| Heif.ExifTiffOffset | raves_metadata/src/providers/shared/bmff/heif/mod.rs:484-504 | a blob that starts with a byte-order mark and is shorter than the value of those two bytes has offset 0; otherwise a four-byte offset is read, and the item is dropped without one |
| Heif.UpdateWithItem | raves_metadata/src/providers/shared/bmff/heif/mod.rs:453-548 | only single-extent items count; an Exif item leaves the XMP alone and sets the Exif blob to its whole slice when the slice starts with a byte-order mark and is shorter than that mark's value, to the slice after the four-byte offset word and the offset it holds otherwise, and changes nothing when that word is short; an item of an XMP MIME type or item type sets the XMP blob to its slice; nothing else changes |
| Heif.ExifSliceInBlob | raves_metadata/src/providers/shared/bmff/heif/mod.rs:475-520 | the Exif blob lies in the item's slice, and so in the file |
| Heif.Collect | raves_metadata/src/providers/shared/bmff/heif/mod.rs:375-428 | found blobs come from the file or the idat data, results already found are kept, and the loop stops once both are found |
| Heif.TurnPick | raves_metadata/src/providers/shared/bmff/heif/mod.rs:453-548 | one turn sets a kind to the blob the item yields of it and otherwise keeps what was found, so a later item overwrites an earlier one |
| Heif.CollectKeeps | raves_metadata/src/providers/shared/bmff/heif/mod.rs:375-428 | items that yield no blob of a kind leave that kind as the loop found it |
| Heif.CollectTakesLast | raves_metadata/src/providers/shared/bmff/heif/mod.rs:375-428 | of each kind, the loop ends with the blob of the last item that yields one, provided it reaches that item: no earlier item yields that kind, or none yields the other |
| Heif.CollectCameFrom | raves_metadata/src/providers/shared/bmff/heif/mod.rs:375-428 | a blob of a kind the loop ends with and did not start with is what one of the items yields |
| Heif.MetadataItemsMatch | raves_metadata/src/providers/shared/bmff/heif/mod.rs:326-365 | every matched item's location and info come from the boxes and share its id, and ids are distinct |
| Heif.FindMetadata | raves_metadata/src/providers/shared/bmff/heif/mod.rs:312-431 | every blob found lies in the file or in the idat data |
| Heif.FindMetadataTakesLast | raves_metadata/src/providers/shared/bmff/heif/mod.rs:312-431 | of each kind, the result is the blob of the last matched item yielding one, when the loop reaches it |
| Heif.FindMetadataCameFrom | raves_metadata/src/providers/shared/bmff/heif/mod.rs:312-431 | every blob found is what one of the matched items yields |
| Heif.IdatSourceFor | raves_metadata/src/providers/shared/bmff/heif/mod.rs:206-217 | the as-written parse reads idat payloads from the file input, the corrected one from the meta box |
| Heif.ParseHeifLikeWith | raves_metadata/src/providers/shared/bmff/heif/mod.rs:77-298 | an error is the ftyp, brand or meta-count error or an item box error; no meta box is no metadata; any metadata found comes from the one meta box's items and lies in the file or the idat data |
| Heif.ParseViaItems | raves_metadata/src/providers/shared/bmff/heif/mod.rs:77-298 | the parse finds metadata only by reaching `find_metadata` with the meta box's item info and locations, and then gives what its loop collects |
| Heif.ParseTakesLast | raves_metadata/src/providers/shared/bmff/heif/mod.rs:77-298 | of each kind, the parse succeeds with the blob of the last item of the meta box that yields one, when the loop reaches it |
| Heif.ParseCameFrom | raves_metadata/src/providers/shared/bmff/heif/mod.rs:77-298 | every blob the parse finds is what one of the meta box's items yields |
| Mp4.CheckFtyp | raves_metadata/src/providers/mp4.rs:48-81 | no ftyp box is NoFtypBox; it passes iff the major brand or a compatible brand is iso2, isom, mp41 or mp42; otherwise NotAnMp4 carries the major brand |
| Mp4.MagicNumber | raves_metadata/src/providers/mp4.rs:33-35 | a file is an MP4 exactly when its ftyp box names an MP4 brand |
| Mp4.XmpTurn | raves_metadata/src/providers/mp4.rs:99-143 | one turn of the box walk either moves on through the input or stops with XMP that lies in the input |
| Mp4.ParseMp4 | raves_metadata/src/providers/mp4.rs:84-96 | the parse succeeds exactly for an MP4, fails with the ftyp error otherwise, and any XMP found lies in the input |
| Mp4.UntilXmp | raves_metadata/src/providers/mp4.rs:98-147 | the search gives XMP only when it finds it, and the XMP found lies in the input |
| Mp4.SkipsPlainBox | raves_metadata/src/providers/mp4.rs:110-122 | a plain box of known size is skipped whole |
| Mp4.StopsAtPlainEof | raves_metadata/src/providers/mp4.rs:112-114 | a plain box that runs to the end of the file ends the walk with no XMP |
| Mp4.FindsXmpBox | raves_metadata/src/providers/mp4.rs:124-139 | the XMP uuid box of known size gives exactly its payload |
| Mp4.FindsXmpToEnd | raves_metadata/src/providers/mp4.rs:140-142 | the XMP uuid box that runs to the end gives everything after its header |
| Mp4.EntersOtherUuidBox | raves_metadata/src/providers/mp4.rs:110-143 | another uuid box is not skipped: the walk goes on right after its header |
| Mp4.ParseAfterFtyp | raves_metadata/src/providers/mp4.rs:84-96 | after an MP4 ftyp box the XMP is what the walk of the rest of the file finds |
| Mp4.RefusesOtherBrand | raves_metadata/src/providers/mp4.rs:60-78 | an ftyp box none of whose brands is an MP4 brand is NotAnMp4 with its major brand |
| Jpeg.MarkerCode | raves_metadata/src/providers/jpeg/parse.rs:388-397 | any number of 0xFF fill bytes are skipped and the code is the first other byte; running out is NoMarkerCode |
| Jpeg.ParseMarker | raves_metadata/src/providers/jpeg/parse.rs:370-437 | no byte is NoMarkerCode; a first byte other than 0xFF is FirstMarkerByteWasWrong; code 0 is MarkerCodeDisallowed; the standalone codes carry no length; others carry their length minus two, and a length below 2 is NegativeLength |
| Jpeg.MarkerCodeRoundTrip | raves_metadata/src/providers/jpeg/parse.rs:388-397 | fill bytes then a code read back as that code |
| Jpeg.MarkerRoundTrip | raves_metadata/src/providers/jpeg/parse.rs:370-437 | a laid-out marker reads back, whatever fill it was given |
| Jpeg.SkipEntropy | raves_metadata/src/providers/jpeg/parse.rs:118-166 | skipping entropy-coded data fails only with OuttaDataForSos and leaves a tail of the input |
| Jpeg.SkipEntropyFindsFirst | raves_metadata/src/providers/jpeg/parse.rs:118-166 | the skip succeeds iff some 0xFF is followed by a byte that is neither 0 nor a restart code, and it stops at the first such pair |
| Jpeg.App1Exif | raves_metadata/src/providers/jpeg/parse.rs:198-216 | a payload starting with the Exif signature loses it, and its rest becomes the Exif blob unless one was already kept |
| Jpeg.App1StandardXmp | raves_metadata/src/providers/jpeg/parse.rs:219-251 | a StandardXMP payload loses its signature and starts the XMP; a second one is MultipleStandardXmpBlobs |
| Jpeg.ParseExtendedChunk | raves_metadata/src/providers/jpeg/parse.rs:254-300 | an ExtendedXMP chunk needs the 32-byte GUID, the total length and the offset; short of 36 bytes is OuttaDataForApp1 and short of 40 NoOffsetForExtendedXmp; the payload is the rest |
| Jpeg.AddChunk | raves_metadata/src/providers/jpeg/parse.rs:305-346 | the chunk is filed under its GUID and offset, the StandardXMP is untouched, and every other chunk stays where it was |
| Jpeg.App1ExtendedXmp | raves_metadata/src/providers/jpeg/parse.rs:254-347 | a payload without the extension signature changes nothing; a chunk's errors are the chunk's; a filed chunk leaves some ExtendedXMP |
| Jpeg.ReadApp1 | raves_metadata/src/providers/jpeg/parse.rs:196-348 | the first Exif blob is kept and is a payload after its signature; errors are the XMP errors |
| Jpeg.ScanTurn | raves_metadata/src/providers/jpeg/parse.rs:97-350 | one marker of the scan moves on through the input, keeps an Exif blob once found, and a new one lies in the input |
| Jpeg.SegmentTurn | raves_metadata/src/providers/jpeg/parse.rs:169-216 | a payload longer than the input is NoDataForPayload with the code, length and remaining length; segments other than APP1 change nothing; an APP1 payload's read fails the turn with its error or gives what it collected, and the scan goes on after the payload |
| Jpeg.Scan | raves_metadata/src/providers/jpeg/parse.rs:96-351 | an Exif blob once found is kept to the end |
| Jpeg.ScanExifInInput | raves_metadata/src/providers/jpeg/parse.rs:96-351 | the Exif blob the scan keeps lies in the input |
| Jpeg.EoiEndsScan | raves_metadata/src/providers/jpeg/parse.rs:101-104 | EOI ends the scan: nothing after it is read |
| Jpeg.SkipsOtherSegment | raves_metadata/src/providers/jpeg/parse.rs:169-189 | a segment that is neither APP1 nor SOS is passed over whole |
| Jpeg.ReadsExifPayload | raves_metadata/src/providers/jpeg/parse.rs:196-216 | an APP1 payload of the Exif signature and a blob sets the Exif blob to that blob when none was found, and changes nothing else |
| Jpeg.ReadsExifSegment | raves_metadata/src/providers/jpeg/parse.rs:169-216 | a laid-out APP1 segment holding Exif is read, and the scan goes on after it with its blob as the Exif blob |
| Jpeg.ExifOnlyFile | raves_metadata/src/providers/jpeg/parse.rs:76-367 | SOI, one APP1 Exif segment and EOI parse to that Exif blob and no XMP |
| Jpeg.ReadsStandardXmpPayload | raves_metadata/src/providers/jpeg/parse.rs:219-251 | an APP1 payload of the XMP signature and a packet starts the XMP with that packet and no chunks when none was found, and changes nothing else |
| Jpeg.ReadsStandardXmpSegment | raves_metadata/src/providers/jpeg/parse.rs:169-251 | a laid-out APP1 segment holding StandardXMP is read, and the scan goes on after it with that packet |
| Jpeg.Assemble | raves_metadata/src/providers/jpeg/parse.rs:513-529 | the chunks are joined from offset 0 on; a missing offset is ExtendedXmpMissingChunk with that offset, and the first chunk starts the result |
| Jpeg.AssembleInOrder | raves_metadata/src/providers/jpeg/parse.rs:513-529 | chunks filed at consecutive offsets join back to the concatenation of their payloads |
| Jpeg.ConcatXmp | raves_metadata/src/providers/jpeg/parse.rs:440-559 | ExtendedXMP without StandardXMP is CantConcatExtendedXmpWithoutStandardXmp; otherwise the packet `GuidLookup` writes back, and the chunks of that GUID joined in order |
| Jpeg.FinishXmp | raves_metadata/src/providers/jpeg/parse.rs:353-361 | no XMP is none; XMP without ExtendedXMP is the StandardXMP alone; otherwise the joined document |
| Jpeg.ParseJpeg | raves_metadata/src/providers/jpeg/parse.rs:76-367 | a bad first marker is its error; a first marker other than SOI is FirstMarkerWasNotSoi; the Exif blob found lies in the input |
| Jpeg.SecondStandardXmp | raves_metadata/src/providers/jpeg/parse.rs:239-243 | a second StandardXMP packet is refused |
| Jpeg.ExtendedWithoutStandard | raves_metadata/src/providers/jpeg/parse.rs:337-345 | ExtendedXMP seen without StandardXMP is read, then refused when the XMP is finished |
| Jpeg.StandardAfterExtended | raves_metadata/src/providers/jpeg/parse.rs:239-243 | a StandardXMP packet after an ExtendedXMP chunk is refused as MultipleStandardXmpBlobs, although the comment at parse.rs:331-336 expects that order to be read |
| WebpHeader.ParseFileHeader | raves_metadata/src/providers/webp/header.rs:19-53 | the header is read iff the input starts with RIFF, a little-endian size no larger than u32::MAX - 10, and WEBP; the size is the one written |
| WebpHeader.FileHeaderRoundTrip | raves_metadata/src/providers/webp/header.rs:19-53 | a laid-out header of an allowed size reads back |
| WebpHeader.RefusesLargeSize | raves_metadata/src/providers/webp/header.rs:25-43 | a stated size above u32::MAX - 10 is refused |
| WebpChunk.ParseChunk | raves_metadata/src/providers/webp/chunk.rs:18-49 | a chunk header is read iff eight bytes remain: the code, then the little-endian length |
| WebpChunk.ChunkRoundTrip | raves_metadata/src/providers/webp/chunk.rs:18-49 | a laid-out chunk header reads back, leaving what followed it |
| Webp.Wanted | raves_metadata/src/providers/webp/mod.rs:79-93 | EXIF is wanted exactly when the E bit is set, XMP exactly when the X bit is set, and nothing else |
| Webp.SkipPad | raves_metadata/src/providers/webp/mod.rs:156-160 | a chunk of odd length is followed by a padding byte, skipped when present |
| Webp.ChunkTurn | raves_metadata/src/providers/webp/mod.rs:114-160 | one turn of the chunk loop moves on through the input, and a kept chunk is wanted and lies in the input |
| Webp.ScanChunks | raves_metadata/src/providers/webp/mod.rs:114-161 | every chunk kept has a wanted code |
| Webp.KeptInInput | raves_metadata/src/providers/webp/mod.rs:114-161 | every chunk kept lies in the input |
| Webp.SkipsUnwantedChunk | raves_metadata/src/providers/webp/mod.rs:149-160 | a chunk that is not wanted is skipped whole, padding included |
| Webp.KeepsWantedChunk | raves_metadata/src/providers/webp/mod.rs:136-160 | a wanted chunk is kept with exactly its data, and the scan goes on after its padding |
| Webp.FindChunk | raves_metadata/src/providers/webp/mod.rs:183-194 | nothing is found iff no chunk has the code; otherwise the data of the first chunk that has it |
| Webp.Vp8xRest | raves_metadata/src/providers/webp/mod.rs:96-111 | the nine remaining VP8X bytes are required, then the first chunk's padding byte is skipped |
| Webp.ReadExtended | raves_metadata/src/providers/webp/mod.rs:74-175 | a missing flags byte is MalformedExtendedHeader; flags announcing neither blob give no metadata without reading more; otherwise nine more bytes are required, and Exif or XMP found is announced by its flag and lies in the input |
| Webp.NewWebp | raves_metadata/src/providers/webp/mod.rs:36-176 | a bad header is NoHeader and a missing first chunk NoChunks; a file not in the extended format has no metadata; a truncated VP8X header is MalformedExtendedHeader; blobs found are announced by the flags and lie in the input |
| Webp.SimpleFileHasNone | raves_metadata/src/providers/webp/mod.rs:63-68 | a file whose first chunk is not VP8X has no metadata |
| Webp.UnflaggedFileHasNone | raves_metadata/src/providers/webp/mod.rs:85-89 | an extended file whose flags announce neither Exif nor XMP has no metadata, whatever follows |
| GifBlock.Signature | raves_metadata/src/providers/gif/block.rs:8-28 | the input must start with GIF: fewer than three bytes is NoMagicNumber, three other bytes are WeirdMagicNumber carrying them |
| GifBlock.Header | raves_metadata/src/providers/gif/block.rs:77-106 | the signature then any three bytes as the version; a signature with fewer than three bytes after it is NoGifVersion |
| GifBlock.HeaderRoundTrip | raves_metadata/src/providers/gif/block.rs:77-106 | every three-byte version written after GIF reads back |
| GifBlock.DataSubBlock | raves_metadata/src/providers/gif/block.rs:31-53 | a length byte, then exactly that many bytes appended to the output; a short read is NotEnoughBytes |
| GifBlock.BlockTerminator | raves_metadata/src/providers/gif/block.rs:56-69 | a zero byte is consumed; any other byte is BlockTerminatorMismatch with it, and no byte is NotEnoughBytes |
| GifBlock.SubBlocks | raves_metadata/src/providers/gif/block.rs:345-351 | the sub-block loop stops at a zero byte or the end of input, and only a short sub-block fails it |
| GifBlock.SubBlocksSuffix | raves_metadata/src/providers/gif/block.rs:345-351 | what the sub-block loop leaves is a suffix of its input |
| GifBlock.SubBlocksStops | raves_metadata/src/providers/gif/block.rs:345-351 | in front of a zero byte or at the end the loop reads nothing |
| GifBlock.SubBlocksUnfold | raves_metadata/src/providers/gif/block.rs:345-351 | a successful loop in front of a non-zero length byte reads that sub-block whole and continues after it |
| GifBlock.IndexedLoop | raves_metadata/src/providers/gif/block.rs:441-447 | the loop that tests `input[0]` without a bounds check ends, when it succeeds, in front of a zero byte |
| GifBlock.IndexedLoopAgrees | raves_metadata/src/providers/gif/block.rs:441-447 | where the indexed loop stays in bounds it reads the same as the checked loop |
| GifBlock.SubBlocksRoundTrip | raves_metadata/src/providers/gif/block.rs:31-53 | chunks of 1 to 255 bytes framed as sub-blocks read back as their concatenation, leaving the terminator |
| GifBlock.EncodedInBounds | raves_metadata/src/providers/gif/block.rs:441-447 | the indexed loop never runs off the end of framed chunks |
| GifBlock.ScreenDescriptor | raves_metadata/src/providers/gif/block.rs:124-180 | exactly seven bytes are read, and the descriptor read gives those seven bytes back; fewer is LogicalScreenDescriptorMissingData |
| GifBlock.UnpackLsd | raves_metadata/src/providers/gif/block.rs:143-179 | the descriptor built from the fields keeps the width, height and background index, repacks to the same packed byte, and an aspect byte of zero stands for none |
| GifBlock.LsdPackedFields | raves_metadata/src/providers/gif/block.rs:143-150 | bit 7 is the global table flag, bits 4 to 6 the colour resolution minus one, bit 3 the sort flag and bits 0 to 2 the table size |
| GifBlock.LsdInjective | raves_metadata/src/providers/gif/block.rs:124-180 | different descriptors have different bytes |
| GifBlock.LsdRoundTrip | raves_metadata/src/providers/gif/block.rs:124-180 | a descriptor whose fields fit reads back as written |
| GifBlock.ReadQuad | raves_metadata/src/providers/gif/block.rs:276-300 | four little-endian u16 values are read iff eight bytes remain, and they give those bytes back |
| GifBlock.QuadInjective | raves_metadata/src/providers/gif/block.rs:276-300 | four u16 values are determined by their bytes |
| GifBlock.U16Injective | raves_metadata/src/providers/gif/block.rs:276-280 | a little-endian u16 is determined by its two bytes |
| GifBlock.TripletCount | raves_metadata/src/providers/gif/block.rs:205 | a table size below 15 announces 2^(size+1) triplets |
| GifBlock.PowBelow | raves_metadata/src/providers/gif/block.rs:205 | 2^(size+1) fits a u16 for every size below 15 |
| GifBlock.PowAbove | raves_metadata/src/providers/gif/block.rs:205 | a larger table size announces no fewer triplets |
| GifBlock.Triplets | raves_metadata/src/providers/gif/block.rs:207-234 | the triplets still due are read in order iff three bytes each remain; a short read names the announced count, the triplet and the colour it ran out in |
| GifBlock.ColorTable | raves_metadata/src/providers/gif/block.rs:198-237 | exactly 2^(size+1) triplets are read, in order, and their bytes are the input consumed |
| GifBlock.TripletsRoundTrip | raves_metadata/src/providers/gif/block.rs:207-234 | the triplets still due, laid out, read back as written |
| GifBlock.ColorTableRoundTrip | raves_metadata/src/providers/gif/block.rs:198-237 | a table of the announced size reads back as written |
| GifBlock.ImageDescriptorBlock | raves_metadata/src/providers/gif/block.rs:257-321 | the separator 0x2C then nine bytes; no byte, another separator and a short read are each their own error; the reserved bits of the packed byte are dropped |
| GifBlock.ImagePackedFields | raves_metadata/src/providers/gif/block.rs:303-309 | bit 7 is the local table flag, bit 6 interlace, bit 5 sort, bits 0 to 2 the table size |
| GifBlock.ImageFlagsOf | raves_metadata/src/providers/gif/block.rs:303-309 | the flags decoded from a packed byte repack to it, less its reserved bits |
| GifBlock.ImageDescriptorInjective | raves_metadata/src/providers/gif/block.rs:257-321 | different image descriptors have different bytes |
| GifBlock.ImageDescriptorRoundTrip | raves_metadata/src/providers/gif/block.rs:257-321 | an image descriptor reads back as written |
| GifBlock.TableBasedImageData | raves_metadata/src/providers/gif/block.rs:335-357 | the LZW byte, the sub-blocks and the terminator are consumed; no input is TableBasedImageDataNoLzw |
| GifBlock.ImageDataSkipped | raves_metadata/src/providers/gif/block.rs:335-357 | image data in sub-blocks is passed over whole, leaving what follows the terminator |
| GifBlock.ExtensionIntroducer | raves_metadata/src/providers/gif/block.rs:689-708 | the byte 0x21 is consumed; anything else is an error |
| GifBlock.ExtensionLabel | raves_metadata/src/providers/gif/block.rs:710-734 | the expected label is consumed; another label is UnknownExtensionFound with it |
| GifBlock.BlockSize | raves_metadata/src/providers/gif/block.rs:736-743 | one byte is read as the block size |
| GifBlock.ExtensionHead | raves_metadata/src/providers/gif/block.rs:689-734 | introducer and label together are consumed exactly when both match |
| GifBlock.GceOf | raves_metadata/src/providers/gif/block.rs:393-421 | the extension built from a packed byte repacks to that byte less its low three bits |
| GifBlock.GraphicControl | raves_metadata/src/providers/gif/block.rs:370-422 | a block size of 4, then packed byte, delay and index, then the terminator; a wrong size or a short read is GraphicExtMissingData |
| GifBlock.GcePackedFields | raves_metadata/src/providers/gif/block.rs:397-399 | the disposal method sits in bits 3 to 5, user input in bit 6, transparency in bit 7 |
| GifBlock.GceInjective | raves_metadata/src/providers/gif/block.rs:370-422 | different graphic control extensions have different bytes |
| GifBlock.GceRoundTrip | raves_metadata/src/providers/gif/block.rs:370-422 | a graphic control extension reads back as written |
| GifBlock.GceLayoutDiffers | raves_metadata/src/providers/gif/block.rs:397-399 | a block packed as section 23 of GIF89a lays it out, transparent with disposal method 2, reads as opaque with disposal method 1 |
| GifBlock.EncodeGif89aGce | raves_metadata/src/providers/gif/block.rs:372-413 | the GIF89a layout of a graphic control extension takes eight bytes |
| GifBlock.Gif89aOf | raves_metadata/src/providers/gif/block.rs:397-399 | a packed byte decoded as GIF89a lays it out re-packs to the byte with its reserved bits 5 to 7 cleared |
| GifBlock.GraphicControlGif89a | raves_metadata/src/providers/gif/block.rs:372-413 | the corrected parser accepts exactly the inputs the parser as written accepts, fails with the same error otherwise, and reads the fields that re-encode, GIF89a layout, to the input with its reserved bits cleared |
| GifBlock.Gif89aGceInjective | raves_metadata/src/providers/gif/block.rs:372-413 | different extensions have different GIF89a bytes |
| GifBlock.Gif89aGceRoundTrip | raves_metadata/src/providers/gif/block.rs:372-413 | an extension laid out as GIF89a says reads back as written under the corrected decoding |
| GifBlock.GceLayoutCorrected | raves_metadata/src/providers/gif/block.rs:397-399 | the block of GceLayoutDiffers reads as transparent with disposal method 2 under the corrected decoding |
| GifBlock.CommentExtension | raves_metadata/src/providers/gif/block.rs:430-450 | the head, then the data of the sub-blocks up to and including the terminator |
| GifBlock.CommentRoundTrip | raves_metadata/src/providers/gif/block.rs:430-450 | a comment extension reads back as the concatenation of its chunks |
| GifBlock.ReadPlainTextFields | raves_metadata/src/providers/gif/block.rs:483-527 | the twelve fixed bytes are read iff present; fewer is PlainTextExtMissingData |
| GifBlock.FieldsIgnoreData | raves_metadata/src/providers/gif/block.rs:483-527 | the fixed fields' bytes do not depend on the data |
| GifBlock.PlainTextFieldsInjective | raves_metadata/src/providers/gif/block.rs:483-527 | the fixed fields are determined by their bytes |
| GifBlock.PlainText | raves_metadata/src/providers/gif/block.rs:469-553 | the head and a block size of 12, the twelve fixed bytes, then the sub-blocks' data through the terminator; another size is ExtensionHasWeirdBlockSize |
| GifBlock.PlainTextBody | raves_metadata/src/providers/gif/block.rs:483-553 | after the head the fixed fields and the sub-blocks are read, and a short read of the fields is PlainTextExtMissingData |
| GifBlock.PlainTextRoundTrip | raves_metadata/src/providers/gif/block.rs:469-553 | a plain text extension reads back as written |
| GifBlock.Countdown | raves_metadata/src/providers/gif/block.rs:609-624 | the trailer's last 256 bytes count down from 0xFF to 0x00 |
| GifBlock.FindWindow | raves_metadata/src/providers/gif/block.rs:628-632 | the position found is the first window equal to the pattern; none is found iff no window matches |
| GifBlock.AppHead | raves_metadata/src/providers/gif/block.rs:563-602 | the head, the block size 11, the eight-byte identifier and the three-byte code; a wrong size or short read is AppExtMissingData |
| GifBlock.RawXmpData | raves_metadata/src/providers/gif/block.rs:628-646 | raw XMP runs through the first trailer, and a zero byte must follow it |
| GifBlock.AppSubBlocks | raves_metadata/src/providers/gif/block.rs:648-655 | the data of the sub-blocks is read, then the terminator |
| GifBlock.Application | raves_metadata/src/providers/gif/block.rs:563-662 | an XMP Data / XMP extension with the trailer is read raw; any other is read as sub-blocks |
| GifBlock.AppHeadLayout | raves_metadata/src/providers/gif/block.rs:563-602 | the fixed part of an application extension, laid out, reads back |
| GifBlock.AppSubBlocksRoundTrip | raves_metadata/src/providers/gif/block.rs:648-655 | framed chunks read back through the terminator |
| GifBlock.AppRoundTrip | raves_metadata/src/providers/gif/block.rs:563-662 | an application extension in sub-blocks reads back as written |
| GifBlock.RawXmpRoundTrip | raves_metadata/src/providers/gif/block.rs:608-646 | a raw XMP packet with nothing like the trailer inside reads back through its trailer |
| GifBlock.RawXmpBody | raves_metadata/src/providers/gif/block.rs:628-646 | the trailer after such a packet is found right after it |
| GifBlock.TrailerFirstAt | raves_metadata/src/providers/gif/block.rs:628-632 | a pattern with no earlier occurrence is found first where it is placed |
| GifBlock.FirstWindowAt | raves_metadata/src/providers/gif/block.rs:628-632 | a window with none like it before is the first one found |
| GifBlock.Trailer | raves_metadata/src/providers/gif/block.rs:665-681 | the byte 0x3B is consumed; anything else, or nothing, is TrailerMissing |
| XmlTree.ChildElements | raves_metadata/src/xmp/heuristics.rs:48-53 | the element children are kept in order and nothing else: every kept child is an element node of the input and every element node is kept |
| XmlTree.ChildElementsAppend | raves_metadata/src/xmp/heuristics.rs:48-53 | filtering to elements distributes over concatenation, so order is kept |
| XmlTree.Children | raves_metadata/src/xmp/heuristics.rs:48-53 | every child element listed is an element node of the element |
| XmlTree.ChildrenBelow | raves_metadata/src/xmp/heuristics.rs:48-53 | every child element is structurally smaller than its parent, so a walk down the tree ends |
| XmlTree.TextRuns | raves_metadata/src/xmp/iptc4xmp.rs:120-124 | every text run is kept, and none is found iff every node is an element |
| XmlTree.GetText | raves_metadata/src/xmp/iptc4xmp.rs:120-124 | an element's text is none iff it has no text node, and otherwise the concatenation of its text runs |
| XmlTree.NoChildrenNoText | raves_metadata/src/xmp/iptc4xmp.rs:120-124 | an element without children has no text |
| XmlTree.SingleTextChild | raves_metadata/src/xmp/iptc4xmp.rs:120-124 | an element whose one child is a text run has that text |
| XmlTree.FirstChildNamed | raves_metadata/src/xmp/iptc4xmp.rs:121-123 | the child found has the name asked for; none is found iff no child element has it |
| XmlTree.FirstNamed | raves_metadata/src/xmp/iptc4xmp.rs:121-123 | the element found is the first one with the name asked for |
| XmpPrims.ParseI64 | raves_metadata/src/xmp/value/prims.rs:25-26 | a value parsed fits an i64, and the empty string, and only it, is Empty |
| XmpPrims.AccumulateNotEmpty | raves_metadata/src/xmp/value/prims.rs:25-26 | the digit loop keeps its value within i64 and never reports Empty |
| XmpPrims.DigitsValueSnoc | raves_metadata/src/xmp/value/prims.rs:25-26 | one more digit multiplies the value so far by ten and adds the digit |
| XmpPrims.DigitsValuePrefix | raves_metadata/src/xmp/value/prims.rs:25-26 | a prefix of a digit string never has a larger value |
| XmpPrims.AccumulateFrom | raves_metadata/src/xmp/value/prims.rs:25-26 | from any in-range prefix, the loop gives the decimal value of all the digits if it fits and the overflow of the sign otherwise |
| XmpPrims.ParseI64Spec | raves_metadata/src/xmp/value/prims.rs:25-26 | a string parses iff it is an optional sign and decimal digits whose value fits an i64, and then to that value; a well-formed string out of range overflows in the direction of its sign |
| XmpPrims.AccumulateRejects | raves_metadata/src/xmp/value/prims.rs:25-26 | a string with a non-digit never yields a value |
| XmpPrims.OverflowBeforeBadDigit | raves_metadata/src/xmp/value/prims.rs:25-26 | a prefix of digits already out of range reports overflow, whatever follows |
| XmpPrims.AccumulatePrefixErr | raves_metadata/src/xmp/value/prims.rs:25-26 | once the loop fails on a prefix, the rest of the string does not change the error |
| XmpPrims.ParsePrimitive | raves_metadata/src/xmp/value/prims.rs:12-59 | a boolean is exactly True or False and any other text is PrimitiveUnknownBool; dates and text are taken as they are; a real parses iff its text does; the result is always a simple value |
| XmpPrims.ParseInteger | raves_metadata/src/xmp/value/prims.rs:25-43 | an integer in range is an Integer with its decimal value; one out of range is kept as Text; any other failure is PrimitiveIntegerParseFail carrying the text |
| XmpPrims.MalformedInteger | raves_metadata/src/xmp/value/prims.rs:25-43 | a malformed integer that never overflows on the way is rejected with InvalidDigit |
| XmpPrims.AccumulateNoOverflow | raves_metadata/src/xmp/value/prims.rs:25-26 | when every prefix stays in range the loop never reports overflow |
| XmpHeuristics.AnyAttribute | raves_metadata/src/xmp/heuristics.rs:37-44 | true iff some attribute has the property |
| XmpHeuristics.AnyDescription | raves_metadata/src/xmp/heuristics.rs:48-56 | true iff some element is an rdf:Description |
| XmpHeuristics.HasResourceParseType | raves_metadata/src/xmp/heuristics.rs:37-44 | true iff some attribute is rdf:parseType with the value Resource |
| XmpHeuristics.IsStruct | raves_metadata/src/xmp/heuristics.rs:35-71 | an element is a struct iff it has rdf:parseType="Resource", or an rdf:Description child, or no children and an attribute outside the RDF namespace |
| XmpHeuristics.FirstCollection | raves_metadata/src/xmp/heuristics.rs:73-92 | the kind of the first Alt, Bag or Seq element in the RDF namespace; none iff there is no such element |
| XmpHeuristics.HasCollection | raves_metadata/src/xmp/heuristics.rs:73-92 | the kind of the first child that is an RDF collection, none iff no child is |
| XmpHeuristics.CollectionNamesExact | raves_metadata/src/xmp/heuristics.rs:73-92 | lower-case alt, bag and seq are not collections, nor is anything outside the RDF namespace |
| XmpHeuristics.BareElementNotStruct | raves_metadata/src/xmp/heuristics.rs:35-71 | an element with neither children nor attributes is never a struct |
| XmpValueParse.SchemaField | raves_metadata/src/xmp/value/structs.rs:29-38 | the field found has the name and namespace asked for; none is found iff no field of the schema has both |
| XmpValueParse.FieldInfo | raves_metadata/src/xmp/value/structs.rs:22-38 | a field is found only when the schema is a struct, and it is one of its fields with the name and namespace asked for |
| XmpValueParse.ToXmpElement | raves_metadata/src/xmp/value/mod.rs:162-185 | the element is named iff it has a namespace and a prefix; a missing namespace is XmpElementCreationNoNamespace and a missing prefix XmpElementCreationNoPrefix |
| XmpValueParse.RdfNamed | raves_metadata/src/xmp/value/arrays.rs:56-74 | exactly the elements in the RDF namespace with the name asked for are kept |
| XmpValueParse.FirstRdfNamed | raves_metadata/src/xmp/value/arrays.rs:38-44 | the element found is in the RDF namespace and has the name; none iff no element has both |
| XmpValueParse.ValueWithSchema | raves_metadata/src/xmp/value/mod.rs:40-83 | a value read by its schema conforms to that schema; a simple kind without text is PrimitiveTextHadNoText |
| XmpValueParse.ValueGeneric | raves_metadata/src/xmp/value/mod.rs:85-159 | a value read without a schema holds only text; an element with neither children nor attributes and no text is GenericLikelyPrimitiveHadNoText |
| XmpValueParse.LangTag | raves_metadata/src/xmp/value/arrays.rs:80-105 | the value of an xml:lang attribute; none iff no attribute is xml:lang |
| XmpValueParse.AltEntry | raves_metadata/src/xmp/value/arrays.rs:76-125 | an alternative is kept iff it has a language tag, text, a namespace and a prefix, and then it is that tag and that text |
| XmpValueParse.FirstDefault | raves_metadata/src/xmp/value/arrays.rs:129-140 | the first entry tagged x-default; none iff no entry has that tag |
| XmpValueParse.ValueAlternatives | raves_metadata/src/xmp/value/arrays.rs:33-157 | the rdf:Alt's entries, every one text, with the first x-default one chosen; no rdf:Alt is ArrayNoInnerCollectionType; ArrayAltNoDefault only when no entry is x-default |
| XmpValueParse.AltEntriesText | raves_metadata/src/xmp/value/arrays.rs:76-125 | every alternative holds text |
| XmpValueParse.ItemAttempt | raves_metadata/src/xmp/value/arrays.rs:269-276 | an item read conforms to the item schema, or holds only text when there is none |
| XmpValueParse.ItemAttempts | raves_metadata/src/xmp/value/arrays.rs:248-276 | one attempt per rdf:li, and each item read fits the item schema |
| XmpValueParse.ValueArray | raves_metadata/src/xmp/value/arrays.rs:203-278 | an rdf:Seq gives an ordered array and an rdf:Bag an unordered one, whose items conform to the item schema; a missing collection is ArrayNoInnerCollectionType and a schema that is not an array ArrayGivenNonArraySchema |
| XmpValueParse.ArrayItemsInOrder | raves_metadata/src/xmp/value/arrays.rs:248-278 | the items are exactly the rdf:li entries that parse, in document order, and every entry that parses is among them |
| XmpValueParse.AttrField | raves_metadata/src/xmp/value/structs.rs:40-104 | rdf:parseType and rdf:about make no field; an attribute the schema does not know is a text field; one it knows is parsed as its primitive |
| XmpValueParse.AttrFields | raves_metadata/src/xmp/value/structs.rs:40-104 | each attribute field comes from one of the attributes |
| XmpValueParse.AttrFieldsConform | raves_metadata/src/xmp/value/structs.rs:40-104 | every attribute field fits the schema |
| XmpValueParse.FieldsContainer | raves_metadata/src/xmp/value/structs.rs:106-125 | with rdf:parseType="Resource" the element holds its own fields; otherwise its first Description child does, when that is an rdf:Description |
| XmpValueParse.ValueStructField | raves_metadata/src/xmp/value/structs.rs:162-198 | a field the schema knows is named after the schema and conforms to its kind; an unknown one keeps its own name and holds only text |
| XmpValueParse.ChildFieldAttempts | raves_metadata/src/xmp/value/structs.rs:132-155 | one attempt per child element of the container, and every field read fits the schema |
| XmpValueParse.ChildFieldsFit | raves_metadata/src/xmp/value/structs.rs:132-155 | child fields each read by their own schema entry fit the struct schema |
| XmpValueParse.ValueStruct | raves_metadata/src/xmp/value/structs.rs:17-159 | a struct holds the attribute fields first, then the child fields, and conforms to its schema, or holds only text without one; without a container it holds only the attribute fields |
| XmpValueParse.StructFits | raves_metadata/src/xmp/value/structs.rs:17-159 | fields that each fit the schema make a struct that conforms to it |
| XmpValueParse.ConformsAppend | raves_metadata/src/xmp/value/structs.rs:158 | joining attribute and child fields keeps every field fitting and the attribute fields first |
| XmpValueParse.ChildExpected | raves_metadata/src/xmp/value/unions.rs:78-118 | a child taken as an expected field matches one of the union's known fields and is read by it |
| XmpValueParse.ChildUnexpected | raves_metadata/src/xmp/value/unions.rs:120-122 | a child matching no known field is read without a schema, as text only |
| XmpValueParse.FindDiscriminant | raves_metadata/src/xmp/value/unions.rs:125-160 | the first expected field with the discriminant's name and namespace; none iff there is none |
| XmpValueParse.ValueUnion | raves_metadata/src/xmp/value/unions.rs:15-171 | a non-text discriminant is UnionDiscriminantWasntText; a union read conforms to its kind and its unexpected fields hold only text |
| XmpValueParse.UnionUnexpectedFields | raves_metadata/src/xmp/value/unions.rs:78-123 | the unexpected fields are exactly the children that match no known field and can be read |
| XmpValueParse.ValueUnionAsWritten | raves_metadata/src/xmp/value/unions.rs:76-77 | as written the capacity `children.len() - always.len()` panics exactly when there are fewer children than always-present fields; otherwise it agrees with the corrected union reader |
| XmpValueParse.UnionShorthandPanics | raves_metadata/src/xmp/value/unions.rs:76-77 | a union written with attributes only and no children panics as written, while the corrected reader reports UnionNoDiscriminant |
| XmpValueParse.ShorthandColorantPanics | raves_metadata/src/xmp/value/unions.rs:76-77 | an xmpG colorant written in shorthand form panics as written |
| Iptc4Xmp.FirstColonExists | raves_metadata/src/xmp/iptc4xmp.rs:1144 | a string with a colon has a first one |
| Iptc4Xmp.FirstColonUnique | raves_metadata/src/xmp/iptc4xmp.rs:1144 | there is only one first colon |
| Iptc4Xmp.SplitOnce | raves_metadata/src/xmp/iptc4xmp.rs:1098-1144 | a split exists iff the string has a colon; the parts rejoin to the string and the first holds no colon |
| Iptc4Xmp.SplitOnceJoin | raves_metadata/src/xmp/iptc4xmp.rs:1144 | splitting undoes joining at a colon-free head |
| Iptc4Xmp.SplitPrefixedName | raves_metadata/src/xmp/iptc4xmp.rs:1127-1139 | a prefixed name splits back into the element's prefix and local name, and an unprefixed one does not split |
| Iptc4Xmp.PrefixedNameIs | raves_metadata/src/xmp/iptc4xmp.rs:1127-1139 | a prefixed name equals prefix:name iff the element has that prefix and that local name |
| Iptc4Xmp.ListElementsByParts | raves_metadata/src/xmp/iptc4xmp.rs:1084-1093 | for a well-named element, rdf:li and the rdf collections are recognised by prefix and local name |
| Iptc4Xmp.RdfCollectionIs | raves_metadata/src/xmp/iptc4xmp.rs:1091-1093 | rdf:Alt, rdf:Bag and rdf:Seq are collection elements |
| Iptc4Xmp.FirstWithName | raves_metadata/src/xmp/iptc4xmp.rs:1112-1115 | the first child with the prefix and local name asked for; none iff there is no such child |
| Iptc4Xmp.PrefixedChild | raves_metadata/src/xmp/iptc4xmp.rs:1098-1124 | a key without a colon finds nothing; a child found has the key as its prefixed name |
| Iptc4Xmp.PrefixedChildSplit | raves_metadata/src/xmp/iptc4xmp.rs:1098-1124 | a prefixed key finds the first child with that prefix and local name |
| Iptc4Xmp.PrefixedChildFinds | raves_metadata/src/xmp/iptc4xmp.rs:1098-1124 | every prefixed child is found by its own prefixed name |
| Iptc4Xmp.ColonNameUnmatched | raves_metadata/src/xmp/iptc4xmp.rs:1112-1115 | a local name with a colon in it matches no well-named child |
| Iptc4Xmp.FirstAttr | raves_metadata/src/xmp/iptc4xmp.rs:1147-1159 | a value is found iff some attribute has the prefix and local name, and then it is that attribute's value |
| Iptc4Xmp.PrefixedAttr | raves_metadata/src/xmp/iptc4xmp.rs:1143-1160 | a key without a colon finds nothing; a value found belongs to an attribute whose prefixed name is the key |
| Iptc4Xmp.PrefixedAttrExample | raves_metadata/src/xmp/iptc4xmp.rs:1349-1365 | the attribute family:guy="true" is found by its prefixed key |
| Iptc4Xmp.ElementTexts | raves_metadata/src/xmp/iptc4xmp.rs:1221-1230 | at most one text per node |
| Iptc4Xmp.ListsOf | raves_metadata/src/xmp/iptc4xmp.rs:1221-1230 | without a collection child the list is empty |
| Iptc4Xmp.ListsOfAppend | raves_metadata/src/xmp/iptc4xmp.rs:1221-1230 | the list of a concatenation is the concatenation of the lists, so order is kept |
| Iptc4Xmp.OnlyCollectionList | raves_metadata/src/xmp/iptc4xmp.rs:1221-1230 | the list of an element with one collection child is the texts of that collection's items |
| Iptc4Xmp.ThreeLiTexts | raves_metadata/src/xmp/iptc4xmp.rs:1318-1347 | three rdf:li items give their three texts, in order |
| Iptc4Xmp.OneLiText | raves_metadata/src/xmp/iptc4xmp.rs:1221-1230 | one rdf:li item gives its one text |
| Iptc4Xmp.GetListExample | raves_metadata/src/xmp/iptc4xmp.rs:1318-1347 | a dc:title holding an rdf:Bag of three items lists the three texts in order |
| Iptc4Xmp.FirstCollection | raves_metadata/src/xmp/iptc4xmp.rs:1260-1263 | the first collection child; none iff there is none |
| Iptc4Xmp.FirstLi | raves_metadata/src/xmp/iptc4xmp.rs:1296-1300 | the first rdf:li child; none iff there is none |
| Iptc4Xmp.LiTexts | raves_metadata/src/xmp/iptc4xmp.rs:1265-1275 | every text listed belongs to an rdf:li item of the collection |
| Iptc4Xmp.AllLiTexts | raves_metadata/src/xmp/iptc4xmp.rs:1257-1280 | no list without a collection child; otherwise the texts of the first collection's rdf:li items |
| Iptc4Xmp.SelfOrLiText | raves_metadata/src/xmp/iptc4xmp.rs:1284-1305 | an element's own text wins; otherwise the text of an rdf:li inside a collection child, and nothing without a collection |
| Iptc4Xmp.FirstAltIgnored | raves_metadata/src/xmp/iptc4xmp.rs:1183-1186 | as written, the rdf:Alt branch never fires for well-named children, so the result is the element's own text |
| Iptc4Xmp.FirstAltChild | raves_metadata/src/xmp/iptc4xmp.rs:1180-1186 | the first child whose prefixed name is rdf:Alt; none iff there is none |
| Iptc4Xmp.FirstAltOrText | raves_metadata/src/xmp/iptc4xmp.rs:1173-1204 | without an rdf:Alt child the element's own text; a different answer is the text of an rdf:li inside an rdf:Alt child |
| Iptc4Xmp.AltNameMissed | raves_metadata/src/xmp/iptc4xmp.rs:1185 | an element holding an rdf:Alt gets nothing as written, while the intended reading gets the first item's text |
| Iptc4Xmp.PairFromSimpleText | raves_metadata/src/xmp/iptc4xmp.rs:176-253 | a text key takes the value as it is; the rating takes it iff it parses as f64; list, age-list and struct keys give no pair |
| Iptc4Xmp.DimensionPairs | raves_metadata/src/xmp/iptc4xmp.rs:218-220 | a dimension gives a pair iff its value is a decimal i64, and then that number |
| Iptc4Xmp.Ages | raves_metadata/src/xmp/iptc4xmp.rs:300-305 | every age kept is the i64 reading of an item; unparsable items are dropped |
| Iptc4Xmp.ListPairOf | raves_metadata/src/xmp/iptc4xmp.rs:289-308 | a list key carries the list as it is; ModelAge carries the items that parse as ages; any other key gives no pair |
| Iptc4Xmp.ListParent | raves_metadata/src/xmp/iptc4xmp.rs:264-274 | the list's parent is an rdf:Description child when there is one, and the element itself otherwise |
| Iptc4Xmp.CollectionNotDescription | raves_metadata/src/xmp/iptc4xmp.rs:264-284 | a collection element is never taken for an rdf:Description |
| Iptc4Xmp.VecPair | raves_metadata/src/xmp/iptc4xmp.rs:259-310 | a pair only for a list key; none without a collection; a list key carries the texts of the first collection's items |
| Iptc4Xmp.FlatListLost | raves_metadata/src/xmp/iptc4xmp.rs:287 | as written, a list directly under its collection comes out empty; the intended reading keeps its items |
| Iptc4Xmp.CreatorListLost | raves_metadata/src/xmp/iptc4xmp.rs:287 | a dc:creator with one name gives an empty list as written and that one name as intended |
| Iptc4Xmp.DescriptionFallbackDead | raves_metadata/src/xmp/iptc4xmp.rs:120-124 | as written, the rdf:Description fallback never fires for well-named children |
| Iptc4Xmp.DoubleColonKeySplits | raves_metadata/src/xmp/iptc4xmp.rs:122 | the key rdf::Description splits into rdf and a local name that still holds a colon |
| Iptc4Xmp.DescriptionKeySplits | raves_metadata/src/xmp/iptc4xmp.rs:122 | the intended key rdf:Description splits into rdf and Description |
| Iptc4Xmp.SimpleText | raves_metadata/src/xmp/iptc4xmp.rs:120-124 | an element's own text wins; otherwise the text of an rdf:Description child |
| Iptc4Xmp.WrappedText | raves_metadata/src/xmp/iptc4xmp.rs:120-124 | an element whose only child is an rdf:Description has that child's text |
| Iptc4Xmp.WrappedTextMissedAsWritten | raves_metadata/src/xmp/iptc4xmp.rs:122 | a country code wrapped in an rdf:Description gives no text as written |
| Iptc4Xmp.WrappedTextFound | raves_metadata/src/xmp/iptc4xmp.rs:120-124 | the same input gives US as intended |
| Iptc4Xmp.AttrPair | raves_metadata/src/xmp/iptc4xmp.rs:76-101 | an unprefixed attribute gives nothing; a pair is keyed by the key its prefixed name maps to and reads the attribute value as simple text |
| Iptc4Xmp.AttrPairs | raves_metadata/src/xmp/iptc4xmp.rs:76-101 | every attribute pair comes from one of the attributes |
| Iptc4Xmp.ChildPairFor | raves_metadata/src/xmp/iptc4xmp.rs:115-167 | once the key is looked up by a given id: an id that maps to no key gives nothing; a simple text value (read as written or as intended) that gives a pair is taken first; a list pair needs a list or struct key |
| Iptc4Xmp.ChildPairAsWritten | raves_metadata/src/xmp/iptc4xmp.rs:112 | as written, the key is looked up by the local name, and the text and list are read as written: a name that maps to no key gives nothing, and under a table of prefixed ids a well-named child never gives a pair |
| Iptc4Xmp.ChildPair | raves_metadata/src/xmp/iptc4xmp.rs:103-170 | with the key looked up by prefixed name: a child whose prefixed name maps to no key gives nothing; a simple text value that gives a pair is taken first; a list pair needs a list or struct key |
| Iptc4Xmp.ChildPairs | raves_metadata/src/xmp/iptc4xmp.rs:103-170 | every child pair comes from one of the children |
| Iptc4Xmp.ChildPairsAsWritten | raves_metadata/src/xmp/iptc4xmp.rs:103-114 | as written, every child pair comes from one of the children by its local name |
| Iptc4Xmp.ChildPairsLostAsWritten | raves_metadata/src/xmp/iptc4xmp.rs:112 | as written, well-named child elements give no pairs at all under a table of prefixed ids |
| Iptc4Xmp.CountryCodeChildLost | raves_metadata/src/xmp/iptc4xmp.rs:112 | a country code written as a child element gives no pair as written and its text pair when looked up by prefixed name |
| Iptc4Xmp.DescriptionPairs | raves_metadata/src/xmp/iptc4xmp.rs:74-171 | a description's pairs are its attribute pairs, then its child pairs |
| Iptc4Xmp.Descriptions | raves_metadata/src/xmp/iptc4xmp.rs:60-66 | exactly the children named rdf:Description are kept |
| Iptc4Xmp.PacketParent | raves_metadata/src/xmp/iptc4xmp.rs:47-50 | a document not named x:xmp_meta is its own parent |
| Iptc4Xmp.ParseXmpForIptc | raves_metadata/src/xmp/iptc4xmp.rs:18-173 | no rdf:RDF child is the missing-RDF outcome; otherwise the pairs of every rdf:Description in turn |
| Iptc4Xmp.OneDescriptionPacket | raves_metadata/src/xmp/iptc4xmp.rs:18-173 | a packet with one description gives that description's pairs |
| Iptc4Xmp.OneAttributeDescription | raves_metadata/src/xmp/iptc4xmp.rs:74-101 | a description with one attribute and no children gives that attribute's pair |
| Iptc4Xmp.OneAttributePacket | raves_metadata/src/xmp/iptc4xmp.rs:18-173 | a packet with one such description gives just that pair |
| Iptc4Xmp.CountryCodeExample | raves_metadata/src/xmp/iptc4xmp.rs:1367-1386 | an rdf:Description carrying Iptc4xmpCore:CountryCode gives the CountryCodeLegacy pair with its value |
| StringCase.AsciiUpper | raves_metadata_types/build.rs:920-921 | only a to z change, each to its capital |
| StringCase.AsciiLower | raves_metadata_types/build.rs:969-972 | only A to Z change, each to its small letter |
| StringCase.PascalFold | raves_metadata_types/build.rs:899-931 | the fold only appends to what it has, never more than one character per input character, and never a hash, a dash or an apostrophe |
| StringCase.KebabToPascal | raves_metadata_types/build.rs:899-931 | the result is no longer than the input and holds no hash, dash or apostrophe |
| StringCase.PascalFoldFrom | raves_metadata_types/build.rs:899-931 | the fold from any point finishes the character-by-character conversion |
| StringCase.KebabToPascalIsPerCharacter | raves_metadata_types/build.rs:899-931 | the fold equals the conversion that keeps each non-separator character, capitalised iff a hash or dash comes before it with only apostrophes between |
| StringCase.CapitalizeAtIff | raves_metadata_types/build.rs:908-928 | a character is capitalised iff some earlier hash or dash is separated from it by apostrophes alone |
| StringCase.PascalUpToPlain | raves_metadata_types/build.rs:899-931 | without hashes, dashes and apostrophes every prefix is kept as it is |
| StringCase.KebabToPascalPlain | raves_metadata_types/build.rs:899-931 | a string without hashes, dashes and apostrophes is unchanged |
| StringCase.KebabToPascalExample | raves_metadata_types/build.rs:899-931 | #an-ex becomes AnEx |
| StringCase.SnakeFold | raves_metadata_types/build.rs:937-958 | the fold only appends, at most one character per input character |
| StringCase.KebabToSnake | raves_metadata_types/build.rs:937-958 | the result is no longer than the input |
| StringCase.SnakeFoldMaps | raves_metadata_types/build.rs:937-958 | the fold appends the character-by-character conversion |
| StringCase.KebabToSnakeIsPerCharacter | raves_metadata_types/build.rs:937-958 | the conversion drops hashes, turns dashes into underscores and keeps everything else, character by character |
| StringCase.SnakeMapAppend | raves_metadata_types/build.rs:937-958 | converting a concatenation converts each part |
| StringCase.SnakeMapClean | raves_metadata_types/build.rs:937-958 | the result holds no hash and no dash, and an underscore in it comes from an underscore or a dash |
| StringCase.SnakeMapLength | raves_metadata_types/build.rs:937-958 | the result is the input's length less its hashes |
| StringCase.CamelFold | raves_metadata_types/build.rs:961-980 | the fold only appends, at least one character per input character |
| StringCase.CamelToSnake | raves_metadata_types/build.rs:961-980 | the result is no shorter than the input |
| StringCase.CamelFoldMaps | raves_metadata_types/build.rs:961-980 | the fold appends the character-by-character conversion |
| StringCase.CamelToSnakeIsPerCharacter | raves_metadata_types/build.rs:961-980 | an upper-case character becomes an underscore and its small letter, anything else is kept |
| StringCase.CamelMapLength | raves_metadata_types/build.rs:961-980 | each upper-case character adds exactly one underscore |
| StringCase.CamelMapAppend | raves_metadata_types/build.rs:961-980 | converting a concatenation converts each part |
| StringCase.CamelMapLowers | raves_metadata_types/build.rs:961-980 | when only A to Z count as upper case, the result holds no capital |
| StringCase.CamelToSnakeExample | raves_metadata_types/build.rs:964-967 | aT becomes a_t |
| DatatypeMap.PrimitiveIffNeither | raves_metadata_types/build.rs:1050-1071 | a type is primitive iff it is neither a vec nor a struct, and a struct iff its kind is a generated type |
| DatatypeMap.IptcTypeToRustType | raves_metadata_types/build.rs:1075-1125 | the vec and required flags are passed through; it panics iff the IPTC type is none of struct, string and number, or a struct has no data format; only struct gives a generated type |
| DatatypeMap.IptcKinds | raves_metadata_types/build.rs:1087-1117 | string is a String; number is i64 with the integer format and a float otherwise; a struct of AltLang, uri, url or date-time is a String; any other struct is the named generated type |
| DatatypeMap.MappedPrimitive | raves_metadata_types/build.rs:1050-1125 | a mapped type is primitive iff it is single and not a generated struct |
| DatatypeMap.Display | raves_metadata_types/build.rs:1018-1047 | not required means an Option<...> wrapper and vec a Vec<...> wrapper, and the length is the kind's name plus the wrappers |
| DatatypeMap.ParseRustType | raves_metadata_types/build.rs:1018-1047 | a spelling read back displays as itself |
| DatatypeMap.DisplayParts | raves_metadata_types/build.rs:1018-1047 | a datatype whose wrappers and kind spell the parts of a string displays as that string |
| DatatypeMap.ParsedKindName | raves_metadata_types/build.rs:1018-1047 | a spelling read as a kind is that kind's spelling |
| DatatypeMap.UnwrapJoin | raves_metadata_types/build.rs:1018-1047 | what unwrapping strips, joined back, is the original |
| DatatypeMap.UnwrapOfJoin | raves_metadata_types/build.rs:1018-1047 | unwrapping strips what wrapping adds |
| DatatypeMap.KindNameUnwrapped | raves_metadata_types/build.rs:1018-1047 | no kind's spelling starts like Option< or Vec< |
| DatatypeMap.KindNameRoundTrip | raves_metadata_types/build.rs:1018-1047 | every kind's spelling reads back as that kind |
| DatatypeMap.VecNotOption | raves_metadata_types/build.rs:1018-1047 | a Vec<...> spelling never starts like Option< |
| DatatypeMap.DisplayRoundTrip | raves_metadata_types/build.rs:1018-1047 | every datatype's spelling reads back as that datatype |
| DatatypeMap.DisplayInjective | raves_metadata_types/build.rs:1018-1047 | two datatypes with the same spelling are the same datatype |
| DatatypeMap.ArmsFold | raves_metadata_types/build.rs:466-489 | the fold only appends to what it has |
| DatatypeMap.MatchVariants | raves_metadata_types/build.rs:457-498 | the generated text always ends with the catch-all arm `_ => None` |
| DatatypeMap.ArmsFoldIs | raves_metadata_types/build.rs:466-489 | the fold appends the arms of the table in order |
| DatatypeMap.MatchVariantsIsArms | raves_metadata_types/build.rs:457-498 | the text is one arm per entry that has a value, in table order, then the catch-all |
| DatatypeMap.ArmsOfAppend | raves_metadata_types/build.rs:466-489 | the arms of a concatenation are the arms of each part |
| DatatypeMap.ArmsOfSplit | raves_metadata_types/build.rs:466-489 | the arms of a table are those before an entry, that entry's arm, and those after |
| DatatypeMap.ArmAt | raves_metadata_types/build.rs:457-498 | an entry with a value contributes the arm mapping the quoted value to Some of its variant, at its place in the table |
| DatatypeMap.ArmsOfNone | raves_metadata_types/build.rs:473-475 | entries without a value contribute nothing |
| DatatypeMap.MatchVariantsAllNone | raves_metadata_types/build.rs:457-498 | a table with no values gives only the catch-all |
| PngHelpers.ComputeDataLength | raves_metadata/scripts/png_chunk_helpers.rs:19-29 | the length as a u32: the length itself below 2^32, wrapped modulo 2^32 above |
| PngHelpers.UpdateByte | raves_metadata/scripts/png_chunk_helpers.rs:40-48 | the inner loop's eight passes leave the register the bitwise CRC step gives for that byte |
| PngHelpers.ComputeCrc32 | raves_metadata/scripts/png_chunk_helpers.rs:34-59 | the loop over the data leaves the register the byte-by-byte CRC gives from all ones, and the result is its complement in four big-endian bytes |
| PngHelpers.RegisterAppend | raves_metadata/scripts/png_chunk_helpers.rs:34-59 | the CRC of a concatenation continues from the register the first part leaves |
| PngHelpers.EmptyCrc | raves_metadata/scripts/png_chunk_helpers.rs:34-59 | no data gives the CRC 00 00 00 00 |

## Left out

- HeifIinf.NulTerminated: the source returns a `&str`, so bytes before the NUL that are not valid UTF-8 fail there; the model accepts any bytes, because UTF-8 validation is not modelled.
- `parse_nul_terminated_str`: its file is not part of this model; `HeifIinf.NulTerminated` stands for it.
- HeifIloc.ParseLocationEntry: its statement that the input is the entry's layout covers field sizes of 0, 4 and 8 only. The box passes no other sizes, but a wider field given directly would be reduced modulo 2^64 by `map_bytes_to_u64`, and its bytes are then not the layout of the value.
- Heif.MakeSliceRange: `usize` is taken to be 64 bits wide, so the `u64` to `usize` conversion never fails and `ParserBugSlicesTooSmall` is unreachable.
- HeifSearch.BodySize: a `uuid`-typed `meta` box gets the fixed 12- or 20-byte header length the source uses, 16 bytes short of its real header. This is reproduced, not corrected.
- BmffFtyp.ParseFtypSpec: a truncated compatible-brand list ends the list early, as `repeat(0..=n)` does, instead of failing. So "a truncated `ftyp` is refused" holds only for the header, the major brand and the minor version.
- ExifBlob.ParseChain: the corrected chain pushes every chained IFD on the 32-slot recursion stack, one slot deeper per IFD (`ExifBlob.ChainState`). So an acyclic chain of more than 32 IFDs, which the source's loop would read, fails with `HitRecursionLimit`, and the IFDs further along the chain have fewer slots left for their sub-IFDs. The `State` of `exif/mod.rs:171-175` lacks the recursion fields that `ifd.rs` uses, and `SelfRecursion` and `HitRecursionLimit` are added to the fatal error type, which lacks them at `exif/error.rs:19-51`.
- ExifBlob.ParseExifOk: its bound of 32 IFDs comes from the corrected chain's use of the recursion stack. The source's loop has no such cap on an acyclic chain.
- GifBlock.ColorTable: `GlobalColorTableMissingTriplet` is used by `gif/block.rs` but missing from `gif/error.rs`; the model adds it.
- `providers/gif.rs` and `providers/gif/mod.rs`: older drafts that call `todo!()` and names that do not exist; `gif/block.rs` is modelled instead.
- Jpeg.ConcatXmp: the final `Xmp::new` parse and the combining of the standard and extended packets are left out; the result carries the standard packet and the reassembled extended bytes. The GUID lookup in the standard packet is the parameter `GuidLookup`, and the result carries the packet it writes back. The source means to remove the `xmpNote:HasExtendedXMP` GUID from the packet, but removes it only from clones (parse.rs:582, 600, 623), so the packet keeps it; the model does not promise its removal.
- Jpeg.SegmentTurn: `NoDataForPayload` carries the length already less 2, as the source passes it.
- Floating point is not modelled. An `f64` is carried as its bit pattern, and reading one from text is the parameter `parseReal`/`parseF64`.
- `Kind::StructUnspecifiedFields`: its reader is `todo!()` at `xmp/value/mod.rs:73`, so the kind is not part of the modelled schema kinds.
- Parsing XML text into an element tree is the `xmltree` crate's work. The tree is the input of the XMP readers, and `xmltree` parse errors are not modelled.
- Iptc4Xmp.ParseXmpForIptc: a packet without `rdf:RDF` stops with `todo!()` at `iptc4xmp.rs:55`; the model returns the outcome `NoRdfElement` there.
- Iptc4Xmp.ChildPair: the generated `from_xmp_id`, `has_vec_ty` and `has_struct_ty`, and the shorthand and regular struct parsers, are the parameters of a `Catalog`, because they are generated code outside this model. `cvterm_from_list` is not modelled. The model looks child keys up by prefixed name, the corrected lookup listed under Findings; `Iptc4Xmp.PrefixedIds` states what the generated id table guarantees about its ids.
- Iptc4Xmp.PrefixedChild: the debug-build panics (`cfg!(debug_assertions)`) are not modelled; the release path is. The same holds for every `debug_assert`.
- StringCase.CamelToSnake: `char::is_uppercase` consults the Unicode tables, so it is the parameter `upper`.
- The IPTC code generator's YAML reading (`make_enum`, `make_structs`, the `*_from_yaml` helpers) and its file output are I/O on the IPTC specification file and are not modelled.
- PngHelpers.ComputeCrc32: the `print!`/`println!` output is left out. The CRC is proved equal to the bitwise fold over the bytes, but not to a table-driven CRC.
- Logging (`log::trace!` and friends) is left out everywhere.

## Findings

| source | as written | input that shows it | evidently intended | confidence | as-written member | corrected member |
|---|---|---|---|---|---|---|
| raves_metadata/src/exif/mod.rs:102-114 | the loop over next-IFD pointers re-parses at each pointer and keeps no record of the IFDs already read | a blob whose one IFD at offset 8 names 8 as its next IFD (`ExifBlob.SelfChainBlob`): the loop reads that IFD for ever | a pointer back into the chain is refused as `SelfRecursion`, as `ifd.rs` does for sub-IFDs; the corrected chain keeps its IFDs on the 32-slot stack, so it also refuses a chain of more than 32 IFDs as `HitRecursionLimit` | high, not executed | ExifBlob.ChainAsWritten, ExifBlob.SelfChainLoopsAsWritten | ExifBlob.ParseChain, ExifBlob.SelfChainRejected, ExifBlob.ChainCycleRejected |
| raves_metadata/src/exif/value.rs:77 | the data width `size_bytes as u32 * count` is a `u32` product, which wraps in a release build | a SHORT entry with count 2^31 and an offset past the blob: the width wraps to 0, so the four inline bytes are read as the data and run out (`OuttaData`) | the width is the full product, 2^32 bytes, so the value is out of line and its offset is past the blob (`OffsetTooFar`) | high, not executed | ExifValue.ParseValueAsWritten, ExifValue.WrappedWidthMisread | ExifValue.ParseValue, ExifValue.EntryFieldOutOfLine |
| raves_metadata/src/providers/shared/bmff/heif/mod.rs:206-211 | an `idat` box's header is read from the `meta` payload, but its payload is taken from the file input `input` | a `meta` payload holding only an `idat` box with four bytes (`Heif.IdatMisread`): as written the item data is not those bytes | the payload is taken from the `meta` payload the header was read from | high, not executed | Heif.ParseHeifLikeAsWritten, Heif.IdatReadFromStream, Heif.IdatMisread | Heif.ParseHeifLike, Heif.IdatReadFromMeta |
| raves_metadata/src/xmp/iptc4xmp.rs:122 | the fallback looks for the child `rdf::Description`, whose local name would hold a colon, so it never matches | `<Iptc4xmpCore:CountryCode><rdf:Description>US</rdf:Description></Iptc4xmpCore:CountryCode>` (`Iptc4Xmp.WrappedTextMissedAsWritten`): no text | the child `rdf:Description`, whose text `US` is the value; reachable only once the child key lookup of iptc4xmp.rs:112 is corrected | high, not executed | Iptc4Xmp.SimpleTextAsWritten, Iptc4Xmp.WrappedTextMissedAsWritten, Iptc4Xmp.DescriptionFallbackDead | Iptc4Xmp.SimpleText, Iptc4Xmp.WrappedTextFound, Iptc4Xmp.WrappedText |
| raves_metadata/src/xmp/iptc4xmp.rs:1185 | the `rdf:Alt` child is looked for by comparing its local name with `rdf:Alt`, which a local name never equals | `<CvTermName><rdf:Alt><rdf:li xml:lang="x-default">Bay</rdf:li></rdf:Alt></CvTermName>` (`Iptc4Xmp.AltNameMissed`): no text | the child whose prefixed name is `rdf:Alt`, giving `Bay` | high, not executed | Iptc4Xmp.FirstAltOrTextAsWritten, Iptc4Xmp.AltNameMissed, Iptc4Xmp.FirstAltIgnored | Iptc4Xmp.FirstAltOrText |
| raves_metadata/src/xmp/iptc4xmp.rs:287 | `get_list` is called on the collection element, but it expects the collection's parent, so it looks for collections among the `rdf:li` items | a `dc:creator` holding an `rdf:Seq` with one `rdf:li` (`Iptc4Xmp.CreatorListLost`): an empty list | the texts of the collection's `rdf:li` items, here the one name; reachable only once the child key lookup of iptc4xmp.rs:112 is corrected | high, not executed | Iptc4Xmp.VecPairAsWritten, Iptc4Xmp.FlatListLost, Iptc4Xmp.CreatorListLost | Iptc4Xmp.VecPair |
| raves_metadata/src/xmp/value/unions.rs:77 | the capacity `element.children.len() - always.len()` underflows, and so panics, when the element has fewer child nodes than the union has always-present fields | an `xmpG` colorant written as `<rdf:li xmpG:mode="RGB"/>`, fields as attributes and no children (`XmpValueParse.ShorthandColorantPanics`) | a capacity that cannot underflow, so the union is read and reported like any other | medium, not executed | XmpValueParse.ValueUnionAsWritten, XmpValueParse.ShorthandColorantPanics, XmpValueParse.UnionShorthandPanics | XmpValueParse.ValueUnion |
| raves_metadata/src/providers/gif/block.rs:397-399 | the packed byte is decoded with the disposal method in bits 3 to 5, the user input flag in bit 6 and the transparency flag in bit 7 | the GIF89a block `21 F9 04 09 …` (disposal method 2, transparent) reads as opaque with disposal method 1 (`GifBlock.GceLayoutDiffers`) | section 23 of GIF89a: disposal method in bits 2 to 4, user input flag in bit 1, transparency flag in bit 0 | high, not executed | GifBlock.GraphicControl, GifBlock.GceLayoutDiffers | GifBlock.GraphicControlGif89a, GifBlock.Gif89aGceRoundTrip, GifBlock.GceLayoutCorrected |
| raves_metadata/src/xmp/iptc4xmp.rs:112 | a child element's key is looked up with its local name, but the generated `from_xmp_id` matches whole `prefix:name` ids, so no well-named child element gives a pair | `<Iptc4xmpCore:CountryCode>US</Iptc4xmpCore:CountryCode>` under an `rdf:Description` (`Iptc4Xmp.CountryCodeChildLost`): no pair | the key looked up by the prefixed name, as the attribute loop at iptc4xmp.rs:90-91 does, giving the country-code pair `US` | high, not executed | Iptc4Xmp.ChildPairAsWritten, Iptc4Xmp.ChildPairsLostAsWritten | Iptc4Xmp.ChildPair, Iptc4Xmp.CountryCodeChildLost |

=== FILE: bmff_search.dfy ===
/** Scanning a run of sibling boxes
    (raves_metadata/src/providers/shared/bmff/search.rs).
 */
module BmffSearch {
  import opened Std
  import opened Bytes
  import opened BmffBox

  /** A box found by a scan: its header and its payload. */
  type Found = (BoxHeader, Bytes)

  /** The bytes a found box occupied. */
  function BoxBytes(b: Found): Bytes
  {
    EncodeBoxHeader(b.0.boxSize, b.0.boxType) + b.1
  }

  /** Found boxes laid out one after the other. */
  function Layout(boxes: seq<Found>): Bytes
  {
    if boxes == [] then [] else BoxBytes(boxes[0]) + Layout(boxes[1..])
  }

  /** One box read from the front of `input`: its header, its payload and
      what follows it; nothing when the header or payload is short. */
  function NextBox(input: Bytes): (r: Option<(Found, Bytes)>)
    ensures r.Some? ==> BoxBytes(r.value.0) + r.value.1 == input && |r.value.1| < |input|
    ensures r.Some? ==>
              var (h, payload) := r.value.0;
              && Encodable(h.boxSize, h.boxType)
              && h.headerLen as int == HeaderLen(h.boxSize, h.boxType)
              && |payload| == PayloadTake(h, input[h.headerLen..])
  {
    match ParseBoxHeader(input)
    case Err(_) => None
    case Ok(h) =>
      match Payload(h.value, h.rest)
      case None => None
      case Some(p) =>
        JoinAt(input, h.value.headerLen as nat, p.value, p.rest);
        Some(((h.value, p.value), p.rest))
  }

  /** Splitting a sequence after its first `k` elements. */
  lemma JoinAt(input: Bytes, k: nat, payload: Bytes, rest: Bytes)
    requires k <= |input| && input[k..] == payload + rest
    ensures input[..k] + payload + rest == input
  {
    assert input == input[..k] + input[k..];
  }

  /** Every box of the run, in file order, up to the first that cannot be
      read: the reference the filtered scan is measured against. */
  function Walk(input: Bytes): (r: seq<Found>)
    ensures Layout(r) <= input
    ensures forall i | 0 <= i < |r| :: Encodable(r[i].0.boxSize, r[i].0.boxType)
    ensures forall i | 0 <= i < |r| :: PayloadLen(r[i].0).Some? ==> |r[i].1| == PayloadLen(r[i].0).value
    decreases |input|
  {
    if input == [] then []
    else
      match NextBox(input)
      case None => []
      case Some((b, rest)) =>
        var more := Walk(rest);
        assert ([b] + more)[1..] == more;
        assert Layout([b] + more) == BoxBytes(b) + Layout(more);
        [b] + more
  }

  /** The boxes whose type is listed, in order. */
  function Select(boxes: seq<Found>, types: seq<BoxType>): (r: seq<Found>)
    ensures forall b | b in r :: b in boxes && b.0.boxType in types
  {
    if boxes == [] then []
    else if boxes[0].0.boxType in types then [boxes[0]] + Select(boxes[1..], types)
    else Select(boxes[1..], types)
  }

  /** `_find_boxes`: reads boxes until the input is empty or a header or
      payload cannot be read, keeping (header, payload) for each box whose
      type is listed and skipping the payload of each other box. */
  function FindBoxes(input: Bytes, types: seq<BoxType>): (r: seq<Found>)
    decreases |input|
  {
    if input == [] then []
    else
      match ParseBoxHeader(input)
      case Err(_) => []
      case Ok(h) =>
        if h.value.boxType in types then
          match Payload(h.value, h.rest)
          case None => []
          case Some(p) => [(h.value, p.value)] + FindBoxes(p.rest, types)
        else
          match EatPayload(h.value, h.rest)
          case None => []
          case Some(rest) => FindBoxes(rest, types)
  }

  /** The scan returns exactly the listed boxes of the run, in file order:
      the skipped boxes are walked over the same way the kept ones are. */
  lemma {:induction false} FindBoxesSelects(input: Bytes, types: seq<BoxType>)
    ensures FindBoxes(input, types) == Select(Walk(input), types)
    decreases |input|
  {
    if input != [] && NextBox(input).Some? {
      var (b, rest) := NextBox(input).value;
      FindBoxesSelects(rest, types);
      assert Walk(input)[0] == b && Walk(input)[1..] == Walk(rest);
    }
  }

  /** Every box the scan returns has a listed type and, unless it runs to
      the end, a payload of exactly its stated length. */
  lemma FindBoxesFound(input: Bytes, types: seq<BoxType>)
    ensures forall b | b in FindBoxes(input, types) ::
              && b.0.boxType in types
              && (PayloadLen(b.0).Some? ==> |b.1| == PayloadLen(b.0).value)
  {
    FindBoxesSelects(input, types);
    var w := Walk(input);
    forall b | b in FindBoxes(input, types)
      ensures PayloadLen(b.0).Some? ==> |b.1| == PayloadLen(b.0).value
    {
      var i :| 0 <= i < |w| && w[i] == b;
    }
  }
}

=== FILE: box_header.dfy ===
/** ISO-BMFF box headers (raves_metadata/src/providers/shared/bmff/box_header.rs
    and the `BoxType`/`BoxSize` types of bmff/mod.rs), after section 4.2 of
    ISO/IEC 14496-12: a big-endian `u32` size, a four-character type, a `u64`
    largesize when the size is 1, and a 16-byte extended type when the type
    is `uuid`.
 */
module BmffBox {
  import opened Std
  import opened Bytes

  /** A 16-byte extended box type. */
  type UuidBytes = s: Bytes | |s| == 16 witness [0, 0, 0, 0, 0, 0, 0, 0, 0, 0, 0, 0, 0, 0, 0, 0]

  /** The type code `uuid`. */
  const UuidCode: FourCC := [0x75, 0x75, 0x69, 0x64]

  /** `BoxType`: a plain four-character type, or the UUID that follows `uuid`. */
  datatype BoxType = Id(id: FourCC) | Uuid(uuid: UuidBytes)

  /** `BoxSize`: a 32-bit size, a 64-bit largesize, or "to the end of the
      input" (a stored size of 0). Each size counts the header too. */
  datatype BoxSize = Small(small: uint32) | Large(large: uint64) | Eof

  /** `BoxHeader`: how many bytes the header took, the box size and type. */
  datatype BoxHeader = BoxHeader(headerLen: uint8, boxSize: BoxSize, boxType: BoxType)

  /** Which part of the header ran out of input; each stands for the
      context the source attaches to its parse failure. */
  datatype BoxHeaderError = NoBoxSize | NoBoxType | NoLargeBoxSize | NoBoxUuid

  /** The bytes a header of this size and type takes: 8, plus 8 for a
      largesize, plus 16 for a UUID. */
  function HeaderLen(size: BoxSize, ty: BoxType): (r: nat)
    ensures r in {8, 16, 24, 32}
  {
    8 + (if size.Large? then 8 else 0) + (if ty.Uuid? then 16 else 0)
  }

  /** A size and type a header can state: a 32-bit size of 0 or 1 would read
      as `Eof` or `Large`, and an `Id` of `uuid` as a UUID type. */
  predicate Encodable(size: BoxSize, ty: BoxType)
  {
    && (size.Small? ==> size.small >= 2)
    && (ty.Id? ==> ty.id != UuidCode)
  }

  /** The stored 32-bit size field. */
  function RawSize(size: BoxSize): uint32
  {
    match size
    case Small(n) => n
    case Large(_) => 1
    case Eof => 0
  }

  /** The header bytes of a box of this size and type. */
  function EncodeBoxHeader(size: BoxSize, ty: BoxType): (r: Bytes)
    ensures |r| == HeaderLen(size, ty)
  {
    Pow256Widths();
    Encode(Big, 4, RawSize(size)) + TypeCode(ty) + LargeSize(size) + Extended(ty)
  }

  /** The stored four-character type: `uuid` for a UUID type. */
  function TypeCode(ty: BoxType): FourCC
  {
    match ty
    case Id(id) => id
    case Uuid(_) => UuidCode
  }

  /** The largesize field, present only for a `Large` size. */
  function LargeSize(size: BoxSize): (r: Bytes)
    ensures |r| == if size.Large? then 8 else 0
  {
    Pow256Widths();
    match size
    case Large(n) => Encode(Big, 8, n)
    case _ => []
  }

  /** The extended type field, present only for a UUID type. */
  function Extended(ty: BoxType): (r: Bytes)
    ensures |r| == if ty.Uuid? then 16 else 0
  {
    match ty
    case Uuid(u) => u
    case Id(_) => []
  }

  /** The size field, read as the source does: 1 is followed by a largesize,
      0 means the box runs to the end of the input. */
  function ParseBoxSize(raw: uint32, input: Bytes): (r: Result<Parsed<BoxSize>, BoxHeaderError>)
    ensures raw == 1 ==> (r.Ok? <==> |input| >= 8)
    ensures raw != 1 ==> r == Ok(Parsed(if raw == 0 then Eof else Small(raw), input))
    ensures r.Ok? ==> RawSize(r.value.value) == raw
    ensures r.Ok? && raw == 1 ==> r.value.value.Large?
                                  && input[..8] == Encode(Big, 8, r.value.value.large)
                                  && r.value.rest == input[8..]
    ensures r.Err? ==> r.error == NoLargeBoxSize
  {
    if raw == 1 then
      var n :- ReadU64(Big, input).OkOr(NoLargeBoxSize);
      Ok(Parsed(Large(n.value), n.rest))
    else if raw == 0 then Ok(Parsed(Eof, input))
    else Ok(Parsed(Small(raw), input))
  }

  /** The type field: `uuid` is followed by the 16-byte UUID. */
  function ParseBoxType(code: FourCC, input: Bytes): (r: Result<Parsed<BoxType>, BoxHeaderError>)
    ensures code == UuidCode ==> (r.Ok? <==> |input| >= 16)
    ensures code != UuidCode ==> r == Ok(Parsed(Id(code), input))
    ensures r.Ok? && code == UuidCode ==> r.value.value == Uuid(input[..16]) && r.value.rest == input[16..]
    ensures r.Err? ==> r.error == NoBoxUuid
  {
    if code == UuidCode then
      var u :- Take(16, input).OkOr(NoBoxUuid);
      Ok(Parsed(Uuid(u.value), u.rest))
    else Ok(Parsed(Id(code), input))
  }

  /** `parse_header`: the size and type fields, then the largesize, then the
      UUID; the header length is how many bytes were taken. */
  function ParseBoxHeader(input: Bytes): (r: Result<Parsed<BoxHeader>, BoxHeaderError>)
    ensures |input| < 4 <==> r == Err(NoBoxSize)
    ensures 4 <= |input| < 8 <==> r == Err(NoBoxType)
    ensures r.Ok? ==>
              var h := r.value.value;
              && h.headerLen as int == HeaderLen(h.boxSize, h.boxType) <= |input|
              && r.value.rest == input[h.headerLen..]
    ensures r.Ok? ==>
              var h := r.value.value;
              Encodable(h.boxSize, h.boxType) && input[..h.headerLen] == EncodeBoxHeader(h.boxSize, h.boxType)
  {
    var rawSize :- ReadU32(Big, input).OkOr(NoBoxSize);
    var code :- Take(4, rawSize.rest).OkOr(NoBoxType);
    var size :- ParseBoxSize(rawSize.value, code.rest);
    var ty :- ParseBoxType(code.value, size.rest);
    HeaderFields(input, rawSize.value, code.value, size.value, ty.value, ty.rest);
    Ok(Parsed(BoxHeader(HeaderLen(size.value, ty.value) as uint8, size.value, ty.value), ty.rest))
  }

  /** The input `parse_header` leaves behind in its caller's stream. The
      parser reads field by field and does not backtrack: after a success
      the header is consumed, and after a failure every field read before
      the missing one is consumed (a field that is short is not). */
  function HeaderLeft(input: Bytes): (r: Bytes)
    ensures |r| <= |input| && r == input[|input| - |r|..]
    ensures ParseBoxHeader(input).Ok? ==> r == ParseBoxHeader(input).value.rest
    ensures ParseBoxHeader(input) == Err(NoBoxSize) ==> r == input
    ensures ParseBoxHeader(input) == Err(NoBoxType) ==> r == input[4..]
    ensures ParseBoxHeader(input) == Err(NoLargeBoxSize) ==> r == input[8..]
    ensures ParseBoxHeader(input) == Err(NoBoxUuid) ==>
              |input| >= 8 && r == input[if Value(Big, input[..4]) == 1 then 16 else 8..]
  {
    match ReadU32(Big, input)
    case None => input
    case Some(rawSize) =>
      match Take(4, rawSize.rest)
      case None => rawSize.rest
      case Some(code) =>
        match ParseBoxSize(rawSize.value, code.rest)
        case Err(_) => code.rest
        case Ok(size) =>
          match ParseBoxType(code.value, size.rest)
          case Err(_) => size.rest
          case Ok(ty) => ty.rest
  }

  /** The header bytes the four fields were read from. */
  lemma HeaderFields(input: Bytes, raw: uint32, code: FourCC, size: BoxSize, ty: BoxType, rest: Bytes)
    requires |input| >= 8 && input[..4] == Encode(Big, 4, raw) && input[4..8] == code
    requires RawSize(size) == raw && (raw == 1 <==> size.Large?) && (raw == 0 <==> size.Eof?)
    requires (code == UuidCode <==> ty.Uuid?) && (ty.Id? ==> ty.id == code)
    requires size.Large? ==> |input| >= 16 && input[8..16] == Encode(Big, 8, size.large)
    requires var at := if size.Large? then 16 else 8;
             && (ty.Uuid? ==> |input| >= at + 16 && input[at..at + 16] == ty.uuid)
             && rest == input[at + (if ty.Uuid? then 16 else 0)..]
    ensures Encodable(size, ty)
    ensures HeaderLen(size, ty) <= |input| && rest == input[HeaderLen(size, ty)..]
    ensures input[..HeaderLen(size, ty)] == EncodeBoxHeader(size, ty)
  {
    Pow256Widths();
    var n := HeaderLen(size, ty);
    var at := if size.Large? then 16 else 8;
    assert input[..n] == input[..4] + input[4..8] + input[8..at] + input[at..n];
  }

  /** A laid-out header reads back as the size and type it was laid out
      for, and leaves what followed it. */
  lemma BoxHeaderRoundTrip(size: BoxSize, ty: BoxType, rest: Bytes)
    requires Encodable(size, ty)
    ensures ParseBoxHeader(EncodeBoxHeader(size, ty) + rest)
            == Ok(Parsed(BoxHeader(HeaderLen(size, ty) as uint8, size, ty), rest))
  {
    var code: Bytes := TypeCode(ty);
    var tail := LargeSize(size) + (Extended(ty) + rest);
    HeaderSplit(size, ty, rest);
    ReadU32RoundTrip(Big, RawSize(size), code + tail);
    assert Take(4, code + tail) == Some(Parsed(code, tail));
    SizeRoundTrip(size, Extended(ty) + rest);
    TypeRoundTrip(ty, rest);
  }

  /** A header followed by more input, field by field. */
  lemma HeaderSplit(size: BoxSize, ty: BoxType, rest: Bytes)
    ensures Pow256(4) == 0x1_0000_0000
    ensures EncodeBoxHeader(size, ty) + rest
            == Encode(Big, 4, RawSize(size)) + (TypeCode(ty) + (LargeSize(size) + (Extended(ty) + rest)))
  {
    Pow256Widths();
  }

  /** The size field and its largesize read back. */
  lemma SizeRoundTrip(size: BoxSize, rest: Bytes)
    requires size.Small? ==> size.small >= 2
    ensures ParseBoxSize(RawSize(size), LargeSize(size) + rest) == Ok(Parsed(size, rest))
  {
    match size
    case Large(n) =>
      ReadU64RoundTrip(Big, n, rest);
    case _ =>
      assert LargeSize(size) + rest == rest;
  }

  /** The type field and its extended type read back. */
  lemma TypeRoundTrip(ty: BoxType, rest: Bytes)
    requires ty.Id? ==> ty.id != UuidCode
    ensures ParseBoxType(TypeCode(ty), Extended(ty) + rest) == Ok(Parsed(ty, rest))
  {
    match ty
    case Uuid(u) =>
      assert (u + rest)[..16] == u && (u + rest)[16..] == rest;
    case Id(_) =>
      assert Extended(ty) + rest == rest;
  }

  /** `BoxHeader::payload_len`: the box size less the header, saturating at
      0; unknown for a box that runs to the end of the input. */
  function PayloadLen(h: BoxHeader): (r: Option<uint64>)
    ensures r.None? <==> h.boxSize.Eof?
    ensures h.boxSize.Small? ==>
              r.value as int == if h.boxSize.small >= h.headerLen as int then h.boxSize.small - h.headerLen as int else 0
    ensures h.boxSize.Large? ==>
              r.value as int == if h.boxSize.large >= h.headerLen as int then h.boxSize.large - h.headerLen as int else 0
  {
    match h.boxSize
    case Small(n) => Some(SatSub(n, h.headerLen as nat))
    case Large(n) => Some(SatSub(n, h.headerLen as nat))
    case Eof => None
  }

  /** How many payload bytes `payload` and `eat_payload` take: the payload
      length, or everything left for a box that runs to the end. */
  function PayloadTake(h: BoxHeader, input: Bytes): nat
  {
    match PayloadLen(h)
    case Some(n) => n
    case None => |input|
  }

  /** `BoxHeader::payload`: the payload and the input after it, or nothing
      when fewer bytes remain than the payload needs. */
  function Payload(h: BoxHeader, input: Bytes): (r: Option<Parsed<Bytes>>)
    ensures r.Some? <==> PayloadTake(h, input) <= |input|
    ensures h.boxSize.Eof? ==> r.Some? && r.value.value == input && r.value.rest == []
    ensures r.Some? ==> |r.value.value| == PayloadTake(h, input) && r.value.value + r.value.rest == input
  {
    Take(PayloadTake(h, input), input)
  }

  /** `BoxHeader::eat_payload`: the input after the payload. */
  function EatPayload(h: BoxHeader, input: Bytes): (r: Option<Bytes>)
    ensures r.Some? <==> Payload(h, input).Some?
    ensures r.Some? ==> r.value == Payload(h, input).value.rest
  {
    var p :- Take(PayloadTake(h, input), input);
    Some(p.rest)
  }
}

=== FILE: bytes.dfy ===
/** Byte sequences, fixed-width integers and the winnow primitives the parsers
    are built from (`take`, `u8`, `be_u16`/`le_u16`, `be_u32`/`le_u32`,
    `be_u64`).

    Every primitive is a pure function from the remaining input to
    `Option<Parsed<T>>`: `None` is winnow's backtracking error, which leaves
    the caller's input untouched, and `Some(Parsed(v, rest))` carries the
    value and the input that remains after it.
 */
module Bytes {
  import opened Std

  type uint8 = x: int | 0 <= x < 0x100
  type uint16 = x: int | 0 <= x < 0x1_0000
  type uint32 = x: int | 0 <= x < 0x1_0000_0000
  type uint64 = x: int | 0 <= x < 0x1_0000_0000_0000_0000
  type int32 = x: int | -0x8000_0000 <= x < 0x8000_0000
  type int64 = x: int | -0x8000_0000_0000_0000 <= x < 0x8000_0000_0000_0000

  type Bytes = seq<uint8>

  const U32_MAX: uint32 := 0xFFFF_FFFF

  /** A four-character code: a box type, a brand, a chunk name. */
  type FourCC = s: Bytes | |s| == 4 witness [0, 0, 0, 0]

  /** Byte order of a multi-byte integer. */
  datatype Endianness = Little | Big

  /** A parser's successful result: the value and the input left after it. */
  datatype Parsed<T> = Parsed(value: T, rest: Bytes)

  /** `256` to the power `n`. */
  function Pow256(n: nat): (r: nat)
    ensures r >= 1
  {
    if n == 0 then 1 else 256 * Pow256(n - 1)
  }

  /** The number whose base-256 digits are `s`, most significant first. */
  function BeValue(s: Bytes): nat
  {
    if |s| == 0 then 0 else BeValue(s[..|s| - 1]) * 256 + s[|s| - 1]
  }

  /** The number whose base-256 digits are `s`, least significant first. */
  function LeValue(s: Bytes): nat
  {
    if |s| == 0 then 0 else s[0] + 256 * LeValue(s[1..])
  }

  function Value(e: Endianness, s: Bytes): nat
  {
    match e
    case Big => BeValue(s)
    case Little => LeValue(s)
  }

  /** Rust's `to_be_bytes` for an `n`-byte integer. */
  function BeEncode(n: nat, x: nat): (r: Bytes)
    requires x < Pow256(n)
    ensures |r| == n && BeValue(r) == x
  {
    if n == 0 then []
    else
      var r := BeEncode(n - 1, x / 256) + [x % 256];
      assert r[..|r| - 1] == BeEncode(n - 1, x / 256);
      r
  }

  /** Rust's `to_le_bytes` for an `n`-byte integer. */
  function LeEncode(n: nat, x: nat): (r: Bytes)
    requires x < Pow256(n)
    ensures |r| == n && LeValue(r) == x
  {
    if n == 0 then []
    else
      var r := [x % 256] + LeEncode(n - 1, x / 256);
      assert r[1..] == LeEncode(n - 1, x / 256);
      r
  }

  function Encode(e: Endianness, n: nat, x: nat): (r: Bytes)
    requires x < Pow256(n)
    ensures |r| == n && Value(e, r) == x
  {
    match e
    case Big => BeEncode(n, x)
    case Little => LeEncode(n, x)
  }

  lemma Pow256Widths()
    ensures Pow256(1) == 0x100 && Pow256(2) == 0x1_0000
    ensures Pow256(4) == 0x1_0000_0000 && Pow256(8) == 0x1_0000_0000_0000_0000
  {
    assert Pow256(1) == 0x100;
    assert Pow256(2) == 0x1_0000;
    assert Pow256(3) == 0x100_0000;
    assert Pow256(4) == 0x1_0000_0000;
    assert Pow256(5) == 0x100_0000_0000;
    assert Pow256(6) == 0x1_0000_0000_0000;
    assert Pow256(7) == 0x100_0000_0000_0000;
  }

  /** An `n`-byte sequence always denotes a number below `256^n`. */
  lemma {:induction false} ValueBound(e: Endianness, s: Bytes)
    ensures Value(e, s) < Pow256(|s|)
  {
    if |s| > 0 {
      match e
      case Big => ValueBound(e, s[..|s| - 1]);
      case Little => ValueBound(e, s[1..]);
    }
  }

  /** Splitting off the lowest base-256 digit. */
  lemma DigitDivMod(v: nat, b: nat)
    requires b < 256
    ensures (v * 256 + b) / 256 == v && (v * 256 + b) % 256 == b
  {
  }

  /** Decoding then re-encoding gives back the very same bytes. */
  lemma {:induction false} EncodeValue(e: Endianness, s: Bytes)
    ensures Value(e, s) < Pow256(|s|) && Encode(e, |s|, Value(e, s)) == s
  {
    ValueBound(e, s);
    match e
    case Big => BeEncodeValue(s);
    case Little => LeEncodeValue(s);
  }

  lemma {:induction false} BeEncodeValue(s: Bytes)
    ensures BeValue(s) < Pow256(|s|) && BeEncode(|s|, BeValue(s)) == s
  {
    ValueBound(Big, s);
    if |s| > 0 {
      var init := s[..|s| - 1];
      BeEncodeValue(init);
      DigitDivMod(BeValue(init), s[|s| - 1]);
      assert s == init + [s[|s| - 1]];
    }
  }

  lemma {:induction false} LeEncodeValue(s: Bytes)
    ensures LeValue(s) < Pow256(|s|) && LeEncode(|s|, LeValue(s)) == s
  {
    ValueBound(Little, s);
    if |s| > 0 {
      var tail := s[1..];
      LeEncodeValue(tail);
      DigitDivMod(LeValue(tail), s[0]);
      assert LeValue(s) == LeValue(tail) * 256 + s[0];
      assert s == [s[0]] + tail;
    }
  }

  /** Little-endian values of two and four bytes, digit by digit. */
  lemma LeDigits(s: Bytes)
    ensures |s| == 2 ==> LeValue(s) == s[0] as int + 0x100 * s[1] as int
    ensures |s| == 4 ==> LeValue(s) == s[0] as int + 0x100 * s[1] as int + 0x1_0000 * s[2] as int + 0x100_0000 * s[3] as int
  {
    if |s| == 2 {
      assert s[1..][1..] == [];
      assert LeValue(s[1..]) == s[1] as int;
    }
    if |s| == 4 {
      assert s[3..][1..] == [];
      assert LeValue(s[3..]) == s[3] as int;
      assert s[2..][1..] == s[3..];
      assert LeValue(s[2..]) == s[2] as int + 0x100 * s[3] as int;
      assert s[1..][1..] == s[2..];
      assert LeValue(s[1..]) == s[1] as int + 0x100 * s[2] as int + 0x1_0000 * s[3] as int;
    }
  }

  /** Two byte strings of one length that denote the same number are equal. */
  lemma ValueInjective(e: Endianness, a: Bytes, b: Bytes)
    requires |a| == |b| && Value(e, a) == Value(e, b)
    ensures a == b
  {
    EncodeValue(e, a);
    EncodeValue(e, b);
  }

  /** winnow's `take(n)`: the first `n` bytes, or failure when fewer remain. */
  function Take(n: nat, input: Bytes): (r: Option<Parsed<Bytes>>)
    ensures r.Some? <==> n <= |input|
    ensures r.Some? ==> |r.value.value| == n && r.value.value + r.value.rest == input
  {
    if n <= |input| then Some(Parsed(input[..n], input[n..])) else None
  }

  /** An `n`-byte unsigned integer in byte order `e` (winnow's `u8`, `be_u16`,
      `le_u32`, `be_u64`, ...). */
  function ReadUint(e: Endianness, n: nat, input: Bytes): (r: Option<Parsed<nat>>)
    ensures r.Some? <==> n <= |input|
    ensures r.Some? ==> r.value.value < Pow256(n) && r.value.rest == input[n..]
    ensures r.Some? ==> Encode(e, n, r.value.value) == input[..n]
  {
    if n <= |input| then
      ValueBound(e, input[..n]);
      EncodeValue(e, input[..n]);
      Some(Parsed(Value(e, input[..n]), input[n..]))
    else None
  }

  function ReadU8(input: Bytes): (r: Option<Parsed<uint8>>)
    ensures r.Some? <==> |input| >= 1
    ensures r.Some? ==> r.value.value == input[0] && r.value.rest == input[1..]
  {
    if |input| >= 1 then Some(Parsed(input[0], input[1..])) else None
  }

  function ReadU16(e: Endianness, input: Bytes): (r: Option<Parsed<uint16>>)
    ensures r.Some? <==> |input| >= 2
    ensures r.Some? ==> r.value.rest == input[2..] && Encode(e, 2, r.value.value) == input[..2]
  {
    var p :- ReadUint(e, 2, input);
    Pow256Widths();
    var v: uint16 := p.value;
    Some(Parsed(v, p.rest))
  }

  function ReadU32(e: Endianness, input: Bytes): (r: Option<Parsed<uint32>>)
    ensures r.Some? <==> |input| >= 4
    ensures r.Some? ==> r.value.rest == input[4..] && Encode(e, 4, r.value.value) == input[..4]
  {
    var p :- ReadUint(e, 4, input);
    Pow256Widths();
    var v: uint32 := p.value;
    Some(Parsed(v, p.rest))
  }

  function ReadU64(e: Endianness, input: Bytes): (r: Option<Parsed<uint64>>)
    ensures r.Some? <==> |input| >= 8
    ensures r.Some? ==> r.value.rest == input[8..] && Encode(e, 8, r.value.value) == input[..8]
  {
    var p :- ReadUint(e, 8, input);
    Pow256Widths();
    var v: uint64 := p.value;
    Some(Parsed(v, p.rest))
  }

  /** A prefix of a suffix is a middle slice. */
  lemma SliceOfSuffix<T>(s: seq<T>, a: nat, w: nat)
    requires a + w <= |s|
    ensures s[a..][..w] == s[a..a + w]
  {
  }

  /** A suffix splits at any later point into two pieces. */
  lemma SplitSuffix<T>(s: seq<T>, a: nat, b: nat)
    requires a <= b <= |s|
    ensures s[a..] == s[a..b] + s[b..]
  {
  }

  /** A 16-bit integer that was read is laid out in front of what is left. */
  lemma ReadU16Bytes(e: Endianness, input: Bytes)
    requires ReadU16(e, input).Some?
    ensures Pow256(2) == 0x1_0000
    ensures input == Encode(e, 2, ReadU16(e, input).value.value) + ReadU16(e, input).value.rest
  {
    Pow256Widths();
    assert input == input[..2] + input[2..];
  }

  /** A 32-bit integer that was read is laid out in front of what is left. */
  lemma ReadU32Bytes(e: Endianness, input: Bytes)
    requires ReadU32(e, input).Some?
    ensures Pow256(4) == 0x1_0000_0000
    ensures input == Encode(e, 4, ReadU32(e, input).value.value) + ReadU32(e, input).value.rest
  {
    Pow256Widths();
    assert input == input[..4] + input[4..];
  }

  /** Concatenation regroups freely. */
  lemma AppendAssoc<T>(a: seq<T>, b: seq<T>, c: seq<T>)
    ensures (a + b) + c == a + (b + c)
  {
  }

  /** A nonempty sequence is its head in front of its tail. */
  lemma HeadTail<T>(s: seq<T>)
    requires s != []
    ensures [s[0]] + s[1..] == s
  {
  }

  /** The four pieces of a concatenation, sliced back out. */
  lemma Concat4Slices<T>(a: seq<T>, b: seq<T>, c: seq<T>, d: seq<T>)
    ensures var s := a + b + c + d;
            var i, j, k := |a|, |a| + |b|, |a| + |b| + |c|;
            s[..i] == a && s[i..j] == b && s[j..k] == c && s[k..] == d
  {
    var s := a + b + c + d;
    assert s[..|a|] == a;
    assert s[|a|..|a| + |b|] == b;
    assert s[|a| + |b|..|a| + |b| + |c|] == c;
    assert s[|a| + |b| + |c|..] == d;
  }

  /** A prefix splits at any point into two pieces. */
  lemma SplitPrefix<T>(s: seq<T>, a: nat, w: nat)
    requires a + w <= |s|
    ensures s[..a + w] == s[..a] + s[a..][..w]
  {
  }

  /** Every reader reads back what the matching encoder wrote. */
  lemma ReadUintRoundTrip(e: Endianness, n: nat, x: nat, rest: Bytes)
    requires x < Pow256(n)
    ensures ReadUint(e, n, Encode(e, n, x) + rest) == Some(Parsed(x, rest))
  {
    var s := Encode(e, n, x) + rest;
    assert s[..n] == Encode(e, n, x) && s[n..] == rest;
  }

  lemma ReadU16RoundTrip(e: Endianness, x: uint16, rest: Bytes)
    ensures Pow256(2) == 0x1_0000 && ReadU16(e, Encode(e, 2, x) + rest) == Some(Parsed(x, rest))
  {
    Pow256Widths();
    ReadUintRoundTrip(e, 2, x, rest);
  }

  lemma ReadU32RoundTrip(e: Endianness, x: uint32, rest: Bytes)
    ensures Pow256(4) == 0x1_0000_0000 && ReadU32(e, Encode(e, 4, x) + rest) == Some(Parsed(x, rest))
  {
    Pow256Widths();
    ReadUintRoundTrip(e, 4, x, rest);
  }

  lemma ReadU64RoundTrip(e: Endianness, x: uint64, rest: Bytes)
    ensures Pow256(8) == 0x1_0000_0000_0000_0000 && ReadU64(e, Encode(e, 8, x) + rest) == Some(Parsed(x, rest))
  {
    Pow256Widths();
    ReadUintRoundTrip(e, 8, x, rest);
  }

  /** Rust's `as i32` on a `u32`: two's complement reinterpretation. */
  function AsI32(x: uint32): int32
  {
    if x < 0x8000_0000 then x else x - 0x1_0000_0000
  }

  /** Rust's `as u32` on a `usize`, and u32 arithmetic in a release build:
      truncation to the low 32 bits. */
  function WrapU32(x: int): (r: uint32)
    ensures 0 <= x < 0x1_0000_0000 ==> r == x
  {
    x % 0x1_0000_0000
  }

  /** Rust's `saturating_sub` on unsigned integers. */
  function SatSub(a: nat, b: nat): nat
  {
    if a >= b then a - b else 0
  }

  /** Rust's `u8::saturating_add`. */
  function SatAddU8(a: uint8, b: uint8): uint8
  {
    if a + b > 0xFF then 0xFF else a + b
  }

  /** ASCII text as bytes, for the four-character codes and signatures the
      parsers compare against. */
  function Ascii(s: string): Bytes
    requires forall i | 0 <= i < |s| :: s[i] as int < 0x100
    ensures |Ascii(s)| == |s|
  {
    if |s| == 0 then [] else [s[0] as int] + Ascii(s[1..])
  }

  /** `p` lies in `s` from position `i` on. */
  predicate InfixAt(p: Bytes, s: Bytes, i: int)
  {
    0 <= i && i + |p| <= |s| && s[i..i + |p|] == p
  }

  /** `p` lies somewhere in `s`. */
  ghost predicate InfixOf(p: Bytes, s: Bytes)
  {
    exists i :: InfixAt(p, s, i)
  }

  /** Something in a suffix is in the whole. */
  lemma InfixOfSuffix(p: Bytes, s: Bytes, k: nat)
    requires k <= |s| && InfixOf(p, s[k..])
    ensures InfixOf(p, s)
  {
    var i :| InfixAt(p, s[k..], i);
    assert InfixAt(p, s, k + i);
  }

  /** Dropping the front of a tail leaves a tail. */
  lemma SuffixOfSuffix(input: Bytes, rest: Bytes, n: nat)
    requires |rest| <= |input| && input[|input| - |rest|..] == rest && n <= |rest|
    ensures input[|input| - |rest[n..]|..] == rest[n..]
  {
    assert input[|input| - |rest| + n..] == input[|input| - |rest|..][n..];
  }

  /** A suffix of a suffix is a suffix. */
  lemma SuffixChain(input: Bytes, tail: Bytes, rest: Bytes)
    requires |tail| <= |input| && input[|input| - |tail|..] == tail
    requires |rest| <= |tail| && tail[|tail| - |rest|..] == rest
    ensures input[|input| - |rest|..] == rest
  {
    SuffixOfSuffix(input, tail, |tail| - |rest|);
  }

  /** The front of a tail lies in the whole. */
  lemma PrefixOfSuffix(input: Bytes, rest: Bytes, n: nat)
    requires |rest| <= |input| && input[|input| - |rest|..] == rest && n <= |rest|
    ensures InfixOf(rest[..n], input)
  {
    var k := |input| - |rest|;
    assert input[k..k + n] == input[k..][..n];
    assert InfixAt(rest[..n], input, k);
  }
}

=== FILE: datatype_map.dfy ===
/** The IPTC code generator's mapping from IPTC `datatype`s to Rust types
    (`datatype` in raves_metadata_types/build.rs), the Rust spelling of those
    types, and the generated `match` arms of `from_xmp_id`
    (`match_variants`). */
module DatatypeMap {
  import opened Std

  /** `DatatypeKind`. */
  datatype DatatypeKind = StringKind | Integer | MaybeFloat | CrateType(ident: string)

  /** `Datatype`: `T`, or `Vec<T>` when `vec`, wrapped in `Option` unless
      `required`. */
  datatype Datatype = Datatype(vec: bool, required: bool, kind: DatatypeKind)

  // ---------------------------------------------------------------------
  // Predicates

  /** `is_primitive`. */
  predicate IsPrimitive(t: Datatype)
  {
    !t.vec && match t.kind
              case CrateType(_) => false
              case _ => true
  }

  /** `is_vec`. */
  predicate IsVec(t: Datatype) { t.vec }

  /** `is_struct`. */
  predicate IsStruct(t: Datatype)
  {
    match t.kind
    case CrateType(_) => true
    case _ => false
  }

  /** A type is primitive exactly when it is neither a vec nor a struct. */
  lemma PrimitiveIffNeither(t: Datatype)
    ensures IsPrimitive(t) <==> !IsVec(t) && !IsStruct(t)
    ensures IsStruct(t) <==> t.kind.CrateType?
  {
  }

  // ---------------------------------------------------------------------
  // iptc_type_to_rust_type

  /** What the mapping gives: a type, or a panic (`panic!` on an unknown
      IPTC type, `expect` on a struct without a data format). */
  datatype TypeOutcome = Type(t: Datatype) | Panics

  /** The struct data formats that are plain strings in Rust. */
  predicate StringFormat(f: string)
  {
    f == "AltLang" || f == "uri" || f == "url" || f == "date-time"
  }

  /** `iptc_type_to_rust_type`. */
  function IptcTypeToRustType(iptcType: string, multi: bool, required: bool, dataformat: Option<string>): (r: TypeOutcome)
    ensures r.Type? ==> r.t.vec == multi && r.t.required == required
    ensures r.Panics? <==>
              || (iptcType != "struct" && iptcType != "string" && iptcType != "number")
              || (iptcType == "struct" && dataformat.None?)
    ensures r.Type? && IsStruct(r.t) ==> iptcType == "struct"
  {
    if iptcType == "struct" then
      match dataformat
      case None => Panics
      case Some(f) =>
        if StringFormat(f) then Type(Datatype(multi, required, StringKind))
        else Type(Datatype(multi, required, CrateType(f)))
    else if iptcType == "string" then Type(Datatype(multi, required, StringKind))
    else if iptcType == "number" then
      Type(Datatype(multi, required, if dataformat == Some("integer") then Integer else MaybeFloat))
    else Panics
  }

  /** The kind each IPTC type maps to: strings and the string-like struct
      formats to `String`, numbers to `i64` only with the `integer` format,
      every other struct format to the generated struct of that name. */
  lemma IptcKinds(iptcType: string, multi: bool, required: bool, dataformat: Option<string>)
    ensures var r := IptcTypeToRustType(iptcType, multi, required, dataformat);
            && (iptcType == "string" ==> r.Type? && r.t.kind == StringKind)
            && (iptcType == "number" ==> r.Type? && r.t.kind == (if dataformat == Some("integer") then Integer else MaybeFloat))
            && (iptcType == "struct" && dataformat.Some? && StringFormat(dataformat.value) ==> r.Type? && r.t.kind == StringKind)
            && (iptcType == "struct" && dataformat.Some? && !StringFormat(dataformat.value) ==>
                  r.Type? && r.t.kind == CrateType(dataformat.value))
  {
  }

  /** A mapped type is primitive exactly when it is not multi-valued and
      does not name a generated struct. */
  lemma MappedPrimitive(iptcType: string, multi: bool, required: bool, dataformat: Option<string>)
    requires IptcTypeToRustType(iptcType, multi, required, dataformat).Type?
    ensures IsPrimitive(IptcTypeToRustType(iptcType, multi, required, dataformat).t) <==>
              !multi && !(iptcType == "struct" && !StringFormat(dataformat.value))
  {
  }

  // ---------------------------------------------------------------------
  // The Rust spelling (`impl Display for Datatype`)

  const OptionOpen: string := "::core::option::Option<"
  const VecOpen: string := "::alloc::vec::Vec<"
  const StringName: string := "::alloc::string::String"
  const StructPath: string := "crate::iptc::structs::"

  /** The spelling of a kind. */
  function KindName(k: DatatypeKind): string
  {
    match k
    case StringKind => StringName
    case Integer => "i64"
    case MaybeFloat => "f64"
    case CrateType(ident) => StructPath + ident
  }

  /** `Display`: `Option<` outermost when not required, then `Vec<` when
      a vec, then the kind, then one `>` per opened bracket. */
  function Display(t: Datatype): (r: string)
    ensures !t.required ==> OptionOpen <= r && r[|r| - 1] == '>'
    ensures t.vec && t.required ==> VecOpen <= r && r[|r| - 1] == '>'
    ensures |r| == (if t.required then 0 else |OptionOpen| + 1) + (if t.vec then |VecOpen| + 1 else 0) + |KindName(t.kind)|
  {
    var inner := if t.vec then VecOpen + KindName(t.kind) + ">" else KindName(t.kind);
    if t.required then inner else OptionOpen + inner + ">"
  }

  /** The kind a spelling names, if any. */
  function ParseKindName(s: string): Option<DatatypeKind>
  {
    if s == StringName then Some(StringKind)
    else if s == "i64" then Some(Integer)
    else if s == "f64" then Some(MaybeFloat)
    else if StructPath <= s then Some(CrateType(s[|StructPath|..]))
    else None
  }

  /** Strips `open` and a final `>` when `s` starts with `open`. */
  function Unwrap(open: string, s: string): Option<string>
  {
    if open <= s && |s| > |open| && s[|s| - 1] == '>' then Some(s[|open|..|s| - 1]) else None
  }

  /** Reads a Rust spelling back into a datatype. */
  function ParseRustType(s: string): (r: Option<Datatype>)
    ensures r.Some? ==> Display(r.value) == s
  {
    var (required, s1) := match Unwrap(OptionOpen, s)
                          case Some(x) => (false, x)
                          case None => (true, s);
    var (vec, s2) := match Unwrap(VecOpen, s1)
                     case Some(x) => (true, x)
                     case None => (false, s1);
    match ParseKindName(s2)
    case None => None
    case Some(k) =>
      DisplayParts(Datatype(vec, required, k), s, s1, s2);
      Some(Datatype(vec, required, k))
  }

  lemma DisplayParts(t: Datatype, s: string, s1: string, s2: string)
    requires !t.required ==> Unwrap(OptionOpen, s).Some?
    requires s1 == (if t.required then s else Unwrap(OptionOpen, s).value)
    requires t.vec ==> Unwrap(VecOpen, s1).Some?
    requires s2 == (if t.vec then Unwrap(VecOpen, s1).value else s1)
    requires ParseKindName(s2) == Some(t.kind)
    ensures Display(t) == s
  {
    ParsedKindName(s2);
    if t.vec {
      UnwrapJoin(VecOpen, s1);
    }
    if !t.required {
      UnwrapJoin(OptionOpen, s);
    }
  }

  /** A spelling that reads as a kind is that kind's spelling. */
  lemma ParsedKindName(s: string)
    requires ParseKindName(s).Some?
    ensures KindName(ParseKindName(s).value) == s
  {
    if s != StringName && s != "i64" && s != "f64" {
      assert s == StructPath + s[|StructPath|..];
    }
  }

  /** What `Unwrap` strips, joined back, is the original. */
  lemma UnwrapJoin(open: string, s: string)
    requires Unwrap(open, s).Some?
    ensures s == open + Unwrap(open, s).value + ">"
  {
    assert s == s[..|open|] + s[|open|..|s| - 1] + [s[|s| - 1]];
  }

  /** `Unwrap` strips what joining adds. */
  lemma UnwrapOfJoin(open: string, x: string)
    ensures Unwrap(open, open + x + ">") == Some(x)
  {
    var s := open + x + ">";
    assert s[..|open|] == open && s[|open|..|s| - 1] == x;
  }

  /** No kind's spelling starts like `Option<` or `Vec<`. */
  lemma KindNameUnwrapped(k: DatatypeKind)
    ensures Unwrap(OptionOpen, KindName(k)).None?
    ensures Unwrap(VecOpen, KindName(k)).None?
  {
    var n := KindName(k);
    assert OptionOpen[0] == ':' && OptionOpen[2] == 'c' && VecOpen[0] == ':' && VecOpen[9] == 'v';
    match k
    case StringKind =>
      assert n[2] == 'a' && n[9] == 's';
    case Integer =>
      assert n[0] == 'i';
    case MaybeFloat =>
      assert n[0] == 'f';
    case CrateType(ident) =>
      assert n[0] == 'c';
  }

  /** The kind name read back. */
  lemma KindNameRoundTrip(k: DatatypeKind)
    ensures ParseKindName(KindName(k)) == Some(k)
  {
    var n := KindName(k);
    match k
    case StringKind =>
    case Integer =>
    case MaybeFloat =>
    case CrateType(ident) =>
      assert StructPath <= n && n[|StructPath|..] == ident;
      assert n != StringName by { assert |StructPath| == 22 && n[0] == 'c'; }
      assert n != "i64" && n != "f64" by { assert |n| >= 22; }
  }

  /** A `Vec<...>` spelling never starts like `Option<`. */
  lemma VecNotOption(inner: string)
    ensures Unwrap(OptionOpen, VecOpen + inner + ">").None?
  {
    var s := VecOpen + inner + ">";
    assert s[2] == 'a' && OptionOpen[2] == 'c';
  }

  /** Every datatype's spelling reads back as that datatype. */
  lemma DisplayRoundTrip(t: Datatype)
    ensures ParseRustType(Display(t)) == Some(t)
  {
    var n := KindName(t.kind);
    KindNameUnwrapped(t.kind);
    KindNameRoundTrip(t.kind);
    var inner := if t.vec then VecOpen + n + ">" else n;
    if t.vec {
      VecNotOption(n);
      UnwrapOfJoin(VecOpen, n);
    }
    if !t.required {
      UnwrapOfJoin(OptionOpen, inner);
    }
  }

  /** Two datatypes with the same spelling are the same datatype. */
  lemma DisplayInjective(a: Datatype, b: Datatype)
    requires Display(a) == Display(b)
    ensures a == b
  {
    DisplayRoundTrip(a);
    DisplayRoundTrip(b);
  }

  // ---------------------------------------------------------------------
  // match_variants

  /** The indentation every arm starts with. */
  const ArmIndent: string := "            "

  /** The catch-all arm that ends every generated `match`. */
  const FinalArm: string := ArmIndent + "_ => None,\n"

  /** The concatenation of `parts`. */
  function Join(parts: seq<string>): string
  {
    if parts == [] then "" else parts[0] + Join(parts[1..])
  }

  /** The arm for a variant with an XMP id: `"t" => Some(G::V),`. */
  function Arm(variant: string, t: string, toGen: string): string
  {
    Join([ArmIndent, "\"", t, "\"", " => Some(", toGen, "::", variant, ")", ",\n"])
  }

  /** A table entry: a variant name and, maybe, its XMP id. */
  type Entry = (string, Option<string>)

  /** The arm an entry gives, if it has an id. */
  function EntryArm(entry: Entry, toGen: string): Option<string>
  {
    match entry.1
    case None => None
    case Some(t) => Some(Arm(entry.0, t, toGen))
  }

  /** `EntryArm` for one `toGen`, as the fold's closure. */
  function ArmsFn(toGen: string): Entry -> Option<string>
  {
    e => EntryArm(e, toGen)
  }

  /** The fold of `match_variants`, over any closure that may skip an
      entry: a skipped entry leaves the accumulator alone, any other appends
      its arm. */
  function ArmsFold<T>(table: seq<T>, arm: T -> Option<string>, acc: string): (r: string)
    ensures acc <= r
    decreases |table|
  {
    if table == [] then acc
    else
      match arm(table[0])
      case None => ArmsFold(table[1..], arm, acc)
      case Some(a) => ArmsFold(table[1..], arm, acc + a)
  }

  /** `match_variants`: the arms, then the catch-all. */
  function MatchVariants(table: seq<Entry>, toGen: string): (r: string)
    ensures |r| >= |FinalArm| && r[|r| - |FinalArm|..] == FinalArm
  {
    var arms := ArmsFold(table, ArmsFn(toGen), "");
    assert (arms + FinalArm)[|arms|..] == FinalArm;
    arms + FinalArm
  }

  /** What an entry contributes: its arm, or nothing. */
  function ArmText<T>(arm: T -> Option<string>, x: T): string
  {
    match arm(x)
    case None => ""
    case Some(a) => a
  }

  /** The entries' arms, entry by entry. */
  function ArmsOf<T>(table: seq<T>, arm: T -> Option<string>): string
  {
    if table == [] then "" else ArmText(arm, table[0]) + ArmsOf(table[1..], arm)
  }

  lemma {:induction false} ArmsFoldIs<T>(table: seq<T>, arm: T -> Option<string>, acc: string)
    ensures ArmsFold(table, arm, acc) == acc + ArmsOf(table, arm)
  {
    if table != [] {
      var h := ArmText(arm, table[0]);
      ArmsFoldIs(table[1..], arm, acc + h);
      if arm(table[0]).None? {
        assert acc + h == acc;
      }
      assert acc + h + ArmsOf(table[1..], arm) == acc + ArmsOf(table, arm);
    }
  }

  /** The generated match is the entries' arms in table order, then the
      catch-all. */
  lemma MatchVariantsIsArms(table: seq<Entry>, toGen: string)
    ensures MatchVariants(table, toGen) == ArmsOf(table, ArmsFn(toGen)) + FinalArm
  {
    ArmsFoldIs(table, ArmsFn(toGen), "");
    assert "" + ArmsOf(table, ArmsFn(toGen)) == ArmsOf(table, ArmsFn(toGen));
  }

  lemma {:induction false} ArmsOfAppend<T>(a: seq<T>, b: seq<T>, arm: T -> Option<string>)
    ensures ArmsOf(a + b, arm) == ArmsOf(a, arm) + ArmsOf(b, arm)
  {
    if a == [] {
      assert a + b == b;
    } else {
      assert (a + b)[0] == a[0] && (a + b)[1..] == a[1..] + b;
      ArmsOfAppend(a[1..], b, arm);
      var h := ArmText(arm, a[0]);
      assert h + (ArmsOf(a[1..], arm) + ArmsOf(b, arm)) == (h + ArmsOf(a[1..], arm)) + ArmsOf(b, arm);
    }
  }

  /** One entry contributes its own arm. */
  lemma ArmsOfOne<T>(x: T, arm: T -> Option<string>)
    ensures ArmsOf([x], arm) == ArmText(arm, x)
  {
    assert [x][1..] == [];
    assert ArmText(arm, x) + "" == ArmText(arm, x);
  }

  lemma ArmsOfSplit<T>(table: seq<T>, arm: T -> Option<string>, i: nat)
    requires i < |table|
    ensures ArmsOf(table, arm) == ArmsOf(table[..i], arm) + ArmText(arm, table[i]) + ArmsOf(table[i + 1..], arm)
  {
    var before, one, after := table[..i], [table[i]], table[i + 1..];
    var rest := one + after;
    assert table == before + rest;
    ArmsOfAppend(before, rest, arm);
    ArmsOfAppend(one, after, arm);
    var m := ArmText(arm, table[i]);
    ArmsOfOne(table[i], arm);
    var a, z := ArmsOf(before, arm), ArmsOf(after, arm);
    assert a + (m + z) == a + m + z;
  }

  /** Every entry with an id has its arm in place: after the arms of the
      entries before it and before those of the entries after it. */
  lemma ArmAt(table: seq<Entry>, toGen: string, i: nat)
    requires i < |table| && table[i].1.Some?
    ensures MatchVariants(table, toGen) ==
              ArmsOf(table[..i], ArmsFn(toGen)) + Arm(table[i].0, table[i].1.value, toGen)
                + ArmsOf(table[i + 1..], ArmsFn(toGen)) + FinalArm
  {
    MatchVariantsIsArms(table, toGen);
    ArmsOfSplit(table, ArmsFn(toGen), i);
  }

  /** Entries without an id contribute nothing. */
  lemma {:induction false} ArmsOfNone<T>(table: seq<T>, arm: T -> Option<string>)
    requires forall i | 0 <= i < |table| :: arm(table[i]).None?
    ensures ArmsOf(table, arm) == ""
  {
    if table != [] {
      ArmsOfNone(table[1..], arm);
    }
  }

  /** A table with no ids gives only the catch-all. */
  lemma MatchVariantsAllNone(table: seq<Entry>, toGen: string)
    requires forall i | 0 <= i < |table| :: table[i].1.None?
    ensures MatchVariants(table, toGen) == FinalArm
  {
    MatchVariantsIsArms(table, toGen);
    ArmsOfNone(table, ArmsFn(toGen));
  }
}

=== FILE: exif.dfy ===
/** The Exif blob reader (raves_metadata/src/exif/mod.rs): the byte-order
    mark, the TIFF magic number, the header offset, the first IFD and the
    chain of IFDs after it.
 */
module ExifBlob {
  import opened Std
  import opened Bytes
  import opened ExifTags
  import opened ExifTypes
  import opened ExifPrimitives
  import opened ExifValue
  import opened ExifIfd

  /** `Exif`: the blob's byte order and its chained IFDs in chain order. */
  datatype Exif = Exif(endianness: Endianness, ifds: seq<Ifd>)

  /** The two ASCII bytes that open a blob of each byte order. */
  function ByteOrderMark(e: Endianness): (r: Bytes)
    ensures |r| == 2
  {
    match e
    case Little => [0x49, 0x49]
    case Big => [0x4D, 0x4D]
  }

  /** `parse_blob_endianness`: `II` is little-endian, `MM` big-endian; any
      other pair is reported, and fewer than two bytes reports the length
      cast to `u8`. */
  function ParseBlobEndianness(input: Bytes): (r: Result<Parsed<Endianness>, ExifFatalError>)
    ensures |input| < 2 ==> r == Err(NoByteOrderMarker(|input| % 0x100))
    ensures r.Ok? <==> |input| >= 2 && (input[..2] == ByteOrderMark(Little) || input[..2] == ByteOrderMark(Big))
    ensures r.Ok? ==> ByteOrderMark(r.value.value) == input[..2] && r.value.rest == input[2..]
    ensures r.Err? && |input| >= 2 ==> r == Err(WeirdByteOrderMarker(input[..2]))
  {
    if |input| < 2 then Err(NoByteOrderMarker(|input| % 0x100))
    else if input[0] == 0x49 && input[1] == 0x49 then Ok(Parsed(Little, input[2..]))
    else if input[0] == 0x4D && input[1] == 0x4D then Ok(Parsed(Big, input[2..]))
    else Err(WeirdByteOrderMarker(input[..2]))
  }

  /** The byte-order mark reads back as the byte order it was written for. */
  lemma ByteOrderMarkRoundTrip(e: Endianness, rest: Bytes)
    ensures ParseBlobEndianness(ByteOrderMark(e) + rest) == Ok(Parsed(e, rest))
  {
    assert (ByteOrderMark(e) + rest)[2..] == rest;
  }

  /** The TIFF magic number. */
  const TiffMagic: uint16 := 42

  /** `parse_tiff_magic_number`: a `u16` in the blob's byte order that must
      be 42. */
  function ParseTiffMagicNumber(e: Endianness, input: Bytes): (r: Result<Bytes, ExifFatalError>)
    ensures |input| < 2 <==> r == Err(NoTiffMagicNumber)
    ensures r.Ok? <==> |input| >= 2 && Value(e, input[..2]) == TiffMagic as int
    ensures r.Ok? ==> r.value == input[2..]
    ensures r.Err? && |input| >= 2 ==> r == Err(MagicNumberWasntTiff(ReadU16(e, input).value.value))
  {
    var magic :- ReadU16(e, input).OkOr(NoTiffMagicNumber);
    if magic.value != TiffMagic then Err(MagicNumberWasntTiff(magic.value)) else Ok(magic.rest)
  }

  /** `parse_tiff_header_offset`: a `u32` that counts from the blob's start,
      so it may not point into the 8 header bytes; the result is how many
      bytes are left to skip after them (a checked `u32` subtraction). */
  function ParseTiffHeaderOffset(e: Endianness, input: Bytes): (r: Result<Parsed<uint32>, ExifFatalError>)
    ensures |input| < 4 <==> r == Err(NoTiffHeaderOffset)
    ensures |input| >= 4 ==>
              var raw := ReadU32(e, input).value.value;
              if raw < 8 then r == Err(HeaderOffsetBeforeHeader)
              else r == Ok(Parsed((raw - 8) as uint32, input[4..]))
  {
    var raw :- ReadU32(e, input).OkOr(NoTiffHeaderOffset);
    if raw.value < 8 then Err(HeaderOffsetBeforeHeader)
    else
      var skip: uint32 := raw.value - 8;
      Ok(Parsed(skip, raw.rest))
  }

  /** The eight header bytes for a byte order and an absolute first-IFD
      offset. */
  function EncodeHeader(e: Endianness, offset: uint32): (r: Bytes)
    ensures |r| == 8
  {
    Pow256Widths();
    ByteOrderMark(e) + Encode(e, 2, TiffMagic as int) + Encode(e, 4, offset as int)
  }

  /** Everything before the first IFD: the byte order and the input that
      starts at the header's absolute offset. */
  function ParseHeader(blob: Bytes): Result<Parsed<Endianness>, ExifFatalError>
  {
    var bom :- ParseBlobEndianness(blob);
    var e := bom.value;
    var afterMagic :- ParseTiffMagicNumber(e, bom.rest);
    var offset :- ParseTiffHeaderOffset(e, afterMagic);
    if |offset.rest| < offset.value then Err(NotEnoughDataForHeaderOffset)
    else Ok(Parsed(e, offset.rest[offset.value..]))
  }

  /** What each step of a header that parses has read: the mark, the magic
      number, and an absolute offset past the header and inside the blob. */
  lemma ParseHeaderSteps(blob: Bytes)
    requires ParseHeader(blob).Ok?
    ensures |blob| >= 8
    ensures var e := ParseHeader(blob).value.value;
            && blob[..2] == ByteOrderMark(e)
            && ReadU16(e, blob[2..]).value.value == TiffMagic
            && 8 <= FirstIfdOffset(e, blob) as int <= |blob|
            && ParseHeader(blob).value.rest == blob[FirstIfdOffset(e, blob)..]
  {
    var bom := ParseBlobEndianness(blob).value;
    var e := bom.value;
    var afterMagic := ParseTiffMagicNumber(e, blob[2..]).value;
    assert afterMagic == blob[2..][2..] == blob[4..];
    var offset := ParseTiffHeaderOffset(e, blob[4..]).value;
    var raw := FirstIfdOffset(e, blob);
    assert offset.rest == blob[4..][4..] == blob[8..];
    assert offset.rest[offset.value..] == blob[raw..];
  }

  /** A header that parses is the encoding of its byte order and an offset
      inside the blob, and the first IFD is read from that offset. */
  lemma ParseHeaderOk(blob: Bytes)
    requires ParseHeader(blob).Ok?
    ensures |blob| >= 8
    ensures var e := ParseHeader(blob).value.value;
            var off := FirstIfdOffset(e, blob);
            && blob[..8] == EncodeHeader(e, off)
            && 8 <= off as int <= |blob|
            && ParseHeader(blob).value.rest == blob[off..]
  {
    ParseHeaderSteps(blob);
    HeaderBytes(ParseHeader(blob).value.value, blob);
  }

  /** A blob with a byte-order mark and eight header bytes that does not
      parse has the wrong magic number, an offset into the header, or an
      offset past its end. */
  lemma ParseHeaderErr(blob: Bytes)
    requires ParseHeader(blob).Err? && ParseBlobEndianness(blob).Ok? && |blob| >= 8
    ensures var e := ParseBlobEndianness(blob).value.value;
            var off := FirstIfdOffset(e, blob);
            var err := ParseHeader(blob).error;
            || err == MagicNumberWasntTiff(ReadU16(e, blob[2..]).value.value)
            || (off < 8 && err == HeaderOffsetBeforeHeader)
            || (off as int > |blob| && err == NotEnoughDataForHeaderOffset)
  {
    var e := ParseBlobEndianness(blob).value.value;
    assert ParseBlobEndianness(blob).value.rest == blob[2..];
    if ParseTiffMagicNumber(e, blob[2..]).Ok? {
      assert ParseTiffMagicNumber(e, blob[2..]).value == blob[4..];
    }
  }

  /** A header with a valid mark and magic number is the encoding of its
      byte order and first-IFD offset. */
  lemma HeaderBytes(e: Endianness, blob: Bytes)
    requires |blob| >= 8 && blob[..2] == ByteOrderMark(e) && ReadU16(e, blob[2..]).value.value == TiffMagic
    ensures blob[..8] == EncodeHeader(e, FirstIfdOffset(e, blob))
  {
    assert blob[2..][..2] == blob[2..4];
    assert blob[4..][..4] == blob[4..8];
    assert blob[..8] == blob[..2] + blob[2..4] + blob[4..8];
  }

  /** A well-formed header reads back as its byte order, with the input
      placed at the offset it names. */
  lemma HeaderRoundTrip(e: Endianness, offset: uint32, rest: Bytes)
    requires 8 <= offset as int <= 8 + |rest|
    ensures ParseHeader(EncodeHeader(e, offset) + rest) == Ok(Parsed(e, rest[offset - 8..]))
  {
    Pow256Widths();
    var blob := EncodeHeader(e, offset) + rest;
    ByteOrderMarkRoundTrip(e, blob[2..]);
    assert blob == ByteOrderMark(e) + blob[2..];
    assert blob[2..4] == Encode(e, 2, TiffMagic as int);
    assert blob[4..8] == Encode(e, 4, offset as int);
    assert blob[2..][..2] == blob[2..4] && blob[2..][2..] == blob[4..];
    assert blob[4..][..4] == blob[4..8] && blob[4..][4..] == rest;
  }

  /** The state every Exif parse starts with: IFD 0, no recursion recorded. */
  function InitialState(e: Endianness, blob: Bytes): (r: State)
    ensures r.Valid() && r.recursionCt == 0
  {
    State(Ifd0, e, blob, 0, EmptyStack())
  }

  /** The state the chain reads the IFD after `h` with: IFD 0 again, and one
      more stack slot in use, so every IFD on the chain stays recorded. */
  function ChainState(h: Head): State
  {
    h.state.(currentIfd := Ifd0, recursionCt := SatAddU8(h.state.recursionCt, 1))
  }

  /** The chain's next state is valid, one slot deeper, and keeps the IFD
      just read in the slot it took. */
  lemma ChainStateNext(state: State, input: Bytes)
    requires state.Valid() && |input| <= |state.blob| && IfdHead(state, input).Ok?
    ensures var st := ChainState(IfdHead(state, input).value);
            && st.Valid()
            && st.blob == state.blob
            && st.recursionCt as int == state.recursionCt as int + 1
            && st.recursionStack[state.recursionCt] == Some(IfdPointer(state, input))
  {
  }

  /** The source slices the blob at every next-IFD pointer without a bounds
      check (mod.rs:108). This holds when every IFD on the chain from `ptr`,
      and every IFD beneath one, lies inside the blob. */
  ghost predicate ChainInBlob(state: State, ptr: uint32)
    requires state.Valid()
    decreases RecursionLimit as int - state.recursionCt as int
  {
    && ptr as int <= |state.blob|
    && SubPointersInBlob(state, state.blob[ptr..])
    && match ParseIfd(state, state.blob[ptr..])
       case Ok(IfdParsed(_, Some(next))) =>
         var h := IfdHead(state, state.blob[ptr..]).value;
         ChainInBlob(ChainState(h), next)
       case _ => true
  }

  /** The IFDs from `ptr` on, following next-IFD pointers, with every IFD on
      the chain pushed on the recursion stack: a pointer back to an IFD of
      the chain fails with `SelfRecursion`, and a chain longer than the
      stack fails with `HitRecursionLimit`. */
  function ParseChain(state: State, ptr: uint32): (r: Result<seq<Ifd>, ExifFatalError>)
    requires state.Valid() && ChainInBlob(state, ptr)
    ensures r.Ok? ==> 1 <= |r.value| <= RecursionLimit as int - state.recursionCt as int
    ensures r.Ok? ==> ParseIfd(state, state.blob[ptr..]).Ok?
                      && r.value[0] == ParseIfd(state, state.blob[ptr..]).value.ifd
    ensures ParseIfd(state, state.blob[ptr..]).Err? ==> r == Err(ParseIfd(state, state.blob[ptr..]).error)
    ensures ParseIfd(state, state.blob[ptr..]).Ok? && ParseIfd(state, state.blob[ptr..]).value.next.None? ==>
              r == Ok([ParseIfd(state, state.blob[ptr..]).value.ifd])
    decreases RecursionLimit as int - state.recursionCt as int
  {
    var parsed :- ParseIfd(state, state.blob[ptr..]);
    match parsed.next
    case None => Ok([parsed.ifd])
    case Some(next) =>
      var h := IfdHead(state, state.blob[ptr..]).value;
      var st := ChainState(h);
      ChainStateNext(state, state.blob[ptr..]);
      assert ChainInBlob(st, next);
      var more :- ParseChain(st, next);
      Ok([parsed.ifd] + more)
  }

  /** A position on the chain, with the state the IFD there is read in. */
  type Link = (State, uint32)

  /** The IFD at a link can be read: the state is valid, the position lies
      in the blob, and the IFD there parses. */
  ghost predicate LinkParses(l: Link)
  {
    && l.0.Valid()
    && l.1 as int <= |l.0.blob|
    && SubPointersInBlob(l.0, l.0.blob[l.1..])
    && ParseIfd(l.0, l.0.blob[l.1..]).Ok?
  }

  /** What is read at a link that parses. */
  ghost function LinkRead(l: Link): IfdParsed
    requires LinkParses(l)
  {
    ParseIfd(l.0, l.0.blob[l.1..]).value
  }

  /** The IFD read at link `l` of a chain over `blob` is `ifd`. */
  ghost predicate ReadsAs(blob: Bytes, l: Link, ifd: Ifd)
  {
    l.0.blob == blob && LinkParses(l) && LinkRead(l).ifd == ifd
  }

  /** Link `b` follows link `a`: `a`'s IFD names `b`'s position as the next
      IFD, and `b` is read with `a`'s position added to the stack. */
  ghost predicate Linked(a: Link, b: Link)
  {
    && LinkParses(a)
    && LinkRead(a).next == Some(b.1)
    && b.0 == ChainState(IfdHead(a.0, a.0.blob[a.1..]).value)
  }

  /** The IFD at link `l` names no next IFD. */
  ghost predicate LastLink(l: Link)
  {
    LinkParses(l) && LinkRead(l).next.None?
  }

  /** The positions the chain visits from `ptr`, following each IFD's
      next-IFD pointer, with the state each one is read in. */
  ghost function ChainLinks(state: State, ptr: uint32): (r: seq<Link>)
    requires state.Valid() && ChainInBlob(state, ptr)
    ensures |r| >= 1 && r[0] == (state, ptr)
    decreases RecursionLimit as int - state.recursionCt as int
  {
    match ParseIfd(state, state.blob[ptr..])
    case Ok(IfdParsed(_, Some(next))) =>
      var h := IfdHead(state, state.blob[ptr..]).value;
      ChainStateNext(state, state.blob[ptr..]);
      [(state, ptr)] + ChainLinks(ChainState(h), next)
    case _ => [(state, ptr)]
  }

  /** Links read in order as the given IFDs, each following the one
      before, the last naming no next IFD. */
  ghost predicate ReadInOrder(blob: Bytes, links: seq<Link>, ifds: seq<Ifd>)
  {
    && |links| == |ifds| >= 1
    && (forall j | 0 <= j < |links| :: ReadsAs(blob, links[j], ifds[j]))
    && (forall j | 0 <= j < |links| - 1 :: Linked(links[j], links[j + 1]))
    && LastLink(links[|links| - 1])
  }

  /** A relation between neighbours that holds along `xs` and between `x`
      and the head of `xs` holds along `[x] + xs`. */
  lemma NeighboursCons<A>(x: A, xs: seq<A>, p: (A, A) -> bool)
    requires |xs| >= 1 && p(x, xs[0]) && forall j | 0 <= j < |xs| - 1 :: p(xs[j], xs[j + 1])
    ensures var ys := [x] + xs; forall j | 0 <= j < |ys| - 1 :: p(ys[j], ys[j + 1])
  {
    var ys := [x] + xs;
    forall j | 1 <= j < |ys| - 1
      ensures p(ys[j], ys[j + 1])
    {
      assert ys[j] == xs[j - 1] && ys[j + 1] == xs[j];
    }
  }

  /** A relation that holds pointwise between `xs` and `ys` and between `x`
      and `y` holds pointwise between `[x] + xs` and `[y] + ys`. */
  lemma PointwiseCons<A, B>(x: A, y: B, xs: seq<A>, ys: seq<B>, p: (A, B) -> bool)
    requires |xs| == |ys| && p(x, y) && forall j | 0 <= j < |xs| :: p(xs[j], ys[j])
    ensures var xs', ys' := [x] + xs, [y] + ys; forall j | 0 <= j < |xs'| :: p(xs'[j], ys'[j])
  {
    var xs', ys' := [x] + xs, [y] + ys;
    forall j | 1 <= j < |xs'|
      ensures p(xs'[j], ys'[j])
    {
      assert xs'[j] == xs[j - 1] && ys'[j] == ys[j - 1];
    }
  }

  /** Putting `x` in front of a non-empty `xs` keeps its last element. */
  lemma LastCons<A>(x: A, xs: seq<A>, p: A -> bool)
    requires |xs| >= 1 && p(xs[|xs| - 1])
    ensures var ys := [x] + xs; p(ys[|ys| - 1])
  {
    assert ([x] + xs)[|xs|] == xs[|xs| - 1];
  }

  /** A link read as `ifd` in front of a chain it links to keeps the chain
      in order. */
  lemma ReadInOrderCons(blob: Bytes, l: Link, ifd: Ifd, links: seq<Link>, ifds: seq<Ifd>)
    requires ReadsAs(blob, l, ifd) && ReadInOrder(blob, links, ifds) && Linked(l, links[0])
    ensures ReadInOrder(blob, [l] + links, [ifd] + ifds)
  {
    PointwiseCons(l, ifd, links, ifds, (a, b) => ReadsAs(blob, a, b));
    NeighboursCons(l, links, (a, b) => Linked(a, b));
    LastCons(l, links, a => LastLink(a));
  }

  /** One turn of the chain: the IFD at `ptr` names a next IFD, and the
      chain goes on there with this IFD's position added to the stack. */
  lemma ChainTurn(state: State, ptr: uint32)
    requires state.Valid() && ChainInBlob(state, ptr) && ParseChain(state, ptr).Ok?
    requires ParseIfd(state, state.blob[ptr..]).value.next.Some?
    ensures var parsed := ParseIfd(state, state.blob[ptr..]).value;
            var st := ChainState(IfdHead(state, state.blob[ptr..]).value);
            var next := parsed.next.value;
            && st.Valid() && ChainInBlob(st, next) && ParseChain(st, next).Ok?
            && ChainLinks(state, ptr) == [(state, ptr)] + ChainLinks(st, next)
            && ParseChain(state, ptr).value == [parsed.ifd] + ParseChain(st, next).value
            && ReadsAs(state.blob, (state, ptr), parsed.ifd)
            && Linked((state, ptr), (st, next))
            && st.blob == state.blob
  {
    ChainStateNext(state, state.blob[ptr..]);
    ChainTurnLinked(state, ptr);
  }

  /** The link at `ptr` reads as its IFD and is linked to the next one. */
  lemma ChainTurnLinked(state: State, ptr: uint32)
    requires state.Valid() && ptr as int <= |state.blob| && SubPointersInBlob(state, state.blob[ptr..])
    requires ParseIfd(state, state.blob[ptr..]).Ok? && ParseIfd(state, state.blob[ptr..]).value.next.Some?
    requires IfdHead(state, state.blob[ptr..]).Ok?
    ensures var parsed := ParseIfd(state, state.blob[ptr..]).value;
            var st := ChainState(IfdHead(state, state.blob[ptr..]).value);
            && ReadsAs(state.blob, (state, ptr), parsed.ifd)
            && Linked((state, ptr), (st, parsed.next.value))
  {
  }

  /** A chain that parses holds, in order, the IFDs read at the positions
      the next-IFD pointers lead to: the first at `ptr`, each next one at the
      pointer the one before names, read with that one's position added to
      the stack, and the last naming no next IFD. */
  lemma {:induction false} ParseChainInOrder(state: State, ptr: uint32)
    requires state.Valid() && ChainInBlob(state, ptr) && ParseChain(state, ptr).Ok?
    ensures ChainLinks(state, ptr)[0] == (state, ptr)
    ensures ReadInOrder(state.blob, ChainLinks(state, ptr), ParseChain(state, ptr).value)
    decreases RecursionLimit as int - state.recursionCt as int
  {
    var parsed := ParseIfd(state, state.blob[ptr..]).value;
    if parsed.next.Some? {
      ChainTurn(state, ptr);
      var st := ChainState(IfdHead(state, state.blob[ptr..]).value);
      var next := parsed.next.value;
      ParseChainInOrder(st, next);
      ReadInOrderCons(state.blob, (state, ptr), parsed.ifd, ChainLinks(st, next), ParseChain(st, next).value);
    } else {
      assert ParseChain(state, ptr).value == [parsed.ifd];
      assert ChainLinks(state, ptr) == [(state, ptr)];
    }
  }

  /** A next-IFD pointer back to any IFD already on the chain is rejected. */
  lemma ChainCycleRejected(state: State, ptr: uint32)
    requires state.Valid() && ptr as int <= |state.blob| && OnStack(state, ptr)
    ensures SubPointersInBlob(state, state.blob[ptr..])
    ensures ParseIfd(state, state.blob[ptr..]).Err? && ParseIfd(state, state.blob[ptr..]).error.SelfRecursion?
  {
    RevisitRejected(state, ptr);
  }

  /** The absolute offset of the first IFD, as the header states it. */
  function FirstIfdOffset(e: Endianness, blob: Bytes): uint32
    requires |blob| >= 8
  {
    ReadU32(e, blob[4..]).value.value
  }

  /** The precondition of `Exif::new`: every slice it and `parse_ifd` take is
      in bounds. */
  ghost predicate ExifInBlob(blob: Bytes)
  {
    match ParseHeader(blob)
    case Err(_) => true
    case Ok(hd) =>
      ParseHeaderOk(blob);
      hd.rest == [] || ChainInBlob(InitialState(hd.value, blob), FirstIfdOffset(hd.value, blob))
  }

  /** `Exif::new`, with the chain of IFDs read as `ParseChain` does. */
  function ParseExif(blob: Bytes): Result<Exif, ExifFatalError>
    requires ExifInBlob(blob)
  {
    var hd :- ParseHeader(blob);
    if hd.rest == [] then Ok(Exif.Exif(hd.value, []))
    else
      ParseHeaderOk(blob);
      var ifds :- ParseChain(InitialState(hd.value, blob), FirstIfdOffset(hd.value, blob));
      Ok(Exif.Exif(hd.value, ifds))
  }

  /** A header that does not parse is the whole parse's error. */
  lemma ParseExifHeaderErr(blob: Bytes)
    requires ExifInBlob(blob) && ParseHeader(blob).Err?
    ensures ParseExif(blob) == Err(ParseHeader(blob).error)
  {
  }

  /** A successful parse keeps the header's byte order, has no IFDs exactly
      when nothing follows the header, and holds at most one IFD per stack
      slot. */
  lemma ParseExifOk(blob: Bytes)
    requires ExifInBlob(blob) && ParseExif(blob).Ok?
    ensures ParseHeader(blob).Ok?
    ensures ParseExif(blob).value.endianness == ParseHeader(blob).value.value
    ensures ParseExif(blob).value.ifds == [] <==> ParseHeader(blob).value.rest == []
    ensures |ParseExif(blob).value.ifds| <= RecursionLimit as int
  {
  }

  /** The first IFD of a successful parse is the one at the header's offset. */
  lemma ParseExifFirst(blob: Bytes)
    requires ExifInBlob(blob) && ParseExif(blob).Ok? && ParseExif(blob).value.ifds != []
    ensures ParseHeader(blob).Ok? && |blob| >= 8
    ensures var e := ParseHeader(blob).value.value;
            && ParseHeader(blob).value.rest == blob[FirstIfdOffset(e, blob)..]
            && ChainInBlob(InitialState(e, blob), FirstIfdOffset(e, blob))
    ensures var e := ParseHeader(blob).value.value;
            var first := ParseIfd(InitialState(e, blob), blob[FirstIfdOffset(e, blob)..]);
            first.Ok? && ParseExif(blob).value.ifds[0] == first.value.ifd
  {
    ParseHeaderOk(blob);
  }

  // ---------------------------------------------------------------------
  // The chain as the source writes it.
  // ---------------------------------------------------------------------

  /** The state of the source's chain loop: it is shared by every turn and
      its recursion count stays 0, so the stack slots below the count, the
      only ones `parse_ifd` compares against, are none at all. */
  predicate LoopState(state: State)
  {
    state.Valid() && state.recursionCt == 0 && state.currentIfd == Ifd0
  }

  /** One turn of the source's chain loop: each chained IFD is read at count
      0, so its own position is never compared with anything. */
  function ChainStepAsWritten(state: State, ptr: uint32): Result<IfdParsed, ExifFatalError>
    requires LoopState(state) && ptr as int <= |state.blob| && SubPointersInBlob(state, state.blob[ptr..])
  {
    ParseIfd(state, state.blob[ptr..])
  }

  /** Every slice the source's chain loop takes in `fuel` turns is in bounds. */
  ghost predicate ChainAsWrittenInBlob(state: State, ptr: uint32, fuel: nat)
    requires LoopState(state)
    decreases fuel
  {
    && ptr as int <= |state.blob|
    && SubPointersInBlob(state, state.blob[ptr..])
    && var step := ChainStepAsWritten(state, ptr);
       (fuel > 0 && step.Ok? && step.value.next.Some? ==> ChainAsWrittenInBlob(state, step.value.next.value, fuel - 1))
  }

  /** The source's chain loop run for at most `fuel` turns; `None` means it
      had not finished by then. */
  function ChainAsWritten(state: State, ptr: uint32, fuel: nat): Option<Result<seq<Ifd>, ExifFatalError>>
    requires LoopState(state) && ChainAsWrittenInBlob(state, ptr, fuel)
    decreases fuel
  {
    if fuel == 0 then None
    else
      var step := ChainStepAsWritten(state, ptr);
      if step.Err? then Some(Err(step.error))
      else if step.value.next.None? then Some(Ok([step.value.ifd]))
      else
        var ifd := step.value.ifd;
        var next := step.value.next.value;
        assert ChainAsWrittenInBlob(state, next, fuel - 1);
        match ChainAsWritten(state, next, fuel - 1)
        case None => None
        case Some(Err(err)) => Some(Err(err))
        case Some(Ok(more)) => Some(Ok([ifd] + more))
  }

  /** An IFD whose next pointer is its own position keeps the source's loop
      running for ever: no number of turns finishes it. */
  lemma {:induction false} SelfChainNeverEnds(state: State, ptr: uint32, fuel: nat)
    requires LoopState(state) && ChainAsWrittenInBlob(state, ptr, fuel)
    requires ChainStepAsWritten(state, ptr).Ok? && ChainStepAsWritten(state, ptr).value.next == Some(ptr)
    ensures ChainAsWritten(state, ptr, fuel).None?
  {
    if fuel > 0 {
      SelfChainNeverEnds(state, ptr, fuel - 1);
    }
  }

  /** An entry of a known type whose tag is none of the sub-IFD pointers. */
  predicate PlainEntry(en: Entry)
  {
    TryFromCode(en.ty).Some? && en.tag !in {34665, 34853, 40965}
  }

  /** A blob whose only IFD names itself as the next one: the header points
      at offset 8, where a count of 1 and the entry `en` are followed by the
      next-IFD pointer 8. */
  function SelfChainBlob(e: Endianness, en: Entry): (r: Bytes)
    ensures |r| == 26
  {
    Pow256Widths();
    EncodeHeader(e, 8) + Encode(e, 2, 1) + EncodeEntry(e, en) + Encode(e, 4, 8)
  }

  /** A plain entry takes 12 bytes and points at no sub-IFD, whatever it
      holds. */
  lemma PlainEntryStep(e: Endianness, blob: Bytes, en: Entry, input: Bytes, tail: Bytes)
    requires PlainEntry(en) && input == EncodeEntry(e, en) + tail
    ensures var step := ParseValue(Ifd0, e, blob, input);
            step.rest == tail && SubIfdTarget(step.result).None?
  {
    EntryStep(Ifd0, e, blob, en, tail, false);
    var ty := TryFromCode(en.ty).value;
    var tag := TagFor(Ifd0, en.tag);
    var f := EntryField(tag, e, blob, en, ty, OutOfLine(ty, en.count, false));
    assert ParseValue(Ifd0, e, blob, input).result == f;
    PointerTagFor(Ifd0, en.tag);
  }

  /** The layout of a `SelfChainBlob`, piece by piece. */
  predicate SelfChainShape(blob: Bytes, e: Endianness, en: Entry)
  {
    Pow256Widths();
    && |blob| == 26
    && blob[..8] == EncodeHeader(e, 8)
    && blob[8..10] == Encode(e, 2, 1)
    && blob[10..22] == EncodeEntry(e, en)
    && blob[22..] == Encode(e, 4, 8)
  }

  lemma SelfChainBlobShape(e: Endianness, en: Entry)
    ensures SelfChainShape(SelfChainBlob(e, en), e, en)
  {
    Pow256Widths();
    Concat4Slices(EncodeHeader(e, 8), Encode(e, 2, 1), EncodeEntry(e, en), Encode(e, 4, 8));
  }

  /** The one entry of a `SelfChainBlob`: it takes 12 bytes and points at no
      sub-IFD. */
  lemma SelfChainBlobEntry(blob: Bytes, e: Endianness, en: Entry)
    requires PlainEntry(en) && SelfChainShape(blob, e, en)
    ensures var step := ParseValue(Ifd0, e, blob, blob[10..]);
            && step.rest == blob[22..]
            && SubIfdTarget(step.result).None?
  {
    SplitSuffix(blob, 10, 22);
    PlainEntryStep(e, blob, en, blob[10..], blob[22..]);
  }

  /** The head of a `SelfChainBlob`'s IFD: one entry, then the pointer. */
  lemma SelfChainBlobHead(state: State, en: Entry)
    requires PlainEntry(en) && state.Valid() && state.currentIfd == Ifd0
    requires SelfChainShape(state.blob, state.endianness, en)
    requires !OnStack(state, 8) && state.recursionCt < RecursionLimit
    ensures IfdHead(state, state.blob[8..]).Ok?
    ensures IfdHead(state, state.blob[8..]).value.fields ==
              [ParseValue(Ifd0, state.endianness, state.blob, state.blob[10..]).result]
    ensures IfdHead(state, state.blob[8..]).value.rest == state.blob[22..]
  {
    Pow256Widths();
    PointerAt(state, 8);
    SplitSuffix(state.blob, 8, 10);
    OneEntryHead(state, state.blob[8..], state.blob[10..]);
    SelfChainBlobEntry(state.blob, state.endianness, en);
  }

  /** The head of the IFD of a `SelfChainBlob` is read. */
  lemma SelfChainHeadOk(state: State, en: Entry)
    requires PlainEntry(en) && state.Valid() && state.currentIfd == Ifd0
    requires SelfChainShape(state.blob, state.endianness, en)
    requires !OnStack(state, 8) && state.recursionCt < RecursionLimit
    ensures IfdHead(state, state.blob[8..]).Ok?
  {
    SelfChainBlobHead(state, en);
  }

  /** A nonzero next-IFD pointer reads back as a location. */
  lemma NextIsAt(e: Endianness, x: uint32)
    requires x != 0
    ensures NextIfdLocation(e, Encode(e, 4, x)) == Some(x)
  {
    var b := Encode(e, 4, x);
    assert b + [] == b;
    ReadU32RoundTrip(e, x, []);
  }

  /** The one entry of a `SelfChainBlob` names no sub-IFD, and the input
      after it is the next-IFD pointer 8. */
  lemma SelfChainNoTargets(state: State, en: Entry)
    requires PlainEntry(en) && state.Valid() && state.currentIfd == Ifd0
    requires SelfChainShape(state.blob, state.endianness, en)
    requires !OnStack(state, 8) && state.recursionCt < RecursionLimit
    ensures IfdHead(state, state.blob[8..]).Ok?
    ensures SubTargets(IfdHead(state, state.blob[8..]).value.fields) == []
    ensures IfdHead(state, state.blob[8..]).value.rest == Encode(state.endianness, 4, 8)
  {
    SelfChainBlobHead(state, en);
    SelfChainBlobEntry(state.blob, state.endianness, en);
    NoSubTargets(IfdHead(state, state.blob[8..]).value.fields);
  }

  /** The IFD of a `SelfChainBlob` parses, with no sub-IFDs, and points back
      at itself. */
  lemma SelfChainBlobIfd(state: State, en: Entry)
    requires PlainEntry(en) && state.Valid() && state.currentIfd == Ifd0
    requires SelfChainShape(state.blob, state.endianness, en)
    requires !OnStack(state, 8) && state.recursionCt < RecursionLimit
    ensures SubPointersInBlob(state, state.blob[8..])
    ensures IfdHead(state, state.blob[8..]).Ok?
    ensures ParseIfd(state, state.blob[8..]).Ok? && ParseIfd(state, state.blob[8..]).value.next == Some(8)
  {
    SelfChainNoTargets(state, en);
    NoSubIfds(state, state.blob[8..]);
    NextIsAt(state.endianness, 8);
  }

  /** The source's chain loop never finishes on a `SelfChainBlob`. */
  lemma SelfChainLoopsAsWritten(blob: Bytes, e: Endianness, en: Entry, fuel: nat)
    requires PlainEntry(en) && SelfChainShape(blob, e, en)
    ensures LoopState(InitialState(e, blob))
    ensures ChainAsWrittenInBlob(InitialState(e, blob), 8, fuel)
    ensures ChainAsWritten(InitialState(e, blob), 8, fuel).None?
  {
    var state := InitialState(e, blob);
    SelfChainBlobIfd(state, en);
    SelfChainInBlob(state, en, fuel);
    SelfChainNeverEnds(state, 8, fuel);
  }

  /** Every turn of the source's loop on a `SelfChainBlob` stays in bounds. */
  lemma {:induction false} SelfChainInBlob(state: State, en: Entry, fuel: nat)
    requires PlainEntry(en) && LoopState(state)
    requires SelfChainShape(state.blob, state.endianness, en)
    ensures ChainAsWrittenInBlob(state, 8, fuel)
  {
    SelfChainBlobIfd(state, en);
    if fuel > 0 {
      SelfChainInBlob(state, en, fuel - 1);
    }
  }

  /** A header naming offset `off` puts the first IFD at that offset. */
  lemma HeaderAt(blob: Bytes, e: Endianness, off: uint32)
    requires 8 <= off as int <= |blob| && blob[..8] == EncodeHeader(e, off)
    ensures ParseHeader(blob) == Ok(Parsed(e, blob[off..]))
    ensures FirstIfdOffset(e, blob) == off
  {
    Pow256Widths();
    var rest := blob[8..];
    assert blob == EncodeHeader(e, off) + rest;
    HeaderRoundTrip(e, off, rest);
    assert rest[off - 8..] == blob[off..];
    assert blob[4..][..4] == blob[4..8] == Encode(e, 4, off);
  }

  /** The IFD recorded in the first stack slot is rejected when it is read
      again. */
  lemma RevisitFirstSlot(state: State, ptr: uint32)
    requires state.Valid() && state.recursionCt >= 1 && state.recursionStack[0] == Some(ptr)
    requires ptr as int <= |state.blob|
    ensures SubPointersInBlob(state, state.blob[ptr..])
    ensures ParseIfd(state, state.blob[ptr..]).Err? && ParseIfd(state, state.blob[ptr..]).error.SelfRecursion?
  {
    assert OnStack(state, ptr);
    ChainCycleRejected(state, ptr);
  }

  /** After a first chain turn that reads the IFD at offset 8, offset 8 is
      in the first stack slot. */
  lemma FirstTurnRecords(state: State)
    requires LoopState(state) && |state.blob| >= 8 && IfdHead(state, state.blob[8..]).Ok?
    ensures var next := ChainState(IfdHead(state, state.blob[8..]).value);
            && next.Valid() && next.recursionCt >= 1 && next.recursionStack[0] == Some(8)
            && next.blob == state.blob
  {
    PointerAt(state, 8);
    ChainStateNext(state, state.blob[8..]);
  }

  /** The second turn of the chain of a `SelfChainBlob`: its IFD is on the
      stack, so it is rejected before anything is read. */
  lemma SelfChainSecondTurn(state: State, en: Entry)
    requires PlainEntry(en) && LoopState(state)
    requires SelfChainShape(state.blob, state.endianness, en)
    ensures IfdHead(state, state.blob[8..]).Ok?
    ensures var next := ChainState(IfdHead(state, state.blob[8..]).value);
            && next.Valid()
            && SubPointersInBlob(next, next.blob[8..])
            && ParseIfd(next, next.blob[8..]).Err?
            && ParseIfd(next, next.blob[8..]).error.SelfRecursion?
  {
    SelfChainHeadOk(state, en);
    FirstTurnRecords(state);
    RevisitFirstSlot(ChainState(IfdHead(state, state.blob[8..]).value), 8);
  }

  /** From the initial state, the chain of a `SelfChainBlob` stays in bounds
      and its second turn is rejected as self-recursion. */
  lemma SelfChainCycle(state: State, en: Entry)
    requires PlainEntry(en) && LoopState(state)
    requires SelfChainShape(state.blob, state.endianness, en)
    ensures ChainInBlob(state, 8)
    ensures ParseChain(state, 8).Err? && ParseChain(state, 8).error.SelfRecursion?
  {
    SelfChainBlobIfd(state, en);
    SelfChainSecondTurn(state, en);
    var next := ChainState(IfdHead(state, state.blob[8..]).value);
    assert ChainInBlob(next, 8);
  }

  /** With every chained IFD kept on the recursion stack, a `SelfChainBlob`
      is rejected as self-recursion. */
  lemma SelfChainRejected(blob: Bytes, e: Endianness, en: Entry)
    requires PlainEntry(en) && SelfChainShape(blob, e, en)
    ensures ExifInBlob(blob)
    ensures ParseExif(blob).Err? && ParseExif(blob).error.SelfRecursion?
  {
    HeaderAt(blob, e, 8);
    var state := InitialState(e, blob);
    SelfChainCycle(state, en);
    assert ExifInBlob(blob);
    assert ParseExif(blob) == Err(ParseChain(state, 8).error);
  }
}

=== FILE: exif_ifd.dfy ===
/** Image file directories (raves_metadata/src/exif/ifd.rs): the entry count,
    the entries, the sub-IFDs their pointer fields name, and the next-IFD
    pointer, with the 32-slot recursion stack that rejects an IFD reached
    again through its own sub-IFD pointers.
 */
module ExifIfd {
  import opened Std
  import opened Bytes
  import opened ExifPrimitives
  import opened ExifTags
  import opened ExifTypes
  import opened ExifValue

  /** `RECURSION_LIMIT`: how many nested IFDs one parse may enter. */
  const RecursionLimit: uint8 := 32

  /** `Ifd`: the entries in stored order (each one parsed or failed) and the
      sub-IFDs that parsed. */
  datatype Ifd = Ifd(fields: seq<Result<Field, ExifFieldError>>, subIfds: seq<Ifd>)

  /** How many IFDs deep a parsed IFD nests, itself included. */
  function Depth(ifd: Ifd): nat
    decreases ifd, 1
  {
    1 + MaxDepth(ifd.subIfds)
  }

  /** The largest depth among sibling IFDs, 0 when there are none. */
  function MaxDepth(ifds: seq<Ifd>): (r: nat)
    ensures forall i | 0 <= i < |ifds| :: Depth(ifds[i]) <= r
    decreases ifds, 0
  {
    if ifds == [] then 0 else Max(Depth(ifds[0]), MaxDepth(ifds[1..]))
  }

  /** The deepest sibling is no deeper than a bound every sibling keeps. */
  lemma {:induction false} MaxDepthBound(ifds: seq<Ifd>, bound: nat)
    requires forall x | x in ifds :: Depth(x) <= bound
    ensures MaxDepth(ifds) <= bound
  {
    if ifds != [] {
      assert ifds[0] in ifds;
      assert forall x | x in ifds[1..] :: x in ifds;
      MaxDepthBound(ifds[1..], bound);
    }
  }

  /** The parser's state: the group of the IFD being read, the blob's byte
      order, the whole blob (offsets are absolute), and the recursion stack
      of IFD positions with the number of its slots in use. */
  datatype State = State(
    currentIfd: IfdGroup,
    endianness: Endianness,
    blob: Bytes,
    recursionCt: uint8,
    recursionStack: seq<Option<uint32>>)
  {
    /** The stack is a 32-slot array whose first `recursionCt` slots are set. */
    predicate Valid()
    {
      && |recursionStack| == RecursionLimit as int
      && recursionCt <= RecursionLimit
      && forall i | 0 <= i < recursionCt as int :: recursionStack[i].Some?
    }
  }

  /** The stack of a fresh parse: every slot empty. */
  function EmptyStack(): (r: seq<Option<uint32>>)
    ensures |r| == RecursionLimit as int && forall i | 0 <= i < |r| :: r[i].None?
  {
    seq(RecursionLimit as int, i => None)
  }

  /** `update_recursion_stack_or_error`: record `ptr` in the slot at
      `recursionCt`, or fail once all 32 slots are taken. */
  function UpdateRecursionStack(state: State, ptr: uint32): (r: Result<State, ExifFatalError>)
    requires state.Valid()
    ensures r.Err? <==> state.recursionCt >= RecursionLimit
    ensures r.Err? ==> r.error.HitRecursionLimit? && r.error.limitGroup == state.currentIfd
                       && |r.error.limitStack| == RecursionLimit as int
                       && forall i | 0 <= i < RecursionLimit as int :: state.recursionStack[i] == Some(r.error.limitStack[i])
    ensures r.Ok? ==> r.value.Valid() && r.value.recursionStack[state.recursionCt] == Some(ptr)
    ensures r.Ok? ==> r.value == state.(recursionStack := r.value.recursionStack)
    ensures r.Ok? ==> forall i | 0 <= i < RecursionLimit as int && i != state.recursionCt as int ::
                        r.value.recursionStack[i] == state.recursionStack[i]
  {
    if state.recursionCt >= RecursionLimit then
      Err(HitRecursionLimit(state.currentIfd, seq(RecursionLimit as int, i requires 0 <= i < RecursionLimit as int => state.recursionStack[i].value)))
    else
      Ok(state.(recursionStack := state.recursionStack[state.recursionCt := Some(ptr)]))
  }

  /** Reads one entry from the front of its input. */
  type EntryReader = Bytes -> FieldStep

  /** The entry reader of an IFD in `state`: `parse_value` for its group,
      byte order and blob. */
  function ReaderFor(state: State): EntryReader
  {
    input => ParseValue(state.currentIfd, state.endianness, state.blob, input)
  }

  /** The input left after `n` entries have been read from `input`. */
  function Advance(read: EntryReader, input: Bytes, n: nat): Bytes
  {
    if n == 0 then input else read(Advance(read, input, n - 1)).rest
  }

  /** The `entryCount` entries of an IFD, each read where the previous one
      stopped; a failed entry is kept in place and does not stop the rest. */
  function ParseFields(read: EntryReader, input: Bytes, entryCount: nat)
    : (r: (seq<Result<Field, ExifFieldError>>, Bytes))
    ensures |r.0| == entryCount && r.1 == Advance(read, input, entryCount)
  {
    if entryCount == 0 then ([], input)
    else
      var (init, rest) := ParseFields(read, input, entryCount - 1);
      var step := read(rest);
      (init + [step.result], step.rest)
  }

  /** Entry `i` of the IFD is the entry read where entry `i - 1` stopped. */
  lemma {:induction false} ParseFieldsAt(read: EntryReader, input: Bytes, entryCount: nat, i: nat)
    requires i < entryCount
    ensures ParseFields(read, input, entryCount).0[i] == read(Advance(read, input, i)).result
  {
    if i < entryCount - 1 {
      ParseFieldsAt(read, input, entryCount - 1, i);
    }
  }

  /** The sub-IFD a parsed field points at: only the three IFD0 pointer tags
      whose data is a single Long, each mapped to its own group. */
  function SubIfdTarget(f: Result<Field, ExifFieldError>): (r: Option<(IfdGroup, uint32)>)
    ensures r.Some? <==> f.Ok? && f.value.tag in SubIfdPointerTags && f.value.data.One? && f.value.data.primitive.Long?
    ensures r.Some? ==> r.value.1 == f.value.data.primitive.long && r.value.0.Optional()
  {
    if f.Err? || f.value.tag !in SubIfdPointerTags then None
    else
      match f.value.data
      case One(Long(ptr)) =>
        (match f.value.tag
         case Known(InIfd0(ExifIfdPointer)) => Some((Exif, ptr))
         case Known(InIfd0(GpsInfoIfdPointer)) => Some((Gps, ptr))
         case Known(InIfd0(InteroperabilityIfdPointer)) => Some((Interop, ptr)))
      case _ => None
  }

  /** Each pointer field's group: the Exif, GPS or interoperability IFD. */
  lemma SubIfdTargetGroups(tag: Ifd0Tag, ptr: uint32)
    ensures SubIfdTarget(Ok(Field(FieldTag.Known(InIfd0(tag)), One(Primitive.Long(ptr))))) ==
              match tag
              case ExifIfdPointer => Some((Exif, ptr))
              case GpsInfoIfdPointer => Some((Gps, ptr))
              case InteroperabilityIfdPointer => Some((Interop, ptr))
              case _ => None
  {
  }

  /** The absolute position of `input` inside the blob, cast to `u32`. */
  function IfdPointer(state: State, input: Bytes): uint32
    requires |input| <= |state.blob|
  {
    WrapU32(|state.blob| - |input|)
  }

  /** The input that starts at `ptr` sits at position `ptr`. */
  lemma PointerAt(state: State, ptr: uint32)
    requires ptr as int <= |state.blob|
    ensures IfdPointer(state, state.blob[ptr..]) == ptr
  {
  }

  /** Whether `ptr` is among the first `recursionCt` recorded positions. */
  predicate OnStack(state: State, ptr: uint32)
    requires state.Valid()
  {
    exists i | 0 <= i < state.recursionCt as int :: state.recursionStack[i] == Some(ptr)
  }

  /** What `parse_ifd` has once the entries are read: the state with this
      IFD's position recorded, the entries, and the input after them. */
  datatype Head = Head(state: State, fields: seq<Result<Field, ExifFieldError>>, rest: Bytes)

  /** The first half of `parse_ifd`: the self-recursion check, the stack
      update, the entry count and the entries. */
  function IfdHead(state: State, input: Bytes): (r: Result<Head, ExifFatalError>)
    requires state.Valid() && |input| <= |state.blob|
    ensures OnStack(state, IfdPointer(state, input)) ==> r.Err? && r.error.SelfRecursion?
    ensures !OnStack(state, IfdPointer(state, input)) && state.recursionCt >= RecursionLimit ==>
              r.Err? && r.error.HitRecursionLimit?
    ensures !OnStack(state, IfdPointer(state, input)) && state.recursionCt < RecursionLimit ==>
              && (|input| < 2 ==> r == Err(IfdNoEntryCount))
              && (|input| >= 2 && Value(state.endianness, input[..2]) == 0 ==> r == Err(IfdHadZeroFields))
    ensures r.Ok? ==>
              && state.recursionCt < RecursionLimit
              && |input| >= 2
              && r.value.state == state.(recursionStack := state.recursionStack[state.recursionCt := Some(IfdPointer(state, input))])
              && r.value.state.Valid()
              && var entryCount := Value(state.endianness, input[..2]);
                 && 1 <= entryCount == |r.value.fields|
                 && r.value.rest == Advance(ReaderFor(state), input[2..], entryCount)
                 && r.value.fields == ParseFields(ReaderFor(state), input[2..], entryCount).0
  {
    var ifdPtr := IfdPointer(state, input);
    if OnStack(state, ifdPtr) then Err(SelfRecursion(state.currentIfd, state.recursionStack))
    else
      var st :- UpdateRecursionStack(state, ifdPtr);
      var count :- ReadU16(state.endianness, input).OkOr(IfdNoEntryCount);
      if count.value == 0 then Err(IfdHadZeroFields)
      else
        var (fields, rest) := ParseFields(ReaderFor(state), count.rest, count.value);
        Ok(Head(st, fields, rest))
  }

  /** Entry `i` of an IFD is the entry `parse_value` reads where entry
      `i - 1` stopped. */
  lemma IfdHeadEntries(state: State, input: Bytes)
    requires state.Valid() && |input| <= |state.blob| && IfdHead(state, input).Ok?
    ensures var h := IfdHead(state, input).value;
            forall i | 0 <= i < |h.fields| ::
              h.fields[i] == ParseValue(state.currentIfd, state.endianness, state.blob, Advance(ReaderFor(state), input[2..], i)).result
  {
    var h := IfdHead(state, input).value;
    forall i | 0 <= i < |h.fields|
      ensures h.fields[i] == ParseValue(state.currentIfd, state.endianness, state.blob, Advance(ReaderFor(state), input[2..], i)).result
    {
      ParseFieldsAt(ReaderFor(state), input[2..], |h.fields|, i);
    }
  }

  /** An IFD with a count of one holds exactly the entry after the count. */
  lemma OneEntryHead(state: State, input: Bytes, entries: Bytes)
    requires state.Valid() && |input| <= |state.blob|
    requires !OnStack(state, IfdPointer(state, input)) && state.recursionCt < RecursionLimit
    requires Pow256(2) == 0x1_0000 && input == Encode(state.endianness, 2, 1) + entries
    ensures IfdHead(state, input).Ok?
    ensures var step := ParseValue(state.currentIfd, state.endianness, state.blob, entries);
            && IfdHead(state, input).value.fields == [step.result]
            && IfdHead(state, input).value.rest == step.rest
  {
    ReadU16RoundTrip(state.endianness, 1, entries);
    assert input[2..] == entries;
  }

  /** The sub-IFD targets of an IFD's entries, in entry order. */
  function SubTargets(fields: seq<Result<Field, ExifFieldError>>): seq<(IfdGroup, uint32)>
  {
    FilterSome(seq(|fields|, i requires 0 <= i < |fields| => SubIfdTarget(fields[i])))
  }

  /** The state a sub-IFD is read with: its group, the parent's stack, and one
      more slot in use (a saturating `u8` add). */
  function SubState(parent: State, group: IfdGroup): State
  {
    parent.(currentIfd := group, recursionCt := SatAddU8(parent.recursionCt, 1))
  }

  /** The source slices the blob at every sub-IFD pointer without a bounds
      check (ifd.rs:120). This holds when no IFD reached from `input` has a
      sub-IFD pointer past the end of the blob. */
  ghost predicate SubPointersInBlob(state: State, input: Bytes)
    requires state.Valid() && |input| <= |state.blob|
    decreases RecursionLimit as int - state.recursionCt as int
  {
    match IfdHead(state, input)
    case Err(_) => true
    case Ok(h) =>
      var ts := SubTargets(h.fields);
      forall i | 0 <= i < |ts| ::
        && ts[i].1 as int <= |state.blob|
        && var sub := UpdateRecursionStack(SubState(h.state, ts[i].0), ts[i].1);
           sub.Ok? ==> SubPointersInBlob(sub.value, state.blob[ts[i].1..])
  }

  /** A parsed IFD and the pointer to the next one, if any. */
  datatype IfdParsed = IfdParsed(ifd: Ifd, next: Option<uint32>)

  /** `next_ifd_location`: a `u32` after the entries; zero or a missing
      pointer both mean there is no next IFD. */
  function NextIfdLocation(e: Endianness, input: Bytes): (r: Option<uint32>)
    ensures |input| < 4 ==> r.None?
    ensures |input| >= 4 ==> (r.Some? <==> Value(e, input[..4]) != 0)
    ensures r.Some? ==> Encode(e, 4, r.value) == input[..4]
  {
    match ReadU32(e, input)
    case None => None
    case Some(p) => if p.value == 0 then None else Some(p.value)
  }

  /** `parse_ifd`. Sub-IFDs are read from their absolute offsets with the
      state one level deeper; one that fails is dropped without failing its
      parent. */
  function ParseIfd(state: State, input: Bytes): (r: Result<IfdParsed, ExifFatalError>)
    requires state.Valid() && |input| <= |state.blob| && SubPointersInBlob(state, input)
    ensures r.Err? ==> IfdHead(state, input).Err? && r.error == IfdHead(state, input).error
    ensures r.Ok? ==>
              && IfdHead(state, input).Ok?
              && var h := IfdHead(state, input).value;
                 && r.value.ifd.fields == h.fields
                 && |r.value.ifd.subIfds| <= |SubTargets(h.fields)|
                 && Depth(r.value.ifd) <= RecursionLimit as int - state.recursionCt as int
                 && r.value.next == NextIfdLocation(state.endianness, h.rest)
    decreases RecursionLimit as int - state.recursionCt as int, 2
  {
    var h :- IfdHead(state, input);
    var subIfds := SubIfds(state, input, h);
    MaxDepthBound(subIfds, RecursionLimit as int - state.recursionCt as int - 1);
    Ok(IfdParsed(Ifd(h.fields, subIfds), NextIfdLocation(state.endianness, h.rest)))
  }

  /** Whether the sub-IFD named by target `t` of the IFD with head `h` is
      read: its stack update succeeds and the IFD at its pointer parses. */
  ghost predicate SubParses(state: State, h: Head, t: (IfdGroup, uint32))
  {
    && SubState(h.state, t.0).Valid()
    && t.1 as int <= |state.blob|
    && var sub := UpdateRecursionStack(SubState(h.state, t.0), t.1);
       && sub.Ok?
       && |state.blob| == |sub.value.blob|
       && SubPointersInBlob(sub.value, state.blob[t.1..])
       && ParseIfd(sub.value, state.blob[t.1..]).Ok?
  }

  /** The IFD read for target `t`, when `SubParses` holds. */
  ghost function SubRead(state: State, h: Head, t: (IfdGroup, uint32)): Ifd
    requires SubParses(state, h, t)
  {
    var sub := UpdateRecursionStack(SubState(h.state, t.0), t.1);
    ParseIfd(sub.value, state.blob[t.1..]).value.ifd
  }

  /** One attempt per sub-IFD target, in pointer-field order: the IFD read
      at its pointer, or nothing when the stack update or the parse fails. */
  function SubAttempts(state: State, input: Bytes, h: Head): (a: seq<Option<Ifd>>)
    requires state.Valid() && |input| <= |state.blob| && SubPointersInBlob(state, input)
    requires IfdHead(state, input) == Ok(h)
    ensures |a| == |SubTargets(h.fields)|
    ensures forall i | 0 <= i < |a| && a[i].Some? :: Depth(a[i].value) < RecursionLimit as int - state.recursionCt as int
    decreases RecursionLimit as int - state.recursionCt as int, 0
  {
    var ts := SubTargets(h.fields);
    seq(|ts|, i requires 0 <= i < |ts| =>
      var (group, ptr) := ts[i];
      match UpdateRecursionStack(SubState(h.state, group), ptr)
      case Err(_) => None
      case Ok(sub) =>
        match ParseIfd(sub, state.blob[ptr..])
        case Err(_) => None
        case Ok(parsed) => Some(parsed.ifd))
  }

  /** An attempt succeeds exactly when its target's IFD is read, and then
      it holds that IFD. */
  lemma SubAttemptsMeaning(state: State, input: Bytes, h: Head)
    requires state.Valid() && |input| <= |state.blob| && SubPointersInBlob(state, input)
    requires IfdHead(state, input) == Ok(h)
    ensures var a := SubAttempts(state, input, h);
            var ts := SubTargets(h.fields);
            forall i | 0 <= i < |a| :: (a[i].Some? <==> SubParses(state, h, ts[i]))
                                      && (a[i].Some? ==> a[i].value == SubRead(state, h, ts[i]))
  {
  }

  /** The sub-IFDs of the IFD whose head is `h`: the attempts that read an
      IFD. */
  function SubIfds(state: State, input: Bytes, h: Head): (r: seq<Ifd>)
    requires state.Valid() && |input| <= |state.blob| && SubPointersInBlob(state, input)
    requires IfdHead(state, input) == Ok(h)
    ensures |r| <= |SubTargets(h.fields)|
    ensures forall x | x in r :: Depth(x) < RecursionLimit as int - state.recursionCt as int
    decreases RecursionLimit as int - state.recursionCt as int, 1
  {
    var attempts := SubAttempts(state, input, h);
    var subIfds := FilterSome(attempts);
    assert forall x | x in subIfds :: Depth(x) < RecursionLimit as int - state.recursionCt as int by {
      forall x | x in subIfds ensures Depth(x) < RecursionLimit as int - state.recursionCt as int {
        var i :| 0 <= i < |attempts| && attempts[i] == Some(x);
      }
    }
    subIfds
  }

  /** The sub-IFDs of a parsed IFD are the IFDs read at the targets of its
      pointer fields, in pointer-field order: the `j`-th one is read at
      target `idx[j]`, the targets increase, and every target whose IFD is
      read is among them. */
  lemma SubIfdsInOrder(state: State, input: Bytes)
    requires state.Valid() && |input| <= |state.blob| && SubPointersInBlob(state, input)
    requires ParseIfd(state, input).Ok?
    ensures var h := IfdHead(state, input).value;
            var ts := SubTargets(h.fields);
            var subs := ParseIfd(state, input).value.ifd.subIfds;
            var idx := SomeIndices(SubAttempts(state, input, h));
            && |idx| == |subs|
            && (forall j, k | 0 <= j < k < |idx| :: idx[j] < idx[k])
            && (forall j | 0 <= j < |idx| :: idx[j] < |ts| && SubParses(state, h, ts[idx[j]]) && subs[j] == SubRead(state, h, ts[idx[j]]))
            && (forall i | 0 <= i < |ts| :: SubParses(state, h, ts[i]) <==> i in idx)
  {
    var h := IfdHead(state, input).value;
    var a := SubAttempts(state, input, h);
    SomeIndicesSpec(a);
    SubAttemptsMeaning(state, input, h);
  }

  /** A sub-IFD pointer back to the IFD that holds it, or to any IFD above
      it, is rejected as self-recursion before anything is read there. */
  lemma SubIfdCycleRejected(state: State, input: Bytes, group: IfdGroup, ptr: uint32)
    requires state.Valid() && |input| <= |state.blob| && ptr as int <= |state.blob|
    requires IfdHead(state, input).Ok? && state.recursionCt < RecursionLimit - 1
    requires ptr == IfdPointer(state, input) || OnStack(state, ptr)
    ensures var sub := UpdateRecursionStack(SubState(IfdHead(state, input).value.state, group), ptr);
            && sub.Ok?
            && IfdHead(sub.value, state.blob[ptr..]).Err?
            && IfdHead(sub.value, state.blob[ptr..]).error.SelfRecursion?
  {
    var h := IfdHead(state, input).value;
    SubStateRecords(state, h.state, IfdPointer(state, input), group, ptr);
    var sub := UpdateRecursionStack(SubState(h.state, group), ptr).value;
    RevisitRejected(sub, ptr);
  }

  /** Reading the IFD at a position already on the stack is self-recursion. */
  lemma RevisitRejected(state: State, ptr: uint32)
    requires state.Valid() && ptr as int <= |state.blob| && OnStack(state, ptr)
    ensures IfdHead(state, state.blob[ptr..]).Err? && IfdHead(state, state.blob[ptr..]).error.SelfRecursion?
  {
    PointerAt(state, ptr);
  }

  /** A sub-IFD's state records its parent and every IFD above it. */
  lemma SubStateRecords(state: State, parent: State, self: uint32, group: IfdGroup, ptr: uint32)
    requires state.Valid() && state.recursionCt < RecursionLimit - 1
    requires parent == state.(recursionStack := state.recursionStack[state.recursionCt := Some(self)])
    requires ptr == self || OnStack(state, ptr)
    ensures SubState(parent, group).Valid()
    ensures var sub := UpdateRecursionStack(SubState(parent, group), ptr);
            sub.Ok? && OnStack(sub.value, ptr)
  {
    var sub := UpdateRecursionStack(SubState(parent, group), ptr).value;
    if ptr == self {
      assert sub.recursionStack[state.recursionCt] == Some(ptr);
    } else {
      var i :| 0 <= i < state.recursionCt as int && state.recursionStack[i] == Some(ptr);
      assert sub.recursionStack[i] == Some(ptr);
    }
  }

  /** Entries none of which is a sub-IFD pointer name no sub-IFD. */
  lemma NoSubTargets(fields: seq<Result<Field, ExifFieldError>>)
    requires forall i | 0 <= i < |fields| :: SubIfdTarget(fields[i]).None?
    ensures SubTargets(fields) == []
  {
    FilterSomeNone(seq(|fields|, i requires 0 <= i < |fields| => SubIfdTarget(fields[i])));
  }

  /** An IFD none of whose entries is a sub-IFD pointer reads nothing else:
      it has no sub-IFDs and every slice it takes is in bounds. */
  lemma NoSubIfds(state: State, input: Bytes)
    requires state.Valid() && |input| <= |state.blob|
    requires IfdHead(state, input).Ok? && SubTargets(IfdHead(state, input).value.fields) == []
    ensures SubPointersInBlob(state, input)
    ensures var h := IfdHead(state, input).value;
            ParseIfd(state, input) == Ok(IfdParsed(Ifd(h.fields, []), NextIfdLocation(state.endianness, h.rest)))
  {
    var h := IfdHead(state, input).value;
    assert SubAttempts(state, input, h) == [];
    assert SubIfds(state, input, h) == FilterSome<Ifd>([]) == [];
  }
}

=== FILE: exif_primitives.dfy ===
/** Exif primitive types (raves_metadata_types/src/exif/primitives.rs): the
    TIFF type codes, their widths, the decoded primitive values and the
    expected-count descriptor used by the tag tables.
 */
module ExifPrimitives {
  import opened Std
  import opened Bytes

  /** `PrimitiveTy`; its `#[repr(u16)]` discriminant is the TIFF type code. */
  datatype PrimitiveTy = Byte | Ascii | Short | Long | Rational | Undefined | SLong | SRational | Utf8

  /** The type code written in an IFD entry for each primitive type. */
  function Code(t: PrimitiveTy): uint16
  {
    match t
    case Byte => 1
    case Ascii => 2
    case Short => 3
    case Long => 4
    case Rational => 5
    case Undefined => 7
    case SLong => 9
    case SRational => 10
    case Utf8 => 129
  }

  /** `TryFrom<u16>`: exactly the nine codes above are accepted, and each
      gives back the type that has it as its discriminant. */
  function TryFromCode(c: uint16): (r: Option<PrimitiveTy>)
    ensures r.Some? <==> c in {1, 2, 3, 4, 5, 7, 9, 10, 129}
    ensures forall t: PrimitiveTy :: r == Some(t) <==> Code(t) == c
  {
    match c
    case 1 => Some(PrimitiveTy.Byte)
    case 2 => Some(PrimitiveTy.Ascii)
    case 3 => Some(PrimitiveTy.Short)
    case 4 => Some(PrimitiveTy.Long)
    case 5 => Some(PrimitiveTy.Rational)
    case 7 => Some(PrimitiveTy.Undefined)
    case 9 => Some(PrimitiveTy.SLong)
    case 10 => Some(PrimitiveTy.SRational)
    case 129 => Some(PrimitiveTy.Utf8)
    case _ => None
  }

  /** `size_bytes`: the width of one primitive of this type in an Exif blob. */
  function SizeBytes(t: PrimitiveTy): (r: uint8)
    ensures r == 1 <==> t.Byte? || t.Ascii? || t.Utf8? || t.Undefined?
    ensures r == 2 <==> t.Short?
    ensures r == 4 <==> t.Long? || t.SLong?
    ensures r == 8 <==> t.Rational? || t.SRational?
  {
    match t
    case Byte | Ascii | Utf8 | Undefined => 1
    case Short => 2
    case Long | SLong => 4
    case Rational | SRational => 8
  }

  /** One decoded primitive. Rationals keep numerator and denominator apart;
      the signed kinds hold two's-complement `i32` values. */
  datatype Primitive =
    | Byte(byte: uint8)
    | Ascii(ascii: uint8)
    | Short(short: uint16)
    | Long(long: uint32)
    | Rational(numerator: uint32, denominator: uint32)
    | Undefined(undefined: uint8)
    | SLong(slong: int32)
    | SRational(snumerator: int32, sdenominator: int32)
    | Utf8(utf8: uint8)
  {
    /** `Primitive::ty`: the type named like this primitive's constructor. */
    function Ty(): PrimitiveTy
    {
      match this
      case Byte(_) => PrimitiveTy.Byte
      case Ascii(_) => PrimitiveTy.Ascii
      case Short(_) => PrimitiveTy.Short
      case Long(_) => PrimitiveTy.Long
      case Rational(_, _) => PrimitiveTy.Rational
      case Undefined(_) => PrimitiveTy.Undefined
      case SLong(_) => PrimitiveTy.SLong
      case SRational(_, _) => PrimitiveTy.SRational
      case Utf8(_) => PrimitiveTy.Utf8
    }
  }

  /** `PrimitiveCount`: how many primitives a tag's value is expected to hold. */
  datatype PrimitiveCount =
    | Known(n: uint32)
    | KnownRange(lower: uint32, upper: uint32)
    | SpecialHandling
    | Any
}

=== FILE: exif_tags.dfy ===
/** The static Exif tag tables: one enumeration per IFD group, each tag with
    its numeric id, its name, the primitive types its value may have and the
    number of primitives it may hold, plus the group-directed lookup from a
    raw id back to a tag.

    The per-group tables are transcribed entry by entry from the
    `make_key_list_for_group!` invocations in
    raves_metadata_types/src/exif/tags.rs.
 */
module ExifTags {
  import opened Std
  import opened Bytes
  import opened ExifPrimitives

  /** Which IFD a field lives in; the source's `IfdGroup::_0` is `Ifd0`. */
  datatype IfdGroup = Ifd0 | Exif | Gps | Interop {
    /** Every group except IFD0 may be absent from a file. */
    predicate Optional() { !Ifd0? }
  }

  // ---- Ifd0Tag (IfdGroup::_0) ----

  datatype Ifd0Tag =
      ImageWidth
    | ImageLength
    | BitsPerSample
    | Compression
    | PhotometricInterpretation
    | Orientation
    | SamplesPerPixel
    | XResolution
    | YResolution
    | PlanarConfiguration
    | ResolutionUnit
    | YCbCrSubSampling
    | YCbCrPositioning
    | StripOffsets
    | RowsPerStrip
    | StripByteCounts
    | JPEGInterchangeFormat
    | JPEGInterchangeFormatLength
    | TransferFunction
    | WhitePoint
    | PrimaryChromaticities
    | YCbCrCoefficients
    | ReferenceBlackWhite
    | ImageDescription
    | Make
    | Model
    | Software
    | DateTime
    | Artist
    | Copyright
    | ExifIfdPointer
    | GpsInfoIfdPointer
    | InteroperabilityIfdPointer

  /** The part of the `Ifd0Tag` table with ids from 0 to 278. */
  function Ifd0FromIdFrom0(id: uint16): Option<Ifd0Tag>
  {
    match id
    case 256 => Some(ImageWidth)
    case 257 => Some(ImageLength)
    case 258 => Some(BitsPerSample)
    case 259 => Some(Compression)
    case 262 => Some(PhotometricInterpretation)
    case 270 => Some(ImageDescription)
    case 271 => Some(Make)
    case 272 => Some(Model)
    case 273 => Some(StripOffsets)
    case 274 => Some(Orientation)
    case 277 => Some(SamplesPerPixel)
    case 278 => Some(RowsPerStrip)
    case _ => None
  }

  /** The part of the `Ifd0Tag` table with ids from 279 to 513. */
  function Ifd0FromIdFrom279(id: uint16): Option<Ifd0Tag>
  {
    match id
    case 279 => Some(StripByteCounts)
    case 282 => Some(XResolution)
    case 283 => Some(YResolution)
    case 284 => Some(PlanarConfiguration)
    case 296 => Some(ResolutionUnit)
    case 301 => Some(TransferFunction)
    case 305 => Some(Software)
    case 306 => Some(DateTime)
    case 315 => Some(Artist)
    case 318 => Some(WhitePoint)
    case 319 => Some(PrimaryChromaticities)
    case 513 => Some(JPEGInterchangeFormat)
    case _ => None
  }

  /** The part of the `Ifd0Tag` table with ids from 514 to 65535. */
  function Ifd0FromIdFrom514(id: uint16): Option<Ifd0Tag>
  {
    match id
    case 514 => Some(JPEGInterchangeFormatLength)
    case 529 => Some(YCbCrCoefficients)
    case 530 => Some(YCbCrSubSampling)
    case 531 => Some(YCbCrPositioning)
    case 532 => Some(ReferenceBlackWhite)
    case 33432 => Some(Copyright)
    case 34665 => Some(ExifIfdPointer)
    case 34853 => Some(GpsInfoIfdPointer)
    case 40965 => Some(InteroperabilityIfdPointer)
    case _ => None
  }

  /** `TryFrom<u16>` for `Ifd0Tag`: the tag with that id in this group, if any. */
  function Ifd0FromId(id: uint16): Option<Ifd0Tag>
  {
    if id <= 278 then Ifd0FromIdFrom0(id)
    else if id <= 513 then Ifd0FromIdFrom279(id)
    else Ifd0FromIdFrom514(id)
  }

  /** The `#[repr(u16)]` discriminant, which is the tag id; looking it up
      again in this group gives back the same tag. */
  function Ifd0TagId(t: Ifd0Tag): (id: uint16)
    ensures Ifd0FromId(id) == Some(t)
  {
    match t
    case ImageWidth => 256
    case ImageLength => 257
    case BitsPerSample => 258
    case Compression => 259
    case PhotometricInterpretation => 262
    case Orientation => 274
    case SamplesPerPixel => 277
    case XResolution => 282
    case YResolution => 283
    case PlanarConfiguration => 284
    case ResolutionUnit => 296
    case YCbCrSubSampling => 530
    case YCbCrPositioning => 531
    case StripOffsets => 273
    case RowsPerStrip => 278
    case StripByteCounts => 279
    case JPEGInterchangeFormat => 513
    case JPEGInterchangeFormatLength => 514
    case TransferFunction => 301
    case WhitePoint => 318
    case PrimaryChromaticities => 319
    case YCbCrCoefficients => 529
    case ReferenceBlackWhite => 532
    case ImageDescription => 270
    case Make => 271
    case Model => 272
    case Software => 305
    case DateTime => 306
    case Artist => 315
    case Copyright => 33432
    case ExifIfdPointer => 34665
    case GpsInfoIfdPointer => 34853
    case InteroperabilityIfdPointer => 40965
  }

  lemma Ifd0FromIdFrom0Inverse(id: uint16)
    ensures Ifd0FromIdFrom0(id).Some? ==> Ifd0TagId(Ifd0FromIdFrom0(id).value) == id
  {
  }

  lemma Ifd0FromIdFrom279Inverse(id: uint16)
    ensures Ifd0FromIdFrom279(id).Some? ==> Ifd0TagId(Ifd0FromIdFrom279(id).value) == id
  {
  }

  lemma Ifd0FromIdFrom514Inverse(id: uint16)
    ensures Ifd0FromIdFrom514(id).Some? ==> Ifd0TagId(Ifd0FromIdFrom514(id).value) == id
  {
  }

  /** Every id the lookup accepts is the id of the tag it returns. */
  lemma Ifd0FromIdInverse(id: uint16)
    ensures Ifd0FromId(id).Some? ==> Ifd0TagId(Ifd0FromId(id).value) == id
  {
    Ifd0FromIdFrom0Inverse(id);
    Ifd0FromIdFrom279Inverse(id);
    Ifd0FromIdFrom514Inverse(id);
  }

  function Ifd0TagName(t: Ifd0Tag): string
  {
    match t
    case ImageWidth => "Image width"
    case ImageLength => "Image height"
    case BitsPerSample => "Number of bits per component"
    case Compression => "Compression scheme"
    case PhotometricInterpretation => "Pixel composition"
    case Orientation => "Orientation of image"
    case SamplesPerPixel => "Number of components"
    case XResolution => "Image resolution in width direction"
    case YResolution => "Image resolution in height direction"
    case PlanarConfiguration => "Image data arrangement"
    case ResolutionUnit => "Unit of X and Y resolution"
    case YCbCrSubSampling => "Subsampling ratio of Y to C"
    case YCbCrPositioning => "Y and C positioning"
    case StripOffsets => "Offset to strip"
    case RowsPerStrip => "Number of rows per strip"
    case StripByteCounts => "Bytes per compressed strip"
    case JPEGInterchangeFormat => "Offset to JPEG SOI"
    case JPEGInterchangeFormatLength => "Bytes of JPEG data"
    case TransferFunction => "Transfer function"
    case WhitePoint => "White point chromaticity"
    case PrimaryChromaticities => "Chromaticities of primaries"
    case YCbCrCoefficients => "Color space transformation matrix coefficients"
    case ReferenceBlackWhite => "Pair of black and white reference values"
    case ImageDescription => "Description of Image"
    case Make => "Image input equipment manufacturer"
    case Model => "Image input equipment model"
    case Software => "Software used"
    case DateTime => "File change date and time"
    case Artist => "Person who created the image"
    case Copyright => "Copyright holder"
    case ExifIfdPointer => "Exif IFD Pointer"
    case GpsInfoIfdPointer => "GPSInfo IFD Pointer"
    case InteroperabilityIfdPointer => "Interoperability IFD Pointer"
  }

  function Ifd0Types(t: Ifd0Tag): seq<PrimitiveTy>
  {
    match t
    case ImageWidth => [PrimitiveTy.Short, PrimitiveTy.Long]
    case ImageLength => [PrimitiveTy.Short, PrimitiveTy.Long]
    case BitsPerSample => [PrimitiveTy.Short]
    case Compression => [PrimitiveTy.Short]
    case PhotometricInterpretation => [PrimitiveTy.Short]
    case Orientation => [PrimitiveTy.Short]
    case SamplesPerPixel => [PrimitiveTy.Short]
    case XResolution => [PrimitiveTy.Rational]
    case YResolution => [PrimitiveTy.Rational]
    case PlanarConfiguration => [PrimitiveTy.Short]
    case ResolutionUnit => [PrimitiveTy.Short]
    case YCbCrSubSampling => [PrimitiveTy.Short]
    case YCbCrPositioning => [PrimitiveTy.Short]
    case StripOffsets => [PrimitiveTy.Short, PrimitiveTy.Long]
    case RowsPerStrip => [PrimitiveTy.Short, PrimitiveTy.Long]
    case StripByteCounts => [PrimitiveTy.Short, PrimitiveTy.Long]
    case JPEGInterchangeFormat => [PrimitiveTy.Long]
    case JPEGInterchangeFormatLength => [PrimitiveTy.Long]
    case TransferFunction => [PrimitiveTy.Short]
    case WhitePoint => [PrimitiveTy.Rational]
    case PrimaryChromaticities => [PrimitiveTy.Rational]
    case YCbCrCoefficients => [PrimitiveTy.Rational]
    case ReferenceBlackWhite => [PrimitiveTy.Rational]
    case ImageDescription => [PrimitiveTy.Ascii, PrimitiveTy.Utf8]
    case Make => [PrimitiveTy.Ascii, PrimitiveTy.Utf8]
    case Model => [PrimitiveTy.Ascii, PrimitiveTy.Utf8]
    case Software => [PrimitiveTy.Ascii, PrimitiveTy.Utf8]
    case DateTime => [PrimitiveTy.Ascii]
    case Artist => [PrimitiveTy.Ascii, PrimitiveTy.Utf8]
    case Copyright => [PrimitiveTy.Ascii, PrimitiveTy.Utf8]
    case ExifIfdPointer => [PrimitiveTy.Long]
    case GpsInfoIfdPointer => [PrimitiveTy.Long]
    case InteroperabilityIfdPointer => [PrimitiveTy.Long]
  }

  function Ifd0Count(t: Ifd0Tag): PrimitiveCount
  {
    match t
    case ImageWidth => PrimitiveCount.Known(1)
    case ImageLength => PrimitiveCount.Known(1)
    case BitsPerSample => PrimitiveCount.Known(3)
    case Compression => PrimitiveCount.Known(1)
    case PhotometricInterpretation => PrimitiveCount.Known(1)
    case Orientation => PrimitiveCount.Known(1)
    case SamplesPerPixel => PrimitiveCount.Known(1)
    case XResolution => PrimitiveCount.Known(1)
    case YResolution => PrimitiveCount.Known(1)
    case PlanarConfiguration => PrimitiveCount.Known(1)
    case ResolutionUnit => PrimitiveCount.Known(1)
    case YCbCrSubSampling => PrimitiveCount.Known(2)
    case YCbCrPositioning => PrimitiveCount.Known(1)
    case StripOffsets => SpecialHandling
    case RowsPerStrip => PrimitiveCount.Known(1)
    case StripByteCounts => SpecialHandling
    case JPEGInterchangeFormat => PrimitiveCount.Known(1)
    case JPEGInterchangeFormatLength => PrimitiveCount.Known(1)
    case TransferFunction => PrimitiveCount.Known(768)
    case WhitePoint => PrimitiveCount.Known(2)
    case PrimaryChromaticities => PrimitiveCount.Known(6)
    case YCbCrCoefficients => PrimitiveCount.Known(3)
    case ReferenceBlackWhite => PrimitiveCount.Known(6)
    case ImageDescription => Any
    case Make => Any
    case Model => Any
    case Software => Any
    case DateTime => PrimitiveCount.Known(20)
    case Artist => Any
    case Copyright => Any
    case ExifIfdPointer => PrimitiveCount.Known(1)
    case GpsInfoIfdPointer => PrimitiveCount.Known(1)
    case InteroperabilityIfdPointer => PrimitiveCount.Known(1)
  }

  // ---- ExifIfdTag (IfdGroup::Exif) ----

  datatype ExifIfdTag =
      ExifVersion
    | FlashpixVersion
    | ColorSpace
    | Gamma
    | ComponentsConfiguration
    | CompressedBitsPerPixel
    | PixelXDimension
    | PixelYDimension
    | MakerNote
    | UserComment
    | RelatedSoundFile
    | DateTimeOriginal
    | DateTimeDigitized
    | OffsetTime
    | OffsetTimeOriginal
    | OffsetTimeDigitized
    | SubSecTime
    | SubSecTimeOriginal
    | SubSecTimeDigitized
    | Temperature
    | Humidity
    | Pressure
    | WaterDepth
    | Acceleration
    | CameraElevationAngle
    | ImageUniqueID
    | CameraOwnerName
    | BodySerialNumber
    | LensSpecification
    | LensMake
    | LensModel
    | LensSerialNumber
    | ImageTitle
    | Photographer
    | ImageEditor
    | CameraFirmware
    | RAWDevelopingSoftware
    | ImageEditingSoftware
    | MetadataEditingSoftware
    | ExposureTime
    | FNumber
    | ExposureProgram
    | SpectralSensitivity
    | PhotographicSensitivity
    | OECF
    | SensitivityType
    | StandardOutputSensitivity
    | RecommendedExposureIndex
    | ISOSpeed
    | ISOSpeedLatitudeyyy
    | ISOSpeedLatitudezzz
    | ShutterSpeedValue
    | ApertureValue
    | BrightnessValue
    | ExposureBiasValue
    | MaxApertureValue
    | SubjectDistance
    | MeteringMode
    | LightSource
    | Flash
    | FocalLength
    | SubjectArea
    | FlashEnergy
    | SpatialFrequencyResponse
    | FocalPlaneXResolution
    | FocalPlaneYResolution
    | FocalPlaneResolutionUnit
    | SubjectLocation
    | ExposureIndex
    | SensingMethod
    | FileSource
    | SceneType
    | CFAPattern
    | CustomRendered
    | ExposureMode
    | WhiteBalance
    | DigitalZoomRatio
    | FocalLengthIn35mmFilm
    | SceneCaptureType
    | GainControl
    | Contrast
    | Saturation
    | Sharpness
    | DeviceSettingDescription
    | SubjectDistanceRange
    | CompositeImage
    | SourceImageNumberOfCompositeImage
    | SourceExposureTimesOfCompositeImage

  /** The part of the `ExifIfdTag` table with ids from 0 to 36863. */
  function ExifFromIdFrom0(id: uint16): Option<ExifIfdTag>
  {
    match id
    case 33434 => Some(ExposureTime)
    case 33437 => Some(FNumber)
    case 34850 => Some(ExposureProgram)
    case 34852 => Some(SpectralSensitivity)
    case 34855 => Some(PhotographicSensitivity)
    case 34856 => Some(OECF)
    case 34864 => Some(SensitivityType)
    case 34865 => Some(StandardOutputSensitivity)
    case 34866 => Some(RecommendedExposureIndex)
    case 34867 => Some(ISOSpeed)
    case 34868 => Some(ISOSpeedLatitudeyyy)
    case 34869 => Some(ISOSpeedLatitudezzz)
    case _ => None
  }

  /** The part of the `ExifIfdTag` table with ids from 36864 to 37380. */
  function ExifFromIdFrom36864(id: uint16): Option<ExifIfdTag>
  {
    match id
    case 36864 => Some(ExifVersion)
    case 36867 => Some(DateTimeOriginal)
    case 36868 => Some(DateTimeDigitized)
    case 36880 => Some(OffsetTime)
    case 36881 => Some(OffsetTimeOriginal)
    case 36882 => Some(OffsetTimeDigitized)
    case 37121 => Some(ComponentsConfiguration)
    case 37122 => Some(CompressedBitsPerPixel)
    case 37377 => Some(ShutterSpeedValue)
    case 37378 => Some(ApertureValue)
    case 37379 => Some(BrightnessValue)
    case 37380 => Some(ExposureBiasValue)
    case _ => None
  }

  /** The part of the `ExifIfdTag` table with ids from 37381 to 37888. */
  function ExifFromIdFrom37381(id: uint16): Option<ExifIfdTag>
  {
    match id
    case 37381 => Some(MaxApertureValue)
    case 37382 => Some(SubjectDistance)
    case 37383 => Some(MeteringMode)
    case 37384 => Some(LightSource)
    case 37385 => Some(Flash)
    case 37386 => Some(FocalLength)
    case 37396 => Some(SubjectArea)
    case 37500 => Some(MakerNote)
    case 37510 => Some(UserComment)
    case 37520 => Some(SubSecTime)
    case 37521 => Some(SubSecTimeOriginal)
    case 37522 => Some(SubSecTimeDigitized)
    case 37888 => Some(Temperature)
    case _ => None
  }

  /** The part of the `ExifIfdTag` table with ids from 37889 to 41485. */
  function ExifFromIdFrom37889(id: uint16): Option<ExifIfdTag>
  {
    match id
    case 37889 => Some(Humidity)
    case 37890 => Some(Pressure)
    case 37891 => Some(WaterDepth)
    case 37892 => Some(Acceleration)
    case 37893 => Some(CameraElevationAngle)
    case 40960 => Some(FlashpixVersion)
    case 40961 => Some(ColorSpace)
    case 40962 => Some(PixelXDimension)
    case 40963 => Some(PixelYDimension)
    case 40964 => Some(RelatedSoundFile)
    case 41483 => Some(FlashEnergy)
    case 41484 => Some(SpatialFrequencyResponse)
    case _ => None
  }

  /** The part of the `ExifIfdTag` table with ids from 41486 to 41987. */
  function ExifFromIdFrom41486(id: uint16): Option<ExifIfdTag>
  {
    match id
    case 41486 => Some(FocalPlaneXResolution)
    case 41487 => Some(FocalPlaneYResolution)
    case 41488 => Some(FocalPlaneResolutionUnit)
    case 41492 => Some(SubjectLocation)
    case 41493 => Some(ExposureIndex)
    case 41495 => Some(SensingMethod)
    case 41728 => Some(FileSource)
    case 41729 => Some(SceneType)
    case 41730 => Some(CFAPattern)
    case 41985 => Some(CustomRendered)
    case 41986 => Some(ExposureMode)
    case 41987 => Some(WhiteBalance)
    case _ => None
  }

  /** The part of the `ExifIfdTag` table with ids from 41988 to 42033. */
  function ExifFromIdFrom41988(id: uint16): Option<ExifIfdTag>
  {
    match id
    case 41988 => Some(DigitalZoomRatio)
    case 41989 => Some(FocalLengthIn35mmFilm)
    case 41990 => Some(SceneCaptureType)
    case 41991 => Some(GainControl)
    case 41992 => Some(Contrast)
    case 41993 => Some(Saturation)
    case 41994 => Some(Sharpness)
    case 41995 => Some(DeviceSettingDescription)
    case 41996 => Some(SubjectDistanceRange)
    case 42016 => Some(ImageUniqueID)
    case 42032 => Some(CameraOwnerName)
    case 42033 => Some(BodySerialNumber)
    case _ => None
  }

  /** The part of the `ExifIfdTag` table with ids from 42034 to 42080. */
  function ExifFromIdFrom42034(id: uint16): Option<ExifIfdTag>
  {
    match id
    case 42034 => Some(LensSpecification)
    case 42035 => Some(LensMake)
    case 42036 => Some(LensModel)
    case 42037 => Some(LensSerialNumber)
    case 42038 => Some(ImageTitle)
    case 42039 => Some(Photographer)
    case 42040 => Some(ImageEditor)
    case 42041 => Some(CameraFirmware)
    case 42042 => Some(RAWDevelopingSoftware)
    case 42043 => Some(ImageEditingSoftware)
    case 42044 => Some(MetadataEditingSoftware)
    case 42080 => Some(CompositeImage)
    case _ => None
  }

  /** The part of the `ExifIfdTag` table with ids from 42081 to 65535. */
  function ExifFromIdFrom42081(id: uint16): Option<ExifIfdTag>
  {
    match id
    case 42081 => Some(SourceImageNumberOfCompositeImage)
    case 42082 => Some(SourceExposureTimesOfCompositeImage)
    case 42240 => Some(Gamma)
    case _ => None
  }

  /** `TryFrom<u16>` for `ExifIfdTag`: the tag with that id in this group, if any. */
  function ExifFromId(id: uint16): Option<ExifIfdTag>
  {
    if id <= 36863 then ExifFromIdFrom0(id)
    else if id <= 37380 then ExifFromIdFrom36864(id)
    else if id <= 37888 then ExifFromIdFrom37381(id)
    else if id <= 41485 then ExifFromIdFrom37889(id)
    else if id <= 41987 then ExifFromIdFrom41486(id)
    else if id <= 42033 then ExifFromIdFrom41988(id)
    else if id <= 42080 then ExifFromIdFrom42034(id)
    else ExifFromIdFrom42081(id)
  }

  /** The `#[repr(u16)]` discriminant, which is the tag id; looking it up
      again in this group gives back the same tag. */
  function ExifTagId(t: ExifIfdTag): (id: uint16)
    ensures ExifFromId(id) == Some(t)
  {
    match t
    case ExifVersion => 36864
    case FlashpixVersion => 40960
    case ColorSpace => 40961
    case Gamma => 42240
    case ComponentsConfiguration => 37121
    case CompressedBitsPerPixel => 37122
    case PixelXDimension => 40962
    case PixelYDimension => 40963
    case MakerNote => 37500
    case UserComment => 37510
    case RelatedSoundFile => 40964
    case DateTimeOriginal => 36867
    case DateTimeDigitized => 36868
    case OffsetTime => 36880
    case OffsetTimeOriginal => 36881
    case OffsetTimeDigitized => 36882
    case SubSecTime => 37520
    case SubSecTimeOriginal => 37521
    case SubSecTimeDigitized => 37522
    case Temperature => 37888
    case Humidity => 37889
    case Pressure => 37890
    case WaterDepth => 37891
    case Acceleration => 37892
    case CameraElevationAngle => 37893
    case ImageUniqueID => 42016
    case CameraOwnerName => 42032
    case BodySerialNumber => 42033
    case LensSpecification => 42034
    case LensMake => 42035
    case LensModel => 42036
    case LensSerialNumber => 42037
    case ImageTitle => 42038
    case Photographer => 42039
    case ImageEditor => 42040
    case CameraFirmware => 42041
    case RAWDevelopingSoftware => 42042
    case ImageEditingSoftware => 42043
    case MetadataEditingSoftware => 42044
    case ExposureTime => 33434
    case FNumber => 33437
    case ExposureProgram => 34850
    case SpectralSensitivity => 34852
    case PhotographicSensitivity => 34855
    case OECF => 34856
    case SensitivityType => 34864
    case StandardOutputSensitivity => 34865
    case RecommendedExposureIndex => 34866
    case ISOSpeed => 34867
    case ISOSpeedLatitudeyyy => 34868
    case ISOSpeedLatitudezzz => 34869
    case ShutterSpeedValue => 37377
    case ApertureValue => 37378
    case BrightnessValue => 37379
    case ExposureBiasValue => 37380
    case MaxApertureValue => 37381
    case SubjectDistance => 37382
    case MeteringMode => 37383
    case LightSource => 37384
    case Flash => 37385
    case FocalLength => 37386
    case SubjectArea => 37396
    case FlashEnergy => 41483
    case SpatialFrequencyResponse => 41484
    case FocalPlaneXResolution => 41486
    case FocalPlaneYResolution => 41487
    case FocalPlaneResolutionUnit => 41488
    case SubjectLocation => 41492
    case ExposureIndex => 41493
    case SensingMethod => 41495
    case FileSource => 41728
    case SceneType => 41729
    case CFAPattern => 41730
    case CustomRendered => 41985
    case ExposureMode => 41986
    case WhiteBalance => 41987
    case DigitalZoomRatio => 41988
    case FocalLengthIn35mmFilm => 41989
    case SceneCaptureType => 41990
    case GainControl => 41991
    case Contrast => 41992
    case Saturation => 41993
    case Sharpness => 41994
    case DeviceSettingDescription => 41995
    case SubjectDistanceRange => 41996
    case CompositeImage => 42080
    case SourceImageNumberOfCompositeImage => 42081
    case SourceExposureTimesOfCompositeImage => 42082
  }

  lemma ExifFromIdFrom0Inverse(id: uint16)
    ensures ExifFromIdFrom0(id).Some? ==> ExifTagId(ExifFromIdFrom0(id).value) == id
  {
  }

  lemma ExifFromIdFrom36864Inverse(id: uint16)
    ensures ExifFromIdFrom36864(id).Some? ==> ExifTagId(ExifFromIdFrom36864(id).value) == id
  {
  }

  lemma ExifFromIdFrom37381Inverse(id: uint16)
    ensures ExifFromIdFrom37381(id).Some? ==> ExifTagId(ExifFromIdFrom37381(id).value) == id
  {
  }

  lemma ExifFromIdFrom37889Inverse(id: uint16)
    ensures ExifFromIdFrom37889(id).Some? ==> ExifTagId(ExifFromIdFrom37889(id).value) == id
  {
  }

  lemma ExifFromIdFrom41486Inverse(id: uint16)
    ensures ExifFromIdFrom41486(id).Some? ==> ExifTagId(ExifFromIdFrom41486(id).value) == id
  {
  }

  lemma ExifFromIdFrom41988Inverse(id: uint16)
    ensures ExifFromIdFrom41988(id).Some? ==> ExifTagId(ExifFromIdFrom41988(id).value) == id
  {
  }

  lemma ExifFromIdFrom42034Inverse(id: uint16)
    ensures ExifFromIdFrom42034(id).Some? ==> ExifTagId(ExifFromIdFrom42034(id).value) == id
  {
  }

  lemma ExifFromIdFrom42081Inverse(id: uint16)
    ensures ExifFromIdFrom42081(id).Some? ==> ExifTagId(ExifFromIdFrom42081(id).value) == id
  {
  }

  /** Every id the lookup accepts is the id of the tag it returns. */
  lemma ExifFromIdInverse(id: uint16)
    ensures ExifFromId(id).Some? ==> ExifTagId(ExifFromId(id).value) == id
  {
    ExifFromIdFrom0Inverse(id);
    ExifFromIdFrom36864Inverse(id);
    ExifFromIdFrom37381Inverse(id);
    ExifFromIdFrom37889Inverse(id);
    ExifFromIdFrom41486Inverse(id);
    ExifFromIdFrom41988Inverse(id);
    ExifFromIdFrom42034Inverse(id);
    ExifFromIdFrom42081Inverse(id);
  }

  function ExifTagName(t: ExifIfdTag): string
  {
    match t
    case ExifVersion => "Exif version"
    case FlashpixVersion => "Supported Flashpix version"
    case ColorSpace => "Color space information"
    case Gamma => "Gamma"
    case ComponentsConfiguration => "Meaning of each component"
    case CompressedBitsPerPixel => "Image compression mode"
    case PixelXDimension => "Valid image width"
    case PixelYDimension => "Valid image height"
    case MakerNote => "Manufacturer notes"
    case UserComment => "User comments"
    case RelatedSoundFile => "Related audio file"
    case DateTimeOriginal => "Date and time of original data generation"
    case DateTimeDigitized => "Date and time of digital data generation"
    case OffsetTime => "Offset data of DateTime"
    case OffsetTimeOriginal => "Offset data of DateTimeOriginal"
    case OffsetTimeDigitized => "Offset data of DateTimeDigitized"
    case SubSecTime => "DateTime sub-seconds"
    case SubSecTimeOriginal => "DateTimeOriginal sub-seconds"
    case SubSecTimeDigitized => "DateTimeDigitized sub-seconds"
    case Temperature => "Temperature"
    case Humidity => "Humidity"
    case Pressure => "Pressure"
    case WaterDepth => "WaterDepth"
    case Acceleration => "Acceleration"
    case CameraElevationAngle => "Camera elevation angle"
    case ImageUniqueID => "Unique image ID"
    case CameraOwnerName => "Camera Owner Name"
    case BodySerialNumber => "Body Serial Number"
    case LensSpecification => "Lens Specification"
    case LensMake => "Lens Make"
    case LensModel => "Lens Model"
    case LensSerialNumber => "Lens Serial Number"
    case ImageTitle => "Tiele name of Image"
    case Photographer => "Photographer name"
    case ImageEditor => "Person who edited the image"
    case CameraFirmware => "Camera Firmware"
    case RAWDevelopingSoftware => "RAW Developing Software"
    case ImageEditingSoftware => "Image Editing Software"
    case MetadataEditingSoftware => "Metadata Editing Software"
    case ExposureTime => "Exposure time"
    case FNumber => "F number"
    case ExposureProgram => "Exposure program"
    case SpectralSensitivity => "Spectral sensitivity"
    case PhotographicSensitivity => "Photographic Sensitivity"
    case OECF => "Optoelectric conversion factor"
    case SensitivityType => "Sensitivity Type"
    case StandardOutputSensitivity => "Standard Output Sensitivity"
    case RecommendedExposureIndex => "Recommended ExposureIndex"
    case ISOSpeed => "ISO Speed"
    case ISOSpeedLatitudeyyy => "ISO Speed Latitude yyy"
    case ISOSpeedLatitudezzz => "ISO Speed Latitude zzz"
    case ShutterSpeedValue => "Shutter speed"
    case ApertureValue => "Aperture"
    case BrightnessValue => "Brightness"
    case ExposureBiasValue => "Exposure bias"
    case MaxApertureValue => "Maximum lens aperture"
    case SubjectDistance => "Subject distance"
    case MeteringMode => "Metering mode"
    case LightSource => "Light source"
    case Flash => "Flash"
    case FocalLength => "Lens focal length"
    case SubjectArea => "Subject area"
    case FlashEnergy => "Flash energy"
    case SpatialFrequencyResponse => "Spatial frequency response"
    case FocalPlaneXResolution => "Focal plane X resolution"
    case FocalPlaneYResolution => "Focal plane Y resolution"
    case FocalPlaneResolutionUnit => "Focal plane resolution unit"
    case SubjectLocation => "Subject location"
    case ExposureIndex => "Exposure index"
    case SensingMethod => "Sensing method"
    case FileSource => "File source"
    case SceneType => "Scene type"
    case CFAPattern => "CFA pattern"
    case CustomRendered => "Custom image processing"
    case ExposureMode => "Exposure mode"
    case WhiteBalance => "White balance"
    case DigitalZoomRatio => "Digital zoom ratio"
    case FocalLengthIn35mmFilm => "Focal length in 35 mm film"
    case SceneCaptureType => "Scene capture type"
    case GainControl => "Gain control"
    case Contrast => "Contrast"
    case Saturation => "Saturation"
    case Sharpness => "Sharpness"
    case DeviceSettingDescription => "Device settings description"
    case SubjectDistanceRange => "Subject distance range"
    case CompositeImage => "Composite image"
    case SourceImageNumberOfCompositeImage => "Source image number of composite image"
    case SourceExposureTimesOfCompositeImage => "Source exposure times of composite image"
  }

  function ExifTypes(t: ExifIfdTag): seq<PrimitiveTy>
  {
    match t
    case ExifVersion => [PrimitiveTy.Undefined]
    case FlashpixVersion => [PrimitiveTy.Undefined]
    case ColorSpace => [PrimitiveTy.Short]
    case Gamma => [PrimitiveTy.Rational]
    case ComponentsConfiguration => [PrimitiveTy.Undefined]
    case CompressedBitsPerPixel => [PrimitiveTy.Rational]
    case PixelXDimension => [PrimitiveTy.Short, PrimitiveTy.Long]
    case PixelYDimension => [PrimitiveTy.Short, PrimitiveTy.Long]
    case MakerNote => [PrimitiveTy.Undefined]
    case UserComment => [PrimitiveTy.Undefined]
    case RelatedSoundFile => [PrimitiveTy.Ascii]
    case DateTimeOriginal => [PrimitiveTy.Ascii]
    case DateTimeDigitized => [PrimitiveTy.Ascii]
    case OffsetTime => [PrimitiveTy.Ascii]
    case OffsetTimeOriginal => [PrimitiveTy.Ascii]
    case OffsetTimeDigitized => [PrimitiveTy.Ascii]
    case SubSecTime => [PrimitiveTy.Ascii]
    case SubSecTimeOriginal => [PrimitiveTy.Ascii]
    case SubSecTimeDigitized => [PrimitiveTy.Ascii]
    case Temperature => [PrimitiveTy.SRational]
    case Humidity => [PrimitiveTy.Rational]
    case Pressure => [PrimitiveTy.Rational]
    case WaterDepth => [PrimitiveTy.SRational]
    case Acceleration => [PrimitiveTy.Rational]
    case CameraElevationAngle => [PrimitiveTy.SRational]
    case ImageUniqueID => [PrimitiveTy.Ascii]
    case CameraOwnerName => [PrimitiveTy.Ascii, PrimitiveTy.Utf8]
    case BodySerialNumber => [PrimitiveTy.Ascii]
    case LensSpecification => [PrimitiveTy.Rational]
    case LensMake => [PrimitiveTy.Ascii, PrimitiveTy.Utf8]
    case LensModel => [PrimitiveTy.Ascii, PrimitiveTy.Utf8]
    case LensSerialNumber => [PrimitiveTy.Ascii]
    case ImageTitle => [PrimitiveTy.Ascii, PrimitiveTy.Utf8]
    case Photographer => [PrimitiveTy.Ascii, PrimitiveTy.Utf8]
    case ImageEditor => [PrimitiveTy.Ascii, PrimitiveTy.Utf8]
    case CameraFirmware => [PrimitiveTy.Ascii, PrimitiveTy.Utf8]
    case RAWDevelopingSoftware => [PrimitiveTy.Ascii, PrimitiveTy.Utf8]
    case ImageEditingSoftware => [PrimitiveTy.Ascii, PrimitiveTy.Utf8]
    case MetadataEditingSoftware => [PrimitiveTy.Ascii, PrimitiveTy.Utf8]
    case ExposureTime => [PrimitiveTy.Rational]
    case FNumber => [PrimitiveTy.Rational]
    case ExposureProgram => [PrimitiveTy.Short]
    case SpectralSensitivity => [PrimitiveTy.Ascii]
    case PhotographicSensitivity => [PrimitiveTy.Short]
    case OECF => [PrimitiveTy.Undefined]
    case SensitivityType => [PrimitiveTy.Short]
    case StandardOutputSensitivity => [PrimitiveTy.Long]
    case RecommendedExposureIndex => [PrimitiveTy.Long]
    case ISOSpeed => [PrimitiveTy.Long]
    case ISOSpeedLatitudeyyy => [PrimitiveTy.Long]
    case ISOSpeedLatitudezzz => [PrimitiveTy.Long]
    case ShutterSpeedValue => [PrimitiveTy.SRational]
    case ApertureValue => [PrimitiveTy.Rational]
    case BrightnessValue => [PrimitiveTy.SRational]
    case ExposureBiasValue => [PrimitiveTy.SRational]
    case MaxApertureValue => [PrimitiveTy.Rational]
    case SubjectDistance => [PrimitiveTy.Rational]
    case MeteringMode => [PrimitiveTy.Short]
    case LightSource => [PrimitiveTy.Short]
    case Flash => [PrimitiveTy.Short]
    case FocalLength => [PrimitiveTy.Rational]
    case SubjectArea => [PrimitiveTy.Short]
    case FlashEnergy => [PrimitiveTy.Rational]
    case SpatialFrequencyResponse => [PrimitiveTy.Undefined]
    case FocalPlaneXResolution => [PrimitiveTy.Rational]
    case FocalPlaneYResolution => [PrimitiveTy.Rational]
    case FocalPlaneResolutionUnit => [PrimitiveTy.Short]
    case SubjectLocation => [PrimitiveTy.Short]
    case ExposureIndex => [PrimitiveTy.Rational]
    case SensingMethod => [PrimitiveTy.Short]
    case FileSource => [PrimitiveTy.Undefined]
    case SceneType => [PrimitiveTy.Undefined]
    case CFAPattern => [PrimitiveTy.Undefined]
    case CustomRendered => [PrimitiveTy.Short]
    case ExposureMode => [PrimitiveTy.Short]
    case WhiteBalance => [PrimitiveTy.Short]
    case DigitalZoomRatio => [PrimitiveTy.Rational]
    case FocalLengthIn35mmFilm => [PrimitiveTy.Short]
    case SceneCaptureType => [PrimitiveTy.Short]
    case GainControl => [PrimitiveTy.Rational]
    case Contrast => [PrimitiveTy.Short]
    case Saturation => [PrimitiveTy.Short]
    case Sharpness => [PrimitiveTy.Short]
    case DeviceSettingDescription => [PrimitiveTy.Undefined]
    case SubjectDistanceRange => [PrimitiveTy.Short]
    case CompositeImage => [PrimitiveTy.Short]
    case SourceImageNumberOfCompositeImage => [PrimitiveTy.Short]
    case SourceExposureTimesOfCompositeImage => [PrimitiveTy.Undefined]
  }

  function ExifCount(t: ExifIfdTag): PrimitiveCount
  {
    match t
    case ExifVersion => PrimitiveCount.Known(4)
    case FlashpixVersion => PrimitiveCount.Known(4)
    case ColorSpace => PrimitiveCount.Known(1)
    case Gamma => PrimitiveCount.Known(1)
    case ComponentsConfiguration => PrimitiveCount.Known(4)
    case CompressedBitsPerPixel => PrimitiveCount.Known(1)
    case PixelXDimension => PrimitiveCount.Known(1)
    case PixelYDimension => PrimitiveCount.Known(1)
    case MakerNote => Any
    case UserComment => Any
    case RelatedSoundFile => PrimitiveCount.Known(13)
    case DateTimeOriginal => PrimitiveCount.Known(20)
    case DateTimeDigitized => PrimitiveCount.Known(20)
    case OffsetTime => PrimitiveCount.Known(7)
    case OffsetTimeOriginal => PrimitiveCount.Known(7)
    case OffsetTimeDigitized => PrimitiveCount.Known(7)
    case SubSecTime => Any
    case SubSecTimeOriginal => Any
    case SubSecTimeDigitized => Any
    case Temperature => PrimitiveCount.Known(1)
    case Humidity => PrimitiveCount.Known(1)
    case Pressure => PrimitiveCount.Known(1)
    case WaterDepth => PrimitiveCount.Known(1)
    case Acceleration => PrimitiveCount.Known(1)
    case CameraElevationAngle => PrimitiveCount.Known(1)
    case ImageUniqueID => PrimitiveCount.Known(33)
    case CameraOwnerName => Any
    case BodySerialNumber => Any
    case LensSpecification => PrimitiveCount.Known(4)
    case LensMake => Any
    case LensModel => Any
    case LensSerialNumber => Any
    case ImageTitle => Any
    case Photographer => Any
    case ImageEditor => Any
    case CameraFirmware => Any
    case RAWDevelopingSoftware => Any
    case ImageEditingSoftware => Any
    case MetadataEditingSoftware => Any
    case ExposureTime => PrimitiveCount.Known(1)
    case FNumber => PrimitiveCount.Known(1)
    case ExposureProgram => PrimitiveCount.Known(1)
    case SpectralSensitivity => Any
    case PhotographicSensitivity => Any
    case OECF => Any
    case SensitivityType => PrimitiveCount.Known(1)
    case StandardOutputSensitivity => PrimitiveCount.Known(1)
    case RecommendedExposureIndex => PrimitiveCount.Known(1)
    case ISOSpeed => PrimitiveCount.Known(1)
    case ISOSpeedLatitudeyyy => PrimitiveCount.Known(1)
    case ISOSpeedLatitudezzz => PrimitiveCount.Known(1)
    case ShutterSpeedValue => PrimitiveCount.Known(1)
    case ApertureValue => PrimitiveCount.Known(1)
    case BrightnessValue => PrimitiveCount.Known(1)
    case ExposureBiasValue => PrimitiveCount.Known(1)
    case MaxApertureValue => PrimitiveCount.Known(1)
    case SubjectDistance => PrimitiveCount.Known(1)
    case MeteringMode => PrimitiveCount.Known(1)
    case LightSource => PrimitiveCount.Known(1)
    case Flash => PrimitiveCount.Known(1)
    case FocalLength => PrimitiveCount.Known(1)
    case SubjectArea => KnownRange(2, 4)
    case FlashEnergy => PrimitiveCount.Known(1)
    case SpatialFrequencyResponse => Any
    case FocalPlaneXResolution => PrimitiveCount.Known(1)
    case FocalPlaneYResolution => PrimitiveCount.Known(1)
    case FocalPlaneResolutionUnit => PrimitiveCount.Known(1)
    case SubjectLocation => PrimitiveCount.Known(2)
    case ExposureIndex => PrimitiveCount.Known(1)
    case SensingMethod => PrimitiveCount.Known(1)
    case FileSource => PrimitiveCount.Known(1)
    case SceneType => PrimitiveCount.Known(1)
    case CFAPattern => Any
    case CustomRendered => PrimitiveCount.Known(1)
    case ExposureMode => PrimitiveCount.Known(1)
    case WhiteBalance => PrimitiveCount.Known(1)
    case DigitalZoomRatio => PrimitiveCount.Known(1)
    case FocalLengthIn35mmFilm => PrimitiveCount.Known(1)
    case SceneCaptureType => PrimitiveCount.Known(1)
    case GainControl => PrimitiveCount.Known(1)
    case Contrast => PrimitiveCount.Known(1)
    case Saturation => PrimitiveCount.Known(1)
    case Sharpness => PrimitiveCount.Known(1)
    case DeviceSettingDescription => Any
    case SubjectDistanceRange => PrimitiveCount.Known(1)
    case CompositeImage => PrimitiveCount.Known(1)
    case SourceImageNumberOfCompositeImage => PrimitiveCount.Known(2)
    case SourceExposureTimesOfCompositeImage => Any
  }

  // ---- GpsIfdTag (IfdGroup::Gps) ----

  datatype GpsIfdTag =
      GPSVersionID
    | GPSLatitudeRef
    | GPSLatitude
    | GPSLongitudeRef
    | GPSLongitude
    | GPSAltitudeRef
    | GPSAltitude
    | GPSTimeStamp
    | GPSSatellites
    | GPSStatus
    | GPSMeasureMode
    | GPSDOP
    | GPSSpeedRef
    | GPSSpeed
    | GPSTrackRef
    | GPSTrack
    | GPSImgDirectionRef
    | GPSImgDirection
    | GPSMapDatum
    | GPSDestLatitudeRef
    | GPSDestLatitude
    | GPSDestLongitudeRef
    | GPSDestLongitude
    | GPSDestBearingRef
    | GPSDestBearing
    | GPSDestDistanceRef
    | GPSDestDistance
    | GPSProcessingMethod
    | GPSAreaInformation
    | GPSDateStamp
    | GPSDifferential
    | GPSHPositioningError

  /** The part of the `GpsIfdTag` table with ids from 0 to 11. */
  function GpsFromIdFrom0(id: uint16): Option<GpsIfdTag>
  {
    match id
    case 0 => Some(GPSVersionID)
    case 1 => Some(GPSLatitudeRef)
    case 2 => Some(GPSLatitude)
    case 3 => Some(GPSLongitudeRef)
    case 4 => Some(GPSLongitude)
    case 5 => Some(GPSAltitudeRef)
    case 6 => Some(GPSAltitude)
    case 7 => Some(GPSTimeStamp)
    case 8 => Some(GPSSatellites)
    case 9 => Some(GPSStatus)
    case 10 => Some(GPSMeasureMode)
    case 11 => Some(GPSDOP)
    case _ => None
  }

  /** The part of the `GpsIfdTag` table with ids from 12 to 23. */
  function GpsFromIdFrom12(id: uint16): Option<GpsIfdTag>
  {
    match id
    case 12 => Some(GPSSpeedRef)
    case 13 => Some(GPSSpeed)
    case 14 => Some(GPSTrackRef)
    case 15 => Some(GPSTrack)
    case 16 => Some(GPSImgDirectionRef)
    case 17 => Some(GPSImgDirection)
    case 18 => Some(GPSMapDatum)
    case 19 => Some(GPSDestLatitudeRef)
    case 20 => Some(GPSDestLatitude)
    case 21 => Some(GPSDestLongitudeRef)
    case 22 => Some(GPSDestLongitude)
    case 23 => Some(GPSDestBearingRef)
    case _ => None
  }

  /** The part of the `GpsIfdTag` table with ids from 24 to 65535. */
  function GpsFromIdFrom24(id: uint16): Option<GpsIfdTag>
  {
    match id
    case 24 => Some(GPSDestBearing)
    case 25 => Some(GPSDestDistanceRef)
    case 26 => Some(GPSDestDistance)
    case 27 => Some(GPSProcessingMethod)
    case 28 => Some(GPSAreaInformation)
    case 29 => Some(GPSDateStamp)
    case 30 => Some(GPSDifferential)
    case 31 => Some(GPSHPositioningError)
    case _ => None
  }

  /** `TryFrom<u16>` for `GpsIfdTag`: the tag with that id in this group, if any. */
  function GpsFromId(id: uint16): Option<GpsIfdTag>
  {
    if id <= 11 then GpsFromIdFrom0(id)
    else if id <= 23 then GpsFromIdFrom12(id)
    else GpsFromIdFrom24(id)
  }

  /** The `#[repr(u16)]` discriminant, which is the tag id; looking it up
      again in this group gives back the same tag. */
  function GpsTagId(t: GpsIfdTag): (id: uint16)
    ensures GpsFromId(id) == Some(t)
  {
    match t
    case GPSVersionID => 0
    case GPSLatitudeRef => 1
    case GPSLatitude => 2
    case GPSLongitudeRef => 3
    case GPSLongitude => 4
    case GPSAltitudeRef => 5
    case GPSAltitude => 6
    case GPSTimeStamp => 7
    case GPSSatellites => 8
    case GPSStatus => 9
    case GPSMeasureMode => 10
    case GPSDOP => 11
    case GPSSpeedRef => 12
    case GPSSpeed => 13
    case GPSTrackRef => 14
    case GPSTrack => 15
    case GPSImgDirectionRef => 16
    case GPSImgDirection => 17
    case GPSMapDatum => 18
    case GPSDestLatitudeRef => 19
    case GPSDestLatitude => 20
    case GPSDestLongitudeRef => 21
    case GPSDestLongitude => 22
    case GPSDestBearingRef => 23
    case GPSDestBearing => 24
    case GPSDestDistanceRef => 25
    case GPSDestDistance => 26
    case GPSProcessingMethod => 27
    case GPSAreaInformation => 28
    case GPSDateStamp => 29
    case GPSDifferential => 30
    case GPSHPositioningError => 31
  }

  lemma GpsFromIdFrom0Inverse(id: uint16)
    ensures GpsFromIdFrom0(id).Some? ==> GpsTagId(GpsFromIdFrom0(id).value) == id
  {
  }

  lemma GpsFromIdFrom12Inverse(id: uint16)
    ensures GpsFromIdFrom12(id).Some? ==> GpsTagId(GpsFromIdFrom12(id).value) == id
  {
  }

  lemma GpsFromIdFrom24Inverse(id: uint16)
    ensures GpsFromIdFrom24(id).Some? ==> GpsTagId(GpsFromIdFrom24(id).value) == id
  {
  }

  /** Every id the lookup accepts is the id of the tag it returns. */
  lemma GpsFromIdInverse(id: uint16)
    ensures GpsFromId(id).Some? ==> GpsTagId(GpsFromId(id).value) == id
  {
    GpsFromIdFrom0Inverse(id);
    GpsFromIdFrom12Inverse(id);
    GpsFromIdFrom24Inverse(id);
  }

  function GpsTagName(t: GpsIfdTag): string
  {
    match t
    case GPSVersionID => "GPS tag version"
    case GPSLatitudeRef => "North or South Latitude"
    case GPSLatitude => "Latitude"
    case GPSLongitudeRef => "East or West Longitude"
    case GPSLongitude => "Longitude"
    case GPSAltitudeRef => "Altitude reference"
    case GPSAltitude => "Altitude"
    case GPSTimeStamp => "GPS time (atomic clock)"
    case GPSSatellites => "GPS satellites used for measurement"
    case GPSStatus => "GPS receiver status"
    case GPSMeasureMode => "GPS measurement mode"
    case GPSDOP => "Measurement precision"
    case GPSSpeedRef => "Speed unit"
    case GPSSpeed => "Speed of GPS receiver"
    case GPSTrackRef => "Reference for direction of movement"
    case GPSTrack => "Direction of movement"
    case GPSImgDirectionRef => "Reference for direction of image"
    case GPSImgDirection => "Direction of image"
    case GPSMapDatum => "Geodetic survey data used"
    case GPSDestLatitudeRef => "Reference for latitude of destination"
    case GPSDestLatitude => "Latitude of destination"
    case GPSDestLongitudeRef => "Reference for longitude of destination"
    case GPSDestLongitude => "Longitude of destination"
    case GPSDestBearingRef => "Reference for bearing of destination"
    case GPSDestBearing => "Bearing of destination"
    case GPSDestDistanceRef => "Reference for distance to destination"
    case GPSDestDistance => "Distance to destination"
    case GPSProcessingMethod => "Name of GPS processing method"
    case GPSAreaInformation => "Name of GPS area"
    case GPSDateStamp => "GPS date"
    case GPSDifferential => "GPS differential correction"
    case GPSHPositioningError => "Horizontal positioning error"
  }

  function GpsTypes(t: GpsIfdTag): seq<PrimitiveTy>
  {
    match t
    case GPSVersionID => [PrimitiveTy.Byte]
    case GPSLatitudeRef => [PrimitiveTy.Ascii]
    case GPSLatitude => [PrimitiveTy.Rational]
    case GPSLongitudeRef => [PrimitiveTy.Ascii]
    case GPSLongitude => [PrimitiveTy.Rational]
    case GPSAltitudeRef => [PrimitiveTy.Byte]
    case GPSAltitude => [PrimitiveTy.Rational]
    case GPSTimeStamp => [PrimitiveTy.Rational]
    case GPSSatellites => [PrimitiveTy.Ascii]
    case GPSStatus => [PrimitiveTy.Ascii]
    case GPSMeasureMode => [PrimitiveTy.Ascii]
    case GPSDOP => [PrimitiveTy.Rational]
    case GPSSpeedRef => [PrimitiveTy.Ascii]
    case GPSSpeed => [PrimitiveTy.Rational]
    case GPSTrackRef => [PrimitiveTy.Ascii]
    case GPSTrack => [PrimitiveTy.Rational]
    case GPSImgDirectionRef => [PrimitiveTy.Ascii]
    case GPSImgDirection => [PrimitiveTy.Rational]
    case GPSMapDatum => [PrimitiveTy.Ascii]
    case GPSDestLatitudeRef => [PrimitiveTy.Ascii]
    case GPSDestLatitude => [PrimitiveTy.Rational]
    case GPSDestLongitudeRef => [PrimitiveTy.Ascii]
    case GPSDestLongitude => [PrimitiveTy.Rational]
    case GPSDestBearingRef => [PrimitiveTy.Ascii]
    case GPSDestBearing => [PrimitiveTy.Rational]
    case GPSDestDistanceRef => [PrimitiveTy.Ascii]
    case GPSDestDistance => [PrimitiveTy.Rational]
    case GPSProcessingMethod => [PrimitiveTy.Undefined]
    case GPSAreaInformation => [PrimitiveTy.Undefined]
    case GPSDateStamp => [PrimitiveTy.Ascii]
    case GPSDifferential => [PrimitiveTy.Short]
    case GPSHPositioningError => [PrimitiveTy.Rational]
  }

  function GpsCount(t: GpsIfdTag): PrimitiveCount
  {
    match t
    case GPSVersionID => PrimitiveCount.Known(4)
    case GPSLatitudeRef => PrimitiveCount.Known(2)
    case GPSLatitude => PrimitiveCount.Known(3)
    case GPSLongitudeRef => PrimitiveCount.Known(2)
    case GPSLongitude => PrimitiveCount.Known(3)
    case GPSAltitudeRef => PrimitiveCount.Known(1)
    case GPSAltitude => PrimitiveCount.Known(1)
    case GPSTimeStamp => PrimitiveCount.Known(3)
    case GPSSatellites => Any
    case GPSStatus => PrimitiveCount.Known(2)
    case GPSMeasureMode => PrimitiveCount.Known(2)
    case GPSDOP => PrimitiveCount.Known(1)
    case GPSSpeedRef => PrimitiveCount.Known(2)
    case GPSSpeed => PrimitiveCount.Known(1)
    case GPSTrackRef => PrimitiveCount.Known(2)
    case GPSTrack => PrimitiveCount.Known(1)
    case GPSImgDirectionRef => PrimitiveCount.Known(2)
    case GPSImgDirection => PrimitiveCount.Known(1)
    case GPSMapDatum => Any
    case GPSDestLatitudeRef => PrimitiveCount.Known(2)
    case GPSDestLatitude => PrimitiveCount.Known(3)
    case GPSDestLongitudeRef => PrimitiveCount.Known(2)
    case GPSDestLongitude => PrimitiveCount.Known(3)
    case GPSDestBearingRef => PrimitiveCount.Known(2)
    case GPSDestBearing => PrimitiveCount.Known(1)
    case GPSDestDistanceRef => PrimitiveCount.Known(2)
    case GPSDestDistance => PrimitiveCount.Known(1)
    case GPSProcessingMethod => Any
    case GPSAreaInformation => Any
    case GPSDateStamp => PrimitiveCount.Known(11)
    case GPSDifferential => PrimitiveCount.Known(1)
    case GPSHPositioningError => PrimitiveCount.Known(1)
  }

  // ---- InteropIfdTag (IfdGroup::Interop) ----

  datatype InteropIfdTag =
      InteroperabilityIndex

  /** `TryFrom<u16>` for `InteropIfdTag`: the tag with that id in this group, if any. */
  function InteropFromId(id: uint16): Option<InteropIfdTag>
  {
    match id
    case 1 => Some(InteroperabilityIndex)
    case _ => None
  }

  /** The `#[repr(u16)]` discriminant, which is the tag id; looking it up
      again in this group gives back the same tag. */
  function InteropTagId(t: InteropIfdTag): (id: uint16)
    ensures InteropFromId(id) == Some(t)
  {
    match t
    case InteroperabilityIndex => 1
  }

  /** Every id the lookup accepts is the id of the tag it returns. */
  lemma InteropFromIdInverse(id: uint16)
    ensures InteropFromId(id).Some? ==> InteropTagId(InteropFromId(id).value) == id
  {
  }

  function InteropTagName(t: InteropIfdTag): string
  {
    match t
    case InteroperabilityIndex => "Interoperability Identification"
  }

  function InteropTypes(t: InteropIfdTag): seq<PrimitiveTy>
  {
    match t
    case InteroperabilityIndex => [PrimitiveTy.Ascii]
  }

  function InteropCount(t: InteropIfdTag): PrimitiveCount
  {
    match t
    case InteroperabilityIndex => Any
  }
  // ---- the union of the four tables ----

  /** `KnownTag`: a tag together with the group whose table defines it. */
  datatype KnownTag =
    | InIfd0(ifd0: Ifd0Tag)
    | InExif(exif: ExifIfdTag)
    | InGps(gps: GpsIfdTag)
    | InInterop(interop: InteropIfdTag)
  {
    function Group(): IfdGroup
    {
      match this
      case InIfd0(_) => Ifd0
      case InExif(_) => Exif
      case InGps(_) => Gps
      case InInterop(_) => Interop
    }

    function TagId(): uint16
    {
      match this
      case InIfd0(t) => Ifd0TagId(t)
      case InExif(t) => ExifTagId(t)
      case InGps(t) => GpsTagId(t)
      case InInterop(t) => InteropTagId(t)
    }

    function TagName(): string
    {
      match this
      case InIfd0(t) => Ifd0TagName(t)
      case InExif(t) => ExifTagName(t)
      case InGps(t) => GpsTagName(t)
      case InInterop(t) => InteropTagName(t)
    }

    function Types(): seq<PrimitiveTy>
    {
      match this
      case InIfd0(t) => Ifd0Types(t)
      case InExif(t) => ExifTypes(t)
      case InGps(t) => GpsTypes(t)
      case InInterop(t) => InteropTypes(t)
    }

    function Count(): PrimitiveCount
    {
      match this
      case InIfd0(t) => Ifd0Count(t)
      case InExif(t) => ExifCount(t)
      case InGps(t) => GpsCount(t)
      case InInterop(t) => InteropCount(t)
    }
  }

  /** `TryFrom<(IfdGroup, u16)>` for `KnownTag`: only `group`'s own table is
      consulted, so the same id can name different tags in different groups. */
  function TryFromGroupId(group: IfdGroup, id: uint16): (r: Option<KnownTag>)
    ensures r.Some? ==> r.value.Group() == group && r.value.TagId() == id
    ensures r.None? ==> forall k: KnownTag :: k.Group() == group ==> k.TagId() != id
  {
    match group
    case Ifd0 =>
      Ifd0FromIdInverse(id);
      (match Ifd0FromId(id)
       case Some(t) => Some(InIfd0(t))
       case None => None)
    case Exif =>
      ExifFromIdInverse(id);
      (match ExifFromId(id)
       case Some(t) => Some(InExif(t))
       case None => None)
    case Gps =>
      GpsFromIdInverse(id);
      (match GpsFromId(id)
       case Some(t) => Some(InGps(t))
       case None => None)
    case Interop =>
      InteropFromIdInverse(id);
      (match InteropFromId(id)
       case Some(t) => Some(InInterop(t))
       case None => None)
  }

  /** Every known tag is found again from its own group and id; so the lookup
      fails only for ids that no tag of the group has. */
  lemma TagIdRoundTrip(k: KnownTag)
    ensures TryFromGroupId(k.Group(), k.TagId()) == Some(k)
  {
  }

  /** Id 1 names a different tag in the GPS table than in the
      interoperability table, and no tag of IFD0 or the Exif IFD. */
  lemma IdOneDependsOnGroup()
    ensures TryFromGroupId(Gps, 1) == Some(InGps(GPSLatitudeRef))
    ensures TryFromGroupId(Interop, 1) == Some(InInterop(InteroperabilityIndex))
    ensures TryFromGroupId(Ifd0, 1).None? && TryFromGroupId(Exif, 1).None?
  {
  }

  /** The first IFD0 entry of the table. */
  lemma ImageWidthEntry()
    ensures InIfd0(ImageWidth).TagId() == 256
    ensures InIfd0(ImageWidth).TagName() == "Image width"
    ensures InIfd0(ImageWidth).Types() == [PrimitiveTy.Short, PrimitiveTy.Long]
    ensures InIfd0(ImageWidth).Count() == PrimitiveCount.Known(1)
    ensures InIfd0(ImageWidth).Group() == Ifd0
  {
  }

  /** `FieldTag`: a field's tag, known in the current group's table or kept raw. */
  datatype FieldTag = Known(tag: KnownTag) | Unknown(raw: uint16)

  /** `SUB_IFD_POINTER_TAGS`: the IFD0 fields whose value points at a sub-IFD. */
  const SubIfdPointerTags: seq<FieldTag> :=
    [FieldTag.Known(InIfd0(ExifIfdPointer)), FieldTag.Known(InIfd0(GpsInfoIfdPointer)), FieldTag.Known(InIfd0(InteroperabilityIfdPointer))]

  /** The pointer tags are exactly three IFD0 tags, 34665, 34853 and 40965,
      each declared as a single Long. */
  lemma SubIfdPointerTagsFacts()
    ensures |SubIfdPointerTags| == 3
    ensures forall i | 0 <= i < 3 ::
              && SubIfdPointerTags[i].Known?
              && SubIfdPointerTags[i].tag.Group() == Ifd0
              && SubIfdPointerTags[i].tag.Types() == [PrimitiveTy.Long]
              && SubIfdPointerTags[i].tag.Count() == PrimitiveCount.Known(1)
    ensures [SubIfdPointerTags[0].tag.TagId(), SubIfdPointerTags[1].tag.TagId(), SubIfdPointerTags[2].tag.TagId()]
      == [34665, 34853, 40965]
  {
  }
}

=== FILE: exif_types.dfy ===
/** The Exif result types (raves_metadata_types/src/exif/mod.rs) and the two
    error enumerations of the Exif decoder (raves_metadata/src/exif/error.rs,
    extended with the two recursion errors that the IFD parser raises).
 */
module ExifTypes {
  import opened Std
  import opened Bytes
  import opened ExifPrimitives
  import opened ExifTags

  /** `FieldData`: no primitive, exactly one, or a list tagged with its type. */
  datatype FieldData =
    | NoData(noneTy: PrimitiveTy)
    | One(primitive: Primitive)
    | List(list: seq<Primitive>, listTy: PrimitiveTy)

  /** The primitives a field's data holds, in stored order. */
  function Primitives(d: FieldData): seq<Primitive>
  {
    match d
    case NoData(_) => []
    case One(p) => [p]
    case List(l, _) => l
  }

  /** `Field`: a tag and its decoded data. */
  datatype Field = Field(tag: FieldTag, data: FieldData)
  {
    /** `Field::count`; a list's length is cast to `u32` as in the source. */
    function Count(): (r: uint32)
      ensures |Primitives(data)| < 0x1_0000_0000 ==> r == |Primitives(data)|
      ensures data.NoData? ==> r == 0
      ensures data.One? ==> r == 1
    {
      match data
      case NoData(_) => 0
      case One(_) => 1
      case List(l, _) => WrapU32(|l|)
    }

    /** `Field::ty`: the stored type for `None` and `List`, the primitive's
        own type otherwise. */
    function Ty(): (r: PrimitiveTy)
      ensures data.NoData? ==> r == data.noneTy
      ensures data.One? ==> r == data.primitive.Ty()
      ensures data.List? ==> r == data.listTy
    {
      match data
      case NoData(t) => t
      case One(p) => p.Ty()
      case List(_, t) => t
    }
  }

  /** `ExifFatalError`: failures that abort the whole Exif parse. */
  datatype ExifFatalError =
    | NoByteOrderMarker(len: uint8)
    | WeirdByteOrderMarker(found: Bytes)
    | NoTiffMagicNumber
    | MagicNumberWasntTiff(magic: uint16)
    | NoTiffHeaderOffset
    | HeaderOffsetBeforeHeader
    | NotEnoughDataForHeaderOffset
    | IfdNoEntryCount
    | IfdHadZeroFields
    | IfdNoPointer
    | SelfRecursion(selfGroup: IfdGroup, selfStack: seq<Option<uint32>>)
    | HitRecursionLimit(limitGroup: IfdGroup, limitStack: seq<uint32>)

  /** `ExifFieldError`: failures of one IFD entry, kept in the IFD's field list. */
  datatype ExifFieldError =
    | FieldNoTag
    | FieldNoTy
    | FieldUnknownType(got: uint16)
    | FieldNoCount
    | FieldNoOffsetOrValue
    | OffsetTooFar(offset: uint32)
    | OuttaData(ty: PrimitiveTy)
}

=== FILE: exif_value.dfy ===
/** One IFD entry (raves_metadata/src/exif/value.rs): the 12-byte entry
    header, the rule that places the value inline or at an absolute offset in
    the blob, and the decoding of primitives in the blob's byte order.
 */
module ExifValue {
  import opened Std
  import opened Bytes
  import opened ExifPrimitives
  import opened ExifTags
  import opened ExifTypes

  // ---- primitives ----

  /** Rust's `as u32` on an `i32`: the two's complement bit pattern. */
  function FromI32(x: int32): (r: uint32)
    ensures AsI32(r) == x
  {
    if x >= 0 then x else x + 0x1_0000_0000
  }

  lemma AsI32Inverse(x: uint32)
    ensures FromI32(AsI32(x)) == x
  {
  }

  /** The bytes a primitive occupies in a blob of byte order `e`; the inverse
      of `ParsePrimitive`. */
  function EncodePrimitive(e: Endianness, p: Primitive): (r: Bytes)
    ensures |r| == SizeBytes(p.Ty()) as int
  {
    Pow256Widths();
    match p
    case Byte(b) => [b]
    case Ascii(b) => [b]
    case Short(x) => Encode(e, 2, x)
    case Long(x) => Encode(e, 4, x)
    case Rational(n, d) => Encode(e, 4, n) + Encode(e, 4, d)
    case Undefined(b) => [b]
    case SLong(x) => Encode(e, 4, FromI32(x))
    case SRational(n, d) => Encode(e, 4, FromI32(n)) + Encode(e, 4, FromI32(d))
    case Utf8(b) => [b]
  }

  /** Two primitives of one type with the same encoding are equal. */
  lemma EncodePrimitiveInjective(e: Endianness, p: Primitive, q: Primitive)
    requires p.Ty() == q.Ty() && EncodePrimitive(e, p) == EncodePrimitive(e, q)
    ensures p == q
  {
    Pow256Widths();
    var a, b := EncodePrimitive(e, p), EncodePrimitive(e, q);
    match p
    case Rational(n, d) =>
      assert a[..4] == Encode(e, 4, n) && b[..4] == Encode(e, 4, q.numerator);
      assert a[4..] == Encode(e, 4, d) && b[4..] == Encode(e, 4, q.denominator);
    case SRational(n, d) =>
      assert a[..4] == Encode(e, 4, FromI32(n)) && b[..4] == Encode(e, 4, FromI32(q.snumerator));
      assert a[4..] == Encode(e, 4, FromI32(d)) && b[4..] == Encode(e, 4, FromI32(q.sdenominator));
    case SLong(x) =>
      assert Value(e, a) == FromI32(x) && Value(e, b) == FromI32(q.slong);
    case _ =>
  }

  /** Two `u32`s one after the other, as a rational's numerator and
      denominator are stored. */
  function ReadU32Pair(e: Endianness, input: Bytes): (r: Option<Parsed<(uint32, uint32)>>)
    ensures r.Some? <==> |input| >= 8
    ensures r.Some? ==> r.value.rest == input[8..]
    ensures r.Some? ==> Encode(e, 4, r.value.value.0) + Encode(e, 4, r.value.value.1) == input[..8]
  {
    var n :- ReadU32(e, input);
    var d :- ReadU32(e, n.rest);
    assert input[..8] == input[..4] + n.rest[..4];
    Some(Parsed((n.value, d.value), d.rest))
  }

  /** `parse_primitive`: one primitive of type `ty`, read in byte order `e`;
      rationals are the numerator then the denominator. */
  function ParsePrimitive(e: Endianness, ty: PrimitiveTy, input: Bytes): (r: Result<Parsed<Primitive>, ExifFieldError>)
    ensures r.Ok? <==> SizeBytes(ty) as int <= |input|
    ensures r.Ok? ==> r.value.value.Ty() == ty
    ensures r.Ok? ==> EncodePrimitive(e, r.value.value) == input[..SizeBytes(ty)]
    ensures r.Ok? ==> r.value.rest == input[SizeBytes(ty)..]
    ensures r.Err? ==> r.error == OuttaData(ty)
  {
    var outta := OuttaData(ty);
    match ty
    case Byte =>
      var b :- ReadU8(input).OkOr(outta);
      Ok(Parsed(Primitive.Byte(b.value), b.rest))
    case Ascii =>
      var b :- ReadU8(input).OkOr(outta);
      Ok(Parsed(Primitive.Ascii(b.value), b.rest))
    case Short =>
      var s :- ReadU16(e, input).OkOr(outta);
      Ok(Parsed(Primitive.Short(s.value), s.rest))
    case Long =>
      var l :- ReadU32(e, input).OkOr(outta);
      Ok(Parsed(Primitive.Long(l.value), l.rest))
    case Rational =>
      var q :- ReadU32Pair(e, input).OkOr(outta);
      Ok(Parsed(Primitive.Rational(q.value.0, q.value.1), q.rest))
    case Undefined =>
      var b :- ReadU8(input).OkOr(outta);
      Ok(Parsed(Primitive.Undefined(b.value), b.rest))
    case SLong =>
      var l :- ReadU32(e, input).OkOr(outta);
      AsI32Inverse(l.value);
      Ok(Parsed(Primitive.SLong(AsI32(l.value)), l.rest))
    case SRational =>
      var q :- ReadU32Pair(e, input).OkOr(outta);
      AsI32Inverse(q.value.0);
      AsI32Inverse(q.value.1);
      Ok(Parsed(Primitive.SRational(AsI32(q.value.0), AsI32(q.value.1)), q.rest))
    case Utf8 =>
      var b :- ReadU8(input).OkOr(outta);
      Ok(Parsed(Primitive.Utf8(b.value), b.rest))
  }

  /** Decoding an encoded primitive gives it back and leaves what followed. */
  lemma ParsePrimitiveRoundTrip(e: Endianness, p: Primitive, rest: Bytes)
    ensures ParsePrimitive(e, p.Ty(), EncodePrimitive(e, p) + rest) == Ok(Parsed(p, rest))
  {
    var input := EncodePrimitive(e, p) + rest;
    var r := ParsePrimitive(e, p.Ty(), input);
    assert input[..SizeBytes(p.Ty())] == EncodePrimitive(e, p);
    EncodePrimitiveInjective(e, r.value.value, p);
  }

  /** The bytes of a list of primitives, one after another. */
  function EncodeList(e: Endianness, ps: seq<Primitive>): Bytes
  {
    if |ps| == 0 then [] else EncodePrimitive(e, ps[0]) + EncodeList(e, ps[1..])
  }

  /** The width of `count` primitives of type `ty`, computed without overflow. */
  function ListSize(ty: PrimitiveTy, count: nat): nat
  {
    SizeBytes(ty) as nat * count
  }

  /** `parse_primitive_list`: exactly `count` primitives of type `ty`, in
      order; the first one that runs out of data fails the list. */
  function ParsePrimitiveList(e: Endianness, ty: PrimitiveTy, count: nat, input: Bytes)
    : (r: Result<seq<Primitive>, ExifFieldError>)
    ensures r.Ok? <==> ListSize(ty, count) <= |input|
    ensures r.Ok? ==> |r.value| == count && forall i | 0 <= i < count :: r.value[i].Ty() == ty
    ensures r.Ok? ==> EncodeList(e, r.value) == input[..ListSize(ty, count)]
    ensures r.Err? ==> r.error == OuttaData(ty)
    decreases count
  {
    if count == 0 then Ok([])
    else
      var s := SizeBytes(ty) as nat;
      var tailSize := ListSize(ty, count - 1);
      assert ListSize(ty, count) == s + tailSize;
      match ParsePrimitive(e, ty, input)
      case Err(err) => Err(err)
      case Ok(p) =>
        match ParsePrimitiveList(e, ty, count - 1, p.rest)
        case Err(err) => Err(err)
        case Ok(ps) =>
          var l := [p.value] + ps;
          assert l[1..] == ps;
          SplitPrefix(input, s, tailSize);
          Ok(l)
  }

  // ---- the entry ----

  /** The four parts of a 12-byte IFD entry, as raw numbers. */
  datatype Entry = Entry(tag: uint16, ty: uint16, count: uint32, valueOrOffset: uint32)

  /** An entry as it is laid out in a blob of byte order `e`. */
  function EncodeEntry(e: Endianness, en: Entry): (r: Bytes)
    ensures |r| == 12
  {
    Pow256Widths();
    Encode(e, 2, en.tag) + Encode(e, 2, en.ty) + Encode(e, 4, en.count) + Encode(e, 4, en.valueOrOffset)
  }

  /** The entry stored in the first 12 bytes of `input`, when there are 12. */
  function ReadEntry(e: Endianness, input: Bytes): (r: Option<Entry>)
    ensures r.Some? <==> |input| >= 12
    ensures r.Some? ==> EncodeEntry(e, r.value) == input[..12]
  {
    var tag :- ReadU16(e, input);
    var ty :- ReadU16(e, tag.rest);
    var count :- ReadU32(e, ty.rest);
    var vo :- ReadU32(e, count.rest);
    assert input[..12] == input[..2] + input[2..4] + input[4..8] + input[8..12];
    Some(Entry(tag.value, ty.value, count.value, vo.value))
  }

  /** Re-association of a five-piece concatenation. */
  lemma Associate4(a: Bytes, b: Bytes, c: Bytes, d: Bytes, rest: Bytes)
    ensures a + b + c + d + rest == a + (b + (c + (d + rest)))
  {
  }

  /** An entry reads back as the entry that was laid out. */
  lemma ReadEntryRoundTrip(e: Endianness, en: Entry, rest: Bytes)
    ensures ReadEntry(e, EncodeEntry(e, en) + rest) == Some(en)
  {
    Pow256Widths();
    var a := Encode(e, 2, en.tag);
    var b := Encode(e, 2, en.ty);
    var c := Encode(e, 4, en.count);
    var d := Encode(e, 4, en.valueOrOffset);
    Associate4(a, b, c, d, rest);
    ReadU16RoundTrip(e, en.tag, b + (c + (d + rest)));
    ReadU16RoundTrip(e, en.ty, c + (d + rest));
    ReadU32RoundTrip(e, en.count, d + rest);
    ReadU32RoundTrip(e, en.valueOrOffset, rest);
  }

  /** `FieldTag` for a raw tag: known when the current group's table has it. */
  function TagFor(group: IfdGroup, raw: uint16): (r: FieldTag)
    ensures r.Known? ==> r.tag.Group() == group && r.tag.TagId() == raw
    ensures r.Unknown? ==> r.raw == raw && forall k: KnownTag :: k.Group() == group ==> k.TagId() != raw
  {
    match TryFromGroupId(group, raw)
    case Some(k) => FieldTag.Known(k)
    case None => Unknown(raw)
  }

  /** Only the three pointer ids of IFD 0 read as sub-IFD pointer tags. */
  lemma PointerTagFor(group: IfdGroup, raw: uint16)
    ensures TagFor(group, raw) in SubIfdPointerTags ==> group == Ifd0 && raw in {34665, 34853, 40965}
  {
    SubIfdPointerTagsFacts();
  }

  /** Whether an entry's data lies outside the entry: the data is wider than
      the four value bytes. `wrapping` selects the source's release-build
      `u32` product, which wraps modulo 2^32. */
  predicate OutOfLine(ty: PrimitiveTy, count: uint32, wrapping: bool)
  {
    if wrapping then WrapU32(ListSize(ty, count)) > 4 else ListSize(ty, count) > 4
  }

  /** The field data decoded from `data` for a declared type and count. */
  function DecodeFieldData(e: Endianness, ty: PrimitiveTy, count: uint32, data: Bytes)
    : (r: Result<FieldData, ExifFieldError>)
    ensures r.Ok? <==> ListSize(ty, count) <= |data|
    ensures r.Ok? ==> |Primitives(r.value)| == count
    ensures r.Ok? ==> EncodeList(e, Primitives(r.value)) == data[..ListSize(ty, count)]
    ensures r.Ok? ==> (count == 0 <==> r.value.NoData?) && (count == 1 <==> r.value.One?)
    ensures r.Ok? ==> Field(Unknown(0), r.value).Ty() == ty
    ensures r.Err? ==> r.error == OuttaData(ty)
  {
    if count == 0 then Ok(NoData(ty))
    else if count == 1 then
      var p :- ParsePrimitive(e, ty, data);
      assert EncodeList(e, [p.value]) == EncodePrimitive(e, p.value);
      Ok(One(p.value))
    else
      var l :- ParsePrimitiveList(e, ty, count, data);
      Ok(List(l, ty))
  }

  /** The bytes an entry's data starts at. Inline data is the entry's own
      four value bytes; out-of-line data starts at the absolute offset in the
      blob, and an offset past `blob.len() - 1` (saturating, cast to `u32`)
      is too far. */
  function EntryData(e: Endianness, blob: Bytes, en: Entry, outOfLine: bool): (r: Result<Bytes, ExifFieldError>)
    ensures !outOfLine ==> r == Ok(Encode(e, 4, en.valueOrOffset))
    ensures r.Ok? && outOfLine ==> en.valueOrOffset <= |blob| && r.value == blob[en.valueOrOffset..]
    ensures r.Err? ==> r.error == OffsetTooFar(en.valueOrOffset)
    ensures |blob| <= 0x1_0000_0000 && outOfLine ==> (r.Err? <==> en.valueOrOffset >= Max(|blob|, 1))
  {
    if outOfLine then
      var blobMaxIndex := WrapU32(SatSub(|blob|, 1));
      assert |blob| <= 0x1_0000_0000 ==> blobMaxIndex == SatSub(|blob|, 1);
      if en.valueOrOffset > blobMaxIndex then Err(OffsetTooFar(en.valueOrOffset))
      else if en.valueOrOffset <= |blob| then Ok(blob[en.valueOrOffset..])
      else Err(OffsetTooFar(en.valueOrOffset))
    else
      Pow256Widths();
      Ok(Encode(e, 4, en.valueOrOffset))
  }

  /** The field of a complete entry whose type code is `ty`, decoded from the
      bytes `EntryData` locates. */
  function EntryField(tag: FieldTag, e: Endianness, blob: Bytes, en: Entry, ty: PrimitiveTy, outOfLine: bool)
    : (r: Result<Field, ExifFieldError>)
    ensures r.Ok? ==> r.value.tag == tag && r.value.Ty() == ty && r.value.Count() == en.count
  {
    var bytes :- EntryData(e, blob, en, outOfLine);
    var d :- DecodeFieldData(e, ty, en.count, bytes);
    Ok(Field(tag, d))
  }

  /** Inline data fits in the four value bytes and is their prefix. */
  lemma EntryFieldInline(tag: FieldTag, e: Endianness, blob: Bytes, en: Entry, ty: PrimitiveTy)
    requires EntryField(tag, e, blob, en, ty, false).Ok?
    ensures var f := EntryField(tag, e, blob, en, ty, false).value;
            && ListSize(ty, en.count) <= 4
            && EncodeList(e, Primitives(f.data)) == Encode(e, 4, en.valueOrOffset)[..ListSize(ty, en.count)]
  {
  }

  /** Out-of-line data lies inside the blob, at the entry's offset. */
  lemma EntryFieldOutOfLine(tag: FieldTag, e: Endianness, blob: Bytes, en: Entry, ty: PrimitiveTy)
    requires EntryField(tag, e, blob, en, ty, true).Ok?
    ensures var f := EntryField(tag, e, blob, en, ty, true).value;
            && en.valueOrOffset + ListSize(ty, en.count) <= |blob|
            && EncodeList(e, Primitives(f.data)) == blob[en.valueOrOffset..en.valueOrOffset + ListSize(ty, en.count)]
  {
    var bytes := EntryData(e, blob, en, true).value;
    SliceOfSuffix(blob, en.valueOrOffset as nat, ListSize(ty, en.count));
  }

  /** An out-of-line offset at or past the blob's end is too far; any other
      failure is data that runs out. */
  lemma EntryFieldErr(tag: FieldTag, e: Endianness, blob: Bytes, en: Entry, ty: PrimitiveTy, outOfLine: bool)
    requires |blob| <= 0x1_0000_0000
    ensures outOfLine && en.valueOrOffset >= Max(|blob|, 1) ==>
              EntryField(tag, e, blob, en, ty, outOfLine) == Err(OffsetTooFar(en.valueOrOffset))
    ensures EntryField(tag, e, blob, en, ty, outOfLine).Err? && !(outOfLine && en.valueOrOffset >= |blob|) ==>
              EntryField(tag, e, blob, en, ty, outOfLine) == Err(OuttaData(ty))
  {
  }

  /** What parsing one entry leaves: the field or its error, and the input
      after the bytes the parser consumed. */
  datatype FieldStep = FieldStep(result: Result<Field, ExifFieldError>, rest: Bytes)

  /** `parse_value` with the inline/out-of-line decision computed exactly
      (`wrapping == false`) or as the source's release build does it. The
      entry is read field by field, so a failure leaves the input just after
      the last part that was read. */
  function ParseValueWith(group: IfdGroup, e: Endianness, blob: Bytes, input: Bytes, wrapping: bool): (r: FieldStep)
    ensures |input| < 2 ==> r == FieldStep(Err(FieldNoTag), input)
    ensures 2 <= |input| < 4 ==> r == FieldStep(Err(FieldNoTy), input[2..])
    ensures |input| >= 4 ==>
              var raw := Value(e, input[2..4]);
              raw < 0x1_0000 && (TryFromCode(raw).None? ==> r == FieldStep(Err(FieldUnknownType(raw)), input[4..]))
    ensures 4 <= |input| < 8 && TryFromCode(Value(e, input[2..4])).Some? ==> r == FieldStep(Err(FieldNoCount), input[4..])
    ensures 8 <= |input| < 12 && TryFromCode(Value(e, input[2..4])).Some? ==> r == FieldStep(Err(FieldNoOffsetOrValue), input[8..])
    ensures |input| >= 12 ==>
              var en := ReadEntry(e, input).value;
              match TryFromCode(en.ty)
              case None => r == FieldStep(Err(FieldUnknownType(en.ty)), input[4..])
              case Some(ty) => r == FieldStep(EntryField(TagFor(group, en.tag), e, blob, en, ty, OutOfLine(ty, en.count, wrapping)), input[12..])
  {
    Pow256Widths();
    match ReadU16(e, input)
    case None => FieldStep(Err(FieldNoTag), input)
    case Some(rawTag) =>
      match ReadU16(e, rawTag.rest)
      case None => FieldStep(Err(FieldNoTy), rawTag.rest)
      case Some(rawTy) =>
        assert rawTag.rest[..2] == input[2..4];
        match TryFromCode(rawTy.value)
        case None => FieldStep(Err(FieldUnknownType(rawTy.value)), rawTy.rest)
        case Some(ty) =>
          match ReadU32(e, rawTy.rest)
          case None => FieldStep(Err(FieldNoCount), rawTy.rest)
          case Some(count) =>
            match ReadU32(e, count.rest)
            case None => FieldStep(Err(FieldNoOffsetOrValue), count.rest)
            case Some(vo) =>
              var en := Entry(rawTag.value, rawTy.value, count.value, vo.value);
              assert ReadEntry(e, input) == Some(en);
              FieldStep(EntryField(TagFor(group, en.tag), e, blob, en, ty, OutOfLine(ty, count.value, wrapping)), vo.rest)
  }

  /** `parse_value`, with the width of the data computed without overflow:
      the data is inline exactly when it fits in the four value bytes. */
  function ParseValue(group: IfdGroup, e: Endianness, blob: Bytes, input: Bytes): FieldStep
  {
    ParseValueWith(group, e, blob, input, false)
  }

  /** A complete entry with a known type code takes exactly 12 bytes,
      whether its value parses or not. */
  lemma ParseValueRest(group: IfdGroup, e: Endianness, blob: Bytes, input: Bytes)
    requires |input| >= 12 && TryFromCode(ReadEntry(e, input).value.ty).Some?
    ensures ParseValue(group, e, blob, input).rest == input[12..]
  {
  }

  /** The value of an entry as the source's release build computes it: the
      width `size_bytes * count` is a wrapping `u32` product. */
  function ParseValueAsWritten(group: IfdGroup, e: Endianness, blob: Bytes, input: Bytes): FieldStep
  {
    ParseValueWith(group, e, blob, input, true)
  }

  /** A laid-out entry with a known type code is decoded by `EntryField`,
      and the input after it is what followed the entry. */
  lemma EntryStep(group: IfdGroup, e: Endianness, blob: Bytes, en: Entry, tail: Bytes, wrapping: bool)
    requires TryFromCode(en.ty).Some?
    ensures var ty := TryFromCode(en.ty).value;
            ParseValueWith(group, e, blob, EncodeEntry(e, en) + tail, wrapping)
            == FieldStep(EntryField(TagFor(group, en.tag), e, blob, en, ty, OutOfLine(ty, en.count, wrapping)), tail)
  {
    var input := EncodeEntry(e, en) + tail;
    ReadEntryRoundTrip(e, en, tail);
    assert input[12..] == tail;
  }

  /** A SHORT entry with 2^31 values names 2^32 data bytes, an offset. The
      wrapping product is 0, so the release build reads the four value bytes
      as the data and runs out of them, where the offset is past the blob. */
  lemma WrappedWidthMisread(group: IfdGroup, e: Endianness, blob: Bytes, en: Entry, tail: Bytes)
    requires en.ty == 3 && en.count == 0x8000_0000 && Max(|blob|, 1) <= en.valueOrOffset
    ensures ParseValueAsWritten(group, e, blob, EncodeEntry(e, en) + tail) == FieldStep(Err(OuttaData(PrimitiveTy.Short)), tail)
    ensures ParseValue(group, e, blob, EncodeEntry(e, en) + tail) == FieldStep(Err(OffsetTooFar(en.valueOrOffset)), tail)
  {
    assert TryFromCode(en.ty) == Some(PrimitiveTy.Short);
    assert ListSize(PrimitiveTy.Short, en.count) == 0x1_0000_0000;
    assert !OutOfLine(PrimitiveTy.Short, en.count, true) && OutOfLine(PrimitiveTy.Short, en.count, false);
    EntryStep(group, e, blob, en, tail, true);
    EntryStep(group, e, blob, en, tail, false);
    var tag := TagFor(group, en.tag);
    EntryFieldErr(tag, e, blob, en, PrimitiveTy.Short, false);
    EntryFieldErr(tag, e, blob, en, PrimitiveTy.Short, true);
    assert DecodeFieldData(e, PrimitiveTy.Short, en.count, Encode(e, 4, en.valueOrOffset)).Err?;
  }
}

=== FILE: ftyp.dfy ===
/** The `ftyp` box (raves_metadata/src/providers/shared/bmff/ftyp.rs), after
    section 4.3 of ISO/IEC 14496-12: a major brand, a minor version and a
    list of compatible brands.
 */
module BmffFtyp {
  import opened Std
  import opened Bytes
  import opened BmffBox

  /** The box type `ftyp`. */
  const FtypCode: FourCC := [0x66, 0x74, 0x79, 0x70]

  /** `FtypBox`. */
  datatype FtypBox = FtypBox(header: BoxHeader, majorBrand: FourCC, minorVersion: uint32, compatibleBrands: seq<FourCC>)

  /** Four-character codes laid out one after the other. */
  function Flatten(codes: seq<FourCC>): (r: Bytes)
    ensures |r| == 4 * |codes|
  {
    if codes == [] then [] else codes[0] + Flatten(codes[1..])
  }

  /** `parse_fourcc`: four bytes. */
  function ParseFourCC(input: Bytes): (r: Option<Parsed<FourCC>>)
    ensures r.Some? <==> |input| >= 4
    ensures r.Some? ==> r.value.value == input[..4] && r.value.rest == input[4..]
    ensures r.Some? ==> input == r.value.value + r.value.rest
  {
    if |input| >= 4 then
      var code: FourCC := input[..4];
      assert input == code + input[4..];
      Some(Parsed(code, input[4..]))
    else None
  }

  /** `repeat(0..=max, parse_fourcc)`: up to `max` codes, stopping without
      an error at the first one the input cannot supply. */
  function Brands(max: nat, input: Bytes): (r: Parsed<seq<FourCC>>)
    ensures |r.value| == Min(max, |input| / 4)
    ensures Flatten(r.value) + r.rest == input
    decreases max
  {
    if max == 0 then Parsed([], input)
    else
      match ParseFourCC(input)
      case None => Parsed([], input)
      case Some(p) =>
        var more := Brands(max - 1, p.rest);
        assert Flatten([p.value] + more.value) == p.value + Flatten(more.value) by {
          assert ([p.value] + more.value)[1..] == more.value;
        }
        Parsed([p.value] + more.value, more.rest)
  }

  /** How many compatible brands a payload of `len` bytes has room for. */
  function BrandRoom(len: uint64): nat
  {
    SatSub(len, 8) / 4
  }

  /** `FtypBox::new`: a box header of type `ftyp` and known size, the major
      brand and the big-endian minor version, then the compatible brands.
      The brands are read from the input after the header, whatever the
      box size says about where the box ends. */
  function ParseFtyp(input: Bytes): (r: Option<Parsed<FtypBox>>)
  {
    var h :- ParseBoxHeader(input).ToOption();
    if h.value.boxType != Id(FtypCode) then None
    else
      match PayloadLen(h.value)
      case None => None
      case Some(len) =>
        var major :- ParseFourCC(h.rest);
        var minor :- ReadU32(Big, major.rest);
        var brands := Brands(BrandRoom(len), minor.rest);
        Some(Parsed(FtypBox(h.value, major.value, minor.value, brands.value), brands.rest))
  }

  /** When `ParseFtyp` succeeds, and what it reads. */
  lemma ParseFtypSpec(input: Bytes)
    ensures var r := ParseFtyp(input);
            var h := ParseBoxHeader(input);
            r.Some? <==> && h.Ok?
                         && h.value.value.boxType == Id(FtypCode)
                         && !h.value.value.boxSize.Eof?
                         && |h.value.rest| >= 8
    ensures var r := ParseFtyp(input);
            var h := ParseBoxHeader(input);
            r.Some? ==>
              var rest := h.value.rest;
              var box := r.value.value;
              && box.header == h.value.value
              && box.majorBrand == rest[..4]
              && Encode(Big, 4, box.minorVersion) == rest[4..8]
              && |box.compatibleBrands| == Min(BrandRoom(PayloadLen(box.header).value), (|rest| - 8) / 4)
              && Flatten(box.compatibleBrands) + r.value.rest == rest[8..]
  {
    var h := ParseBoxHeader(input);
    if h.Ok? && h.value.value.boxType == Id(FtypCode) && !h.value.value.boxSize.Eof? && |h.value.rest| >= 8 {
      var rest := h.value.rest;
      assert rest[4..][..4] == rest[4..8];
      assert rest[4..][4..] == rest[8..];
    }
  }

  /** The bytes of an `ftyp` box with this header. */
  function EncodeFtyp(box: FtypBox): (r: Bytes)
  {
    Pow256Widths();
    EncodeBoxHeader(box.header.boxSize, box.header.boxType)
    + box.majorBrand + Encode(Big, 4, box.minorVersion) + Flatten(box.compatibleBrands)
  }

  /** The small header an `ftyp` box of `n` compatible brands gets. */
  function FtypHeader(n: nat): BoxHeader
    requires 16 + 4 * n < 0x1_0000_0000
  {
    BoxHeader(8, Small(16 + 4 * n), Id(FtypCode))
  }

  /** `Brands` reads back the codes it is given room for, and no more. */
  lemma {:induction false} BrandsRoundTrip(codes: seq<FourCC>, rest: Bytes)
    ensures Brands(|codes|, Flatten(codes) + rest) == Parsed(codes, rest)
  {
    if codes != [] {
      var input := Flatten(codes) + rest;
      assert input == codes[0] + (Flatten(codes[1..]) + rest);
      assert input[..4] == codes[0] && input[4..] == Flatten(codes[1..]) + rest;
      BrandsRoundTrip(codes[1..], rest);
      assert [codes[0]] + codes[1..] == codes;
    }
  }

  /** `ParseFtyp` once the header is known to be a sized `ftyp` header. */
  lemma ParseFtypAfterHeader(input: Bytes, h: BoxHeader, body: Bytes, len: uint64)
    requires ParseBoxHeader(input) == Ok(Parsed(h, body))
    requires h.boxType == Id(FtypCode) && PayloadLen(h) == Some(len) && |body| >= 8
    ensures var minor := ReadU32(Big, body[4..]).value.value;
            var brands := Brands(BrandRoom(len), body[8..]);
            ParseFtyp(input) == Some(Parsed(FtypBox(h, body[..4], minor, brands.value), brands.rest))
  {
    assert body[4..][4..] == body[8..];
  }

  /** A laid-out `ftyp` box whose size covers its brands reads back, with
      the input after it left over. */
  lemma FtypRoundTrip(major: FourCC, minor: uint32, brands: seq<FourCC>, rest: Bytes)
    requires 16 + 4 * |brands| < 0x1_0000_0000
    ensures var box := FtypBox(FtypHeader(|brands|), major, minor, brands);
            ParseFtyp(EncodeFtyp(box) + rest) == Some(Parsed(box, rest))
  {
    var h := FtypHeader(|brands|);
    var tail := Flatten(brands) + rest;
    var body := major + (Encode(Big, 4, minor) + tail);
    var input := EncodeBoxHeader(h.boxSize, h.boxType) + body;
    FtypLayout(FtypBox(h, major, minor, brands), rest);
    BoxHeaderRoundTrip(h.boxSize, h.boxType, body);
    assert PayloadLen(h) == Some(8 + 4 * |brands|);
    assert BrandRoom(8 + 4 * |brands|) == |brands|;
    ParseFtypAfterHeader(input, h, body, 8 + 4 * |brands|);
    assert body[..4] == major && body[4..] == Encode(Big, 4, minor) + tail;
    ReadU32RoundTrip(Big, minor, tail);
    assert body[8..] == tail;
    BrandsRoundTrip(brands, rest);
  }

  /** An `ftyp` box followed by more input, part by part. */
  lemma FtypLayout(box: FtypBox, rest: Bytes)
    ensures Pow256(4) == 0x1_0000_0000
    ensures EncodeFtyp(box) + rest
            == EncodeBoxHeader(box.header.boxSize, box.header.boxType)
               + (box.majorBrand + (Encode(Big, 4, box.minorVersion) + (Flatten(box.compatibleBrands) + rest)))
  {
    Pow256Widths();
  }

  /** The brand check: the major brand or one of the compatible brands is
      supported. */
  predicate BrandSupported(ftyp: FtypBox, supported: seq<FourCC>)
  {
    ftyp.majorBrand in supported || exists c | c in ftyp.compatibleBrands :: c in supported
  }
}

=== FILE: gif_block.dfy ===
/** The building blocks of a GIF file: header, logical screen descriptor,
    colour tables, image descriptor, data sub-blocks and the four extension
    blocks (raves_metadata/src/providers/gif/block.rs). Every parser takes
    the remaining input and gives what it read together with the input after
    it. The packed bit fields are decoded arithmetically: `packed & 0x70 >> 4`
    is `(packed / 16) % 8`, and so on.
 */
module GifBlock {
  import opened Std
  import opened Bytes

  /** `GctMissingColor`: the colour of a triplet the input ran out in. */
  datatype GctMissingColor = Red | Green | Blue

  /** `GifConstructionError`, with the variants the block parsers build. */
  datatype GifError =
    | NoMagicNumber
    | WeirdMagicNumber(magic: Bytes)
    | NoGifVersion
    | LogicalScreenDescriptorMissingData
    | GlobalColorTableMissingTriplet(expectedTripletCt: uint16, errantTriplet: uint8, missingColor: GctMissingColor)
    | NoGct(expected: uint8, errant: uint8, color: GctMissingColor)
    | ExtensionStoppedAbruptly(wanted: uint8)
    | ExtensionFoundInGif87
    | NotEnoughBytes
    | BlockTerminatorMismatch(found: uint8)
    | ImageDescriptorNoSeparator
    | ImageDescriptorSeparatorWrong(found: uint8)
    | ImageDescriptorMissingData
    | TableBasedImageDataNoLzw
    | GraphicExtMissingData
    | UnknownExtensionFound(extLabel: uint8)
    | ExtensionHasWeirdBlockSize(got: uint8, expected: uint8)
    | PlainTextExtMissingData
    | CommentExtMissingData
    | AppExtMissingData
    | TrailerMissing
    | TrailerIncorrectValue(found: uint8)

  /** `b"GIF"`. */
  const GifMagic: Bytes := [0x47, 0x49, 0x46]

  /** 2 to the power `n`. */
  function Pow2(n: nat): (r: nat)
    ensures r >= 1
  {
    if n == 0 then 1 else 2 * Pow2(n - 1)
  }

  // ---------------------------------------------------------------------
  // Header

  /** `signature`: the three bytes `GIF`. */
  function Signature(input: Bytes): (r: Result<Bytes, GifError>)
    ensures r.Ok? <==> |input| >= 3 && input[..3] == GifMagic
    ensures r.Ok? ==> r.value == input[3..]
    ensures r == Err(NoMagicNumber) <==> |input| < 3
    ensures r.Err? && r.error != NoMagicNumber ==> r.error == WeirdMagicNumber(input[..3])
  {
    var magic :- Take(3, input).OkOr(NoMagicNumber);
    if magic.value != GifMagic then Err(WeirdMagicNumber(magic.value)) else Ok(magic.rest)
  }

  /** `GifHeader`: the three version bytes, whatever they are. */
  datatype GifHeader = GifHeader(version: Bytes)

  /** `header`: the signature, then any three bytes as the version. */
  function Header(input: Bytes): (r: Result<Parsed<GifHeader>, GifError>)
    ensures r.Ok? <==> |input| >= 6 && input[..3] == GifMagic
    ensures r.Ok? ==> GifMagic + r.value.value.version == input[..6] && r.value.rest == input[6..]
    ensures r == Err(NoGifVersion) <==> 3 <= |input| < 6 && input[..3] == GifMagic
    ensures r.Err? && r.error != NoGifVersion ==> Signature(input) == Err(r.error)
  {
    var rest :- Signature(input);
    var version :- Take(3, rest).OkOr(NoGifVersion);
    Ok(Parsed(GifHeader(version.value), version.rest))
  }

  /** The bytes of a header with the given version. */
  function EncodeHeader(h: GifHeader): Bytes
  {
    GifMagic + h.version
  }

  /** Any three-byte version is read back as written. */
  lemma HeaderRoundTrip(h: GifHeader, rest: Bytes)
    requires |h.version| == 3
    ensures Header(EncodeHeader(h) + rest) == Ok(Parsed(h, rest))
  {
    var input := EncodeHeader(h) + rest;
    assert input[..3] == GifMagic && input[3..][..3] == h.version && input[3..][3..] == rest;
  }

  // ---------------------------------------------------------------------
  // Data sub-blocks and block terminators

  /** `data_sub_block`: a size byte, then that many bytes, which are appended
      to `output`. */
  function DataSubBlock(input: Bytes, output: Bytes): (r: Result<Parsed<Bytes>, GifError>)
    ensures r.Ok? <==> |input| >= 1 && 1 + input[0] <= |input|
    ensures r.Ok? ==> r.value.value == output + input[1..1 + input[0]] && r.value.rest == input[1 + input[0]..]
    ensures r.Err? ==> r.error == NotEnoughBytes
  {
    var size :- ReadU8(input).OkOr(NotEnoughBytes);
    var data :- Take(size.value, size.rest).OkOr(NotEnoughBytes);
    assert data.value == input[1..1 + input[0]];
    Ok(Parsed(output + data.value, data.rest))
  }

  /** `block_terminator`: a zero byte. */
  function BlockTerminator(input: Bytes): (r: Result<Bytes, GifError>)
    ensures r.Ok? <==> |input| >= 1 && input[0] == 0
    ensures r.Ok? ==> r.value == input[1..]
    ensures |input| == 0 ==> r == Err(NotEnoughBytes)
    ensures |input| >= 1 && input[0] != 0 ==> r == Err(BlockTerminatorMismatch(input[0]))
  {
    var b :- ReadU8(input).OkOr(NotEnoughBytes);
    if b.value != 0 then Err(BlockTerminatorMismatch(b.value)) else Ok(b.rest)
  }

  /** The sub-block loop of `table_based_image_data` and
      `plain_text_extension`: sub-blocks are read while a next byte is
      present and non-zero, their data appended in order. It stops in front
      of the zero byte or at the end of the input. */
  function SubBlocks(input: Bytes): (r: Result<Parsed<Bytes>, GifError>)
    ensures r.Ok? ==> |r.value.rest| <= |input|
    ensures r.Ok? ==> r.value.rest == [] || r.value.rest[0] == 0
    ensures r.Err? ==> r.error == NotEnoughBytes
    decreases |input|
  {
    if |input| == 0 || input[0] == 0 then Ok(Parsed([], input))
    else
      match DataSubBlock(input, [])
      case Err(e) => Err(e)
      case Ok(block) =>
        match SubBlocks(block.rest)
        case Err(e) => Err(e)
        case Ok(more) =>

          Ok(Parsed(block.value + more.value, more.rest))
  }

  /** What the sub-block loop leaves is a suffix of its input. */
  lemma {:induction false} SubBlocksSuffix(input: Bytes)
    requires SubBlocks(input).Ok?
    ensures var rest := SubBlocks(input).value.rest; input[|input| - |rest|..] == rest
    decreases |input|
  {
    if |input| == 0 || input[0] == 0 {
      SubBlocksStops(input);
    } else {
      var tail := input[1 + input[0]..];
      SubBlocksUnfold(input);
      SubBlocksSuffix(tail);
      SuffixChain(input, tail, SubBlocks(tail).value.rest);
    }
  }

  /** In front of a zero byte or at the end the loop reads nothing. */
  lemma SubBlocksStops(input: Bytes)
    requires |input| == 0 || input[0] == 0
    ensures SubBlocks(input) == Ok(Parsed([], input))
    ensures input[|input| - |input|..] == input
  {
  }

  /** A successful loop past one sub-block leaves what the loop leaves
      after it. */
  lemma SubBlocksUnfold(input: Bytes)
    requires |input| > 0 && input[0] != 0 && SubBlocks(input).Ok?
    ensures 1 + input[0] <= |input| && SubBlocks(input[1 + input[0]..]).Ok?
    ensures SubBlocks(input).value.rest == SubBlocks(input[1 + input[0]..]).value.rest
    ensures var tail := input[1 + input[0]..]; input[|input| - |tail|..] == tail
  {
  }

  /** The `while input[0] != 0x00` loops of `comment_extension` and
      `application_extension` index the input without a bounds check: they
      stay in bounds exactly when, following the sub-blocks, a zero byte or
      a sub-block too short for its size byte comes before the end of the
      input. Those two parsers require it. */
  predicate LoopInBounds(input: Bytes)
    decreases |input|
  {
    && |input| > 0
    && (input[0] == 0 || 1 + input[0] > |input| || LoopInBounds(input[1 + input[0]..]))
  }

  /** The indexing loop itself: sub-blocks are read while the next byte
      is not zero. It can only stop in front of a zero byte. */
  function IndexedLoop(input: Bytes): (r: Result<Parsed<Bytes>, GifError>)
    requires LoopInBounds(input)
    ensures r.Ok? ==> r.value.rest != [] && r.value.rest[0] == 0
    decreases |input|
  {
    if input[0] == 0 then Ok(Parsed([], input))
    else
      var block :- DataSubBlock(input, []);
      var more :- IndexedLoop(block.rest);
      Ok(Parsed(block.value + more.value, more.rest))
  }

  /** Where the indexing loop stays in bounds, it does exactly what the
      checked loop does. */
  lemma {:induction false} IndexedLoopAgrees(input: Bytes)
    requires LoopInBounds(input)
    ensures IndexedLoop(input) == SubBlocks(input)
    decreases |input|
  {
    if input[0] != 0 && 1 + input[0] <= |input| {
      IndexedLoopAgrees(input[1 + input[0]..]);
    }
  }

  /** A well-formed data sub-block holds 1 to 255 bytes (a size byte of zero
      is the block terminator). */
  predicate ChunkSized(c: Bytes)
  {
    1 <= |c| < 0x100
  }

  /** The sub-blocks carrying `chunks`, terminator not included. */
  function EncodeSubBlocks(chunks: seq<Bytes>): Bytes
    requires forall i | 0 <= i < |chunks| :: ChunkSized(chunks[i])
  {
    if chunks == [] then []
    else
      assert ChunkSized(chunks[0]);
      assert forall i | 0 <= i < |chunks[1..]| :: ChunkSized(chunks[1..][i]);
      [|chunks[0]| as uint8] + chunks[0] + EncodeSubBlocks(chunks[1..])
  }

  /** Sub-blocks carrying `chunks`, their terminator, and what follows. */
  function Framed(chunks: seq<Bytes>, rest: Bytes): Bytes
    requires forall i | 0 <= i < |chunks| :: ChunkSized(chunks[i])
  {
    EncodeSubBlocks(chunks) + ([0] + rest)
  }

  /** The chunks joined in order. */
  function Concat(chunks: seq<Bytes>): Bytes
  {
    if chunks == [] then [] else chunks[0] + Concat(chunks[1..])
  }

  /** Sub-blocks read back as the concatenation of their data, stopping in
      front of the terminator. */
  lemma {:induction false} SubBlocksRoundTrip(chunks: seq<Bytes>, rest: Bytes)
    requires forall i | 0 <= i < |chunks| :: ChunkSized(chunks[i])
    requires rest == [] || rest[0] == 0
    ensures SubBlocks(EncodeSubBlocks(chunks) + rest) == Ok(Parsed(Concat(chunks), rest))
    decreases |chunks|
  {
    if chunks != [] {
      var c := chunks[0];
      var tail := EncodeSubBlocks(chunks[1..]) + rest;
      var input := EncodeSubBlocks(chunks) + rest;
      assert input == [|c| as uint8] + c + tail;
      assert input[0] == |c| && input[1..1 + |c|] == c && input[1 + |c|..] == tail;
      assert [] + c == c;
      assert DataSubBlock(input, []) == Ok(Parsed(c, tail));
      SubBlocksRoundTrip(chunks[1..], rest);
      assert Concat(chunks) == c + Concat(chunks[1..]);
    } else {
      assert EncodeSubBlocks(chunks) + rest == rest;
    }
  }

  /** Sub-blocks followed by their terminator keep the indexing loop in
      bounds. */
  lemma {:induction false} EncodedInBounds(chunks: seq<Bytes>, rest: Bytes)
    requires forall i | 0 <= i < |chunks| :: ChunkSized(chunks[i])
    ensures LoopInBounds(Framed(chunks, rest))
    decreases |chunks|
  {
    if chunks != [] {
      var c := chunks[0];
      var input := Framed(chunks, rest);
      assert input == [|c| as uint8] + c + Framed(chunks[1..], rest);
      assert input[1 + |c|..] == Framed(chunks[1..], rest);
      EncodedInBounds(chunks[1..], rest);
    } else {
      assert Framed(chunks, rest)[0] == 0;
    }
  }

  // ---------------------------------------------------------------------
  // Logical screen descriptor

  /** `LogicalScreenDescriptor`. */
  datatype LogicalScreenDescriptor = LogicalScreenDescriptor(
    width: uint16,
    height: uint16,
    globalColorTableFlag: bool,
    colorResolution: uint8,
    sortFlag: bool,
    sizeOfGlobalColorTable: uint8,
    backgroundColorIndex: uint8,
    pixelAspectRatio: Option<uint8>)

  /** A descriptor whose fields fit their bits: colour resolution 1 to 8, a
      table size below 8 and no aspect ratio of zero. */
  predicate LsdFits(d: LogicalScreenDescriptor)
  {
    && 1 <= d.colorResolution <= 8
    && d.sizeOfGlobalColorTable < 8
    && d.pixelAspectRatio != Some(0)
  }

  /** The packed byte of a descriptor: bit 7 the table flag, bits 4 to 6 the
      colour resolution less one, bit 3 the sort flag, bits 0 to 2 the size. */
  function LsdPacked(d: LogicalScreenDescriptor): uint8
    requires LsdFits(d)
  {
    (if d.globalColorTableFlag then 0x80 else 0) + 16 * (d.colorResolution - 1)
      + (if d.sortFlag then 8 else 0) + d.sizeOfGlobalColorTable
  }

  /** The seven bytes of a descriptor. */
  function EncodeLsd(d: LogicalScreenDescriptor): (r: Bytes)
    requires LsdFits(d)
    ensures |r| == 7
  {
    Encode(Little, 2, d.width) + Encode(Little, 2, d.height)
      + [LsdPacked(d), d.backgroundColorIndex]
      + [AspectByte(d.pixelAspectRatio)]
  }

  /** The aspect ratio byte: 0 for none. */
  function AspectByte(a: Option<uint8>): uint8
  {
    match a
    case None => 0
    case Some(v) => v
  }

  /** `logical_screen_descriptor`: two little-endian sizes, the packed
      byte, the background colour index and the aspect ratio (0 for none). */
  function ScreenDescriptor(input: Bytes): (r: Result<Parsed<LogicalScreenDescriptor>, GifError>)
    ensures r.Ok? <==> |input| >= 7
    ensures r.Err? ==> r.error == LogicalScreenDescriptorMissingData
    ensures r.Ok? ==> LsdFits(r.value.value) && EncodeLsd(r.value.value) == input[..7] && r.value.rest == input[7..]
  {
    var w :- ReadU16(Little, input).OkOr(LogicalScreenDescriptorMissingData);
    var h :- ReadU16(Little, w.rest).OkOr(LogicalScreenDescriptorMissingData);
    var packed :- ReadU8(h.rest).OkOr(LogicalScreenDescriptorMissingData);
    var background :- ReadU8(packed.rest).OkOr(LogicalScreenDescriptorMissingData);
    var aspect :- ReadU8(background.rest).OkOr(LogicalScreenDescriptorMissingData);
    var d := UnpackLsd(w.value, h.value, packed.value, background.value, aspect.value);
    assert input[..7] == input[..2] + input[2..4] + [input[4], input[5], input[6]];
    Ok(Parsed(d, aspect.rest))
  }

  /** The descriptor of two sizes and three bytes: the packed byte split
      into its fields, an aspect byte of 0 read as none. */
  function UnpackLsd(width: uint16, height: uint16, p: uint8, background: uint8, aspect: uint8): (d: LogicalScreenDescriptor)
    ensures LsdFits(d) && LsdPacked(d) == p
    ensures d.width == width && d.height == height && d.backgroundColorIndex == background
    ensures AspectByte(d.pixelAspectRatio) == aspect
  {
    LogicalScreenDescriptor(
      width, height,
      p >= 0x80, (p / 16) % 8 + 1, (p / 8) % 2 == 1, p % 8,
      background,
      if aspect == 0 then None else Some(aspect))
  }

  /** Little-endian `u16` bytes determine their value. */
  lemma U16Injective(x: uint16, y: uint16)
    requires Encode(Little, 2, x) == Encode(Little, 2, y)
    ensures x == y
  {
    ReadU16RoundTrip(Little, x, []);
    ReadU16RoundTrip(Little, y, []);
  }

  /** Four little-endian `u16` values in a row. */
  type Quad = (uint16, uint16, uint16, uint16)

  /** The eight bytes of four `u16` values. */
  function EncodeQuad(q: Quad): (r: Bytes)
    ensures |r| == 8
  {
    Encode(Little, 2, q.0) + Encode(Little, 2, q.1) + Encode(Little, 2, q.2) + Encode(Little, 2, q.3)
  }

  /** Four little-endian `u16` values, each failing with `err` when the
      input runs out. */
  function ReadQuad(input: Bytes, err: GifError): (r: Result<Parsed<Quad>, GifError>)
    ensures r.Ok? <==> |input| >= 8
    ensures r.Ok? ==> EncodeQuad(r.value.value) == input[..8] && r.value.rest == input[8..]
    ensures r.Err? ==> r.error == err
  {
    var a :- ReadU16(Little, input).OkOr(err);
    var b :- ReadU16(Little, a.rest).OkOr(err);
    var c :- ReadU16(Little, b.rest).OkOr(err);
    var d :- ReadU16(Little, c.rest).OkOr(err);
    assert input[..8] == input[..2] + input[2..4] + input[4..6] + input[6..8];
    Ok(Parsed((a.value, b.value, c.value, d.value), d.rest))
  }

  /** Four `u16` values are determined by their bytes. */
  lemma QuadInjective(a: Quad, b: Quad)
    requires EncodeQuad(a) == EncodeQuad(b)
    ensures a == b
  {
    var e := EncodeQuad(a);
    assert e[..2] == Encode(Little, 2, a.0) == Encode(Little, 2, b.0);
    assert e[2..4] == Encode(Little, 2, a.1) == Encode(Little, 2, b.1);
    assert e[4..6] == Encode(Little, 2, a.2) == Encode(Little, 2, b.2);
    assert e[6..] == Encode(Little, 2, a.3) == Encode(Little, 2, b.3);
    U16Injective(a.0, b.0);
    U16Injective(a.1, b.1);
    U16Injective(a.2, b.2);
    U16Injective(a.3, b.3);
  }

  /** The packed byte of a descriptor gives back its four fields. */
  lemma LsdPackedFields(d: LogicalScreenDescriptor)
    requires LsdFits(d)
    ensures var p := LsdPacked(d);
            && (p >= 0x80 <==> d.globalColorTableFlag)
            && (p / 16) % 8 + 1 == d.colorResolution
            && ((p / 8) % 2 == 1 <==> d.sortFlag)
            && p % 8 == d.sizeOfGlobalColorTable
  {
    var g := if d.globalColorTableFlag then 1 else 0;
    var q := d.colorResolution - 1;
    var t := if d.sortFlag then 1 else 0;
    var p := LsdPacked(d);
    assert p == 128 * g + 16 * q + 8 * t + d.sizeOfGlobalColorTable;
    assert p / 16 == 8 * g + q;
    assert p / 8 == 16 * g + 2 * q + t;
  }

  /** Different descriptors have different bytes. */
  lemma LsdInjective(a: LogicalScreenDescriptor, b: LogicalScreenDescriptor)
    requires LsdFits(a) && LsdFits(b) && EncodeLsd(a) == EncodeLsd(b)
    ensures a == b
  {
    var e := EncodeLsd(a);
    assert e[..2] == Encode(Little, 2, a.width) == Encode(Little, 2, b.width);
    assert e[2..4] == Encode(Little, 2, a.height) == Encode(Little, 2, b.height);
    U16Injective(a.width, b.width);
    U16Injective(a.height, b.height);
    LsdPackedFields(a);
    LsdPackedFields(b);
    assert e[4] == LsdPacked(a) == LsdPacked(b);
    assert e[5] == a.backgroundColorIndex == b.backgroundColorIndex;
    assert e[6] == AspectByte(a.pixelAspectRatio) == AspectByte(b.pixelAspectRatio);
  }

  /** A descriptor whose fields fit reads back as written. */
  lemma LsdRoundTrip(d: LogicalScreenDescriptor, rest: Bytes)
    requires LsdFits(d)
    ensures ScreenDescriptor(EncodeLsd(d) + rest) == Ok(Parsed(d, rest))
  {
    var input := EncodeLsd(d) + rest;
    assert input[..7] == EncodeLsd(d) && input[7..] == rest;
    LsdInjective(ScreenDescriptor(input).value.value, d);
  }

  // ---------------------------------------------------------------------
  // Colour tables

  /** An RGB triplet. */
  type Rgb = (uint8, uint8, uint8)

  /** `2_u16.pow(size + 1)`, which wraps around in a release build for a
      size of 15 or more. */
  function TripletCount(size: uint8): (r: uint16)
    ensures size < 15 ==> r == Pow2(size + 1)
  {
    if size < 15 then PowBelow(size + 1); Pow2(size + 1) else Pow2(size + 1) % 0x1_0000
  }

  /** Powers of two below 2^16 fit a `u16`. */
  lemma {:induction false} PowBelow(n: nat)
    requires n <= 15
    ensures Pow2(n) < 0x1_0000
  {
    PowAbove(n, 15);
    assert Pow2(15) == 0x8000;
  }

  /** Two to a larger power is larger. */
  lemma {:induction false} PowAbove(m: nat, n: nat)
    requires m <= n
    ensures Pow2(m) <= Pow2(n)
    decreases n
  {
    if m < n {
      PowAbove(m, n - 1);
    }
  }

  /** The colour the input ran out in, from the bytes of the triplet that
      were left. */
  function MissingColor(left: nat): GctMissingColor
    requires left < 3
  {
    if left == 0 then Red else if left == 1 then Green else Blue
  }

  /** The bytes of a table's triplets, in order. */
  function EncodeTriplets(ts: seq<Rgb>): (r: Bytes)
    ensures |r| == 3 * |ts|
  {
    if ts == [] then [] else [ts[0].0, ts[0].1, ts[0].2] + EncodeTriplets(ts[1..])
  }

  /** The loop of `global_color_table` from triplet `k` of `count` on. The
      triplet number in the error is cast to `u8`. */
  function Triplets(input: Bytes, k: nat, count: uint16): (r: Result<Parsed<seq<Rgb>>, GifError>)
    requires k <= count
    ensures r.Ok? <==> |input| >= 3 * (count - k)
    ensures r.Ok? ==> |r.value.value| == count - k && EncodeTriplets(r.value.value) + r.value.rest == input
    ensures r.Err? ==> r.error == GlobalColorTableMissingTriplet(count, (k + |input| / 3) % 0x100, MissingColor(|input| % 3))
    decreases count - k
  {
    if k == count then Ok(Parsed([], input))
    else if |input| < 3 then Err(GlobalColorTableMissingTriplet(count, k % 0x100, MissingColor(|input|)))
    else
      var more :- Triplets(input[3..], k + 1, count);
      var t: Rgb := (input[0], input[1], input[2]);
      assert input == [t.0, t.1, t.2] + input[3..];
      Ok(Parsed([t] + more.value, more.rest))
  }

  /** `global_color_table` (and `local_color_table`, which is the same
      parser): 2^(size + 1) triplets. */
  function ColorTable(size: uint8, input: Bytes): (r: Result<Parsed<seq<Rgb>>, GifError>)
    ensures r.Ok? <==> |input| >= 3 * TripletCount(size)
    ensures r.Ok? ==> |r.value.value| == TripletCount(size) && EncodeTriplets(r.value.value) + r.value.rest == input
    ensures r.Err? ==> r.error.GlobalColorTableMissingTriplet? && r.error.expectedTripletCt == TripletCount(size)
  {
    Triplets(input, 0, TripletCount(size))
  }

  /** A table of the announced size reads back as written. */
  lemma {:induction false} TripletsRoundTrip(ts: seq<Rgb>, k: nat, count: uint16, rest: Bytes)
    requires k <= count && |ts| == count - k
    ensures Triplets(EncodeTriplets(ts) + rest, k, count) == Ok(Parsed(ts, rest))
    decreases |ts|
  {
    if ts != [] {
      var input := EncodeTriplets(ts) + rest;
      assert input[3..] == EncodeTriplets(ts[1..]) + rest;
      TripletsRoundTrip(ts[1..], k + 1, count, rest);
      assert [(input[0], input[1], input[2])] + ts[1..] == ts;
    } else {
      assert EncodeTriplets(ts) + rest == rest;
    }
  }

  /** A colour table of the size its descriptor announces reads back as
      written. */
  lemma ColorTableRoundTrip(size: uint8, ts: seq<Rgb>, rest: Bytes)
    requires |ts| == TripletCount(size)
    ensures ColorTable(size, EncodeTriplets(ts) + rest) == Ok(Parsed(ts, rest))
  {
    TripletsRoundTrip(ts, 0, TripletCount(size), rest);
  }

  // ---------------------------------------------------------------------
  // Image descriptor and image data

  /** `ImageDescriptor`. */
  datatype ImageDescriptor = ImageDescriptor(
    left: uint16,
    top: uint16,
    width: uint16,
    height: uint16,
    localColorTableFlag: bool,
    interlaceFlag: bool,
    sortFlag: bool,
    sizeOfLocalColorTable: uint8)

  /** `IMAGE_SEPARATOR`. */
  const ImageSeparator: uint8 := 0x2C

  /** The packed byte of an image descriptor with its reserved bits 3 and 4
      clear: bit 7 the local table flag, bit 6 interlace, bit 5 sort, bits 0
      to 2 the size. */
  function ImagePacked(d: ImageDescriptor): uint8
    requires d.sizeOfLocalColorTable < 8
  {
    (if d.localColorTableFlag then 0x80 else 0) + (if d.interlaceFlag then 0x40 else 0)
      + (if d.sortFlag then 0x20 else 0) + d.sizeOfLocalColorTable
  }

  /** The ten bytes of an image descriptor. */
  function EncodeImageDescriptor(d: ImageDescriptor): (r: Bytes)
    requires d.sizeOfLocalColorTable < 8
    ensures |r| == 10
  {
    [ImageSeparator] + EncodeQuad((d.left, d.top, d.width, d.height)) + [ImagePacked(d)]
  }

  /** A byte with bits 3 and 4 cleared. */
  function ClearReserved(b: uint8): uint8
  {
    b - 8 * ((b / 8) % 4)
  }

  /** The packed byte of an image descriptor gives back its flags and size,
      and has its reserved bits clear. */
  lemma ImagePackedFields(d: ImageDescriptor)
    requires d.sizeOfLocalColorTable < 8
    ensures var p := ImagePacked(d);
            && (p >= 0x80 <==> d.localColorTableFlag)
            && ((p / 0x40) % 2 == 1 <==> d.interlaceFlag)
            && ((p / 0x20) % 2 == 1 <==> d.sortFlag)
            && p % 8 == d.sizeOfLocalColorTable
            && ClearReserved(p) == p
  {
    var l := if d.localColorTableFlag then 1 else 0;
    var i := if d.interlaceFlag then 1 else 0;
    var t := if d.sortFlag then 1 else 0;
    var p := ImagePacked(d);
    assert p == 0x80 * l + 0x40 * i + 0x20 * t + d.sizeOfLocalColorTable;
    assert p / 0x40 == 2 * l + i;
    assert p / 0x20 == 4 * l + 2 * i + t;
    assert p / 8 == 16 * l + 8 * i + 4 * t;
  }

  /** `image_descriptor`: the separator 0x2C, four little-endian positions
      and sizes, and the packed byte, whose reserved bits are dropped. */
  function ImageDescriptorBlock(input: Bytes): (r: Result<Parsed<ImageDescriptor>, GifError>)
    ensures r.Ok? <==> |input| >= 10 && input[0] == ImageSeparator
    ensures |input| == 0 <==> r == Err(ImageDescriptorNoSeparator)
    ensures |input| > 0 && input[0] != ImageSeparator ==> r == Err(ImageDescriptorSeparatorWrong(input[0]))
    ensures 0 < |input| < 10 && input[0] == ImageSeparator ==> r == Err(ImageDescriptorMissingData)
    ensures r.Ok? ==> && r.value.value.sizeOfLocalColorTable < 8
                      && EncodeImageDescriptor(r.value.value) == input[..9] + [ClearReserved(input[9])]
                      && r.value.rest == input[10..]
  {
    var sep :- ReadU8(input).OkOr(ImageDescriptorNoSeparator);
    if sep.value != ImageSeparator then Err(ImageDescriptorSeparatorWrong(sep.value))
    else
      var q :- ReadQuad(sep.rest, ImageDescriptorMissingData);
      var packed :- ReadU8(q.rest).OkOr(ImageDescriptorMissingData);
      var p := packed.value;
      var d := ImageDescriptor(q.value.0, q.value.1, q.value.2, q.value.3,
                               p >= 0x80, (p / 0x40) % 2 == 1, (p / 0x20) % 2 == 1, p % 8);
      ImageFlagsOf(p);
      assert input[..9] == [input[0]] + input[1..9];
      Ok(Parsed(d, packed.rest))
  }

  /** Decoding a packed byte and packing it again clears its reserved
      bits. */
  lemma ImageFlagsOf(p: uint8)
    ensures ImagePacked(ImageDescriptor(0, 0, 0, 0, p >= 0x80, (p / 0x40) % 2 == 1, (p / 0x20) % 2 == 1, p % 8))
            == ClearReserved(p)
  {
    var q8, q32, q64 := p / 8, p / 0x20, p / 0x40;
    assert q32 == q8 / 4 && q64 == q32 / 2 && p / 0x80 == q64 / 2;
    assert p == 8 * q8 + p % 8;
    assert q8 == 4 * q32 + q8 % 4;
    assert q32 == 2 * q64 + q32 % 2;
    assert q64 == 2 * (p / 0x80) + q64 % 2;
  }

  /** Different image descriptors have different bytes. */
  lemma ImageDescriptorInjective(a: ImageDescriptor, b: ImageDescriptor)
    requires a.sizeOfLocalColorTable < 8 && b.sizeOfLocalColorTable < 8
    requires EncodeImageDescriptor(a) == EncodeImageDescriptor(b)
    ensures a == b
  {
    var e := EncodeImageDescriptor(a);
    assert e[1..9] == EncodeQuad((a.left, a.top, a.width, a.height)) == EncodeQuad((b.left, b.top, b.width, b.height));
    QuadInjective((a.left, a.top, a.width, a.height), (b.left, b.top, b.width, b.height));
    ImagePackedFields(a);
    ImagePackedFields(b);
    assert e[9] == ImagePacked(a) == ImagePacked(b);
  }

  /** An image descriptor reads back as written. */
  lemma ImageDescriptorRoundTrip(d: ImageDescriptor, rest: Bytes)
    requires d.sizeOfLocalColorTable < 8
    ensures ImageDescriptorBlock(EncodeImageDescriptor(d) + rest) == Ok(Parsed(d, rest))
  {
    var input := EncodeImageDescriptor(d) + rest;
    assert input[..10] == EncodeImageDescriptor(d) && input[10..] == rest;
    ImagePackedFields(d);
    assert input[..9] + [ClearReserved(input[9])] == EncodeImageDescriptor(d);
    ImageDescriptorInjective(ImageDescriptorBlock(input).value.value, d);
  }

  /** `table_based_image_data`: the LZW minimum code size, sub-blocks up to
      the terminator, and the terminator. The image data is not kept. */
  function TableBasedImageData(input: Bytes): (r: Result<Bytes, GifError>)
    ensures |input| == 0 <==> r == Err(TableBasedImageDataNoLzw)
    ensures r.Ok? <==> |input| > 0 && SubBlocks(input[1..]).Ok? && BlockTerminator(SubBlocks(input[1..]).value.rest).Ok?
    ensures r.Ok? ==> |r.value| < |input| && input[|input| - |r.value|..] == r.value
  {
    var lzw :- ReadU8(input).OkOr(TableBasedImageDataNoLzw);
    var data :- SubBlocks(lzw.rest);
    var rest :- BlockTerminator(data.rest);
    SubBlocksSuffix(lzw.rest);
    assert lzw.rest[|lzw.rest| - |data.rest|..][1..] == rest;
    Ok(rest)
  }

  /** Image data in sub-blocks is passed over whole. */
  lemma ImageDataSkipped(lzw: uint8, chunks: seq<Bytes>, rest: Bytes)
    requires forall i | 0 <= i < |chunks| :: ChunkSized(chunks[i])
    ensures TableBasedImageData([lzw] + (EncodeSubBlocks(chunks) + ([0] + rest))) == Ok(rest)
  {
    var input := [lzw] + (EncodeSubBlocks(chunks) + ([0] + rest));
    assert input[1..] == EncodeSubBlocks(chunks) + ([0] + rest);
    SubBlocksRoundTrip(chunks, [0] + rest);
    assert BlockTerminator([0] + rest) == Ok(rest);
  }

  // ---------------------------------------------------------------------
  // Extension helpers

  /** The extension introducer byte. */
  const Introducer: uint8 := 0x21

  /** `helpers::extension_introducer`: the byte 0x21; anything else (or
      nothing) is reported as `NotEnoughBytes`. */
  function ExtensionIntroducer(input: Bytes): (r: Result<Bytes, GifError>)
    ensures r.Ok? <==> |input| >= 1 && input[0] == Introducer
    ensures r.Ok? ==> r.value == input[1..]
    ensures r.Err? ==> r.error == NotEnoughBytes
  {
    var b :- ReadU8(input).OkOr(NotEnoughBytes);
    if b.value != Introducer then Err(NotEnoughBytes) else Ok(b.rest)
  }

  /** `helpers::extension_label`: the label the extension expects; another
      label is reported with its value. */
  function ExtensionLabel(input: Bytes, expected: uint8): (r: Result<Bytes, GifError>)
    ensures r.Ok? <==> |input| >= 1 && input[0] == expected
    ensures r.Ok? ==> r.value == input[1..]
    ensures |input| == 0 ==> r == Err(NotEnoughBytes)
    ensures |input| >= 1 && input[0] != expected ==> r == Err(UnknownExtensionFound(input[0]))
  {
    var b :- ReadU8(input).OkOr(NotEnoughBytes);
    if b.value != expected then Err(UnknownExtensionFound(b.value)) else Ok(b.rest)
  }

  /** `helpers::block_size`: one byte. */
  function BlockSize(input: Bytes): (r: Result<Parsed<uint8>, GifError>)
    ensures r.Ok? <==> |input| >= 1
    ensures r.Ok? ==> r.value == Parsed(input[0], input[1..])
    ensures r.Err? ==> r.error == NotEnoughBytes
  {
    ReadU8(input).OkOr(NotEnoughBytes)
  }

  /** The input opens with the introducer and the given label. */
  predicate HasHead(input: Bytes, code: uint8)
  {
    |input| >= 2 && input[0] == Introducer && input[1] == code
  }

  /** The introducer and the label, together. */
  function ExtensionHead(input: Bytes, expected: uint8): (r: Result<Bytes, GifError>)
    ensures r.Ok? <==> HasHead(input, expected)
    ensures r.Ok? ==> r.value == input[2..]
    ensures |input| == 0 || input[0] != Introducer ==> r == Err(NotEnoughBytes)
    ensures |input| >= 1 && input[0] == Introducer ==> r == ExtensionLabel(input[1..], expected)
  {
    var rest :- ExtensionIntroducer(input);
    ExtensionLabel(rest, expected)
  }

  // ---------------------------------------------------------------------
  // Graphic control extension

  /** The graphic control label. */
  const GceLabel: uint8 := 0xF9

  /** `GraphicControlExtension`. */
  datatype GraphicControlExtension = GraphicControlExtension(
    disposalMethod: uint8,
    userInputFlag: bool,
    transparentColorFlag: bool,
    delayTime: uint16,
    transparentColorIndex: uint8)

  /** The packed byte as this parser reads it: bits 3 to 5 the disposal
      method, bit 6 the user input flag, bit 7 the transparency flag, bits 0
      to 2 ignored. */
  function GcePacked(g: GraphicControlExtension): uint8
    requires g.disposalMethod < 8
  {
    8 * g.disposalMethod + (if g.userInputFlag then 0x40 else 0) + (if g.transparentColorFlag then 0x80 else 0)
  }

  /** The eight bytes of a graphic control extension, as this parser reads
      them. */
  function EncodeGce(g: GraphicControlExtension): (r: Bytes)
    requires g.disposalMethod < 8
    ensures |r| == 8
  {
    [Introducer, GceLabel, 4, GcePacked(g)] + Encode(Little, 2, g.delayTime) + [g.transparentColorIndex, 0]
  }

  /** A byte with bits 0 to 2 cleared. */
  function ClearLow(b: uint8): uint8
  {
    b - b % 8
  }

  /** The input opens with the graphic control head and a block size of 4. */
  predicate GceHeadFits(input: Bytes)
  {
    HasHead(input, GceLabel) && |input| >= 3 && input[2] == 4
  }

  /** The extension a packed byte, a delay and an index stand for. */
  function GceOf(p: uint8, delay: uint16, index: uint8): (g: GraphicControlExtension)
    ensures g.disposalMethod < 8 && GcePacked(g) == ClearLow(p)
  {
    var g := GraphicControlExtension((p / 8) % 8, (p / 0x40) % 2 == 1, p >= 0x80, delay, index);
    var u := if g.userInputFlag then 1 else 0;
    var t := if g.transparentColorFlag then 1 else 0;
    assert p == 0x80 * t + 0x40 * u + 8 * g.disposalMethod + p % 8;
    g
  }

  /** `graphic_control_extension`: the head, a block size of 4, the packed
      byte, the little-endian delay, the transparent colour index and the
      terminator. */
  function GraphicControl(input: Bytes): (r: Result<Parsed<GraphicControlExtension>, GifError>)
    ensures r.Ok? <==> GceHeadFits(input) && |input| >= 8 && input[7] == 0
    ensures r.Ok? ==> var g := r.value.value;
              && g.disposalMethod < 8
              && EncodeGce(g) == input[..3] + [ClearLow(input[3])] + input[4..8]
              && r.value.rest == input[8..]
    ensures HasHead(input, GceLabel) && |input| >= 3 && input[2] != 4 ==> r == Err(GraphicExtMissingData)
    ensures GceHeadFits(input) && |input| < 7 ==> r == Err(GraphicExtMissingData)
    ensures GceHeadFits(input) && |input| >= 8 && input[7] != 0 ==> r == Err(BlockTerminatorMismatch(input[7]))
  {
    var head :- ExtensionHead(input, GceLabel);
    var size :- BlockSize(head);
    if size.value != 4 then Err(GraphicExtMissingData)
    else
      var packed :- ReadU8(size.rest).OkOr(GraphicExtMissingData);
      var delay :- ReadU16(Little, packed.rest).OkOr(GraphicExtMissingData);
      var index :- ReadU8(delay.rest).OkOr(GraphicExtMissingData);
      var rest :- BlockTerminator(index.rest);
      var g := GceOf(packed.value, delay.value, index.value);
      assert input[..3] == [Introducer, GceLabel, 4];
      assert input[4..8] == input[4..6] + [input[6], input[7]];
      Ok(Parsed(g, rest))
  }

  /** The packed byte as this parser lays it out gives back the disposal
      method and the two flags, and has bits 0 to 2 clear. */
  lemma GcePackedFields(g: GraphicControlExtension)
    requires g.disposalMethod < 8
    ensures var p := GcePacked(g);
            && (p / 8) % 8 == g.disposalMethod
            && ((p / 0x40) % 2 == 1 <==> g.userInputFlag)
            && (p >= 0x80 <==> g.transparentColorFlag)
            && ClearLow(p) == p
  {
    var u := if g.userInputFlag then 1 else 0;
    var t := if g.transparentColorFlag then 1 else 0;
    var p := GcePacked(g);
    assert p == 0x80 * t + 0x40 * u + 8 * g.disposalMethod;
    assert p / 8 == 16 * t + 8 * u + g.disposalMethod;
    assert p / 0x40 == 2 * t + u;
  }

  /** Different graphic control extensions have different bytes. */
  lemma GceInjective(a: GraphicControlExtension, b: GraphicControlExtension)
    requires a.disposalMethod < 8 && b.disposalMethod < 8 && EncodeGce(a) == EncodeGce(b)
    ensures a == b
  {
    var e := EncodeGce(a);
    GcePackedFields(a);
    GcePackedFields(b);
    assert e[3] == GcePacked(a) == GcePacked(b);
    assert e[4..6] == Encode(Little, 2, a.delayTime) == Encode(Little, 2, b.delayTime);
    U16Injective(a.delayTime, b.delayTime);
    assert e[6] == a.transparentColorIndex == b.transparentColorIndex;
  }

  /** A graphic control extension laid out as this parser reads it reads
      back as written. */
  lemma GceRoundTrip(g: GraphicControlExtension, rest: Bytes)
    requires g.disposalMethod < 8
    ensures GraphicControl(EncodeGce(g) + rest) == Ok(Parsed(g, rest))
  {
    var input := EncodeGce(g) + rest;
    assert input[..8] == EncodeGce(g) && input[8..] == rest;
    GcePackedFields(g);
    assert input[..3] + [ClearLow(input[3])] + input[4..8] == EncodeGce(g);
    GceInjective(GraphicControl(input).value.value, g);
  }

  /** The packed byte as section 23 of the GIF89a specification lays it
      out: bits 2 to 4 the disposal method, bit 1 the user input flag, bit 0
      the transparency flag. */
  function Gif89aPacked(g: GraphicControlExtension): uint8
    requires g.disposalMethod < 8
  {
    4 * g.disposalMethod + (if g.userInputFlag then 2 else 0) + (if g.transparentColorFlag then 1 else 0)
  }

  /** The parser does not follow section 23 of GIF89a: a block marking a
      transparent colour with disposal method 2 (restore to background)
      reads as opaque, with disposal method 1. */
  lemma GceLayoutDiffers(delay: uint16, index: uint8, rest: Bytes)
    ensures var written := GraphicControlExtension(2, false, true, delay, index);
            var input := [Introducer, GceLabel, 4, Gif89aPacked(written)] + Encode(Little, 2, delay) + [index, 0] + rest;
            && GraphicControl(input).Ok?
            && !GraphicControl(input).value.value.transparentColorFlag
            && GraphicControl(input).value.value.disposalMethod == 1
  {
    var written := GraphicControlExtension(2, false, true, delay, index);
    var input := [Introducer, GceLabel, 4, Gif89aPacked(written)] + Encode(Little, 2, delay) + [index, 0] + rest;
    assert Gif89aPacked(written) == 9;
    assert |input| >= 8 && input[..3] == [Introducer, GceLabel, 4] && input[7] == 0;
    assert input[3] == 9;
    var g := GraphicControl(input).value.value;
    GcePackedFields(g);
    assert GcePacked(g) == EncodeGce(g)[3] == ClearLow(9) == 8;
  }

  /** The eight bytes of a graphic control extension as section 23 of
      GIF89a lays them out. */
  function EncodeGif89aGce(g: GraphicControlExtension): (r: Bytes)
    requires g.disposalMethod < 8
    ensures |r| == 8
  {
    [Introducer, GceLabel, 4, Gif89aPacked(g)] + Encode(Little, 2, g.delayTime) + [g.transparentColorIndex, 0]
  }

  /** The extension a packed byte, a delay and an index stand for under
      section 23 of GIF89a, whose bits 5 to 7 are reserved. */
  function Gif89aOf(p: uint8, delay: uint16, index: uint8): (g: GraphicControlExtension)
    ensures g.disposalMethod < 8 && Gif89aPacked(g) == p % 0x20
  {
    var g := GraphicControlExtension((p / 4) % 8, (p / 2) % 2 == 1, p % 2 == 1, delay, index);
    assert p % 0x20 == 4 * ((p / 4) % 8) + 2 * ((p / 2) % 2) + p % 2;
    g
  }

  /** `graphic_control_extension` with the packed byte decoded as section
      23 of GIF89a lays it out: it accepts and refuses the same inputs as
      the parser as written, and differs only in the fields it reads. */
  function GraphicControlGif89a(input: Bytes): (r: Result<Parsed<GraphicControlExtension>, GifError>)
    ensures r.Ok? <==> GceHeadFits(input) && |input| >= 8 && input[7] == 0
    ensures r.Ok? ==> var g := r.value.value;
              && g.disposalMethod < 8
              && EncodeGif89aGce(g) == input[..3] + [input[3] % 0x20] + input[4..8]
              && r.value.rest == input[8..]
    ensures r.Err? ==> r == GraphicControl(input)
  {
    var head :- ExtensionHead(input, GceLabel);
    var size :- BlockSize(head);
    if size.value != 4 then Err(GraphicExtMissingData)
    else
      var packed :- ReadU8(size.rest).OkOr(GraphicExtMissingData);
      var delay :- ReadU16(Little, packed.rest).OkOr(GraphicExtMissingData);
      var index :- ReadU8(delay.rest).OkOr(GraphicExtMissingData);
      var rest :- BlockTerminator(index.rest);
      var g := Gif89aOf(packed.value, delay.value, index.value);
      assert input[..3] == [Introducer, GceLabel, 4];
      assert input[4..8] == input[4..6] + [input[6], input[7]];
      Ok(Parsed(g, rest))
  }

  /** Different extensions have different GIF89a bytes. */
  lemma Gif89aGceInjective(a: GraphicControlExtension, b: GraphicControlExtension)
    requires a.disposalMethod < 8 && b.disposalMethod < 8 && EncodeGif89aGce(a) == EncodeGif89aGce(b)
    ensures a == b
  {
    var e := EncodeGif89aGce(a);
    assert e[3] == Gif89aPacked(a) == Gif89aPacked(b);
    assert e[4..6] == Encode(Little, 2, a.delayTime) == Encode(Little, 2, b.delayTime);
    U16Injective(a.delayTime, b.delayTime);
    assert e[6] == a.transparentColorIndex == b.transparentColorIndex;
  }

  /** A graphic control extension laid out as section 23 of GIF89a says
      reads back as written under the corrected decoding. */
  lemma Gif89aGceRoundTrip(g: GraphicControlExtension, rest: Bytes)
    requires g.disposalMethod < 8
    ensures GraphicControlGif89a(EncodeGif89aGce(g) + rest) == Ok(Parsed(g, rest))
  {
    var input := EncodeGif89aGce(g) + rest;
    assert input[..8] == EncodeGif89aGce(g) && input[8..] == rest;
    assert Gif89aPacked(g) < 0x20;
    assert input[..3] + [input[3] % 0x20] + input[4..8] == EncodeGif89aGce(g);
    Gif89aGceInjective(GraphicControlGif89a(input).value.value, g);
  }

  /** The block of `GceLayoutDiffers`, read as GIF89a lays it out, is
      transparent with disposal method 2. */
  lemma GceLayoutCorrected(delay: uint16, index: uint8, rest: Bytes)
    ensures var written := GraphicControlExtension(2, false, true, delay, index);
            var input := [Introducer, GceLabel, 4, Gif89aPacked(written)] + Encode(Little, 2, delay) + [index, 0] + rest;
            GraphicControlGif89a(input) == Ok(Parsed(written, rest))
  {
    var written := GraphicControlExtension(2, false, true, delay, index);
    Gif89aGceRoundTrip(written, rest);
  }

  // ---------------------------------------------------------------------
  // Comment, plain text and application extensions

  /** The comment label. */
  const CommentLabel: uint8 := 0xFE

  /** `comment_extension`: the head, then the sub-blocks' data up to the
      terminator. Its loop indexes the input without a bounds check. */
  function CommentExtension(input: Bytes): (r: Result<Parsed<Bytes>, GifError>)
    requires HasHead(input, CommentLabel) ==> LoopInBounds(input[2..])
    ensures r.Ok? <==> HasHead(input, CommentLabel) && SubBlocks(input[2..]).Ok?
    ensures r.Ok? ==> && r.value.value == SubBlocks(input[2..]).value.value
                      && [0] + r.value.rest == SubBlocks(input[2..]).value.rest
  {
    match ExtensionHead(input, CommentLabel)
    case Err(e) => Err(e)
    case Ok(head) =>
      IndexedLoopAgrees(head);
      match IndexedLoop(head)
      case Err(e) => Err(e)
      case Ok(data) =>
        // the loop stops in front of a zero byte, so the terminator matches
        assert [0] + data.rest[1..] == data.rest;
        Ok(Parsed(data.value, data.rest[1..]))
  }

  /** A comment extension reads back as the concatenation of its chunks. */
  lemma CommentRoundTrip(chunks: seq<Bytes>, rest: Bytes)
    requires forall i | 0 <= i < |chunks| :: ChunkSized(chunks[i])
    ensures var input := [Introducer, CommentLabel] + Framed(chunks, rest);
            && LoopInBounds(input[2..])
            && CommentExtension(input) == Ok(Parsed(Concat(chunks), rest))
  {
    var input := [Introducer, CommentLabel] + Framed(chunks, rest);
    assert input[2..] == Framed(chunks, rest);
    EncodedInBounds(chunks, rest);
    SubBlocksRoundTrip(chunks, [0] + rest);
    assert ([0] + rest)[1..] == rest;
  }

  /** The plain text label. */
  const PlainTextLabel: uint8 := 0x01

  /** `PlainTextExtension`. */
  datatype PlainTextExtension = PlainTextExtension(
    gridLeft: uint16,
    gridTop: uint16,
    gridWidth: uint16,
    gridHeight: uint16,
    cellWidth: uint8,
    cellHeight: uint8,
    foregroundColorIndex: uint8,
    backgroundColorIndex: uint8,
    data: Bytes)

  /** The twelve bytes of a plain text extension's fixed fields. */
  function PlainTextFields(t: PlainTextExtension): (r: Bytes)
    ensures |r| == 12
  {
    EncodeQuad((t.gridLeft, t.gridTop, t.gridWidth, t.gridHeight))
      + [t.cellWidth, t.cellHeight, t.foregroundColorIndex, t.backgroundColorIndex]
  }

  /** The fixed fields of a plain text extension: four little-endian grid
      values and four single bytes. */
  function ReadPlainTextFields(input: Bytes): (r: Result<Parsed<PlainTextExtension>, GifError>)
    ensures r.Ok? <==> |input| >= 12
    ensures r.Err? ==> r.error == PlainTextExtMissingData
    ensures r.Ok? ==> PlainTextFields(r.value.value) == input[..12] && r.value.value.data == [] && r.value.rest == input[12..]
  {
    var q :- ReadQuad(input, PlainTextExtMissingData);
    var cells :- Take(4, q.rest).OkOr(PlainTextExtMissingData);
    var c := cells.value;
    assert input[..12] == input[..8] + c;
    Ok(Parsed(PlainTextExtension(q.value.0, q.value.1, q.value.2, q.value.3, c[0], c[1], c[2], c[3], []), cells.rest))
  }

  /** The fixed fields' bytes do not depend on the data. */
  lemma FieldsIgnoreData(t: PlainTextExtension, data: Bytes)
    ensures PlainTextFields(t.(data := data)) == PlainTextFields(t)
  {
  }

  /** The fixed fields are determined by their bytes. */
  lemma PlainTextFieldsInjective(a: PlainTextExtension, b: PlainTextExtension)
    requires PlainTextFields(a) == PlainTextFields(b)
    ensures a.(data := []) == b.(data := [])
  {
    var e := PlainTextFields(a);
    assert e[..8] == EncodeQuad((a.gridLeft, a.gridTop, a.gridWidth, a.gridHeight))
                  == EncodeQuad((b.gridLeft, b.gridTop, b.gridWidth, b.gridHeight));
    QuadInjective((a.gridLeft, a.gridTop, a.gridWidth, a.gridHeight), (b.gridLeft, b.gridTop, b.gridWidth, b.gridHeight));
    assert e[8] == a.cellWidth == b.cellWidth && e[9] == a.cellHeight == b.cellHeight;
    assert e[10] == a.foregroundColorIndex == b.foregroundColorIndex;
    assert e[11] == a.backgroundColorIndex == b.backgroundColorIndex;
  }

  /** The input opens with the plain text head and a block size of 12. */
  predicate PlainTextHead(input: Bytes)
  {
    HasHead(input, PlainTextLabel) && |input| >= 3 && input[2] == 12
  }

  /** `plain_text_extension`: the head, a block size of 12, the fixed
      fields, then the sub-blocks' data up to the terminator. */
  function PlainText(input: Bytes): (r: Result<Parsed<PlainTextExtension>, GifError>)
    ensures r.Ok? <==> && PlainTextHead(input) && |input| >= 15 && SubBlocks(input[15..]).Ok?
                       && BlockTerminator(SubBlocks(input[15..]).value.rest).Ok?
    ensures r.Ok? ==> && PlainTextFields(r.value.value) == input[3..15]
                      && r.value.value.data == SubBlocks(input[15..]).value.value
                      && [0] + r.value.rest == SubBlocks(input[15..]).value.rest
    ensures HasHead(input, PlainTextLabel) && |input| >= 3 && input[2] != 12 ==>
              r == Err(ExtensionHasWeirdBlockSize(input[2], 12))
    ensures PlainTextHead(input) && |input| < 15 ==> r == Err(PlainTextExtMissingData)
  {
    var head :- ExtensionHead(input, PlainTextLabel);
    var size :- BlockSize(head);
    if size.value != 12 then Err(ExtensionHasWeirdBlockSize(size.value, 12))
    else PlainTextBody(input)
  }

  /** What follows the head and block size of a plain text extension: the
      fixed fields, the sub-blocks' data and the terminator. */
  function PlainTextBody(input: Bytes): (r: Result<Parsed<PlainTextExtension>, GifError>)
    requires |input| >= 3
    ensures r.Ok? <==> |input| >= 15 && SubBlocks(input[15..]).Ok? && BlockTerminator(SubBlocks(input[15..]).value.rest).Ok?
    ensures r.Ok? ==> && PlainTextFields(r.value.value) == input[3..15]
                      && r.value.value.data == SubBlocks(input[15..]).value.value
                      && [0] + r.value.rest == SubBlocks(input[15..]).value.rest
    ensures |input| < 15 ==> r == Err(PlainTextExtMissingData)
  {
    match ReadPlainTextFields(input[3..])
    case Err(e) => Err(e)
    case Ok(fields) =>
      assert fields.rest == input[15..] && input[3..][..12] == input[3..15];
      match SubBlocks(fields.rest)
      case Err(e) => Err(e)
      case Ok(data) =>
        match BlockTerminator(data.rest)
        case Err(e) => Err(e)
        case Ok(rest) =>
          HeadTail(data.rest);
          FieldsIgnoreData(fields.value, data.value);
          Ok(Parsed(fields.value.(data := data.value), rest))
  }

  /** A plain text extension reads back with its fixed fields and the
      concatenation of its chunks. */
  lemma PlainTextRoundTrip(t: PlainTextExtension, chunks: seq<Bytes>, rest: Bytes)
    requires forall i | 0 <= i < |chunks| :: ChunkSized(chunks[i])
    requires t.data == Concat(chunks)
    ensures PlainText([Introducer, PlainTextLabel, 12] + PlainTextFields(t) + Framed(chunks, rest)) == Ok(Parsed(t, rest))
  {
    var input := [Introducer, PlainTextLabel, 12] + PlainTextFields(t) + Framed(chunks, rest);
    assert input[3..15] == PlainTextFields(t) && input[15..] == Framed(chunks, rest);
    assert PlainTextHead(input);
    SubBlocksRoundTrip(chunks, [0] + rest);
    assert SubBlocks(input[15..]) == Ok(Parsed(Concat(chunks), [0] + rest));
    assert BlockTerminator([0] + rest) == Ok(rest);
    var r := PlainText(input).value;
    assert [0] + r.rest == [0] + rest;
    assert r.rest == ([0] + r.rest)[1..];
    PlainTextFieldsInjective(r.value, t);
    assert r.value.data == t.data;
  }

  /** The application label. */
  const AppLabel: uint8 := 0xFF

  /** `b"XMP Data"` and `b"XMP"`: the identifier and authentication code of
      an XMP application extension. */
  const XmpIdent: Bytes := [0x58, 0x4D, 0x50, 0x20, 0x44, 0x61, 0x74, 0x61]
  const XmpAuth: Bytes := [0x58, 0x4D, 0x50]

  /** `MAGIC_TRAILER_NO_BLOCK_TERMINATOR`: 0x01, then every byte value from
      0xFF down to 0x00; 257 bytes. */
  const MagicTrailer: Bytes := [1] + Countdown(256)

  /** The byte values from `n - 1` down to 0. */
  function Countdown(n: nat): (r: Bytes)
    requires n <= 0x100
    ensures |r| == n && forall i | 0 <= i < n :: r[i] == n - 1 - i
  {
    if n == 0 then [] else [n - 1] + Countdown(n - 1)
  }

  /** `ApplicationExtension`. */
  datatype ApplicationExtension = ApplicationExtension(identifier: Bytes, authCode: Bytes, data: Bytes)

  /** `windows(|p|).position(...)`: the first place `p` lies in `s`, from
      `from` on. */
  function FindWindow(p: Bytes, s: Bytes, from: nat): (r: Option<nat>)
    ensures r.Some? ==> from <= r.value && InfixAt(p, s, r.value)
    ensures r.Some? ==> forall j | from <= j < r.value :: !InfixAt(p, s, j)
    ensures r.None? ==> forall j | from <= j :: !InfixAt(p, s, j)
    decreases |s| - from
  {
    if from + |p| > |s| then None
    else if s[from..from + |p|] == p then Some(from)
    else FindWindow(p, s, from + 1)
  }

  /** The input opens with the application head and a block size of 11. */
  predicate AppHeadFits(input: Bytes)
  {
    HasHead(input, AppLabel) && |input| >= 3 && input[2] == 11
  }

  /** The fixed part of an application extension: the head, a block size
      of 11, the identifier and the authentication code. */
  function AppHead(input: Bytes): (r: Result<Parsed<(Bytes, Bytes)>, GifError>)
    ensures r.Ok? <==> AppHeadFits(input) && |input| >= 14
    ensures r.Ok? ==> r.value == Parsed((input[3..11], input[11..14]), input[14..])
    ensures HasHead(input, AppLabel) && |input| >= 3 && input[2] != 11 ==> r == Err(AppExtMissingData)
    ensures AppHeadFits(input) && |input| < 14 ==> r == Err(AppExtMissingData)
  {
    var head :- ExtensionHead(input, AppLabel);
    var size :- BlockSize(head);
    if size.value != 11 then Err(AppExtMissingData)
    else
      var ident :- Take(8, size.rest).OkOr(AppExtMissingData);
      var auth :- Take(3, ident.rest).OkOr(AppExtMissingData);
      assert ident.value == input[3..11] && auth.value == input[11..14] && auth.rest == input[14..];
      Ok(Parsed((ident.value, auth.value), auth.rest))
  }

  /** Whether the raw XMP form applies: the XMP identifier and code, and
      the magic trailer somewhere after them. */
  predicate RawXmp(ident: Bytes, auth: Bytes, body: Bytes)
  {
    ident == XmpIdent && auth == XmpAuth && FindWindow(MagicTrailer, body, 0).Some?
  }

  /** The sub-block loop of `application_extension` stays in bounds
      wherever it is reached. */
  predicate AppLoopInBounds(input: Bytes)
  {
    (AppHeadFits(input) && |input| >= 14 && !RawXmp(input[3..11], input[11..14], input[14..]))
      ==> LoopInBounds(input[14..])
  }

  /** The raw XMP form: the data runs through the first magic trailer, and a
      terminator must follow it. */
  function RawXmpData(body: Bytes): (r: Result<Parsed<Bytes>, GifError>)
    requires FindWindow(MagicTrailer, body, 0).Some?
    ensures var end := FindWindow(MagicTrailer, body, 0).value + |MagicTrailer|;
            && end <= |body|
            && (r.Ok? <==> end < |body| && body[end] == 0)
            && (r.Ok? ==> r.value.value == body[..end] && r.value.rest == body[end + 1..])
  {
    var end := FindWindow(MagicTrailer, body, 0).value + |MagicTrailer|;
    var rest :- BlockTerminator(body[end..]);
    Ok(Parsed(body[..end], rest))
  }

  /** The sub-block form of an application extension, read by the indexing
      loop, and its terminator. */
  function AppSubBlocks(body: Bytes): (r: Result<Parsed<Bytes>, GifError>)
    requires LoopInBounds(body)
    ensures r.Ok? <==> SubBlocks(body).Ok?
    ensures r.Ok? ==> r.value.value == SubBlocks(body).value.value && [0] + r.value.rest == SubBlocks(body).value.rest
  {
    IndexedLoopAgrees(body);
    var data :- IndexedLoop(body);
    // the loop stops in front of a zero byte, so the terminator matches
    Ok(Parsed(data.value, data.rest[1..]))
  }

  /** `application_extension`. An XMP extension holding the magic trailer
      is read raw; any other extension is read as sub-blocks. */
  function Application(input: Bytes): (r: Result<Parsed<ApplicationExtension>, GifError>)
    requires AppLoopInBounds(input)
    ensures AppHead(input).Err? ==> r == Err(AppHead(input).error)
    ensures AppHead(input).Ok? && RawXmp(input[3..11], input[11..14], input[14..]) ==>
              r == Attach(input[3..11], input[11..14], RawXmpData(input[14..]))
    ensures AppHead(input).Ok? && !RawXmp(input[3..11], input[11..14], input[14..]) ==>
              r == Attach(input[3..11], input[11..14], AppSubBlocks(input[14..]))
  {
    var head :- AppHead(input);
    var (ident, auth) := head.value;
    var body := head.rest;
    if RawXmp(ident, auth, body) then Attach(ident, auth, RawXmpData(body))
    else Attach(ident, auth, AppSubBlocks(body))
  }

  /** An extension with the given identifier and code around the data
      read. */
  function Attach(ident: Bytes, auth: Bytes, data: Result<Parsed<Bytes>, GifError>): Result<Parsed<ApplicationExtension>, GifError>
  {
    match data
    case Err(e) => Err(e)
    case Ok(d) => Ok(Parsed(ApplicationExtension(ident, auth, d.value), d.rest))
  }

  /** The fixed part of an application extension, laid out. */
  lemma AppHeadLayout(ident: Bytes, auth: Bytes, body: Bytes)
    requires |ident| == 8 && |auth| == 3
    ensures var input := [Introducer, AppLabel, 11] + ident + auth + body;
            && AppHeadFits(input) && |input| >= 14
            && input[3..11] == ident && input[11..14] == auth && input[14..] == body
  {
    var head := [Introducer, AppLabel, 11] + ident + auth;
    var input := head + body;
    assert |head| == 14;
    assert input[..14] == head;
    assert input[0] == head[0] && input[1] == head[1] && input[2] == head[2];
    assert input[3..11] == head[3..11] == ident;
    assert input[11..14] == head[11..14] == auth;
  }

  /** Framed chunks read back through the terminator. */
  lemma AppSubBlocksRoundTrip(chunks: seq<Bytes>, rest: Bytes)
    requires forall i | 0 <= i < |chunks| :: ChunkSized(chunks[i])
    ensures LoopInBounds(Framed(chunks, rest))
    ensures AppSubBlocks(Framed(chunks, rest)) == Ok(Parsed(Concat(chunks), rest))
  {
    var body := Framed(chunks, rest);
    EncodedInBounds(chunks, rest);
    SubBlocksRoundTrip(chunks, [0] + rest);
    var r := AppSubBlocks(body).value;
    assert [0] + r.rest == [0] + rest;
    assert r.rest == ([0] + r.rest)[1..];
  }

  /** An application extension in sub-blocks (not the raw XMP form) reads
      back with the concatenation of its chunks. */
  lemma AppRoundTrip(ident: Bytes, auth: Bytes, chunks: seq<Bytes>, rest: Bytes)
    requires |ident| == 8 && |auth| == 3
    requires forall i | 0 <= i < |chunks| :: ChunkSized(chunks[i])
    requires !RawXmp(ident, auth, Framed(chunks, rest))
    ensures var input := [Introducer, AppLabel, 11] + ident + auth + Framed(chunks, rest);
            && AppLoopInBounds(input)
            && Application(input) == Ok(Parsed(ApplicationExtension(ident, auth, Concat(chunks)), rest))
  {
    var body := Framed(chunks, rest);
    var input := [Introducer, AppLabel, 11] + ident + auth + body;
    AppHeadLayout(ident, auth, body);
    assert AppHead(input).Ok?;
    assert !RawXmp(input[3..11], input[11..14], input[14..]);
    AppSubBlocksRoundTrip(chunks, rest);
    assert Application(input) == Attach(ident, auth, AppSubBlocks(body));
  }

  /** An XMP packet followed by the magic trailer and a terminator is read
      raw, trailer included, when the trailer does not occur earlier. */
  lemma RawXmpRoundTrip(packet: Bytes, rest: Bytes)
    requires forall j | 0 <= j < |packet| :: !InfixAt(MagicTrailer, packet + MagicTrailer, j)
    ensures var input := [Introducer, AppLabel, 11] + XmpIdent + XmpAuth + (packet + MagicTrailer + ([0] + rest));
            && AppLoopInBounds(input)
            && Application(input) == Ok(Parsed(ApplicationExtension(XmpIdent, XmpAuth, packet + MagicTrailer), rest))
  {
    var body := packet + MagicTrailer + ([0] + rest);
    AppHeadLayout(XmpIdent, XmpAuth, body);
    RawXmpBody(packet, rest);
  }

  /** The raw form of that extension's body: the first trailer ends the
      data, and the terminator follows it. */
  lemma RawXmpBody(packet: Bytes, rest: Bytes)
    requires forall j | 0 <= j < |packet| :: !InfixAt(MagicTrailer, packet + MagicTrailer, j)
    ensures var body := packet + MagicTrailer + ([0] + rest);
            && FindWindow(MagicTrailer, body, 0) == Some(|packet|)
            && RawXmpData(body) == Ok(Parsed(packet + MagicTrailer, rest))
  {
    var data := packet + MagicTrailer;
    var body := data + ([0] + rest);
    TrailerFirstAt(MagicTrailer, packet, [0] + rest);
    assert body[..|packet| + 257] == data;
    assert body[|packet| + 257..] == [0] + rest;
  }

  /** A pattern appended to a packet in which it does not start earlier is
      first found right after the packet, whatever follows. */
  lemma TrailerFirstAt(p: Bytes, packet: Bytes, tail: Bytes)
    requires forall j | 0 <= j < |packet| :: !InfixAt(p, packet + p, j)
    ensures FindWindow(p, packet + p + tail, 0) == Some(|packet|)
  {
    var data := packet + p;
    var body := data + tail;
    assert body[|packet|..|packet| + |p|] == p;
    assert InfixAt(p, body, |packet|);
    forall j | 0 <= j < |packet|
      ensures !InfixAt(p, body, j)
    {
      assert !InfixAt(p, data, j);
      assert body[j..j + |p|] == data[j..j + |p|];
    }
    FirstWindowAt(p, body, |packet|);
  }

  /** A window found with nothing like it before is the first one. */
  lemma FirstWindowAt(p: Bytes, s: Bytes, k: nat)
    requires InfixAt(p, s, k) && forall j | 0 <= j < k :: !InfixAt(p, s, j)
    ensures FindWindow(p, s, 0) == Some(k)
  {
    var f := FindWindow(p, s, 0);
    assert f.Some?;
  }

  // ---------------------------------------------------------------------
  // Trailer

  /** `trailer`: the byte 0x3B; any other byte is reported as missing too. */
  function Trailer(input: Bytes): (r: Result<Bytes, GifError>)
    ensures r.Ok? <==> |input| >= 1 && input[0] == 0x3B
    ensures r.Ok? ==> r.value == input[1..]
    ensures r.Err? ==> r.error == TrailerMissing
  {
    var b :- ReadU8(input).OkOr(TrailerMissing);
    if b.value != 0x3B then Err(TrailerMissing) else Ok(b.rest)
  }
}

=== FILE: heif.dfy ===
/** Reading the Exif and XMP blobs of a HEIF-like file
    (raves_metadata/src/providers/shared/bmff/heif/mod.rs): the `ftyp`
    brand check, the single `meta` box, the item boxes inside it, and the
    items that carry metadata.
 */
module Heif {
  import opened Std
  import opened Bytes
  import opened BmffBox
  import opened BmffFtyp
  import opened HeifIinf
  import opened HeifIloc
  import opened HeifPitm
  import opened HeifSearch

  const IinfCode: FourCC := [0x69, 0x69, 0x6E, 0x66]
  const IlocCode: FourCC := [0x69, 0x6C, 0x6F, 0x63]
  const IdatCode: FourCC := [0x69, 0x64, 0x61, 0x74]

  /** Item types: `Exif`, and the three that mark an XMP item. */
  const ExifCode: FourCC := [0x45, 0x78, 0x69, 0x66]
  const XmpItemTypes: seq<FourCC> := [[0x78, 0x69, 0x66, 0x00], [0x58, 0x4D, 0x50, 0x20], [0x78, 0x6D, 0x70, 0x20]]

  /** The content types that mark an XMP item. */
  const XmpMimeTypes: seq<Bytes> := [Ascii("application/rdf+xml"), Ascii("application/xmp+xml")]

  /** The two byte-order marks a TIFF header starts with. */
  const MotorolaMark: Bytes := [0x4D, 0x4D]
  const IntelMark: Bytes := [0x49, 0x49]

  /** `HeifLikeConstructionError`. */
  datatype HeifError =
    | NoFtypBox
    | NotAHeifLike(majorBrand: FourCC)
    | MultipleMetaBoxes(n: uint32)
    | CantParseItemInfoBox
    | CantParseItemLocationBox
    | CantParsePrimaryItemBox
    | ParserBugMultipleExtentsNotSupported(extentCt: uint32)
    | ParserBugSlicesTooSmall

  /** `HeifLike`: the raw Exif and XMP blobs found, if any. */
  datatype HeifLike = HeifLike(exif: Option<Bytes>, xmp: Option<Bytes>)

  // ---------------------------------------------------------------------
  // The file: `ftyp`, then exactly one `meta` box

  /** The first part of `parse_heif_like`: the `ftyp` box, the brand check,
      and the search for `meta` boxes after it. Nothing when there is no
      `meta` box; the box when there is exactly one. */
  function LocateMeta(input: Bytes, supported: seq<FourCC>): (r: Result<Option<MetaFound>, HeifError>)
    ensures r == Err(NoFtypBox) <==> ParseFtyp(input).None?
    ensures (r.Err? && r.error.NotAHeifLike?) <==>
              ParseFtyp(input).Some? && !BrandSupported(ParseFtyp(input).value.value, supported)
    ensures r.Err? && r.error.NotAHeifLike? ==> r.error.majorBrand == ParseFtyp(input).value.value.majorBrand
    ensures r.Err? ==> r.error.NoFtypBox? || r.error.NotAHeifLike? || r.error.MultipleMetaBoxes?
    ensures r.Err? && r.error.MultipleMetaBoxes? ==>
              var metas := FindMetaBoxes(ParseFtyp(input).value.rest);
              |metas| > 1 && r.error.n == WrapU32(|metas|)
    ensures r.Ok? ==> ParseFtyp(input).Some? && BrandSupported(ParseFtyp(input).value.value, supported)
    ensures r.Ok? ==>
              var metas := FindMetaBoxes(ParseFtyp(input).value.rest);
              && (r.value.None? <==> |metas| == 0)
              && (r.value.Some? ==> metas == [r.value.value])
  {
    var ftyp :- ParseFtyp(input).OkOr(NoFtypBox);
    if !BrandSupported(ftyp.value, supported) then Err(NotAHeifLike(ftyp.value.majorBrand))
    else
      var metas := FindMetaBoxes(ftyp.rest);
      if |metas| == 0 then Ok(None)
      else if |metas| == 1 then Ok(Some(metas[0]))
      else Err(MultipleMetaBoxes(WrapU32(|metas|)))
  }

  // ---------------------------------------------------------------------
  // The boxes inside `meta`

  /** What the scan of the `meta` payload gathers. */
  datatype MetaItems = MetaItems(
    info: Option<ItemInfoBox>,
    location: Option<ItemLocationBox>,
    data: Option<Bytes>,
    primary: Option<PrimaryItemBox>)

  const NoItems := MetaItems(None, None, None, None)

  /** Where the payload of an `idat` box is read from: the `meta` payload
      the box sits in, or the file input the `meta` search left over, which
      each payload read consumes. */
  datatype IdatSource = FromMeta | FromStream(stream: Bytes)

  /** The `idat` turn of the scan, given the input after the box header:
      the payload found, if any, where the scan goes on, and the source
      left for the next `idat` box. Read from the `meta` payload, the scan
      goes on after the payload; read from the file input, it goes on right
      after the header and the file input loses the payload. */
  function IdatTurn(h: BoxHeader, afterHeader: Bytes, src: IdatSource): (r: (Option<Bytes>, Bytes, IdatSource))
    ensures |r.1| <= |afterHeader|
    ensures src.FromMeta? ==> r.2 == FromMeta && (r.0.Some? <==> Payload(h, afterHeader).Some?)
    ensures src.FromMeta? && r.0.Some? ==> r.0.value + r.1 == afterHeader && |r.0.value| == PayloadTake(h, afterHeader)
    ensures src.FromStream? ==> r.1 == afterHeader && r.2.FromStream? && (r.0.Some? <==> Payload(h, src.stream).Some?)
    ensures src.FromStream? && r.0.Some? ==>
              && r.0.value + r.2.stream == src.stream
              && |r.0.value| == PayloadTake(h, src.stream)
    ensures src.FromStream? && r.0.None? ==> r.2 == src
  {
    match src
    case FromMeta =>
      (match Payload(h, afterHeader)
       case Some(p) => (Some(p.value), p.rest, FromMeta)
       case None => (None, afterHeader, FromMeta))
    case FromStream(stream) =>
      (match Payload(h, stream)
       case Some(p) => (Some(p.value), afterHeader, FromStream(p.rest))
       case None => (None, afterHeader, src))
  }

  /** One box of the `meta` payload, whose header `h` has been peeked:
      what is gathered so far, where the scan goes on, and where the next
      `idat` payload comes from. `iinf`, `iloc` and `pitm` boxes are parsed
      in place and a failure is an error; an `idat` box gives the item data;
      any other box is skipped (or, when its payload overruns, only its
      header). A box parsed later replaces one of the same kind parsed
      earlier. */
  function MetaTurn(blob: Bytes, h: Parsed<BoxHeader>, src: IdatSource, acc: MetaItems)
    : (r: Result<(MetaItems, Bytes, IdatSource), HeifError>)
    requires ParseBoxHeader(blob) == Ok(h)
    ensures r.Ok? ==> |r.value.1| < |blob|
    ensures r.Ok? ==>
              && (acc.info.Some? ==> r.value.0.info.Some?)
              && (acc.location.Some? ==> r.value.0.location.Some?)
              && (acc.data.Some? ==> r.value.0.data.Some?)
              && (acc.primary.Some? ==> r.value.0.primary.Some?)
    ensures r.Ok? ==> (src.FromMeta? <==> r.value.2.FromMeta?)
    ensures r.Err? ==> r.error in {CantParseItemInfoBox, CantParseItemLocationBox, CantParsePrimaryItemBox}
  {
    var ty := h.value.boxType;
    if ty == Id(IinfCode) then
      var b :- ParseItemInfoBox(blob).OkOr(CantParseItemInfoBox);
      Ok((acc.(info := Some(b.value)), b.rest, src))
    else if ty == Id(IlocCode) then
      var b :- ParseItemLocationBox(blob).OkOr(CantParseItemLocationBox);
      Ok((acc.(location := Some(b.value)), b.rest, src))
    else if ty == Id(IdatCode) then
      var (data, next, src') := IdatTurn(h.value, h.rest, src);
      Ok((if data.Some? then acc.(data := data) else acc, next, src'))
    else if ty == Id(PitmCode) then
      var b :- ParsePrimaryItem(blob).OkOr(CantParsePrimaryItemBox);
      Ok((acc.(primary := Some(b.value)), b.rest, src))
    else
      match EatPayload(h.value, h.rest)
      case Some(rest) => Ok((acc, rest, src))
      case None => Ok((acc, h.rest, src))
  }

  /** The loop over the `meta` payload: box by box, until it is empty, both
      the item info and the item locations are found, or a box header cannot
      be read. */
  function ScanMeta(blob: Bytes, src: IdatSource, acc: MetaItems): (r: Result<MetaItems, HeifError>)
    ensures r.Ok? ==>
              && (acc.info.Some? ==> r.value.info.Some?)
              && (acc.location.Some? ==> r.value.location.Some?)
              && (acc.data.Some? ==> r.value.data.Some?)
              && (acc.primary.Some? ==> r.value.primary.Some?)
    ensures r.Err? ==> r.error in {CantParseItemInfoBox, CantParseItemLocationBox, CantParsePrimaryItemBox}
    ensures acc.info.Some? && acc.location.Some? ==> r == Ok(acc)
    decreases |blob|
  {
    if blob == [] || (acc.info.Some? && acc.location.Some?) then Ok(acc)
    else
      match ParseBoxHeader(blob)
      case Err(_) => Ok(acc)
      case Ok(h) =>
        var (acc', next, src') :- MetaTurn(blob, h, src, acc);
        ScanMeta(next, src', acc')
  }

  /** The scan with each `idat` payload read from the `meta` payload. */
  function MetaScan(blob: Bytes): Result<MetaItems, HeifError>
  {
    ScanMeta(blob, FromMeta, NoItems)
  }

  /** The scan as the source writes it: each `idat` payload is read from the
      file input the `meta` search left over, and the scan goes on right
      after the `idat` header. */
  function MetaScanAsWritten(blob: Bytes, stream: Bytes): Result<MetaItems, HeifError>
  {
    ScanMeta(blob, FromStream(stream), NoItems)
  }

  /** The header of an `idat` box with a payload of `n` bytes. */
  function IdatHeader(n: nat): BoxHeader
    requires n < 0x1_0000_0000 - 8
  {
    BoxHeader(8, Small(8 + n), Id(IdatCode))
  }

  /** Read from the `meta` payload, an `idat` box gives its payload as the
      item data, and the scan goes on after the box. */
  lemma IdatReadFromMeta(payload: Bytes, rest: Bytes, acc: MetaItems)
    requires |payload| < 0x1_0000_0000 - 8
    requires acc.info.None? || acc.location.None?
    ensures var h := IdatHeader(|payload|);
            ScanMeta(EncodeBoxHeader(h.boxSize, h.boxType) + (payload + rest), FromMeta, acc)
            == ScanMeta(rest, FromMeta, acc.(data := Some(payload)))
  {
    var h := IdatHeader(|payload|);
    var body := payload + rest;
    BoxHeaderRoundTrip(h.boxSize, h.boxType, body);
    IdatStep(EncodeBoxHeader(h.boxSize, h.boxType) + body, h, body, FromMeta, acc);
    assert body[..|payload|] == payload && body[|payload|..] == rest;
  }

  /** As the source writes it, the scan goes on INSIDE an `idat` box: its
      payload is read as the next box headers, and the item data is the
      front of the file input, which the next `idat` box no longer sees. */
  lemma IdatReadFromStream(payload: Bytes, rest: Bytes, stream: Bytes, acc: MetaItems)
    requires |payload| < 0x1_0000_0000 - 8
    requires acc.info.None? || acc.location.None?
    ensures var h := IdatHeader(|payload|);
            ScanMeta(EncodeBoxHeader(h.boxSize, h.boxType) + (payload + rest), FromStream(stream), acc)
            == if |payload| <= |stream|
               then ScanMeta(payload + rest, FromStream(stream[|payload|..]), acc.(data := Some(stream[..|payload|])))
               else ScanMeta(payload + rest, FromStream(stream), acc)
  {
    var h := IdatHeader(|payload|);
    BoxHeaderRoundTrip(h.boxSize, h.boxType, payload + rest);
    IdatStep(EncodeBoxHeader(h.boxSize, h.boxType) + (payload + rest), h, payload + rest, FromStream(stream), acc);
  }

  /** One `idat` turn of the scan. */
  lemma IdatStep(blob: Bytes, h: BoxHeader, body: Bytes, src: IdatSource, acc: MetaItems)
    requires ParseBoxHeader(blob) == Ok(Parsed(h, body)) && h.boxType == Id(IdatCode)
    requires acc.info.None? || acc.location.None?
    ensures var (data, next, src') := IdatTurn(h, body, src);
            ScanMeta(blob, src, acc) == ScanMeta(next, src', if data.Some? then acc.(data := data) else acc)
  {
    var (data, next, src') := IdatTurn(h, body, src);
    assert MetaTurn(blob, Parsed(h, body), src, acc) == Ok((if data.Some? then acc.(data := data) else acc, next, src'));
  }

  /** A `meta` payload holding only an `idat` box with four bytes: read
      from the box, the item data is those bytes; read as the source does,
      from a spent file input, there is no item data at all. */
  lemma IdatMisread()
    ensures var h := IdatHeader(4);
            var blob := EncodeBoxHeader(h.boxSize, h.boxType) + [1, 2, 3, 4];
            && MetaScan(blob) == Ok(NoItems.(data := Some([1, 2, 3, 4])))
            && MetaScanAsWritten(blob, []) == Ok(NoItems)
  {
    var h := IdatHeader(4);
    var payload: Bytes := [1, 2, 3, 4];
    var blob := EncodeBoxHeader(h.boxSize, h.boxType) + [1, 2, 3, 4];
    assert blob == EncodeBoxHeader(h.boxSize, h.boxType) + (payload + []);
    IdatReadFromMeta(payload, [], NoItems);
    IdatReadFromStream(payload, [], [], NoItems);
    assert ParseBoxHeader(payload).Err?;
  }

  // ---------------------------------------------------------------------
  // The items that carry metadata

  /** `FindMetadataReturnValues`. */
  datatype FoundMetadata = FoundMetadata(exif: Option<Bytes>, xmp: Option<Bytes>)

  const NothingFound := FoundMetadata(None, None)

  /** `ItemData`: an item's location and its info entry, matched by id. */
  datatype ItemData = ItemData(itemId: uint32, location: ItemLocationEntry, info: ItemInfoEntry)

  /** No later entry has the same id as entry `i`. */
  predicate LastWithId(entries: seq<ItemInfoEntry>, i: nat)
    requires i < |entries|
  {
    forall j | i < j < |entries| :: ItemId(entries[j]) != ItemId(entries[i])
  }

  /** The fold of the info entries into a map by item id, each entry
      inserted in turn. */
  function IndexInfos(entries: seq<ItemInfoEntry>): (m: map<uint32, ItemInfoEntry>)
    ensures forall k | k in m :: ItemId(m[k]) == k
    ensures forall i | 0 <= i < |entries| :: ItemId(entries[i]) in m
    ensures forall k | k in m :: m[k] in entries
  {
    if entries == [] then map[]
    else
      var last := entries[|entries| - 1];
      var m := IndexInfos(entries[..|entries| - 1]);
      assert forall i | 0 <= i < |entries| - 1 :: entries[..|entries| - 1][i] == entries[i];
      m[ItemId(last) := last]
  }

  /** Of several entries with one id, the map keeps the last. */
  lemma {:induction false} IndexInfosLastWins(entries: seq<ItemInfoEntry>, i: nat)
    requires i < |entries| && LastWithId(entries, i)
    ensures IndexInfos(entries)[ItemId(entries[i])] == entries[i]
    decreases |entries|
  {
    var n := |entries| - 1;
    if i < n {
      var front := entries[..n];
      assert front[i] == entries[i];
      assert LastWithId(front, i) by {
        forall j | i < j < |front| ensures ItemId(front[j]) != ItemId(front[i]) {
          assert front[j] == entries[j];
        }
      }
      IndexInfosLastWins(front, i);
    }
  }

  /** The locations in order, each matched with the info entry of its id,
      which is taken out of the map; a location whose id is not (or no
      longer) in the map is dropped. */
  function MatchItems(locations: seq<ItemLocationEntry>, infos: map<uint32, ItemInfoEntry>): (r: seq<ItemData>)
    ensures forall d | d in r :: d.itemId == d.location.itemId && d.location in locations
    ensures forall d | d in r :: d.itemId in infos && d.info == infos[d.itemId]
    ensures forall i, j | 0 <= i < j < |r| :: r[i].itemId != r[j].itemId
  {
    if locations == [] then []
    else
      var loc := locations[0];
      var more := if loc.itemId in infos then MatchItems(locations[1..], infos - {loc.itemId})
                  else MatchItems(locations[1..], infos);
      if loc.itemId in infos then
        var r := [ItemData(loc.itemId, loc, infos[loc.itemId])] + more;
        assert forall j | 1 <= j < |r| :: r[j] == more[j - 1] && r[j] in more;
        r
      else more
  }

  /** A location is matched when no earlier location has its id and the map
      holds that id. */
  lemma {:induction false} MatchItemsFirst(locations: seq<ItemLocationEntry>, infos: map<uint32, ItemInfoEntry>, i: nat)
    requires i < |locations| && locations[i].itemId in infos
    requires forall j | 0 <= j < i :: locations[j].itemId != locations[i].itemId
    ensures ItemData(locations[i].itemId, locations[i], infos[locations[i].itemId]) in MatchItems(locations, infos)
    decreases i
  {
    if i > 0 {
      var loc := locations[0];
      var rest := locations[1..];
      assert rest[i - 1] == locations[i];
      var infos' := if loc.itemId in infos then infos - {loc.itemId} else infos;
      assert forall j | 0 <= j < i - 1 :: rest[j] == locations[j + 1];
      MatchItemsFirst(rest, infos', i - 1);
    }
  }

  /** Rust's `u64::saturating_add`. */
  function SatAddU64(a: uint64, b: uint64): (r: uint64)
    ensures a as int + b as int < 0x1_0000_0000_0000_0000 ==> r as int == a as int + b as int
    ensures a as int + b as int >= 0x1_0000_0000_0000_0000 ==> r == 0xFFFF_FFFF_FFFF_FFFF
  {
    if a as int + b as int > 0xFFFF_FFFF_FFFF_FFFF then 0xFFFF_FFFF_FFFF_FFFF else a + b
  }

  /** `make_slice_range`: from the base offset plus the extent offset to
      that plus the extent length, each sum saturating at the top of `u64`. */
  function MakeSliceRange(item: ItemData, extent: ItemExtent): (r: (uint64, uint64))
    ensures r.0 <= r.1
    ensures item.location.baseOffset as int + extent.offset as int + extent.length as int < 0x1_0000_0000_0000_0000 ==>
              r.0 as int == item.location.baseOffset as int + extent.offset as int
              && r.1 as int - r.0 as int == extent.length as int
  {
    var start := SatAddU64(item.location.baseOffset, extent.offset);
    (start, SatAddU64(start, extent.length))
  }

  /** An Exif item that leaves out the offset word: it starts with a TIFF
      byte-order mark, and is shorter than that mark read as a big-endian
      number. */
  predicate OffsetOmitted(blob: Bytes)
    requires |blob| >= 2
  {
    (blob[..2] == MotorolaMark || blob[..2] == IntelMark) && |blob| < BeValue(blob[..2])
  }

  /** Where the TIFF header of an Exif item starts: at 0 when the offset
      word is left out; otherwise after the big-endian offset word, at the
      offset it holds. Nothing when the offset word is short. */
  function ExifTiffOffset(blob: Bytes): (r: Option<(nat, Bytes)>)
    requires |blob| >= 2
    ensures OffsetOmitted(blob) ==> r == Some((0, blob))
    ensures !OffsetOmitted(blob) ==> (r.Some? <==> |blob| >= 4)
    ensures !OffsetOmitted(blob) && r.Some? ==> r.value.1 == blob[4..] && r.value.0 == BeValue(blob[..4])
  {
    if OffsetOmitted(blob) then Some((0, blob))
    else
      var p :- ReadU32(Big, blob);
      Some((p.value as nat, p.rest))
  }

  /** The slicing `update_with_item` does is in bounds: the range lies in
      the blob, and an Exif item has its two leading bytes and an offset no
      further than its end. */
  ghost predicate UpdateSafe(item: ItemData, blob: Bytes)
  {
    |item.location.extents| == 1 ==>
      var (start, end) := MakeSliceRange(item, item.location.extents[0]);
      && end as int <= |blob|
      && (ItemType(item.info) == Some(ExifCode) ==>
            var slice := blob[start..end];
            && |slice| >= 2
            && (ExifTiffOffset(slice).Some? ==> ExifTiffOffset(slice).value.0 <= |ExifTiffOffset(slice).value.1|))
  }

  /** An item marked as XMP: by its content type, or by its item type. */
  predicate IsXmpItem(info: ItemInfoEntry)
  {
    || (MimeType(info).Some? && MimeType(info).value in XmpMimeTypes)
    || (ItemType(info).Some? && ItemType(info).value in XmpItemTypes)
  }

  /** `update_with_item`: an item with exactly one extent is sliced out of
      the blob. An `Exif` item becomes the Exif blob from its TIFF header
      on (and is left alone when its offset word is short); otherwise an
      item marked as XMP becomes the XMP blob. Anything else changes
      nothing. */
  function UpdateWithItem(ret: FoundMetadata, item: ItemData, blob: Bytes): (r: FoundMetadata)
    requires UpdateSafe(item, blob)
    ensures r.exif != ret.exif ==> r.xmp == ret.xmp
    ensures r.exif != ret.exif ==> ItemType(item.info) == Some(ExifCode) && r.exif.Some? && InfixOf(r.exif.value, blob)
    ensures r.xmp != ret.xmp ==>
              ItemType(item.info) != Some(ExifCode) && IsXmpItem(item.info) && r.xmp.Some? && InfixOf(r.xmp.value, blob)
    ensures |item.location.extents| == 1 && ItemType(item.info) != Some(ExifCode) && IsXmpItem(item.info) ==>
              var (start, end) := MakeSliceRange(item, item.location.extents[0]);
              r.xmp == Some(blob[start..end])
    ensures |item.location.extents| == 1 && ItemType(item.info) == Some(ExifCode) ==>
              var (start, end) := MakeSliceRange(item, item.location.extents[0]);
              var slice := blob[start..end];
              && r.xmp == ret.xmp
              && (OffsetOmitted(slice) ==> r.exif == Some(slice))
              && (!OffsetOmitted(slice) && |slice| >= 4 ==> r.exif == Some(slice[4 + BeValue(slice[..4])..]))
              && (!OffsetOmitted(slice) && |slice| < 4 ==> r == ret)
    ensures |item.location.extents| != 1 ==> r == ret
  {
    if |item.location.extents| != 1 then ret
    else
      var (start, end) := MakeSliceRange(item, item.location.extents[0]);
      var slice := blob[start..end];
      assert InfixAt(slice, blob, start as int);
      if ItemType(item.info) == Some(ExifCode) then
        match ExifTiffOffset(slice)
        case None => ret
        case Some((off, rest)) =>
          ExifSliceInBlob(blob, start as nat, end as nat, off, rest);
          ret.(exif := Some(rest[off..]))
      else if IsXmpItem(item.info) then ret.(xmp := Some(slice))
      else ret
  }

  /** The Exif blob lies in the item's slice, and so in the blob. */
  lemma ExifSliceInBlob(blob: Bytes, start: nat, end: nat, off: nat, rest: Bytes)
    requires start <= end <= |blob| && |blob[start..end]| >= 2
    requires ExifTiffOffset(blob[start..end]) == Some((off, rest)) && off <= |rest|
    ensures InfixOf(rest[off..], blob)
  {
    var slice := blob[start..end];
    var skip := if OffsetOmitted(slice) then 0 else 4;
    assert rest == slice[skip..];
    assert rest[off..] == blob[start + skip + off..end];
    assert InfixAt(rest[off..], blob, start + skip + off);
  }

  /** The loop over the matched items is in bounds: it mirrors `Collect`,
      asking `UpdateSafe` of each item it hands to `UpdateWithItem`. */
  ghost predicate CollectSafe(items: seq<ItemData>, ret: FoundMetadata, file: Bytes, data: Option<Bytes>)
    decreases |items|
  {
    if items == [] || (ret.exif.Some? && ret.xmp.Some?) then true
    else
      var item := items[0];
      match item.location.constructionMethod
      case Set0 => UpdateSafe(item, file) && CollectSafe(items[1..], UpdateWithItem(ret, item, file), file, data)
      case Idat =>
        if data.None? then CollectSafe(items[1..], ret, file, data)
        else UpdateSafe(item, data.value) && CollectSafe(items[1..], UpdateWithItem(ret, item, data.value), file, data)
      case Item => CollectSafe(items[1..], ret, file, data)
  }

  /** The blob an item's extents point into: the file for `Set0`, the item
      data for `Idat`, none for `Item`. */
  ghost predicate FromItemBlob(b: Bytes, file: Bytes, data: Option<Bytes>)
  {
    InfixOf(b, file) || (data.Some? && InfixOf(b, data.value))
  }

  /** The loop of `find_metadata`: the items in order until both blobs are
      found. `Set0` items are read from the file, `Idat` items from the item
      data (skipped when there is none), and `Item` items are skipped. */
  function Collect(items: seq<ItemData>, ret: FoundMetadata, file: Bytes, data: Option<Bytes>): (r: FoundMetadata)
    requires CollectSafe(items, ret, file, data)
    ensures r.exif.Some? ==> r.exif == ret.exif || FromItemBlob(r.exif.value, file, data)
    ensures r.xmp.Some? ==> r.xmp == ret.xmp || FromItemBlob(r.xmp.value, file, data)
    ensures ret.exif.Some? && ret.xmp.Some? ==> r == ret
    ensures ret.exif.Some? ==> r.exif.Some?
    ensures ret.xmp.Some? ==> r.xmp.Some?
    decreases |items|
  {
    if items == [] || (ret.exif.Some? && ret.xmp.Some?) then ret
    else
      var item := items[0];
      match item.location.constructionMethod
      case Set0 => Collect(items[1..], UpdateWithItem(ret, item, file), file, data)
      case Idat =>
        if data.None? then Collect(items[1..], ret, file, data)
        else Collect(items[1..], UpdateWithItem(ret, item, data.value), file, data)
      case Item => Collect(items[1..], ret, file, data)
  }

  /** The two kinds of blob `find_metadata` looks for. */
  datatype MetaKind = ExifKind | XmpKind

  /** The other kind. */
  function OtherKind(k: MetaKind): MetaKind
  {
    if k == ExifKind then XmpKind else ExifKind
  }

  /** The blob of one kind found so far. */
  function Pick(f: FoundMetadata, k: MetaKind): Option<Bytes>
  {
    if k == ExifKind then f.exif else f.xmp
  }

  /** The blob the loop hands an item to `update_with_item` with: the file
      for `Set0`, the item data (if any) for `Idat`, none for `Item`. */
  function ItemSource(item: ItemData, file: Bytes, data: Option<Bytes>): Option<Bytes>
  {
    match item.location.constructionMethod
    case Set0 => Some(file)
    case Idat => data
    case Item => None
  }

  /** One turn of the loop on an item whose slicing is in bounds. */
  ghost function Turn(ret: FoundMetadata, item: ItemData, file: Bytes, data: Option<Bytes>): FoundMetadata
  {
    var src := ItemSource(item, file, data);
    if src.Some? && UpdateSafe(item, src.value) then UpdateWithItem(ret, item, src.value) else ret
  }

  /** The blob of one kind an item sets on its own: what its turn gives
      from nothing found. */
  ghost function Yield(item: ItemData, file: Bytes, data: Option<Bytes>, k: MetaKind): Option<Bytes>
  {
    Pick(Turn(NothingFound, item, file, data), k)
  }

  /** A turn sets the blob of a kind to what the item yields of it, and
      keeps the blob found so far when the item yields none: a later item
      overwrites an earlier one. */
  lemma TurnPick(ret: FoundMetadata, item: ItemData, file: Bytes, data: Option<Bytes>, k: MetaKind)
    ensures var own := Yield(item, file, data, k);
            Pick(Turn(ret, item, file, data), k) == if own.Some? then own else Pick(ret, k)
  {
  }

  /** Before both blobs are found, the loop takes a turn on the first item
      and goes on with the others. */
  lemma CollectStep(items: seq<ItemData>, ret: FoundMetadata, file: Bytes, data: Option<Bytes>)
    requires CollectSafe(items, ret, file, data)
    requires items != [] && (ret.exif.None? || ret.xmp.None?)
    ensures var src := ItemSource(items[0], file, data);
            src.Some? ==> UpdateSafe(items[0], src.value)
    ensures CollectSafe(items[1..], Turn(ret, items[0], file, data), file, data)
    ensures Collect(items, ret, file, data) == Collect(items[1..], Turn(ret, items[0], file, data), file, data)
  {
  }

  /** Items that yield no blob of a kind leave that kind as it was. */
  lemma {:induction false} CollectKeeps(items: seq<ItemData>, ret: FoundMetadata, file: Bytes, data: Option<Bytes>, k: MetaKind)
    requires CollectSafe(items, ret, file, data)
    requires forall j | 0 <= j < |items| :: Yield(items[j], file, data, k).None?
    ensures Pick(Collect(items, ret, file, data), k) == Pick(ret, k)
    decreases |items|
  {
    if items != [] && (ret.exif.None? || ret.xmp.None?) {
      CollectStep(items, ret, file, data);
      TurnPick(ret, items[0], file, data, k);
      assert Yield(items[0], file, data, k).None?;
      assert forall j | 0 <= j < |items[1..]| :: items[1..][j] == items[j + 1];
      CollectKeeps(items[1..], Turn(ret, items[0], file, data), file, data, k);
    }
  }

  /** Item `i` is the last item that yields a blob of kind `k`, and that
      blob is `b`. */
  ghost predicate LastYield(items: seq<ItemData>, file: Bytes, data: Option<Bytes>, k: MetaKind, i: nat, b: Bytes)
  {
    && i < |items| && Yield(items[i], file, data, k) == Some(b)
    && forall j | i < j < |items| :: Yield(items[j], file, data, k).None?
  }

  /** No item before `i` yields a blob of kind `k`. */
  ghost predicate NoneBefore(items: seq<ItemData>, file: Bytes, data: Option<Bytes>, k: MetaKind, i: nat)
  {
    forall j | 0 <= j < i && j < |items| :: Yield(items[j], file, data, k).None?
  }

  /** The loop reaches item `i`: one of the two kinds is still missing when
      it gets there, since neither it nor any earlier item supplied it. */
  ghost predicate Reaches(items: seq<ItemData>, ret: FoundMetadata, file: Bytes, data: Option<Bytes>, i: nat)
  {
    || (ret.exif.None? && NoneBefore(items, file, data, ExifKind, i))
    || (ret.xmp.None? && NoneBefore(items, file, data, XmpKind, i))
  }

  /** The loop keeps, of each kind, the blob of the last item yielding
      one, provided it reaches that item before both kinds are found. */
  lemma {:induction false} CollectTakesLast(items: seq<ItemData>, ret: FoundMetadata, file: Bytes, data: Option<Bytes>,
                                            k: MetaKind, i: nat, b: Bytes)
    requires CollectSafe(items, ret, file, data)
    requires LastYield(items, file, data, k, i, b) && Reaches(items, ret, file, data, i)
    ensures Pick(Collect(items, ret, file, data), k) == Some(b)
    decreases i
  {
    if i == 0 {
      CollectTakesFirst(items, ret, file, data, k, b);
    } else {
      CollectStep(items, ret, file, data);
      var ret' := Turn(ret, items[0], file, data);
      TurnPick(ret, items[0], file, data, ExifKind);
      TurnPick(ret, items[0], file, data, XmpKind);
      ShiftLastYield(items, file, data, k, i, b);
      ShiftReaches(items, ret, ret', file, data, i);
      CollectTakesLast(items[1..], ret', file, data, k, i - 1, b);
    }
  }

  /** The first item is the last yielding a kind: its blob is kept. */
  lemma CollectTakesFirst(items: seq<ItemData>, ret: FoundMetadata, file: Bytes, data: Option<Bytes>, k: MetaKind, b: Bytes)
    requires CollectSafe(items, ret, file, data)
    requires LastYield(items, file, data, k, 0, b) && (ret.exif.None? || ret.xmp.None?)
    ensures Pick(Collect(items, ret, file, data), k) == Some(b)
  {
    CollectStep(items, ret, file, data);
    TurnPick(ret, items[0], file, data, k);
    LastYieldRest(items, file, data, k, b);
    CollectKeeps(items[1..], Turn(ret, items[0], file, data), file, data, k);
  }

  /** After the last item yielding a kind, no item yields it. */
  lemma LastYieldRest(items: seq<ItemData>, file: Bytes, data: Option<Bytes>, k: MetaKind, b: Bytes)
    requires LastYield(items, file, data, k, 0, b)
    ensures forall j | 0 <= j < |items[1..]| :: Yield(items[1..][j], file, data, k).None?
  {
    assert forall j | 0 <= j < |items[1..]| :: items[1..][j] == items[j + 1];
  }

  /** The last item yielding a kind is one place earlier among the items
      after the first. */
  lemma ShiftLastYield(items: seq<ItemData>, file: Bytes, data: Option<Bytes>, k: MetaKind, i: nat, b: Bytes)
    requires i > 0 && LastYield(items, file, data, k, i, b)
    ensures LastYield(items[1..], file, data, k, i - 1, b)
  {
    assert forall j | 0 <= j < |items[1..]| :: items[1..][j] == items[j + 1];
  }

  /** The loop that reaches item `i` reaches it from the second item on,
      after the first item's turn. */
  lemma ShiftReaches(items: seq<ItemData>, ret: FoundMetadata, ret': FoundMetadata, file: Bytes, data: Option<Bytes>, i: nat)
    requires 0 < i <= |items| && Reaches(items, ret, file, data, i)
    requires forall k: MetaKind :: Pick(ret', k) == if Yield(items[0], file, data, k).Some? then Yield(items[0], file, data, k) else Pick(ret, k)
    ensures Reaches(items[1..], ret', file, data, i - 1)
  {
    assert forall j | 0 <= j < |items[1..]| :: items[1..][j] == items[j + 1];
    assert Pick(ret', ExifKind) == ret'.exif && Pick(ret', XmpKind) == ret'.xmp;
  }

  /** A blob of a kind the loop found and did not start with is what some
      item yields. */
  lemma {:induction false} CollectCameFrom(items: seq<ItemData>, ret: FoundMetadata, file: Bytes, data: Option<Bytes>, k: MetaKind)
    requires CollectSafe(items, ret, file, data)
    ensures var r := Pick(Collect(items, ret, file, data), k);
            r != Pick(ret, k) ==> exists i | 0 <= i < |items| :: Yield(items[i], file, data, k) == r
    decreases |items|
  {
    if items != [] && (ret.exif.None? || ret.xmp.None?) {
      CollectStep(items, ret, file, data);
      var ret' := Turn(ret, items[0], file, data);
      var rest := items[1..];
      TurnPick(ret, items[0], file, data, k);
      CollectCameFrom(rest, ret', file, data, k);
      var r := Pick(Collect(items, ret, file, data), k);
      if r != Pick(ret', k) {
        var i :| 0 <= i < |rest| && Yield(rest[i], file, data, k) == r;
        assert rest[i] == items[i + 1];
      } else if r != Pick(ret, k) {
        assert Yield(items[0], file, data, k) == r;
      }
    }
  }

  /** The items `find_metadata` walks: the locations matched with the info
      entries by id. */
  function MetadataItems(info: ItemInfoBox, location: ItemLocationBox): seq<ItemData>
  {
    MatchItems(location.items, IndexInfos(info.itemInfos))
  }

  /** Every item `find_metadata` walks pairs a location with the info entry
      of the same id, and no id comes twice. */
  lemma MetadataItemsMatch(info: ItemInfoBox, location: ItemLocationBox)
    ensures forall d | d in MetadataItems(info, location) ::
              && d.location in location.items && d.info in info.itemInfos
              && ItemId(d.info) == d.itemId == d.location.itemId
    ensures var r := MetadataItems(info, location);
            forall i, j | 0 <= i < j < |r| :: r[i].itemId != r[j].itemId
  {
  }

  /** `find_metadata`: the Exif and XMP blobs of the items, each lying in
      the file or in the item data. */
  function FindMetadata(file: Bytes, info: ItemInfoBox, location: ItemLocationBox, data: Option<Bytes>)
    : (r: FoundMetadata)
    requires CollectSafe(MetadataItems(info, location), NothingFound, file, data)
    ensures r.exif.Some? ==> FromItemBlob(r.exif.value, file, data)
    ensures r.xmp.Some? ==> FromItemBlob(r.xmp.value, file, data)
  {
    Collect(MetadataItems(info, location), NothingFound, file, data)
  }

  /** `find_metadata` keeps, of each kind, the blob of the last matched
      item that yields one, provided the loop reaches that item: no earlier
      item yields that kind, or no earlier item yields the other. */
  lemma FindMetadataTakesLast(file: Bytes, info: ItemInfoBox, location: ItemLocationBox, data: Option<Bytes>,
                              k: MetaKind, i: nat, b: Bytes)
    requires CollectSafe(MetadataItems(info, location), NothingFound, file, data)
    requires var items := MetadataItems(info, location);
             && LastYield(items, file, data, k, i, b)
             && (NoneBefore(items, file, data, k, i) || NoneBefore(items, file, data, OtherKind(k), i))
    ensures Pick(FindMetadata(file, info, location, data), k) == Some(b)
  {
    CollectTakesLast(MetadataItems(info, location), NothingFound, file, data, k, i, b);
  }

  /** Every blob `find_metadata` finds is what one of the matched items
      yields. */
  lemma FindMetadataCameFrom(file: Bytes, info: ItemInfoBox, location: ItemLocationBox, data: Option<Bytes>, k: MetaKind)
    requires CollectSafe(MetadataItems(info, location), NothingFound, file, data)
    ensures var r := Pick(FindMetadata(file, info, location, data), k);
            var items := MetadataItems(info, location);
            r.Some? ==> exists i | 0 <= i < |items| :: Yield(items[i], file, data, k) == r
  {
    CollectCameFrom(MetadataItems(info, location), NothingFound, file, data, k);
  }

  // ---------------------------------------------------------------------
  // The whole parse

  /** Where the scan of the `meta` payload reads `idat` payloads from: as
      the source writes it, the file input `find_meta_boxes` left over;
      otherwise the `meta` payload itself. */
  function IdatSourceFor(input: Bytes, asWritten: bool): (r: IdatSource)
    requires ParseFtyp(input).Some?
    ensures asWritten <==> r.FromStream?
  {
    if asWritten then FromStream(FindMetaRest(ParseFtyp(input).value.rest)) else FromMeta
  }

  /** The item boxes of the one `meta` box of the file. */
  function ItemScan(input: Bytes, metaPayload: Bytes, asWritten: bool): Result<MetaItems, HeifError>
    requires ParseFtyp(input).Some?
  {
    ScanMeta(metaPayload, IdatSourceFor(input, asWritten), NoItems)
  }

  /** The slicing of the whole parse is in bounds: whenever the parse
      reaches `find_metadata`, its items slice safely. */
  ghost predicate HeifSafe(input: Bytes, supported: seq<FourCC>, asWritten: bool)
  {
    var located := LocateMeta(input, supported);
    located.Ok? && located.value.Some? ==>
      var scanned := ItemScan(input, located.value.value.1, asWritten);
      scanned.Ok? && scanned.value.info.Some? && scanned.value.location.Some? ==>
        CollectSafe(MetadataItems(scanned.value.info.value, scanned.value.location.value), NothingFound, input, scanned.value.data)
  }

  /** `parse_heif_like`: the `ftyp` box and brand check, the one `meta`
      box, its item boxes, and the Exif and XMP blobs of its items. No
      `meta` box, or no item info or item locations in it, is no metadata
      rather than an error. With `asWritten`, `idat` payloads are read from
      the file input as the source does; without it, from the `meta` box. */
  function ParseHeifLikeWith(input: Bytes, supported: seq<FourCC>, asWritten: bool): (r: Result<HeifLike, HeifError>)
    requires HeifSafe(input, supported, asWritten)
    ensures var located := LocateMeta(input, supported);
            r.Err? ==>
              || (located.Err? && r.error == located.error)
              || (located.Ok? && located.value.Some? && ItemScan(input, located.value.value.1, asWritten) == Err(r.error))
    ensures LocateMeta(input, supported) == Ok(None) ==> r == Ok(HeifLike(None, None))
    ensures var located := LocateMeta(input, supported);
            r.Ok? && (r.value.exif.Some? || r.value.xmp.Some?) ==>
              && located.Ok? && located.value.Some?
              && var items := ItemScan(input, located.value.value.1, asWritten);
              && items.Ok? && items.value.info.Some? && items.value.location.Some?
              && (r.value.exif.Some? ==> FromItemBlob(r.value.exif.value, input, items.value.data))
              && (r.value.xmp.Some? ==> FromItemBlob(r.value.xmp.value, input, items.value.data))
  {
    var meta :- LocateMeta(input, supported);
    if meta.None? then Ok(HeifLike(None, None))
    else
      var items :- ItemScan(input, meta.value.1, asWritten);
      if items.info.None? || items.location.None? then Ok(HeifLike(None, None))
      else
        var found := FindMetadata(input, items.info.value, items.location.value, items.data);
        Ok(HeifLike(found.exif, found.xmp))
  }

  /** The items of the one `meta` box, with the item data read alongside
      them, when the parse reaches `find_metadata`. */
  ghost function ReachedItems(input: Bytes, supported: seq<FourCC>, asWritten: bool): Option<(seq<ItemData>, Option<Bytes>)>
  {
    var located := LocateMeta(input, supported);
    if located.Err? || located.value.None? then None
    else
      var scanned := ItemScan(input, located.value.value.1, asWritten);
      if scanned.Err? || scanned.value.info.None? || scanned.value.location.None? then None
      else Some((MetadataItems(scanned.value.info.value, scanned.value.location.value), scanned.value.data))
  }

  /** The parse finds metadata only by reaching `find_metadata`, and then
      gives what its loop collects from the items of the `meta` box. */
  lemma ParseViaItems(input: Bytes, supported: seq<FourCC>, asWritten: bool)
    requires HeifSafe(input, supported, asWritten)
    ensures var r := ParseHeifLikeWith(input, supported, asWritten);
            var reached := ReachedItems(input, supported, asWritten);
            && (reached.None? ==> r.Err? || r == Ok(HeifLike(None, None)))
            && (reached.Some? ==>
                  var (items, data) := reached.value;
                  && CollectSafe(items, NothingFound, input, data)
                  && r == Ok(HeifLike(Collect(items, NothingFound, input, data).exif, Collect(items, NothingFound, input, data).xmp)))
  {
  }

  /** The parse gives, of each kind, the blob of the last item of the
      `meta` box that yields one, provided `find_metadata` reaches it. */
  lemma ParseTakesLast(input: Bytes, supported: seq<FourCC>, asWritten: bool, k: MetaKind, i: nat, b: Bytes)
    requires HeifSafe(input, supported, asWritten)
    requires var reached := ReachedItems(input, supported, asWritten);
             && reached.Some?
             && var (items, data) := reached.value;
             && LastYield(items, input, data, k, i, b)
             && (NoneBefore(items, input, data, k, i) || NoneBefore(items, input, data, OtherKind(k), i))
    ensures var r := ParseHeifLikeWith(input, supported, asWritten);
            && r.Ok?
            && (k == ExifKind ==> r.value.exif == Some(b))
            && (k == XmpKind ==> r.value.xmp == Some(b))
  {
    ParseViaItems(input, supported, asWritten);
    var (items, data) := ReachedItems(input, supported, asWritten).value;
    CollectTakesLast(items, NothingFound, input, data, k, i, b);
  }

  /** Every blob the parse finds is what one of the items of the `meta`
      box yields. */
  lemma ParseCameFrom(input: Bytes, supported: seq<FourCC>, asWritten: bool, k: MetaKind)
    requires HeifSafe(input, supported, asWritten)
    ensures var r := ParseHeifLikeWith(input, supported, asWritten);
            r.Ok? && Pick(FoundMetadata(r.value.exif, r.value.xmp), k).Some? ==>
              && var reached := ReachedItems(input, supported, asWritten);
              && reached.Some?
              && var (items, data) := reached.value;
              && exists i | 0 <= i < |items| :: Yield(items[i], input, data, k) == Pick(FoundMetadata(r.value.exif, r.value.xmp), k)
  {
    ParseViaItems(input, supported, asWritten);
    var reached := ReachedItems(input, supported, asWritten);
    if reached.Some? {
      var (items, data) := reached.value;
      CollectCameFrom(items, NothingFound, input, data, k);
    }
  }

  /** The parse with `idat` payloads read from the `meta` box they sit in. */
  function ParseHeifLike(input: Bytes, supported: seq<FourCC>): Result<HeifLike, HeifError>
    requires HeifSafe(input, supported, false)
  {
    ParseHeifLikeWith(input, supported, false)
  }

  /** The parse as the source writes it. */
  function ParseHeifLikeAsWritten(input: Bytes, supported: seq<FourCC>): Result<HeifLike, HeifError>
    requires HeifSafe(input, supported, true)
  {
    ParseHeifLikeWith(input, supported, true)
  }
}

=== FILE: heif_search.dfy ===
/** Finding the `meta` boxes of a HEIF-like file
    (raves_metadata/src/providers/shared/bmff/heif/search.rs).
 */
module HeifSearch {
  import opened Std
  import opened Bytes
  import opened BmffBox
  import opened HeifIinf

  /** The box type `meta`. */
  const MetaCode: FourCC := [0x6D, 0x65, 0x74, 0x61]

  /** A `meta` box the scan found: its full box header and its payload. */
  type MetaFound = (FullBox, Bytes)

  /** `fullbox_header_len`: the header and the version/flags word, taking a
      four-character box type for granted. */
  function FullBoxHeaderLen(size: BoxSize): nat
  {
    match size
    case Small(_) => 8 + 4
    case Large(_) => 16 + 4
    case Eof => 12
  }

  /** The payload size the scan gives a full box, with `left` bytes after
      its header: the stated size less the header length (saturating),
      capped at `left` for a large size, and everything left for a box that
      runs to the end. */
  function BodySize(size: BoxSize, left: nat): (r: nat)
    ensures size.Small? ==> r == SatSub(size.small, 12)
    ensures size.Large? ==> r == Min(SatSub(size.large, 20), left)
    ensures size.Eof? ==> r == left
  {
    match size
    case Small(s) => SatSub(s, FullBoxHeaderLen(size))
    case Large(l) => Min(SatSub(l, FullBoxHeaderLen(size)), left)
    case Eof => left
  }

  /** The input after a full box header is the tail of the input. */
  lemma FullBoxSuffix(input: Bytes)
    requires ParseFullBox(input).Some?
    ensures var rest := ParseFullBox(input).value.rest;
            |rest| < |input| && input[|input| - |rest|..] == rest
  {
    var h := ParseBoxHeader(input).value;
    assert h.rest == input[h.value.headerLen..];
  }

  /** The full box header at the front of the input, and the input after
      it, which is a proper tail of the input. */
  function NextFullBox(input: Bytes): (r: Option<Parsed<FullBox>>)
    ensures r.Some? ==> |r.value.rest| < |input| && input[|input| - |r.value.rest|..] == r.value.rest
  {
    var r := ParseFullBox(input);
    if r.Some? then FullBoxSuffix(input); r else r
  }

  /** One turn of the scan: the `meta` box found, if any, and where the scan
      goes on; nothing when it stops. A `meta` box is kept with its payload
      and the scan goes on INSIDE it (its children are scanned next); a
      `meta` box whose payload overruns the input stops the scan. Any other
      box is skipped; when its payload overruns the input, nothing is
      skipped and the scan goes on right after its header. */
  function MetaStep(input: Bytes): (r: Option<(Option<MetaFound>, Bytes)>)
    ensures r.Some? ==> |r.value.1| < |input| && r.value.1 == input[|input| - |r.value.1|..]
    ensures r.Some? && r.value.0.Some? ==>
              r.value.0.value.0.header.boxType == Id(MetaCode) && InfixOf(r.value.0.value.1, input)
  {
    match NextFullBox(input)
    case None => None
    case Some(fb) =>
      var rest := fb.rest;
      var n := BodySize(fb.value.header.boxSize, |rest|);
      if fb.value.header.boxType == Id(MetaCode) then
        if n > |rest| then None
        else
          PrefixOfSuffix(input, rest, n);
          Some((Some((fb.value, rest[..n])), rest))
      else if n <= |rest| then
        SuffixOfSuffix(input, rest, n);
        Some((None, rest[n..]))
      else Some((None, rest))
  }

  /** `find_meta_boxes`: the `meta` boxes found turn by turn, until the
      input is empty or a full box header cannot be read. */
  function FindMetaBoxes(input: Bytes): (r: seq<MetaFound>)
    ensures forall m | m in r :: m.0.header.boxType == Id(MetaCode)
    decreases |input|
  {
    if input == [] then []
    else
      match MetaStep(input)
      case None => []
      case Some((found, tail)) =>
        (if found.Some? then [found.value] else []) + FindMetaBoxes(tail)
  }

  /** How much of its caller's stream `find_meta_boxes` consumes. Each turn
      consumes from that stream; the turn that stops the loop has consumed
      what its failing full box header read, or, for a `meta` box whose
      payload overruns, the whole full box header. */
  function FindMetaConsumed(input: Bytes): (n: nat)
    ensures n <= |input|
    decreases |input|
  {
    if input == [] then 0
    else
      var step := MetaStep(input);
      if step.None? then |input| - |FullBoxLeft(input)|
      else (|input| - |step.value.1|) + FindMetaConsumed(step.value.1)
  }

  /** The input `find_meta_boxes` leaves behind in its caller's stream: a
      tail of its input, which is what the failing full box header left
      when no turn can be taken. */
  function FindMetaRest(input: Bytes): (r: Bytes)
    ensures |r| <= |input| && input[|input| - |r|..] == r
    ensures input != [] && MetaStep(input).None? ==> r == FullBoxLeft(input)
  {
    input[FindMetaConsumed(input)..]
  }

  /** Where no turn can be taken the scan leaves what the failing full box
      header, or the overrunning `meta` box's header, left. */
  lemma FindMetaRestStops(input: Bytes)
    requires input == [] || MetaStep(input).None?
    ensures var r := FindMetaRest(input);
            && r == (if input == [] then [] else FullBoxLeft(input))
            && input[|input| - |r|..] == r
  {
  }

  /** A turn hands the scan on to a suffix of its input. */
  lemma FindMetaRestStep(input: Bytes)
    requires input != [] && MetaStep(input).Some?
    ensures var tail := MetaStep(input).value.1;
            && |tail| <= |input| && input[|input| - |tail|..] == tail
            && FindMetaRest(input) == FindMetaRest(tail)
  {
  }

  /** A `meta` box whose payload overruns the input stops the scan with its
      full box header consumed. */
  lemma OverrunMetaConsumesHeader(input: Bytes)
    requires ParseFullBox(input).Some?
    requires var fb := ParseFullBox(input).value;
             && fb.value.header.boxType == Id(MetaCode)
             && BodySize(fb.value.header.boxSize, |fb.rest|) > |fb.rest|
    ensures FindMetaRest(input) == ParseFullBox(input).value.rest
  {
    var fb := NextFullBox(input).value;
    assert MetaStep(input).None?;
  }

  /** Six bytes whose box header breaks off after its size field: the size
      field is consumed with the failure, and the two bytes after it are
      left. */
  lemma StoppedScanConsumesSize()
    ensures FindMetaRest([0, 0, 0, 9, 1, 2]) == [1, 2]
  {
    var input: Bytes := [0, 0, 0, 9, 1, 2];
    assert ParseBoxHeader(input) == Err(NoBoxType);
    assert MetaStep(input).None?;
  }

  /** The scan keeps each `meta` box's payload as it lies in the input. */
  lemma {:induction false} FoundInInput(input: Bytes)
    ensures forall m | m in FindMetaBoxes(input) :: InfixOf(m.1, input)
    decreases |input|
  {
    if input != [] && MetaStep(input).Some? {
      var (found, tail) := MetaStep(input).value;
      FoundInInput(tail);
      forall m | m in FindMetaBoxes(tail)
        ensures InfixOf(m.1, input)
      {
        InfixOfSuffix(m.1, input, |input| - |tail|);
      }
    }
  }

  /** A small full box header of a four-character type, with the payload its
      size announces. */
  predicate SmallBox(fb: FullBox, payload: Bytes)
  {
    && FullBoxWellFormed(fb)
    && fb.header.boxSize.Small? && fb.header.boxType.Id?
    && fb.header.boxSize.small as int == 12 + |payload|
  }

  /** A box that is not `meta` is skipped whole. */
  lemma SkipsOtherBox(fb: FullBox, payload: Bytes, rest: Bytes)
    requires SmallBox(fb, payload) && fb.header.boxType != Id(MetaCode)
    ensures FindMetaBoxes(EncodeFullBox(fb) + (payload + rest)) == FindMetaBoxes(rest)
  {
    var body := payload + rest;
    FullBoxRoundTrip(fb, body);
    assert body[|payload|..] == rest;
    assert MetaStep(EncodeFullBox(fb) + body) == Some((None, rest));
  }

  /** A `meta` box is kept, and the scan goes on with its children. */
  lemma DescendsIntoMeta(fb: FullBox, payload: Bytes, rest: Bytes)
    requires SmallBox(fb, payload) && fb.header.boxType == Id(MetaCode)
    ensures FindMetaBoxes(EncodeFullBox(fb) + (payload + rest)) == [(fb, payload)] + FindMetaBoxes(payload + rest)
  {
    var body := payload + rest;
    FullBoxRoundTrip(fb, body);
    assert body[..|payload|] == payload;
    assert MetaStep(EncodeFullBox(fb) + body) == Some((Some((fb, payload)), body));
  }
}

=== FILE: iinf.dfy ===
/** The `FullBox` header and the item information box `iinf` with its `infe`
    entries (raves_metadata/src/providers/shared/bmff/heif/iinf.rs), after
    sections 4.2 and 8.11.6 of ISO/IEC 14496-12.
 */
module HeifIinf {
  import opened Std
  import opened Bytes
  import opened BmffBox
  import opened BmffFtyp

  /** `FullBox`: a box header, a version byte and three flag bytes. */
  datatype FullBox = FullBox(header: BoxHeader, version: uint8, flags: Bytes)

  /** `FullBox::new`. */
  function ParseFullBox(input: Bytes): (r: Option<Parsed<FullBox>>)
    ensures r.Some? <==> ParseBoxHeader(input).Ok? && |ParseBoxHeader(input).value.rest| >= 4
    ensures r.Some? ==>
              var h := ParseBoxHeader(input).value;
              && r.value.value == FullBox(h.value, h.rest[0], h.rest[1..4])
              && r.value.rest == h.rest[4..]
              && |r.value.value.flags| == 3
  {
    var h :- ParseBoxHeader(input).ToOption();
    var version :- ReadU8(h.rest);
    var flags :- Take(3, version.rest);
    assert h.rest[1..][..3] == h.rest[1..4] && h.rest[1..][3..] == h.rest[4..];
    Some(Parsed(FullBox(h.value, version.value, flags.value), flags.rest))
  }

  /** The input `FullBox::new` leaves behind in its caller's stream: what
      the box header leaves when it fails, and otherwise the version byte
      is consumed too when only the flags are missing. Nothing is given
      back on a failure. */
  function FullBoxLeft(input: Bytes): (r: Bytes)
    ensures |r| <= |input| && r == input[|input| - |r|..]
    ensures ParseFullBox(input).Some? ==> r == ParseFullBox(input).value.rest
    ensures ParseBoxHeader(input).Err? ==> r == HeaderLeft(input)
    ensures ParseBoxHeader(input).Ok? && ParseFullBox(input).None? ==>
              var rest := ParseBoxHeader(input).value.rest;
              r == if rest == [] then rest else rest[1..]
  {
    match ParseBoxHeader(input)
    case Err(_) => HeaderLeft(input)
    case Ok(h) =>
      match ReadU8(h.rest)
      case None => h.rest
      case Some(version) =>
        match Take(3, version.rest)
        case None => version.rest
        case Some(flags) => flags.rest
  }

  /** The bytes of a full box header. */
  function EncodeFullBox(fb: FullBox): Bytes
  {
    EncodeBoxHeader(fb.header.boxSize, fb.header.boxType) + [fb.version] + fb.flags
  }

  /** A full box header that reads back as itself. */
  predicate FullBoxWellFormed(fb: FullBox)
  {
    && Encodable(fb.header.boxSize, fb.header.boxType)
    && fb.header.headerLen as int == HeaderLen(fb.header.boxSize, fb.header.boxType)
    && |fb.flags| == 3
  }

  /** A laid-out full box header reads back, leaving what follows it. */
  lemma FullBoxRoundTrip(fb: FullBox, rest: Bytes)
    requires FullBoxWellFormed(fb)
    ensures ParseFullBox(EncodeFullBox(fb) + rest) == Some(Parsed(fb, rest))
  {
    var body := [fb.version] + (fb.flags + rest);
    FullBoxLayout(fb, rest);
    BoxHeaderRoundTrip(fb.header.boxSize, fb.header.boxType, body);
    ParseFullBoxAfterHeader(EncodeFullBox(fb) + rest, fb.header, body);
    assert body[0] == fb.version && body[1..4] == fb.flags && body[4..] == rest;
  }

  /** `ParseFullBox` once the box header is known. */
  lemma ParseFullBoxAfterHeader(input: Bytes, h: BoxHeader, body: Bytes)
    requires ParseBoxHeader(input) == Ok(Parsed(h, body)) && |body| >= 4
    ensures ParseFullBox(input) == Some(Parsed(FullBox(h, body[0], body[1..4]), body[4..]))
  {
  }

  /** A full box header followed by more input, part by part. */
  lemma FullBoxLayout(fb: FullBox, rest: Bytes)
    ensures EncodeFullBox(fb) + rest == EncodeBoxHeader(fb.header.boxSize, fb.header.boxType) + ([fb.version] + (fb.flags + rest))
  {
  }

  // ---------------------------------------------------------------------
  // NUL-terminated strings

  /** A NUL-terminated string: the bytes before the first NUL, which is
      consumed; no NUL is a failure. */
  function NulTerminated(input: Bytes): (r: Option<Parsed<Bytes>>)
    ensures r.Some? <==> 0 in input
    ensures r.Some? ==> 0 !in r.value.value && input == r.value.value + [0] + r.value.rest
  {
    if |input| == 0 then None
    else if input[0] == 0 then Some(Parsed([], input[1..]))
    else
      var p :- NulTerminated(input[1..]);
      assert input == [input[0]] + input[1..];
      Some(Parsed([input[0]] + p.value, p.rest))
  }

  /** A string without NUL, terminated, reads back. */
  lemma NulTerminatedRoundTrip(s: Bytes, rest: Bytes)
    requires 0 !in s
    ensures NulTerminated(s + [0] + rest) == Some(Parsed(s, rest))
  {
    var input := s + [0] + rest;
    var p := NulTerminated(input).value;
    assert 0 in input by { assert input[|s|] == 0; }
    NulSplitUnique(p.value, p.rest, s, rest);
  }

  /** Two ways of splitting at a first NUL agree. */
  lemma {:induction false} NulSplitUnique(a: Bytes, ra: Bytes, b: Bytes, rb: Bytes)
    requires 0 !in a && 0 !in b && a + [0] + ra == b + [0] + rb
    ensures a == b && ra == rb
  {
    if a != [] && b != [] {
      assert a[0] == (a + [0] + ra)[0] == (b + [0] + rb)[0] == b[0];
      assert a[1..] + [0] + ra == (a + [0] + ra)[1..] == (b + [0] + rb)[1..] == b[1..] + [0] + rb;
      NulSplitUnique(a[1..], ra, b[1..], rb);
      assert a == [a[0]] + a[1..] && b == [b[0]] + b[1..];
    } else if a == [] && b != [] {
      NulComesFirst(b, rb, ra);
      assert false;
    } else if a != [] && b == [] {
      NulComesFirst(a, ra, rb);
      assert false;
    } else {
      assert ra == (a + [0] + ra)[1..] == (b + [0] + rb)[1..] == rb;
    }
  }

  /** A string without NUL, terminated, does not start like a bare NUL. */
  lemma NulComesFirst(s: Bytes, rest: Bytes, other: Bytes)
    requires 0 !in s && s != []
    ensures s + [0] + rest != [] + [0] + other
  {
    assert (s + [0] + rest)[0] == s[0];
    assert ([] + [0] + other)[0] == 0;
  }

  /** `content_encoding`: a NUL-terminated string, absent when empty. */
  function ContentEncoding(input: Bytes): (r: Option<Parsed<Option<Bytes>>>)
    ensures r.Some? <==> NulTerminated(input).Some?
    ensures r.Some? ==> var s := NulTerminated(input).value;
                        r.value.rest == s.rest && (r.value.value.None? <==> s.value == [])
                        && (r.value.value.Some? ==> r.value.value.value == s.value)
  {
    var s :- NulTerminated(input);
    Some(Parsed(if s.value == [] then None else Some(s.value), s.rest))
  }

  // ---------------------------------------------------------------------
  // Item information entries

  const InfeCode: FourCC := [0x69, 0x6e, 0x66, 0x65]
  const MimeCode: FourCC := [0x6d, 0x69, 0x6d, 0x65]
  const UriCode: FourCC := [0x75, 0x72, 0x69, 0x20]
  /** Four spaces: the "no extension" marker of a version 1 entry. */
  const BlankCode: FourCC := [0x20, 0x20, 0x20, 0x20]

  /** `V2OrV3MimeOrUrl`. */
  datatype MimeOrUri =
    | Mime(contentType: Bytes, contentEncoding: Option<Bytes>)
    | Uri(itemUriType: Bytes)

  /** `ItemInfoEntryVersioned`: the fields each entry version carries. */
  datatype Versioned =
    | V0(id16: uint16, contentType: Bytes, contentEncoding: Option<Bytes>)
    | V1(id16: uint16, contentType: Bytes, contentEncoding: Option<Bytes>, extensionType: Option<FourCC>)
    | V2(itemType: FourCC, id16: uint16, mimeOrUri: Option<MimeOrUri>)
    | V3(itemType: FourCC, id32: uint32, mimeOrUri: Option<MimeOrUri>)

  /** `ItemInfoEntry`. */
  datatype ItemInfoEntry = ItemInfoEntry(fullBox: FullBox, protectionIndex: uint16, name: Bytes, versioned: Versioned)

  /** `ItemInfoEntry::item_id`: the 16-bit ids of versions 0 to 2 widened,
      the 32-bit id of version 3 as is. */
  function ItemId(e: ItemInfoEntry): (r: uint32)
    ensures !e.versioned.V3? ==> r == e.versioned.id16 && r < 0x1_0000
    ensures e.versioned.V3? ==> r == e.versioned.id32
  {
    match e.versioned
    case V0(id, _, _) => id
    case V1(id, _, _, _) => id
    case V2(_, id, _) => id
    case V3(_, id, _) => id
  }

  /** `ItemInfoEntry::item_type`: only versions 2 and 3 have one. */
  function ItemType(e: ItemInfoEntry): (r: Option<FourCC>)
    ensures r.Some? <==> e.versioned.V2? || e.versioned.V3?
    ensures r.Some? ==> r.value == e.versioned.itemType
  {
    match e.versioned
    case V2(t, _, _) => Some(t)
    case V3(t, _, _) => Some(t)
    case _ => None
  }

  /** `ItemInfoEntry::mime`: the content type of a version 2 or 3 entry
      described by a MIME type. */
  function MimeType(e: ItemInfoEntry): (r: Option<Bytes>)
    ensures r.Some? <==> (e.versioned.V2? || e.versioned.V3?) && e.versioned.mimeOrUri.Some?
                         && e.versioned.mimeOrUri.value.Mime?
    ensures r.Some? ==> r.value == e.versioned.mimeOrUri.value.contentType
  {
    match e.versioned
    case V2(_, _, Some(Mime(ct, _))) => Some(ct)
    case V3(_, _, Some(Mime(ct, _))) => Some(ct)
    case _ => None
  }

  /** `mime_or_uri`: a content type and encoding after `mime`, a URI type
      after `uri `, and nothing (and no input) for any other item type. */
  function ParseMimeOrUri(input: Bytes, itemType: FourCC): (r: Option<Parsed<Option<MimeOrUri>>>)
    ensures itemType != MimeCode && itemType != UriCode ==> r == Some(Parsed(None, input))
    ensures r.Some? && r.value.value.Some? ==>
              (r.value.value.value.Mime? <==> itemType == MimeCode)
              && (r.value.value.value.Uri? <==> itemType == UriCode)
    ensures r.Some? ==> (r.value.value.None? <==> itemType != MimeCode && itemType != UriCode)
    ensures r.Some? ==> |r.value.rest| <= |input|
  {
    if itemType == MimeCode then
      var ct :- NulTerminated(input);
      var ce :- ContentEncoding(ct.rest);
      Some(Parsed(Some(Mime(ct.value, ce.value)), ce.rest))
    else if itemType == UriCode then
      var u :- NulTerminated(input);
      Some(Parsed(Some(Uri(u.value)), u.rest))
    else Some(Parsed(None, input))
  }

  /** The version 0 and version 1 body: id, protection index, name, content
      type and content encoding, then (version 1) the extension type. */
  function ParseV0V1(version: uint8, input: Bytes): (r: Option<(uint16, Bytes, Parsed<Versioned>)>)
    requires version <= 1
    ensures r.Some? ==> (r.value.2.value.V0? <==> version == 0) && (r.value.2.value.V1? <==> version == 1)
    ensures r.Some? ==> |r.value.2.rest| < |input|
    ensures r.Some? ==> input == EncodeBody(r.value.0, r.value.1, r.value.2.value) + r.value.2.rest
    ensures r.Some? ==> BodyFits(r.value.1, r.value.2.value)
  {
    var id :- ReadU16(Big, input);
    var pi :- ReadU16(Big, id.rest);
    var name :- NulTerminated(pi.rest);
    var ct :- NulTerminated(name.rest);
    var ce :- ContentEncoding(ct.rest);
    if version == 0 then
      var v := V0(id.value, ct.value, ce.value);
      V0V1ReadBytes(input, id.rest, pi.value, pi.rest, name.value, name.rest, ct.rest, ce.rest, v, ce.rest);
      Some((pi.value, name.value, Parsed(v, ce.rest)))
    else
      var ext :- ParseFourCC(ce.rest);
      var extension := if ext.value == BlankCode then None else Some(ext.value);
      var v := V1(id.value, ct.value, ce.value, extension);
      V0V1ReadBytes(input, id.rest, pi.value, pi.rest, name.value, name.rest, ct.rest, ce.rest, v, ext.rest);
      Some((pi.value, name.value, Parsed(v, ext.rest)))
  }

  /** A version 0 or 1 body whose reads succeeded fits, and the input is
      its layout followed by what is left. */
  lemma V0V1ReadBytes(input: Bytes, afterId: Bytes, protectionIndex: uint16, afterPi: Bytes, name: Bytes, afterName: Bytes,
                      afterCt: Bytes, afterCe: Bytes, v: Versioned, rest: Bytes)
    requires v.V0? || v.V1?
    requires ReadU16(Big, input) == Some(Parsed(v.id16, afterId))
    requires ReadU16(Big, afterId) == Some(Parsed(protectionIndex, afterPi))
    requires NulTerminated(afterPi) == Some(Parsed(name, afterName))
    requires NulTerminated(afterName) == Some(Parsed(v.contentType, afterCt))
    requires ContentEncoding(afterCt) == Some(Parsed(v.contentEncoding, afterCe))
    requires v.V0? ==> afterCe == rest
    requires v.V1? ==>
               && ParseFourCC(afterCe).Some? && ParseFourCC(afterCe).value.rest == rest
               && v.extensionType == (if ParseFourCC(afterCe).value.value == BlankCode then None else Some(ParseFourCC(afterCe).value.value))
    ensures input == EncodeBody(protectionIndex, name, v) + rest
    ensures BodyFits(name, v)
  {
    V0V1FieldBytes(input, v.id16, afterId, protectionIndex, afterPi, name, afterName, v.contentType, afterCt,
                   v.contentEncoding, afterCe);
    if v.V1? {
      var code := ParseFourCC(afterCe).value.value;
      assert afterCe == code + rest;
      assert code == (if v.extensionType.Some? then v.extensionType.value else BlankCode);
    }
    V0V1Assemble(input, protectionIndex, name, v, afterCe, rest);
  }

  /** The shared fields laid out in front of what follows them, and (version
      1) the extension code in front of the rest, make up the body's layout. */
  lemma V0V1Assemble(input: Bytes, protectionIndex: uint16, name: Bytes, v: Versioned, afterCe: Bytes, rest: Bytes)
    requires v.V0? || v.V1?
    requires 0 !in name && 0 !in v.contentType && EncodingFits(v.contentEncoding)
    requires input == Encode(Big, 2, v.id16) + (Encode(Big, 2, protectionIndex)
                      + (name + [0] + (v.contentType + [0] + (EncodingBytes(v.contentEncoding) + afterCe))))
    requires v.V0? ==> afterCe == rest
    requires v.V1? ==> v.extensionType != Some(BlankCode)
                       && afterCe == (if v.extensionType.Some? then v.extensionType.value else BlankCode) + rest
    ensures input == EncodeBody(protectionIndex, name, v) + rest
    ensures BodyFits(name, v)
  {
    V0V1BodyLayout(protectionIndex, name, v, rest);
  }

  /** The fields version 0 and version 1 share, read one after another,
      are laid out in front of what is left. */
  lemma V0V1FieldBytes(input: Bytes, id: uint16, afterId: Bytes, protectionIndex: uint16, afterPi: Bytes,
                       name: Bytes, afterName: Bytes, contentType: Bytes, afterCt: Bytes,
                       contentEncoding: Option<Bytes>, afterCe: Bytes)
    requires ReadU16(Big, input) == Some(Parsed(id, afterId))
    requires ReadU16(Big, afterId) == Some(Parsed(protectionIndex, afterPi))
    requires NulTerminated(afterPi) == Some(Parsed(name, afterName))
    requires NulTerminated(afterName) == Some(Parsed(contentType, afterCt))
    requires ContentEncoding(afterCt) == Some(Parsed(contentEncoding, afterCe))
    ensures 0 !in name && 0 !in contentType && EncodingFits(contentEncoding)
    ensures input == Encode(Big, 2, id) + (Encode(Big, 2, protectionIndex)
                     + (name + [0] + (contentType + [0] + (EncodingBytes(contentEncoding) + afterCe))))
  {
    ReadU16Bytes(Big, input);
    ReadU16Bytes(Big, afterId);
    ContentEncodingBytes(afterCt);
  }

  /** The item id of a version 2 entry (16 bits) or version 3 entry (32
      bits). */
  function ParseEntryId(version: uint8, input: Bytes): (r: Option<Parsed<uint32>>)
    ensures Pow256(2) == 0x1_0000 && Pow256(4) == 0x1_0000_0000
    ensures r.Some? <==> |input| >= (if version == 2 then 2 else 4)
    ensures r.Some? && version == 2 ==> r.value.value < 0x1_0000 && input == Encode(Big, 2, r.value.value) + r.value.rest
    ensures r.Some? && version != 2 ==> input == Encode(Big, 4, r.value.value) + r.value.rest
  {
    Pow256Widths();
    if version == 2 then
      var p :- ReadU16(Big, input);
      ReadU16Bytes(Big, input);
      Some(Parsed(p.value as uint32, p.rest))
    else
      var p :- ReadU32(Big, input);
      ReadU32Bytes(Big, input);
      Some(p)
  }

  /** The version 2 and version 3 body: id (16 bits in version 2, 32 in
      version 3), protection index, item type, name, then the MIME or URI
      description the item type calls for. */
  function ParseV2V3(version: uint8, input: Bytes): (r: Option<(uint16, Bytes, Parsed<Versioned>)>)
    requires version == 2 || version == 3
    ensures r.Some? ==> (r.value.2.value.V2? <==> version == 2) && (r.value.2.value.V3? <==> version == 3)
    ensures r.Some? ==> |r.value.2.rest| < |input|
    ensures r.Some? ==> input == EncodeBody(r.value.0, r.value.1, r.value.2.value) + r.value.2.rest
    ensures r.Some? ==> BodyFits(r.value.1, r.value.2.value)
  {
    var id :- ParseEntryId(version, input);
    var pi :- ReadU16(Big, id.rest);
    ReadU16Bytes(Big, id.rest);
    var ty :- ParseFourCC(pi.rest);
    var name :- NulTerminated(ty.rest);
    var mou :- ParseMimeOrUri(name.rest, ty.value);
    MimeOrUriBytes(name.rest, ty.value);
    assert pi.rest == ty.value + (name.value + [0] + (DescBytes(mou.value) + mou.rest));
    if version == 2 then
      var v := V2(ty.value, id.value as uint16, mou.value);
      V2BodyLayout(pi.value, name.value, v, mou.rest);
      Some((pi.value, name.value, Parsed(v, mou.rest)))
    else
      var v := V3(ty.value, id.value, mou.value);
      V3BodyLayout(pi.value, name.value, ty.value, id.value, mou.value, mou.rest);
      Some((pi.value, name.value, Parsed(v, mou.rest)))
  }

  /** `ItemInfoEntry::new`: a full box header of type `infe`, then the body
      its version (0 to 3) calls for. */
  function ParseItemInfoEntry(input: Bytes): (r: Option<Parsed<ItemInfoEntry>>)
    ensures r.Some? ==>
              && ParseFullBox(input).Some?
              && r.value.value.fullBox == ParseFullBox(input).value.value
              && r.value.value.fullBox.header.boxType == Id(InfeCode)
              && r.value.value.fullBox.version <= 3
              && |r.value.rest| < |input|
    ensures r.Some? ==>
              var v := r.value.value.versioned;
              match r.value.value.fullBox.version
              case 0 => v.V0?
              case 1 => v.V1?
              case 2 => v.V2?
              case _ => v.V3?
    ensures r.Some? ==>
              var e := r.value.value;
              && BodyFits(e.name, e.versioned)
              && ParseFullBox(input).value.rest == EncodeBody(e.protectionIndex, e.name, e.versioned) + r.value.rest
  {
    var fb :- ParseFullBox(input);
    if fb.value.header.boxType != Id(InfeCode) then None
    else if fb.value.version > 3 then None
    else
      var body :- if fb.value.version <= 1 then ParseV0V1(fb.value.version, fb.rest)
                  else ParseV2V3(fb.value.version, fb.rest);
      Some(Parsed(ItemInfoEntry(fb.value, body.0, body.1, body.2.value), body.2.rest))
  }

  /** `ItemInfoBox`. */
  datatype ItemInfoBox = ItemInfoBox(fullBox: FullBox, entryCount: uint32, itemInfos: seq<ItemInfoEntry>)

  /** `count` entries, one after the other; any failure fails them all. */
  function ParseEntries(count: nat, input: Bytes): (r: Option<Parsed<seq<ItemInfoEntry>>>)
    ensures r.Some? ==> |r.value.value| == count && |r.value.rest| <= |input|
    ensures r.Some? ==> forall x | x in r.value.value :: x.fullBox.header.boxType == Id(InfeCode)
    decreases count
  {
    if count == 0 then Some(Parsed([], input))
    else
      match ParseItemInfoEntry(input)
      case None => None
      case Some(e) =>
        match ParseEntries(count - 1, e.rest)
        case None => None
        case Some(more) => Some(Parsed([e.value] + more.value, more.rest))
  }

  /** `ItemInfoBox::new`: a full box header, an entry count (16 bits in
      version 0, 32 bits otherwise), then exactly that many entries. The
      box's own type is left to the caller. */
  function ParseItemInfoBox(input: Bytes): (r: Option<Parsed<ItemInfoBox>>)
    ensures r.Some? ==> ParseFullBox(input).Some? && r.value.value.fullBox == ParseFullBox(input).value.value
    ensures r.Some? ==> |r.value.value.itemInfos| == r.value.value.entryCount as int
    ensures r.Some? && r.value.value.fullBox.version == 0 ==> r.value.value.entryCount < 0x1_0000
    ensures r.Some? ==> |r.value.rest| < |input|
    ensures r.Some? ==>
              var b := r.value.value;
              var body := ParseFullBox(input).value.rest;
              var n := if b.fullBox.version == 0 then 2 else 4;
              && |body| >= n
              && body[..n] == CountBytes(b.fullBox.version, b.entryCount)
              && ParseEntries(b.entryCount as nat, body[n..]) == Some(Parsed(b.itemInfos, r.value.rest))
  {
    var fb :- ParseFullBox(input);
    var count: Parsed<uint32> :-
      if fb.value.version == 0 then
        var p :- ReadU16(Big, fb.rest);
        Some(Parsed(p.value as uint32, p.rest))
      else ReadU32(Big, fb.rest);
    var entries :- ParseEntries(count.value as nat, count.rest);
    Some(Parsed(ItemInfoBox(fb.value, count.value, entries.value), entries.rest))
  }

  // ---------------------------------------------------------------------
  // Laying entries out

  /** A string field followed by its NUL. */
  function Str(s: Bytes): Bytes { s + [0] }

  /** The content encoding field: the encoding, or an empty string for
      none. */
  function EncodingBytes(ce: Option<Bytes>): Bytes
  {
    Str(match ce case Some(s) => s case None => [])
  }

  /** A content encoding the field can carry: no NUL inside, and not
      explicitly empty. */
  predicate EncodingFits(ce: Option<Bytes>)
  {
    ce.Some? ==> ce.value != [] && 0 !in ce.value
  }

  /** A content encoding laid out reads back. */
  lemma ContentEncodingRoundTrip(ce: Option<Bytes>, rest: Bytes)
    requires EncodingFits(ce)
    ensures ContentEncoding(EncodingBytes(ce) + rest) == Some(Parsed(ce, rest))
  {
    NulTerminatedRoundTrip(match ce case Some(s) => s case None => [], rest);
  }

  /** The bytes of a MIME or URI description. */
  function DescBytes(mou: Option<MimeOrUri>): Bytes
  {
    match mou
    case Some(Mime(ct, ce)) => Str(ct) + EncodingBytes(ce)
    case Some(Uri(u)) => Str(u)
    case None => []
  }

  /** The version 3 body of an entry: what `ParseV2V3` reads. */
  function EncodeV3Body(protectionIndex: uint16, name: Bytes, itemType: FourCC, id: uint32, mou: Option<MimeOrUri>): Bytes
  {
    Pow256Widths();
    Encode(Big, 4, id) + Encode(Big, 2, protectionIndex) + itemType + Str(name) + DescBytes(mou)
  }

  /** A description the item type calls for, with no NUL inside its strings
      and no explicitly empty encoding. */
  predicate DescriptionFits(itemType: FourCC, mou: Option<MimeOrUri>)
  {
    match mou
    case None => itemType != MimeCode && itemType != UriCode
    case Some(Mime(ct, ce)) => itemType == MimeCode && 0 !in ct && EncodingFits(ce)
    case Some(Uri(u)) => itemType == UriCode && 0 !in u
  }

  /** The description a version 2 or 3 entry carries reads back. */
  lemma MimeOrUriRoundTrip(itemType: FourCC, mou: Option<MimeOrUri>, rest: Bytes)
    requires DescriptionFits(itemType, mou)
    ensures ParseMimeOrUri(DescBytes(mou) + rest, itemType) == Some(Parsed(mou, rest))
  {
    match mou
    case None =>
      assert DescBytes(mou) + rest == rest;
    case Some(Uri(u)) =>
      NulTerminatedRoundTrip(u, rest);
    case Some(Mime(ct, ce)) =>
      assert Str(ct) + EncodingBytes(ce) + rest == ct + [0] + (EncodingBytes(ce) + rest);
      NulTerminatedRoundTrip(ct, EncodingBytes(ce) + rest);
      ContentEncodingRoundTrip(ce, rest);
  }

  /** A version 3 body followed by more input, field by field. */
  lemma V3BodyLayout(protectionIndex: uint16, name: Bytes, itemType: FourCC, id: uint32, mou: Option<MimeOrUri>, rest: Bytes)
    ensures Pow256(4) == 0x1_0000_0000 && Pow256(2) == 0x1_0000
    ensures EncodeV3Body(protectionIndex, name, itemType, id, mou) + rest
            == Encode(Big, 4, id) + (Encode(Big, 2, protectionIndex) + (itemType + (name + [0] + (DescBytes(mou) + rest))))
  {
    Pow256Widths();
  }

  /** A version 3 entry body reads back as the fields it was laid out from. */
  lemma V3BodyRoundTrip(protectionIndex: uint16, name: Bytes, itemType: FourCC, id: uint32, mou: Option<MimeOrUri>, rest: Bytes)
    requires 0 !in name && DescriptionFits(itemType, mou)
    ensures ParseV2V3(3, EncodeV3Body(protectionIndex, name, itemType, id, mou) + rest)
            == Some((protectionIndex, name, Parsed(V3(itemType, id, mou), rest)))
  {
    var afterName := DescBytes(mou) + rest;
    var afterType := name + [0] + afterName;
    var afterPi := itemType + afterType;
    var afterId := Encode(Big, 2, protectionIndex) + afterPi;
    var input := EncodeV3Body(protectionIndex, name, itemType, id, mou) + rest;
    V3BodyLayout(protectionIndex, name, itemType, id, mou, rest);
    ReadU32RoundTrip(Big, id, afterId);
    assert ReadU32(Big, input) == Some(Parsed(id, afterId));
    ReadU16RoundTrip(Big, protectionIndex, afterPi);
    assert ParseFourCC(afterPi) == Some(Parsed(itemType, afterType));
    NulTerminatedRoundTrip(name, afterName);
    MimeOrUriRoundTrip(itemType, mou, rest);
    assert ParseMimeOrUri(afterName, itemType) == Some(Parsed(mou, rest));
    var r := ParseV2V3(3, input);
    assert r.Some?;
    assert r.value.0 == protectionIndex;
    assert r.value.1 == name;
    assert r.value.2 == Parsed(V3(itemType, id, mou), rest);
  }

  /** The version an entry body belongs to. */
  function VersionOf(v: Versioned): (r: uint8)
    ensures r <= 3
  {
    match v
    case V0(_, _, _) => 0
    case V1(_, _, _, _) => 1
    case V2(_, _, _) => 2
    case V3(_, _, _) => 3
  }

  /** The body of an entry after its full box header, for the entry's
      version: what `ParseV0V1` or `ParseV2V3` reads. */
  function EncodeBody(protectionIndex: uint16, name: Bytes, v: Versioned): Bytes
  {
    Pow256Widths();
    match v
    case V0(id, ct, ce) =>
      Encode(Big, 2, id) + Encode(Big, 2, protectionIndex) + Str(name) + Str(ct) + EncodingBytes(ce)
    case V1(id, ct, ce, ext) =>
      Encode(Big, 2, id) + Encode(Big, 2, protectionIndex) + Str(name) + Str(ct) + EncodingBytes(ce)
      + (if ext.Some? then ext.value else BlankCode)
    case V2(t, id, mou) =>
      Encode(Big, 2, id) + Encode(Big, 2, protectionIndex) + t + Str(name) + DescBytes(mou)
    case V3(t, id, mou) => EncodeV3Body(protectionIndex, name, t, id, mou)
  }

  /** A body whose strings hold no NUL, whose encoding is absent rather
      than empty, whose version 1 extension is not the blank code, and
      whose description is the one its item type calls for. */
  predicate BodyFits(name: Bytes, v: Versioned)
  {
    && 0 !in name
    && match v
       case V0(_, ct, ce) => 0 !in ct && EncodingFits(ce)
       case V1(_, ct, ce, ext) => 0 !in ct && EncodingFits(ce) && ext != Some(BlankCode)
       case V2(t, _, mou) => DescriptionFits(t, mou)
       case V3(t, _, mou) => DescriptionFits(t, mou)
  }

  /** A version 0 or 1 body followed by more input, field by field. */
  lemma V0V1BodyLayout(protectionIndex: uint16, name: Bytes, v: Versioned, rest: Bytes)
    requires v.V0? || v.V1?
    ensures Pow256(2) == 0x1_0000
    ensures var tail := if v.V1? then (if v.extensionType.Some? then v.extensionType.value else BlankCode) + rest else rest;
            EncodeBody(protectionIndex, name, v) + rest
            == Encode(Big, 2, v.id16) + (Encode(Big, 2, protectionIndex) + (name + [0] + (v.contentType + [0] + (EncodingBytes(v.contentEncoding) + tail))))
  {
    Pow256Widths();
  }

  /** A version 0 or 1 entry body reads back as the fields it was laid out
      from. */
  lemma V0V1BodyRoundTrip(protectionIndex: uint16, name: Bytes, v: Versioned, rest: Bytes)
    requires (v.V0? || v.V1?) && BodyFits(name, v)
    ensures ParseV0V1(VersionOf(v), EncodeBody(protectionIndex, name, v) + rest)
            == Some((protectionIndex, name, Parsed(v, rest)))
  {
    var ext: Bytes := if v.V1? then (if v.extensionType.Some? then v.extensionType.value else BlankCode) else [];
    var tail := ext + rest;
    var afterCt := EncodingBytes(v.contentEncoding) + tail;
    var afterName := v.contentType + [0] + afterCt;
    var afterPi := name + [0] + afterName;
    var afterId := Encode(Big, 2, protectionIndex) + afterPi;
    V0V1BodyLayout(protectionIndex, name, v, rest);
    assert tail == (if v.V1? then (if v.extensionType.Some? then v.extensionType.value else BlankCode) + rest else rest);
    ReadU16RoundTrip(Big, v.id16, afterId);
    ReadU16RoundTrip(Big, protectionIndex, afterPi);
    NulTerminatedRoundTrip(name, afterName);
    NulTerminatedRoundTrip(v.contentType, afterCt);
    ContentEncodingRoundTrip(v.contentEncoding, tail);
    if v.V1? {
      var code: FourCC := if v.extensionType.Some? then v.extensionType.value else BlankCode;
      assert ParseFourCC(tail) == Some(Parsed(code, rest));
    }
  }

  /** A version 2 body followed by more input, field by field. */
  lemma V2BodyLayout(protectionIndex: uint16, name: Bytes, v: Versioned, rest: Bytes)
    requires v.V2?
    ensures Pow256(2) == 0x1_0000
    ensures EncodeBody(protectionIndex, name, v) + rest
            == Encode(Big, 2, v.id16) + (Encode(Big, 2, protectionIndex) + (v.itemType + (name + [0] + (DescBytes(v.mimeOrUri) + rest))))
  {
    Pow256Widths();
  }

  /** A version 2 entry body reads back as the fields it was laid out from. */
  lemma V2BodyRoundTrip(protectionIndex: uint16, name: Bytes, v: Versioned, rest: Bytes)
    requires v.V2? && BodyFits(name, v)
    ensures ParseV2V3(2, EncodeBody(protectionIndex, name, v) + rest)
            == Some((protectionIndex, name, Parsed(v, rest)))
  {
    var afterName := DescBytes(v.mimeOrUri) + rest;
    var afterType := name + [0] + afterName;
    var afterPi := v.itemType + afterType;
    var afterId := Encode(Big, 2, protectionIndex) + afterPi;
    V2BodyLayout(protectionIndex, name, v, rest);
    ReadU16RoundTrip(Big, v.id16, afterId);
    ReadU16RoundTrip(Big, protectionIndex, afterPi);
    assert ParseFourCC(afterPi) == Some(Parsed(v.itemType, afterType));
    NulTerminatedRoundTrip(name, afterName);
    MimeOrUriRoundTrip(v.itemType, v.mimeOrUri, rest);
  }

  /** Any entry body reads back, by its version, as the fields it was laid
      out from. */
  lemma BodyRoundTrip(protectionIndex: uint16, name: Bytes, v: Versioned, rest: Bytes)
    requires BodyFits(name, v)
    ensures var input := EncodeBody(protectionIndex, name, v) + rest;
            (if VersionOf(v) <= 1 then ParseV0V1(VersionOf(v), input) else ParseV2V3(VersionOf(v), input))
            == Some((protectionIndex, name, Parsed(v, rest)))
  {
    match v
    case V0(_, _, _) => V0V1BodyRoundTrip(protectionIndex, name, v, rest);
    case V1(_, _, _, _) => V0V1BodyRoundTrip(protectionIndex, name, v, rest);
    case V2(_, _, _) => V2BodyRoundTrip(protectionIndex, name, v, rest);
    case V3(t, id, mou) => V3BodyRoundTrip(protectionIndex, name, t, id, mou, rest);
  }

  /** The bytes of an `infe` box: its full box header, then its body. */
  function EncodeEntry(e: ItemInfoEntry): Bytes
  {
    EncodeFullBox(e.fullBox) + EncodeBody(e.protectionIndex, e.name, e.versioned)
  }

  /** An entry that reads back as itself: an `infe` full box header whose
      version is the body's, and a body that fits. */
  predicate EntryFits(e: ItemInfoEntry)
  {
    && FullBoxWellFormed(e.fullBox)
    && e.fullBox.header.boxType == Id(InfeCode)
    && e.fullBox.version == VersionOf(e.versioned)
    && BodyFits(e.name, e.versioned)
  }

  /** A laid-out `infe` box reads back as the entry, leaving what follows. */
  lemma EntryRoundTrip(e: ItemInfoEntry, rest: Bytes)
    requires EntryFits(e)
    ensures ParseItemInfoEntry(EncodeEntry(e) + rest) == Some(Parsed(e, rest))
  {
    var body := EncodeBody(e.protectionIndex, e.name, e.versioned) + rest;
    assert EncodeEntry(e) + rest == EncodeFullBox(e.fullBox) + body;
    FullBoxRoundTrip(e.fullBox, body);
    BodyRoundTrip(e.protectionIndex, e.name, e.versioned, rest);
  }

  /** Every entry reads back as itself. */
  predicate AllFit(es: seq<ItemInfoEntry>)
  {
    forall i | 0 <= i < |es| :: EntryFits(es[i])
  }

  /** Entries laid out one after the other. */
  function EncodeEntries(es: seq<ItemInfoEntry>): Bytes
  {
    if es == [] then [] else EncodeEntry(es[0]) + EncodeEntries(es[1..])
  }

  /** Entries laid out one after the other read back, all of them. */
  lemma {:induction false} EntriesRoundTrip(es: seq<ItemInfoEntry>, rest: Bytes)
    requires AllFit(es)
    ensures ParseEntries(|es|, EncodeEntries(es) + rest) == Some(Parsed(es, rest))
  {
    if es != [] {
      var tail := EncodeEntries(es[1..]) + rest;
      EntriesLayout(es, rest);
      EntriesFitSplit(es);
      EntryRoundTrip(es[0], tail);
      EntriesRoundTrip(es[1..], rest);
      ParseEntriesCons(|es|, EncodeEntries(es) + rest, es[0], tail, es[1..], rest);
      HeadTail(es);
    } else {
      assert EncodeEntries(es) + rest == rest;
    }
  }

  /** Entries followed by more input: the first entry, then the rest. */
  lemma EntriesLayout(es: seq<ItemInfoEntry>, rest: Bytes)
    requires es != []
    ensures EncodeEntries(es) + rest == EncodeEntry(es[0]) + (EncodeEntries(es[1..]) + rest)
  {
    AppendAssoc(EncodeEntry(es[0]), EncodeEntries(es[1..]), rest);
  }

  /** Entries that all fit are a first one that fits and more that do. */
  lemma EntriesFitSplit(es: seq<ItemInfoEntry>)
    requires es != [] && AllFit(es)
    ensures EntryFits(es[0]) && AllFit(es[1..])
  {
    assert forall i | 0 <= i < |es[1..]| :: es[1..][i] == es[i + 1];
  }

  /** `ParseEntries` from its first entry and the ones after it. */
  lemma ParseEntriesCons(count: nat, input: Bytes, e: ItemInfoEntry, tail: Bytes, more: seq<ItemInfoEntry>, rest: Bytes)
    requires count > 0
    requires ParseItemInfoEntry(input) == Some(Parsed(e, tail))
    requires ParseEntries(count - 1, tail) == Some(Parsed(more, rest))
    ensures ParseEntries(count, input) == Some(Parsed([e] + more, rest))
  {
  }

  /** The entry count field: 16 bits in version 0, 32 bits otherwise. */
  function CountBytes(version: uint8, count: uint32): Bytes
    requires version == 0 ==> count < 0x1_0000
  {
    Pow256Widths();
    if version == 0 then Encode(Big, 2, count) else Encode(Big, 4, count)
  }

  /** An `iinf` box that reads back as itself: a well-formed full box
      header, a count its field can hold, and that many entries that fit. */
  predicate InfoBoxFits(b: ItemInfoBox)
  {
    && FullBoxWellFormed(b.fullBox)
    && (b.fullBox.version == 0 ==> b.entryCount < 0x1_0000)
    && |b.itemInfos| == b.entryCount as int
    && AllFit(b.itemInfos)
  }

  /** The bytes of an `iinf` box. */
  function EncodeItemInfoBox(b: ItemInfoBox): Bytes
    requires InfoBoxFits(b)
  {
    EncodeFullBox(b.fullBox) + CountBytes(b.fullBox.version, b.entryCount) + EncodeEntries(b.itemInfos)
  }

  /** A laid-out `iinf` box reads back as the box, its entries in order. */
  lemma ItemInfoBoxRoundTrip(b: ItemInfoBox, rest: Bytes)
    requires InfoBoxFits(b)
    ensures ParseItemInfoBox(EncodeItemInfoBox(b) + rest) == Some(Parsed(b, rest))
  {
    var full := EncodeFullBox(b.fullBox);
    var count := CountBytes(b.fullBox.version, b.entryCount);
    var entries := EncodeEntries(b.itemInfos) + rest;
    AppendAssoc(full + count, EncodeEntries(b.itemInfos), rest);
    AppendAssoc(full, count, entries);
    FullBoxRoundTrip(b.fullBox, count + entries);
    EntriesRoundTrip(b.itemInfos, rest);
    ParseItemInfoBoxSteps(EncodeItemInfoBox(b) + rest, b.fullBox, b.entryCount, entries, b.itemInfos, rest);
  }

  /** `ParseItemInfoBox` from its full box header, its count field and its
      entries. */
  lemma ParseItemInfoBoxSteps(input: Bytes, fb: FullBox, count: uint32, entries: Bytes, items: seq<ItemInfoEntry>, rest: Bytes)
    requires fb.version == 0 ==> count < 0x1_0000
    requires ParseFullBox(input) == Some(Parsed(fb, CountBytes(fb.version, count) + entries))
    requires ParseEntries(count as nat, entries) == Some(Parsed(items, rest))
    ensures ParseItemInfoBox(input) == Some(Parsed(ItemInfoBox(fb, count, items), rest))
  {
    Pow256Widths();
    if fb.version == 0 {
      ReadU16RoundTrip(Big, count as uint16, entries);
    } else {
      ReadU32RoundTrip(Big, count, entries);
    }
  }

  // ---------------------------------------------------------------------
  // What a parsed description was read from

  /** A content encoding that was read is laid out as its bytes. */
  lemma ContentEncodingBytes(input: Bytes)
    requires ContentEncoding(input).Some?
    ensures var p := ContentEncoding(input).value;
            EncodingFits(p.value) && input == EncodingBytes(p.value) + p.rest
  {
    var s := NulTerminated(input).value;
    assert input == s.value + [0] + s.rest;
  }

  /** A description that was read is the one its item type calls for, laid
      out as its bytes. */
  lemma MimeOrUriBytes(input: Bytes, itemType: FourCC)
    requires ParseMimeOrUri(input, itemType).Some?
    ensures var p := ParseMimeOrUri(input, itemType).value;
            DescriptionFits(itemType, p.value) && input == DescBytes(p.value) + p.rest
  {
    if itemType == MimeCode {
      var ct := NulTerminated(input).value;
      ContentEncodingBytes(ct.rest);
    }
  }


}

=== FILE: iloc.dfy ===
/** The item location box `iloc`
    (raves_metadata/src/providers/shared/bmff/heif/iloc.rs), after section
    8.11.3 of ISO/IEC 14496-12.
 */
module HeifIloc {
  import opened Std
  import opened Bytes
  import opened BmffBox
  import opened HeifIinf

  /** `ConstructionMethod`: where an item's extents point. */
  datatype ConstructionMethod = Set0 | Idat | Item

  /** `ItemExtent`. */
  datatype ItemExtent = ItemExtent(index: Option<uint64>, offset: uint64, length: uint64)

  /** `ItemLocationEntry`. */
  datatype ItemLocationEntry = ItemLocationEntry(
    itemId: uint32,
    constructionMethod: ConstructionMethod,
    dataReferenceIndex: uint16,
    baseOffset: uint64,
    extents: seq<ItemExtent>)

  /** `ItemLocationBox`. */
  datatype ItemLocationBox = ItemLocationBox(
    fullBox: FullBox,
    indexSize: uint8,
    itemCount: uint32,
    offsetSize: uint8,
    lengthSize: uint8,
    baseOffsetSize: uint8,
    items: seq<ItemLocationEntry>)

  const U64_MODULUS: nat := 0x1_0000_0000_0000_0000

  /** `map_bytes_to_u64`: big-endian accumulation into a `u64`, where each
      step shifts left by 8 bits (dropping the top byte) and ors in the next
      byte. */
  function MapBytesToU64(slice: Bytes): (r: uint64)
    ensures r == BeValue(slice) % U64_MODULUS
  {
    if |slice| == 0 then 0
    else
      var acc := MapBytesToU64(slice[..|slice| - 1]);
      ShiftInByte(BeValue(slice[..|slice| - 1]), slice[|slice| - 1]);
      (acc * 256 + slice[|slice| - 1]) % U64_MODULUS
  }

  /** Shifting the accumulator modulo 2^64 loses nothing the final modulo
      keeps. */
  lemma ShiftInByte(v: nat, b: uint8)
    ensures ((v % U64_MODULUS) * 256 + b) % U64_MODULUS == (v * 256 + b) % U64_MODULUS
  {
    var q := v / U64_MODULUS;
    assert v * 256 + b == (v % U64_MODULUS) * 256 + b + (q * 256) * U64_MODULUS;
    AddMultiple((v % U64_MODULUS) * 256 + b, q * 256);
  }

  /** Adding a multiple of 2^64 leaves the value modulo 2^64 alone. */
  lemma AddMultiple(a: nat, k: nat)
    ensures (a + k * U64_MODULUS) % U64_MODULUS == a % U64_MODULUS
  {
  }

  /** The loop of `map_bytes_to_u64`, as the source writes it. */
  method MapBytesToU64Loop(slice: Bytes) returns (acc: uint64)
    ensures acc == MapBytesToU64(slice)
    ensures |slice| <= 8 ==> acc == BeValue(slice)
  {
    acc := 0;
    var i := 0;
    while i < |slice|
      invariant 0 <= i <= |slice|
      invariant acc == MapBytesToU64(slice[..i])
    {
      MapStep(slice, i);
      acc := (acc * 256 + slice[i]) % U64_MODULUS;
      i := i + 1;
    }
    assert slice[..i] == slice;
    if |slice| <= 8 {
      MapBytesToU64Exact(slice);
    }
  }

  /** One more byte shifted into the accumulator. */
  lemma MapStep(slice: Bytes, i: nat)
    requires i < |slice|
    ensures MapBytesToU64(slice[..i + 1]) == (MapBytesToU64(slice[..i]) * 256 + slice[i]) % U64_MODULUS
  {
    assert slice[..i + 1][..i] == slice[..i];
  }

  /** Up to eight bytes fit, so nothing is shifted out. */
  lemma MapBytesToU64Exact(slice: Bytes)
    requires |slice| <= 8
    ensures MapBytesToU64(slice) == BeValue(slice)
  {
    ValueBound(Big, slice);
    Pow256Widths();
    Pow256Monotone(|slice|, 8);
  }

  lemma {:induction false} Pow256Monotone(a: nat, b: nat)
    requires a <= b
    ensures Pow256(a) <= Pow256(b)
    decreases b
  {
    if a < b {
      Pow256Monotone(a, b - 1);
    }
  }

  /** A field of `size` bytes, read as an unsigned big-endian number. */
  function ParseSized(size: uint8, input: Bytes): (r: Option<Parsed<uint64>>)
    ensures r.Some? <==> size as int <= |input|
    ensures r.Some? ==> r.value.rest == input[size..] && r.value.value == BeValue(input[..size]) % U64_MODULUS
    ensures r.Some? && size <= 8 ==>
              r.value.value as nat < Pow256(size as nat) && input == Encode(Big, size as nat, r.value.value) + r.value.rest
  {
    var p :- Take(size as nat, input);
    SizedBytes(p.value);
    Some(Parsed(MapBytesToU64(p.value), p.rest))
  }

  /** Up to eight bytes are the layout of the number read from them. */
  lemma SizedBytes(s: Bytes)
    ensures |s| <= 8 ==> MapBytesToU64(s) as nat < Pow256(|s|) && Encode(Big, |s|, MapBytesToU64(s)) == s
  {
    if |s| <= 8 {
      MapBytesToU64Exact(s);
      EncodeValue(Big, s);
    }
  }

  /** A field of 0, 4 or 8 bytes reads back the value laid out in it. */
  lemma SizedRoundTrip(size: uint8, x: uint64, rest: Bytes)
    requires size in {0, 4, 8} && x as nat < Pow256(size as nat)
    ensures ParseSized(size, Encode(Big, size as nat, x) + rest) == Some(Parsed(x, rest))
  {
    Pow256Widths();
    Pow256Monotone(size as nat, 8);
    var input := Encode(Big, size as nat, x) + rest;
    assert input[..size] == Encode(Big, size as nat, x);
  }

  /** The field sizes an `iloc` box may declare. */
  predicate SizeAllowed(n: int) { n == 0 || n == 4 || n == 8 }

  /** The construction method code, in the low nibble of its byte. */
  function ConstructionFromCode(code: uint8): (r: Option<ConstructionMethod>)
    ensures r.Some? <==> code % 16 <= 2
  {
    match code % 16
    case 0 => Some(Set0)
    case 1 => Some(Idat)
    case 2 => Some(Item)
    case _ => None
  }

  /** The code a construction method is stored as. */
  function ConstructionCode(m: ConstructionMethod): uint8
  {
    match m
    case Set0 => 0
    case Idat => 1
    case Item => 2
  }

  /** Each construction method is read back from its code, whatever the
      high nibble of the byte holds. */
  lemma ConstructionCodeRoundTrip(m: ConstructionMethod, high: uint8)
    requires high < 16
    ensures ConstructionFromCode(high * 16 + ConstructionCode(m)) == Some(m)
  {
  }

  /** The construction method: `Set0` for version 0 (no bytes read);
      otherwise a padding byte, then a byte whose low nibble is 0, 1 or 2. */
  function ParseConstruction(version: uint8, input: Bytes): (r: Option<Parsed<ConstructionMethod>>)
    ensures version == 0 ==> r == Some(Parsed(Set0, input))
    ensures version != 0 ==> (r.Some? <==> |input| >= 2 && input[1] % 16 <= 2)
    ensures version != 0 && r.Some? ==> r.value.rest == input[2..] && ConstructionCode(r.value.value) == input[1] % 16
    ensures r.Some? ==>
              && ConstructionLen(version) <= |input|
              && ConstructionReads(version, input[..ConstructionLen(version)], r.value.value)
              && r.value.rest == input[ConstructionLen(version)..]
  {
    if version == 0 then Some(Parsed(Set0, input))
    else
      var padding :- Take(1, input);
      var code :- ReadU8(padding.rest);
      assert padding.rest == input[1..];
      var m :- ConstructionFromCode(code.value);
      Some(Parsed(m, code.rest))
  }

  /** How many bytes the construction method field takes. */
  function ConstructionLen(version: uint8): nat
  {
    if version == 0 then 0 else 2
  }

  /** `field` is a construction method field that reads as `m`: empty with
      `Set0` in version 0, otherwise a padding byte of any value and a byte
      whose low nibble is `m`'s code. */
  predicate ConstructionReads(version: uint8, field: Bytes, m: ConstructionMethod)
  {
    if version == 0 then field == [] && m == Set0
    else |field| == 2 && field[1] % 16 == ConstructionCode(m)
  }

  /** The construction method field as written: a zero padding byte and
      the code, or nothing in version 0. */
  function ConstructionBytes(version: uint8, m: ConstructionMethod): (r: Bytes)
    requires version == 0 ==> m == Set0
    ensures ConstructionReads(version, r, m)
  {
    if version == 0 then [] else [0, ConstructionCode(m)]
  }

  /** A construction method field that reads as `m` does, leaving what
      follows it. */
  lemma ConstructionRoundTrip(version: uint8, field: Bytes, m: ConstructionMethod, rest: Bytes)
    requires ConstructionReads(version, field, m)
    ensures ParseConstruction(version, field + rest) == Some(Parsed(m, rest))
  {
    if version != 0 {
      var input := field + rest;
      assert input[1] == field[1] && input[2..] == rest;
    }
  }

  /** The extent index: present when `indexSize > 0` and the version is
      not 0, and then `indexSize` bytes long. */
  function ParseIndex(version: uint8, indexSize: uint8, input: Bytes): (r: Option<Parsed<Option<uint64>>>)
    ensures r.Some? ==> (r.value.value.Some? <==> indexSize > 0 && version > 0)
    ensures r.Some? ==>
              var used := if indexSize > 0 && version > 0 then indexSize as int else 0;
              used <= |input| && r.value.rest == input[used..]
    ensures r.Some? && indexSize <= 8 ==>
              && (r.value.value.Some? ==> r.value.value.value as nat < Pow256(indexSize as nat))
              && input == IndexBytes(indexSize, r.value.value) + r.value.rest
  {
    if indexSize > 0 && version > 0 then
      var p :- ParseSized(indexSize, input);
      Some(Parsed(Some(p.value), p.rest))
    else Some(Parsed(None, input))
  }

  /** One extent: the index, then the offset and the length. */
  function ParseExtent(version: uint8, indexSize: uint8, offsetSize: uint8, lengthSize: uint8, input: Bytes)
    : (r: Option<Parsed<ItemExtent>>)
    ensures r.Some? ==> (r.value.value.index.Some? <==> indexSize > 0 && version > 0)
    ensures r.Some? ==>
              var used := (if indexSize > 0 && version > 0 then indexSize as int else 0) + offsetSize as int + lengthSize as int;
              used <= |input| && r.value.rest == input[used..]
    ensures r.Some? && SizeAllowed(indexSize as int) && SizeAllowed(offsetSize as int) && SizeAllowed(lengthSize as int) ==>
              && ExtentFits(version, indexSize, offsetSize, lengthSize, r.value.value)
              && input == EncodeExtent(version, indexSize, offsetSize, lengthSize, r.value.value) + r.value.rest
  {
    var index :- ParseIndex(version, indexSize, input);
    var offset :- ParseSized(offsetSize, index.rest);
    var length :- ParseSized(lengthSize, offset.rest);
    var x := ItemExtent(index.value, offset.value, length.value);
    ExtentReadBytes(version, indexSize, offsetSize, lengthSize, input, index.value, index.rest, offset.value, offset.rest, length.value, length.rest);
    Some(Parsed(x, length.rest))
  }

  /** An extent the declared field sizes can hold. */
  predicate ExtentFits(version: uint8, indexSize: uint8, offsetSize: uint8, lengthSize: uint8, x: ItemExtent)
  {
    && SizeAllowed(indexSize as int) && SizeAllowed(offsetSize as int) && SizeAllowed(lengthSize as int)
    && (x.index.Some? <==> indexSize > 0 && version > 0)
    && (x.index.Some? ==> x.index.value as nat < Pow256(indexSize as nat))
    && x.offset as nat < Pow256(offsetSize as nat)
    && x.length as nat < Pow256(lengthSize as nat)
  }

  /** The bytes of an extent index, if any. */
  function IndexBytes(indexSize: uint8, index: Option<uint64>): Bytes
    requires index.Some? ==> index.value as nat < Pow256(indexSize as nat)
  {
    if index.Some? then Encode(Big, indexSize as nat, index.value) else []
  }

  /** The bytes of an extent with these field sizes. */
  function EncodeExtent(version: uint8, indexSize: uint8, offsetSize: uint8, lengthSize: uint8, x: ItemExtent): Bytes
    requires ExtentFits(version, indexSize, offsetSize, lengthSize, x)
  {
    IndexBytes(indexSize, x.index) + Encode(Big, offsetSize as nat, x.offset) + Encode(Big, lengthSize as nat, x.length)
  }

  /** A laid-out extent reads back, leaving what follows it. */
  lemma ExtentRoundTrip(version: uint8, indexSize: uint8, offsetSize: uint8, lengthSize: uint8, x: ItemExtent, rest: Bytes)
    requires ExtentFits(version, indexSize, offsetSize, lengthSize, x)
    ensures ParseExtent(version, indexSize, offsetSize, lengthSize, EncodeExtent(version, indexSize, offsetSize, lengthSize, x) + rest)
            == Some(Parsed(x, rest))
  {
    var lengthBytes := Encode(Big, lengthSize as nat, x.length) + rest;
    var offsetBytes := Encode(Big, offsetSize as nat, x.offset) + lengthBytes;
    var input := EncodeExtent(version, indexSize, offsetSize, lengthSize, x) + rest;
    ExtentLayout(version, indexSize, offsetSize, lengthSize, x, rest);
    SizedRoundTrip(lengthSize, x.length, rest);
    SizedRoundTrip(offsetSize, x.offset, lengthBytes);
    IndexRoundTrip(version, indexSize, x.index, offsetBytes);
    ParseExtentSteps(version, indexSize, offsetSize, lengthSize, input, x.index, offsetBytes, x.offset, lengthBytes, x.length, rest);
  }

  /** An extent followed by more input, field by field. */
  lemma ExtentLayout(version: uint8, indexSize: uint8, offsetSize: uint8, lengthSize: uint8, x: ItemExtent, rest: Bytes)
    ensures ExtentFits(version, indexSize, offsetSize, lengthSize, x) ==>
            EncodeExtent(version, indexSize, offsetSize, lengthSize, x) + rest
            == IndexBytes(indexSize, x.index) + (Encode(Big, offsetSize as nat, x.offset) + (Encode(Big, lengthSize as nat, x.length) + rest))
  {
  }

  /** An extent whose three reads succeeded with sizes of 0, 4 or 8 bytes
      fits them, and the input is its layout followed by what is left. */
  lemma ExtentReadBytes(version: uint8, indexSize: uint8, offsetSize: uint8, lengthSize: uint8, input: Bytes,
                        index: Option<uint64>, afterIndex: Bytes, offset: uint64, afterOffset: Bytes, length: uint64, rest: Bytes)
    requires ParseIndex(version, indexSize, input) == Some(Parsed(index, afterIndex))
    requires ParseSized(offsetSize, afterIndex) == Some(Parsed(offset, afterOffset))
    requires ParseSized(lengthSize, afterOffset) == Some(Parsed(length, rest))
    ensures SizeAllowed(indexSize as int) && SizeAllowed(offsetSize as int) && SizeAllowed(lengthSize as int) ==>
              var x := ItemExtent(index, offset, length);
              && ExtentFits(version, indexSize, offsetSize, lengthSize, x)
              && input == EncodeExtent(version, indexSize, offsetSize, lengthSize, x) + rest
  {
    if SizeAllowed(indexSize as int) && SizeAllowed(offsetSize as int) && SizeAllowed(lengthSize as int) {
      assert indexSize <= 8 && offsetSize <= 8 && lengthSize <= 8;
      IndexReadBytes(version, indexSize, input, index, afterIndex);
      SizedReadBytes(offsetSize, afterIndex, offset, afterOffset);
      SizedReadBytes(lengthSize, afterOffset, length, rest);
      ExtentAssemble(version, indexSize, offsetSize, lengthSize, input, ItemExtent(index, offset, length),
                     afterIndex, afterOffset, rest);
    }
  }

  /** A field of at most eight bytes that was read is the layout of the
      value read from it. */
  lemma SizedReadBytes(size: uint8, input: Bytes, value: uint64, rest: Bytes)
    requires ParseSized(size, input) == Some(Parsed(value, rest)) && size <= 8
    ensures value as nat < Pow256(size as nat) && input == Encode(Big, size as nat, value) + rest
  {
  }

  /** An extent index of at most eight bytes that was read is the layout of
      the index read from it. */
  lemma IndexReadBytes(version: uint8, indexSize: uint8, input: Bytes, index: Option<uint64>, rest: Bytes)
    requires ParseIndex(version, indexSize, input) == Some(Parsed(index, rest)) && indexSize <= 8
    ensures index.Some? <==> indexSize > 0 && version > 0
    ensures index.Some? ==> index.value as nat < Pow256(indexSize as nat)
    ensures input == IndexBytes(indexSize, index) + rest
  {
  }

  /** Three fields laid out one after another, within their sizes, make
      up the extent's layout. */
  lemma ExtentAssemble(version: uint8, indexSize: uint8, offsetSize: uint8, lengthSize: uint8, input: Bytes,
                       x: ItemExtent, afterIndex: Bytes, afterOffset: Bytes, rest: Bytes)
    requires SizeAllowed(indexSize as int) && SizeAllowed(offsetSize as int) && SizeAllowed(lengthSize as int)
    requires x.index.Some? <==> indexSize > 0 && version > 0
    requires x.index.Some? ==> x.index.value as nat < Pow256(indexSize as nat)
    requires x.offset as nat < Pow256(offsetSize as nat) && x.length as nat < Pow256(lengthSize as nat)
    requires input == IndexBytes(indexSize, x.index) + afterIndex
    requires afterIndex == Encode(Big, offsetSize as nat, x.offset) + afterOffset
    requires afterOffset == Encode(Big, lengthSize as nat, x.length) + rest
    ensures ExtentFits(version, indexSize, offsetSize, lengthSize, x)
    ensures input == EncodeExtent(version, indexSize, offsetSize, lengthSize, x) + rest
  {
    ExtentLayout(version, indexSize, offsetSize, lengthSize, x, rest);
  }

  /** A laid-out extent index reads back. */
  lemma IndexRoundTrip(version: uint8, indexSize: uint8, index: Option<uint64>, tail: Bytes)
    requires SizeAllowed(indexSize as int)
    requires index.Some? <==> indexSize > 0 && version > 0
    requires index.Some? ==> index.value as nat < Pow256(indexSize as nat)
    ensures ParseIndex(version, indexSize, IndexBytes(indexSize, index) + tail) == Some(Parsed(index, tail))
  {
    if index.Some? {
      SizedRoundTrip(indexSize, index.value, tail);
    } else {
      assert IndexBytes(indexSize, index) + tail == tail;
    }
  }

  /** `ParseExtent` from the results of its three reads. */
  lemma ParseExtentSteps(version: uint8, indexSize: uint8, offsetSize: uint8, lengthSize: uint8, input: Bytes,
                         index: Option<uint64>, afterIndex: Bytes, offset: uint64, afterOffset: Bytes, length: uint64, rest: Bytes)
    requires ParseIndex(version, indexSize, input) == Some(Parsed(index, afterIndex))
    requires ParseSized(offsetSize, afterIndex) == Some(Parsed(offset, afterOffset))
    requires ParseSized(lengthSize, afterOffset) == Some(Parsed(length, rest))
    ensures ParseExtent(version, indexSize, offsetSize, lengthSize, input) == Some(Parsed(ItemExtent(index, offset, length), rest))
  {
  }

  /** `count` extents, one after the other; any failure fails them all. */
  function ParseExtents(count: nat, version: uint8, indexSize: uint8, offsetSize: uint8, lengthSize: uint8, input: Bytes)
    : (r: Option<Parsed<seq<ItemExtent>>>)
    ensures r.Some? ==> |r.value.value| == count && |r.value.rest| <= |input|
    ensures r.Some? ==> forall x | x in r.value.value :: (x.index.Some? <==> indexSize > 0 && version > 0)
    ensures r.Some? && SizeAllowed(indexSize as int) && SizeAllowed(offsetSize as int) && SizeAllowed(lengthSize as int) ==>
              && ExtentsFit(version, indexSize, offsetSize, lengthSize, r.value.value)
              && input == EncodeExtents(version, indexSize, offsetSize, lengthSize, r.value.value) + r.value.rest
    decreases count
  {
    if count == 0 then
      assert EncodeExtents(version, indexSize, offsetSize, lengthSize, []) + input == input;
      Some(Parsed([], input))
    else
      var e :- ParseExtent(version, indexSize, offsetSize, lengthSize, input);
      var more :- ParseExtents(count - 1, version, indexSize, offsetSize, lengthSize, e.rest);
      ExtentsCons(version, indexSize, offsetSize, lengthSize, e.value, more.value, more.rest);
      Some(Parsed([e.value] + more.value, more.rest))
  }

  /** Extents the declared field sizes can all hold. */
  predicate ExtentsFit(version: uint8, indexSize: uint8, offsetSize: uint8, lengthSize: uint8, xs: seq<ItemExtent>)
  {
    forall i | 0 <= i < |xs| :: ExtentFits(version, indexSize, offsetSize, lengthSize, xs[i])
  }

  /** The bytes of extents laid out one after the other. */
  function EncodeExtents(version: uint8, indexSize: uint8, offsetSize: uint8, lengthSize: uint8, xs: seq<ItemExtent>): Bytes
    requires ExtentsFit(version, indexSize, offsetSize, lengthSize, xs)
    decreases |xs|
  {
    if xs == [] then []
    else
      ExtentsFitSplit(version, indexSize, offsetSize, lengthSize, xs);
      EncodeExtent(version, indexSize, offsetSize, lengthSize, xs[0]) + EncodeExtents(version, indexSize, offsetSize, lengthSize, xs[1..])
  }

  /** Extents that all fit are a first one that fits and more that do. */
  lemma ExtentsFitSplit(version: uint8, indexSize: uint8, offsetSize: uint8, lengthSize: uint8, xs: seq<ItemExtent>)
    requires xs != [] && ExtentsFit(version, indexSize, offsetSize, lengthSize, xs)
    ensures ExtentFits(version, indexSize, offsetSize, lengthSize, xs[0]) && ExtentsFit(version, indexSize, offsetSize, lengthSize, xs[1..])
  {
    assert forall i | 0 <= i < |xs[1..]| :: xs[1..][i] == xs[i + 1];
  }

  /** An extent that fits in front of more that fit: together they fit,
      and their bytes are the first one's, then the others'. */
  lemma ExtentsCons(version: uint8, indexSize: uint8, offsetSize: uint8, lengthSize: uint8, x: ItemExtent, more: seq<ItemExtent>, rest: Bytes)
    ensures ExtentFits(version, indexSize, offsetSize, lengthSize, x) && ExtentsFit(version, indexSize, offsetSize, lengthSize, more) ==>
              && ExtentsFit(version, indexSize, offsetSize, lengthSize, [x] + more)
              && EncodeExtents(version, indexSize, offsetSize, lengthSize, [x] + more) + rest
                 == EncodeExtent(version, indexSize, offsetSize, lengthSize, x) + (EncodeExtents(version, indexSize, offsetSize, lengthSize, more) + rest)
  {
    if ExtentFits(version, indexSize, offsetSize, lengthSize, x) && ExtentsFit(version, indexSize, offsetSize, lengthSize, more) {
      var xs := [x] + more;
      assert xs[0] == x && xs[1..] == more;
      assert forall i | 1 <= i < |xs| :: xs[i] == more[i - 1];
      AppendAssoc(EncodeExtent(version, indexSize, offsetSize, lengthSize, x), EncodeExtents(version, indexSize, offsetSize, lengthSize, more), rest);
    }
  }

  /** Laid-out extents read back, in order, leaving what follows them. */
  lemma {:induction false} ExtentsRoundTrip(version: uint8, indexSize: uint8, offsetSize: uint8, lengthSize: uint8, xs: seq<ItemExtent>, rest: Bytes)
    requires ExtentsFit(version, indexSize, offsetSize, lengthSize, xs)
    ensures ParseExtents(|xs|, version, indexSize, offsetSize, lengthSize, EncodeExtents(version, indexSize, offsetSize, lengthSize, xs) + rest)
            == Some(Parsed(xs, rest))
    decreases |xs|
  {
    if xs == [] {
      assert EncodeExtents(version, indexSize, offsetSize, lengthSize, xs) + rest == rest;
    } else {
      ExtentsFitSplit(version, indexSize, offsetSize, lengthSize, xs);
      assert |xs[1..]| == |xs| - 1;
      var tail := EncodeExtents(version, indexSize, offsetSize, lengthSize, xs[1..]) + rest;
      ExtentsCons(version, indexSize, offsetSize, lengthSize, xs[0], xs[1..], rest);
      HeadTail(xs);
      ExtentRoundTrip(version, indexSize, offsetSize, lengthSize, xs[0], tail);
      ExtentsRoundTrip(version, indexSize, offsetSize, lengthSize, xs[1..], rest);
      ParseExtentsCons(|xs|, version, indexSize, offsetSize, lengthSize,
                       EncodeExtents(version, indexSize, offsetSize, lengthSize, xs) + rest, xs[0], tail, xs[1..], rest);
    }
  }

  /** `ParseExtents` from its first extent and the ones after it. */
  lemma ParseExtentsCons(count: nat, version: uint8, indexSize: uint8, offsetSize: uint8, lengthSize: uint8, input: Bytes,
                         x: ItemExtent, tail: Bytes, more: seq<ItemExtent>, rest: Bytes)
    requires count > 0
    requires ParseExtent(version, indexSize, offsetSize, lengthSize, input) == Some(Parsed(x, tail))
    requires ParseExtents(count - 1, version, indexSize, offsetSize, lengthSize, tail) == Some(Parsed(more, rest))
    ensures ParseExtents(count, version, indexSize, offsetSize, lengthSize, input) == Some(Parsed([x] + more, rest))
  {
  }

  /** The id field: 16 bits before version 2, 32 bits from version 2 on. */
  function ParseIdField(version: uint8, input: Bytes): (r: Option<Parsed<uint32>>)
    ensures r.Some? <==> |input| >= (if version < 2 then 2 else 4)
    ensures r.Some? && version < 2 ==>
              r.value.value < 0x1_0000 && r.value.rest == input[2..] && Encode(Big, 2, r.value.value) == input[..2]
    ensures r.Some? && version >= 2 ==>
              r.value.rest == input[4..] && Encode(Big, 4, r.value.value) == input[..4]
    ensures r.Some? ==> (version < 2 ==> r.value.value < 0x1_0000) && input == IdBytes(version, r.value.value) + r.value.rest
  {
    if version < 2 then
      var p :- ReadU16(Big, input);
      ReadU16Bytes(Big, input);
      Some(Parsed(p.value as uint32, p.rest))
    else
      var p :- ReadU32(Big, input);
      ReadU32Bytes(Big, input);
      Some(p)
  }

  /** How many bytes an item id or item count takes. */
  function IdLen(version: uint8): nat
  {
    if version < 2 then 2 else 4
  }

  /** The bytes of an item id or item count. */
  function IdBytes(version: uint8, id: uint32): (r: Bytes)
    requires version < 2 ==> id < 0x1_0000
    ensures |r| == IdLen(version)
  {
    Pow256Widths();
    if version < 2 then Encode(Big, 2, id) else Encode(Big, 4, id)
  }

  /** A laid-out id field reads back, leaving what follows it. */
  lemma IdFieldRoundTrip(version: uint8, id: uint32, rest: Bytes)
    requires version < 2 ==> id < 0x1_0000
    ensures ParseIdField(version, IdBytes(version, id) + rest) == Some(Parsed(id, rest))
  {
    if version < 2 {
      ReadU16RoundTrip(Big, id as uint16, rest);
    } else {
      ReadU32RoundTrip(Big, id, rest);
    }
  }

  /** `ItemLocationEntry::new`. */
  function ParseLocationEntry(version: uint8, baseOffsetSize: uint8, indexSize: uint8, offsetSize: uint8, lengthSize: uint8, input: Bytes)
    : (r: Option<Parsed<ItemLocationEntry>>)
    ensures r.Some? && version == 0 ==> r.value.value.constructionMethod == Set0
    ensures r.Some? && version < 2 ==> r.value.value.itemId < 0x1_0000
    ensures r.Some? ==> forall x | x in r.value.value.extents :: (x.index.Some? <==> indexSize > 0 && version > 0)
    ensures r.Some? ==> |r.value.rest| < |input|
    ensures r.Some? ==> IdLen(version) + ConstructionLen(version) <= |input|
    ensures r.Some? && SizeAllowed(baseOffsetSize as int) && SizeAllowed(indexSize as int) && SizeAllowed(offsetSize as int) && SizeAllowed(lengthSize as int) ==>
              EntryLaidOut(version, baseOffsetSize, indexSize, offsetSize, lengthSize, input, r.value.value, r.value.rest)
  {
    var id :- ParseIdField(version, input);
    var cm :- ParseConstruction(version, id.rest);
    var dri :- ReadU16(Big, cm.rest);
    var base :- ParseSized(baseOffsetSize, dri.rest);
    var count :- ReadU16(Big, base.rest);
    var extents :- ParseExtents(count.value as nat, version, indexSize, offsetSize, lengthSize, count.rest);
    var e := ItemLocationEntry(id.value, cm.value, dri.value, base.value, extents.value);
    LocationEntryReadBytes(version, baseOffsetSize, indexSize, offsetSize, lengthSize, input,
                           id.rest, cm.rest, dri.rest, base.rest, count.value, count.rest, e, extents.rest);
    Some(Parsed(e, extents.rest))
  }

  /** `input` holds entry `e`, laid out for these field sizes, in front of
      `rest`; its construction method field is the one in `input`, whatever
      its padding byte and high nibble hold. */
  predicate EntryLaidOut(version: uint8, baseOffsetSize: uint8, indexSize: uint8, offsetSize: uint8, lengthSize: uint8,
                         input: Bytes, e: ItemLocationEntry, rest: Bytes)
  {
    && IdLen(version) + ConstructionLen(version) <= |input|
    && var field := input[IdLen(version)..][..ConstructionLen(version)];
       && LocationEntryFits(version, baseOffsetSize, indexSize, offsetSize, lengthSize, e)
       && ConstructionReads(version, field, e.constructionMethod)
       && input == LocationEntryBytes(version, baseOffsetSize, indexSize, offsetSize, lengthSize, e, field) + rest
  }

  /** An entry whose six reads succeeded is laid out in the input, for
      field sizes of 0, 4 or 8 bytes. */
  lemma LocationEntryReadBytes(version: uint8, baseOffsetSize: uint8, indexSize: uint8, offsetSize: uint8, lengthSize: uint8, input: Bytes,
                               afterId: Bytes, afterMethod: Bytes, afterDri: Bytes, afterBase: Bytes, count: uint16, afterCount: Bytes,
                               e: ItemLocationEntry, rest: Bytes)
    requires ParseIdField(version, input) == Some(Parsed(e.itemId, afterId))
    requires ParseConstruction(version, afterId) == Some(Parsed(e.constructionMethod, afterMethod))
    requires ReadU16(Big, afterMethod) == Some(Parsed(e.dataReferenceIndex, afterDri))
    requires ParseSized(baseOffsetSize, afterDri) == Some(Parsed(e.baseOffset, afterBase))
    requires ReadU16(Big, afterBase) == Some(Parsed(count, afterCount))
    requires ParseExtents(count as nat, version, indexSize, offsetSize, lengthSize, afterCount) == Some(Parsed(e.extents, rest))
    ensures SizeAllowed(baseOffsetSize as int) && SizeAllowed(indexSize as int) && SizeAllowed(offsetSize as int) && SizeAllowed(lengthSize as int) ==>
              EntryLaidOut(version, baseOffsetSize, indexSize, offsetSize, lengthSize, input, e, rest)
  {
    IdAndMethodBytes(version, input, e.itemId, afterId, e.constructionMethod, afterMethod);
    MiddleFieldBytes(baseOffsetSize, afterMethod, e.dataReferenceIndex, afterDri, e.baseOffset, afterBase, count, afterCount);
    LocationEntryAssemble(version, baseOffsetSize, indexSize, offsetSize, lengthSize, e, input[IdLen(version)..][..ConstructionLen(version)],
                          input, afterMethod, afterDri, afterBase, afterCount, rest);
  }

  /** The id and the construction method field that were read are laid
      out, in that order, in front of what is left. */
  lemma IdAndMethodBytes(version: uint8, input: Bytes, id: uint32, afterId: Bytes, m: ConstructionMethod, afterMethod: Bytes)
    requires ParseIdField(version, input) == Some(Parsed(id, afterId))
    requires ParseConstruction(version, afterId) == Some(Parsed(m, afterMethod))
    ensures IdLen(version) + ConstructionLen(version) <= |input|
    ensures var field := input[IdLen(version)..][..ConstructionLen(version)];
            && (version < 2 ==> id < 0x1_0000)
            && ConstructionReads(version, field, m)
            && input == IdBytes(version, id) + (field + afterMethod)
  {
    assert afterId == input[IdLen(version)..];
    assert afterId == afterId[..ConstructionLen(version)] + afterMethod;
  }

  /** The data reference index, the base offset and the extent count that
      were read are laid out, in that order, in front of what is left. */
  lemma MiddleFieldBytes(baseOffsetSize: uint8, afterMethod: Bytes, dri: uint16, afterDri: Bytes,
                         base: uint64, afterBase: Bytes, count: uint16, afterCount: Bytes)
    requires ReadU16(Big, afterMethod) == Some(Parsed(dri, afterDri))
    requires ParseSized(baseOffsetSize, afterDri) == Some(Parsed(base, afterBase))
    requires ReadU16(Big, afterBase) == Some(Parsed(count, afterCount))
    ensures Pow256(2) == 0x1_0000
    ensures afterMethod == Encode(Big, 2, dri) + afterDri
    ensures afterBase == Encode(Big, 2, count) + afterCount
    ensures baseOffsetSize <= 8 ==> base as nat < Pow256(baseOffsetSize as nat) && afterDri == Encode(Big, baseOffsetSize as nat, base) + afterBase
  {
    ReadU16Bytes(Big, afterMethod);
    ReadU16Bytes(Big, afterBase);
  }

  /** The six fields of an entry, each laid out in front of the next,
      are the entry's layout. */
  lemma LocationEntryAssemble(version: uint8, baseOffsetSize: uint8, indexSize: uint8, offsetSize: uint8, lengthSize: uint8,
                              e: ItemLocationEntry, field: Bytes, input: Bytes,
                              afterMethod: Bytes, afterDri: Bytes, afterBase: Bytes, afterCount: Bytes, rest: Bytes)
    requires version < 2 ==> e.itemId < 0x1_0000
    requires IdLen(version) + ConstructionLen(version) <= |input|
    requires field == input[IdLen(version)..][..ConstructionLen(version)]
    requires ConstructionReads(version, field, e.constructionMethod)
    requires Pow256(2) == 0x1_0000
    requires input == IdBytes(version, e.itemId) + (field + afterMethod)
    requires afterMethod == Encode(Big, 2, e.dataReferenceIndex) + afterDri
    requires |e.extents| < 0x1_0000
    requires afterBase == Encode(Big, 2, |e.extents|) + afterCount
    requires baseOffsetSize <= 8 ==>
               e.baseOffset as nat < Pow256(baseOffsetSize as nat) && afterDri == Encode(Big, baseOffsetSize as nat, e.baseOffset) + afterBase
    requires SizeAllowed(indexSize as int) && SizeAllowed(offsetSize as int) && SizeAllowed(lengthSize as int) ==>
               && ExtentsFit(version, indexSize, offsetSize, lengthSize, e.extents)
               && afterCount == EncodeExtents(version, indexSize, offsetSize, lengthSize, e.extents) + rest
    ensures SizeAllowed(baseOffsetSize as int) && SizeAllowed(indexSize as int) && SizeAllowed(offsetSize as int) && SizeAllowed(lengthSize as int) ==>
              EntryLaidOut(version, baseOffsetSize, indexSize, offsetSize, lengthSize, input, e, rest)
  {
    LocationEntryLayout(version, baseOffsetSize, indexSize, offsetSize, lengthSize, e, field, rest);
  }

  /** An entry the declared field sizes and the version can hold. */
  predicate LocationEntryFits(version: uint8, baseOffsetSize: uint8, indexSize: uint8, offsetSize: uint8, lengthSize: uint8, e: ItemLocationEntry)
  {
    && SizeAllowed(baseOffsetSize as int)
    && (version < 2 ==> e.itemId < 0x1_0000)
    && (version == 0 ==> e.constructionMethod == Set0)
    && e.baseOffset as nat < Pow256(baseOffsetSize as nat)
    && |e.extents| < 0x1_0000
    && ExtentsFit(version, indexSize, offsetSize, lengthSize, e.extents)
  }

  /** The bytes of an entry whose construction method field is `field`. */
  function LocationEntryBytes(version: uint8, baseOffsetSize: uint8, indexSize: uint8, offsetSize: uint8, lengthSize: uint8,
                              e: ItemLocationEntry, field: Bytes): Bytes
    requires LocationEntryFits(version, baseOffsetSize, indexSize, offsetSize, lengthSize, e)
  {
    Pow256Widths();
    IdBytes(version, e.itemId) + field + Encode(Big, 2, e.dataReferenceIndex) + Encode(Big, baseOffsetSize as nat, e.baseOffset)
      + Encode(Big, 2, |e.extents|) + EncodeExtents(version, indexSize, offsetSize, lengthSize, e.extents)
  }

  /** The bytes of an entry as an encoder writes it, with a zero padding
      byte in front of the construction method. */
  function EncodeLocationEntry(version: uint8, baseOffsetSize: uint8, indexSize: uint8, offsetSize: uint8, lengthSize: uint8,
                               e: ItemLocationEntry): Bytes
    requires LocationEntryFits(version, baseOffsetSize, indexSize, offsetSize, lengthSize, e)
  {
    LocationEntryBytes(version, baseOffsetSize, indexSize, offsetSize, lengthSize, e, ConstructionBytes(version, e.constructionMethod))
  }

  /** An entry followed by more input, field by field. */
  lemma LocationEntryLayout(version: uint8, baseOffsetSize: uint8, indexSize: uint8, offsetSize: uint8, lengthSize: uint8,
                            e: ItemLocationEntry, field: Bytes, rest: Bytes)
    ensures LocationEntryFits(version, baseOffsetSize, indexSize, offsetSize, lengthSize, e) ==>
              Pow256(2) == 0x1_0000
              && LocationEntryBytes(version, baseOffsetSize, indexSize, offsetSize, lengthSize, e, field) + rest
                 == IdBytes(version, e.itemId) + (field + (Encode(Big, 2, e.dataReferenceIndex) + (Encode(Big, baseOffsetSize as nat, e.baseOffset)
                      + (Encode(Big, 2, |e.extents|) + (EncodeExtents(version, indexSize, offsetSize, lengthSize, e.extents) + rest)))))
  {
    Pow256Widths();
  }
  /** A laid-out entry reads back, leaving what follows it, whatever the
      padding byte and high nibble of its construction method field. */
  lemma LocationEntryRoundTrip(version: uint8, baseOffsetSize: uint8, indexSize: uint8, offsetSize: uint8, lengthSize: uint8,
                               e: ItemLocationEntry, field: Bytes, rest: Bytes)
    requires LocationEntryFits(version, baseOffsetSize, indexSize, offsetSize, lengthSize, e)
    requires ConstructionReads(version, field, e.constructionMethod)
    ensures ParseLocationEntry(version, baseOffsetSize, indexSize, offsetSize, lengthSize,
                               LocationEntryBytes(version, baseOffsetSize, indexSize, offsetSize, lengthSize, e, field) + rest)
            == Some(Parsed(e, rest))
  {
    Pow256Widths();
    var extentsTail := EncodeExtents(version, indexSize, offsetSize, lengthSize, e.extents) + rest;
    var countTail := Encode(Big, 2, |e.extents|) + extentsTail;
    var baseTail := Encode(Big, baseOffsetSize as nat, e.baseOffset) + countTail;
    var driTail := Encode(Big, 2, e.dataReferenceIndex) + baseTail;
    var methodTail := field + driTail;
    LocationEntryLayout(version, baseOffsetSize, indexSize, offsetSize, lengthSize, e, field, rest);
    IdFieldRoundTrip(version, e.itemId, methodTail);
    ConstructionRoundTrip(version, field, e.constructionMethod, driTail);
    ReadU16RoundTrip(Big, e.dataReferenceIndex, baseTail);
    SizedRoundTrip(baseOffsetSize, e.baseOffset, countTail);
    ReadU16RoundTrip(Big, |e.extents| as uint16, extentsTail);
    ExtentsRoundTrip(version, indexSize, offsetSize, lengthSize, e.extents, rest);
    ParseLocationEntrySteps(version, baseOffsetSize, indexSize, offsetSize, lengthSize,
                            LocationEntryBytes(version, baseOffsetSize, indexSize, offsetSize, lengthSize, e, field) + rest,
                            methodTail, driTail, baseTail, countTail, extentsTail, e, rest);
  }

  /** `ParseLocationEntry` from the results of its six reads. */
  lemma ParseLocationEntrySteps(version: uint8, baseOffsetSize: uint8, indexSize: uint8, offsetSize: uint8, lengthSize: uint8, input: Bytes,
                                afterId: Bytes, afterMethod: Bytes, afterDri: Bytes, afterBase: Bytes, afterCount: Bytes,
                                e: ItemLocationEntry, rest: Bytes)
    requires ParseIdField(version, input) == Some(Parsed(e.itemId, afterId))
    requires ParseConstruction(version, afterId) == Some(Parsed(e.constructionMethod, afterMethod))
    requires ReadU16(Big, afterMethod) == Some(Parsed(e.dataReferenceIndex, afterDri))
    requires ParseSized(baseOffsetSize, afterDri) == Some(Parsed(e.baseOffset, afterBase))
    requires |e.extents| < 0x1_0000 && ReadU16(Big, afterBase) == Some(Parsed(|e.extents| as uint16, afterCount))
    requires ParseExtents(|e.extents|, version, indexSize, offsetSize, lengthSize, afterCount) == Some(Parsed(e.extents, rest))
    ensures ParseLocationEntry(version, baseOffsetSize, indexSize, offsetSize, lengthSize, input) == Some(Parsed(e, rest))
  {
  }

  /** The entry an encoder writes reads back, leaving what follows it. */
  lemma EncodedLocationEntryRoundTrip(version: uint8, baseOffsetSize: uint8, indexSize: uint8, offsetSize: uint8, lengthSize: uint8,
                                      e: ItemLocationEntry, rest: Bytes)
    requires LocationEntryFits(version, baseOffsetSize, indexSize, offsetSize, lengthSize, e)
    ensures ParseLocationEntry(version, baseOffsetSize, indexSize, offsetSize, lengthSize,
                               EncodeLocationEntry(version, baseOffsetSize, indexSize, offsetSize, lengthSize, e) + rest)
            == Some(Parsed(e, rest))
  {
    LocationEntryRoundTrip(version, baseOffsetSize, indexSize, offsetSize, lengthSize, e,
                           ConstructionBytes(version, e.constructionMethod), rest);
  }


  /** `count` location entries; any failure fails them all. */
  function ParseLocationEntries(count: nat, version: uint8, baseOffsetSize: uint8, indexSize: uint8, offsetSize: uint8, lengthSize: uint8, input: Bytes)
    : (r: Option<Parsed<seq<ItemLocationEntry>>>)
    ensures r.Some? ==> |r.value.value| == count && |r.value.rest| <= |input|
    ensures r.Some? && version == 0 ==> forall i | 0 <= i < count :: r.value.value[i].constructionMethod == Set0
    decreases count
  {
    if count == 0 then Some(Parsed([], input))
    else
      var e :- ParseLocationEntry(version, baseOffsetSize, indexSize, offsetSize, lengthSize, input);
      var more :- ParseLocationEntries(count - 1, version, baseOffsetSize, indexSize, offsetSize, lengthSize, e.rest);
      Some(Parsed([e.value] + more.value, more.rest))
  }

  /** Entries the declared field sizes and the version can all hold. */
  predicate LocationEntriesFit(version: uint8, baseOffsetSize: uint8, indexSize: uint8, offsetSize: uint8, lengthSize: uint8,
                               es: seq<ItemLocationEntry>)
  {
    forall i | 0 <= i < |es| :: LocationEntryFits(version, baseOffsetSize, indexSize, offsetSize, lengthSize, es[i])
  }

  /** The bytes of location entries laid out one after the other. */
  function EncodeLocationEntries(version: uint8, baseOffsetSize: uint8, indexSize: uint8, offsetSize: uint8, lengthSize: uint8,
                                 es: seq<ItemLocationEntry>): Bytes
    requires LocationEntriesFit(version, baseOffsetSize, indexSize, offsetSize, lengthSize, es)
    decreases |es|
  {
    if es == [] then []
    else
      LocationEntriesFitSplit(version, baseOffsetSize, indexSize, offsetSize, lengthSize, es);
      EncodeLocationEntry(version, baseOffsetSize, indexSize, offsetSize, lengthSize, es[0])
        + EncodeLocationEntries(version, baseOffsetSize, indexSize, offsetSize, lengthSize, es[1..])
  }

  /** Entries that all fit are a first one that fits and more that do. */
  lemma LocationEntriesFitSplit(version: uint8, baseOffsetSize: uint8, indexSize: uint8, offsetSize: uint8, lengthSize: uint8,
                                es: seq<ItemLocationEntry>)
    requires es != [] && LocationEntriesFit(version, baseOffsetSize, indexSize, offsetSize, lengthSize, es)
    ensures LocationEntryFits(version, baseOffsetSize, indexSize, offsetSize, lengthSize, es[0])
    ensures LocationEntriesFit(version, baseOffsetSize, indexSize, offsetSize, lengthSize, es[1..])
  {
    assert forall i | 0 <= i < |es[1..]| :: es[1..][i] == es[i + 1];
  }

  /** Entries followed by more input: the first entry, then the rest. */
  lemma LocationEntriesLayout(version: uint8, baseOffsetSize: uint8, indexSize: uint8, offsetSize: uint8, lengthSize: uint8,
                              es: seq<ItemLocationEntry>, rest: Bytes)
    requires es != [] && LocationEntriesFit(version, baseOffsetSize, indexSize, offsetSize, lengthSize, es)
    ensures LocationEntryFits(version, baseOffsetSize, indexSize, offsetSize, lengthSize, es[0])
    ensures LocationEntriesFit(version, baseOffsetSize, indexSize, offsetSize, lengthSize, es[1..])
    ensures EncodeLocationEntries(version, baseOffsetSize, indexSize, offsetSize, lengthSize, es) + rest
            == EncodeLocationEntry(version, baseOffsetSize, indexSize, offsetSize, lengthSize, es[0])
               + (EncodeLocationEntries(version, baseOffsetSize, indexSize, offsetSize, lengthSize, es[1..]) + rest)
  {
    LocationEntriesFitSplit(version, baseOffsetSize, indexSize, offsetSize, lengthSize, es);
    AppendAssoc(EncodeLocationEntry(version, baseOffsetSize, indexSize, offsetSize, lengthSize, es[0]),
                EncodeLocationEntries(version, baseOffsetSize, indexSize, offsetSize, lengthSize, es[1..]), rest);
  }

  /** Laid-out entries read back, in order, leaving what follows them. */
  lemma {:induction false} LocationEntriesRoundTrip(version: uint8, baseOffsetSize: uint8, indexSize: uint8, offsetSize: uint8, lengthSize: uint8,
                                                    es: seq<ItemLocationEntry>, rest: Bytes)
    requires LocationEntriesFit(version, baseOffsetSize, indexSize, offsetSize, lengthSize, es)
    ensures ParseLocationEntries(|es|, version, baseOffsetSize, indexSize, offsetSize, lengthSize,
                                 EncodeLocationEntries(version, baseOffsetSize, indexSize, offsetSize, lengthSize, es) + rest)
            == Some(Parsed(es, rest))
    decreases |es|
  {
    if es == [] {
      assert EncodeLocationEntries(version, baseOffsetSize, indexSize, offsetSize, lengthSize, es) + rest == rest;
    } else {
      LocationEntriesFitSplit(version, baseOffsetSize, indexSize, offsetSize, lengthSize, es);
      LocationEntriesRoundTrip(version, baseOffsetSize, indexSize, offsetSize, lengthSize, es[1..], rest);
      LocationEntriesStep(version, baseOffsetSize, indexSize, offsetSize, lengthSize, es, rest);
    }
  }

  /** If the entries after the first read back, so do all of them. */
  lemma LocationEntriesStep(version: uint8, baseOffsetSize: uint8, indexSize: uint8, offsetSize: uint8, lengthSize: uint8,
                            es: seq<ItemLocationEntry>, rest: Bytes)
    requires es != [] && LocationEntriesFit(version, baseOffsetSize, indexSize, offsetSize, lengthSize, es)
    requires LocationEntriesFit(version, baseOffsetSize, indexSize, offsetSize, lengthSize, es[1..])
    requires ParseLocationEntries(|es[1..]|, version, baseOffsetSize, indexSize, offsetSize, lengthSize,
                                  EncodeLocationEntries(version, baseOffsetSize, indexSize, offsetSize, lengthSize, es[1..]) + rest)
             == Some(Parsed(es[1..], rest))
    ensures ParseLocationEntries(|es|, version, baseOffsetSize, indexSize, offsetSize, lengthSize,
                                 EncodeLocationEntries(version, baseOffsetSize, indexSize, offsetSize, lengthSize, es) + rest)
            == Some(Parsed(es, rest))
  {
    assert |es[1..]| == |es| - 1;
    var tail := EncodeLocationEntries(version, baseOffsetSize, indexSize, offsetSize, lengthSize, es[1..]) + rest;
    LocationEntriesLayout(version, baseOffsetSize, indexSize, offsetSize, lengthSize, es, rest);
    EncodedLocationEntryRoundTrip(version, baseOffsetSize, indexSize, offsetSize, lengthSize, es[0], tail);
    ParseLocationEntriesCons(|es|, version, baseOffsetSize, indexSize, offsetSize, lengthSize,
                             EncodeLocationEntries(version, baseOffsetSize, indexSize, offsetSize, lengthSize, es) + rest,
                             es[0], tail, es[1..], rest);
    HeadTail(es);
  }

  /** `ParseLocationEntries` from its first entry and the ones after it. */
  lemma ParseLocationEntriesCons(count: nat, version: uint8, baseOffsetSize: uint8, indexSize: uint8, offsetSize: uint8, lengthSize: uint8,
                                 input: Bytes, e: ItemLocationEntry, tail: Bytes, more: seq<ItemLocationEntry>, rest: Bytes)
    requires count > 0
    requires ParseLocationEntry(version, baseOffsetSize, indexSize, offsetSize, lengthSize, input) == Some(Parsed(e, tail))
    requires ParseLocationEntries(count - 1, version, baseOffsetSize, indexSize, offsetSize, lengthSize, tail) == Some(Parsed(more, rest))
    ensures ParseLocationEntries(count, version, baseOffsetSize, indexSize, offsetSize, lengthSize, input) == Some(Parsed([e] + more, rest))
  {
  }

  /** The two size bytes of an `iloc` box: offset and length sizes in the
      first, base offset and index sizes in the second (the index size is 0
      in version 0). Each must be 0, 4 or 8. */
  function ParseSizes(version: uint8, input: Bytes): (r: Option<Parsed<(uint8, uint8, uint8, uint8)>>)
    ensures r.Some? <==>
              && |input| >= 2
              && SizeAllowed(input[0] / 16) && SizeAllowed(input[0] % 16) && SizeAllowed(input[1] / 16)
              && (version != 0 ==> SizeAllowed(input[1] % 16))
    ensures r.Some? ==>
              var (offsetSize, lengthSize, baseOffsetSize, indexSize) := r.value.value;
              && offsetSize == input[0] / 16 && lengthSize == input[0] % 16
              && baseOffsetSize == input[1] / 16
              && indexSize == (if version == 0 then 0 else input[1] % 16)
              && r.value.rest == input[2..]
  {
    var b1 :- ReadU8(input);
    var offsetSize: uint8 := b1.value / 16;
    if !SizeAllowed(offsetSize) then None
    else
      var lengthSize: uint8 := b1.value % 16;
      if !SizeAllowed(lengthSize) then None
      else
        var b2 :- ReadU8(b1.rest);
        assert b1.rest[0] == input[1] && b1.rest[1..] == input[2..];
        var baseOffsetSize: uint8 := b2.value / 16;
        if !SizeAllowed(baseOffsetSize) then None
        else
          var indexSize: uint8 := if version == 0 then 0 else b2.value % 16;
          if !SizeAllowed(indexSize) then None
          else Some(Parsed((offsetSize, lengthSize, baseOffsetSize, indexSize), b2.rest))
  }

  /** The two size bytes as an encoder writes them. */
  function SizesBytes(offsetSize: uint8, lengthSize: uint8, baseOffsetSize: uint8, indexSize: uint8): Bytes
    requires SizeAllowed(offsetSize as int) && SizeAllowed(lengthSize as int)
    requires SizeAllowed(baseOffsetSize as int) && SizeAllowed(indexSize as int)
  {
    [offsetSize * 16 + lengthSize, baseOffsetSize * 16 + indexSize]
  }

  /** Laid-out size bytes read back, leaving what follows them. */
  lemma SizesRoundTrip(version: uint8, offsetSize: uint8, lengthSize: uint8, baseOffsetSize: uint8, indexSize: uint8, rest: Bytes)
    requires SizeAllowed(offsetSize as int) && SizeAllowed(lengthSize as int)
    requires SizeAllowed(baseOffsetSize as int) && SizeAllowed(indexSize as int)
    requires version == 0 ==> indexSize == 0
    ensures ParseSizes(version, SizesBytes(offsetSize, lengthSize, baseOffsetSize, indexSize) + rest)
            == Some(Parsed((offsetSize, lengthSize, baseOffsetSize, indexSize), rest))
  {
    var input := SizesBytes(offsetSize, lengthSize, baseOffsetSize, indexSize) + rest;
    assert input[0] / 16 == offsetSize && input[0] % 16 == lengthSize;
    assert input[1] / 16 == baseOffsetSize && input[1] % 16 == indexSize;
    assert input[2..] == rest;
  }

  /** `ItemLocationBox::new`: a full box header, the field sizes, the item
      count (16 bits before version 2, 32 bits from version 2 on), then
      exactly that many entries. The box's own type is left to the caller. */
  function ParseItemLocationBox(input: Bytes): (r: Option<Parsed<ItemLocationBox>>)
    ensures r.Some? ==> ParseFullBox(input).Some? && r.value.value.fullBox == ParseFullBox(input).value.value
    ensures r.Some? ==>
              var b := r.value.value;
              && SizeAllowed(b.offsetSize as int) && SizeAllowed(b.lengthSize as int)
              && SizeAllowed(b.baseOffsetSize as int) && SizeAllowed(b.indexSize as int)
              && (b.fullBox.version == 0 ==> b.indexSize == 0)
              && (b.fullBox.version < 2 ==> b.itemCount < 0x1_0000)
              && |b.items| == b.itemCount as int
    ensures r.Some? ==> |r.value.rest| < |input|
    ensures r.Some? ==>
              var b := r.value.value;
              var v := b.fullBox.version;
              var body := ParseFullBox(input).value.rest;
              && |body| >= 2 + IdLen(v)
              && body[0] / 16 == b.offsetSize && body[0] % 16 == b.lengthSize
              && body[1] / 16 == b.baseOffsetSize && (v != 0 ==> body[1] % 16 == b.indexSize)
              && body[2..][..IdLen(v)] == IdBytes(v, b.itemCount)
              && ParseLocationEntries(b.itemCount as nat, v, b.baseOffsetSize, b.indexSize, b.offsetSize, b.lengthSize, body[2..][IdLen(v)..])
                 == Some(Parsed(b.items, r.value.rest))
  {
    var fb :- ParseFullBox(input);
    var v := fb.value.version;
    var sizes :- ParseSizes(v, fb.rest);
    var (offsetSize, lengthSize, baseOffsetSize, indexSize) := sizes.value;
    var count :- ParseIdField(v, sizes.rest);
    var items :- ParseLocationEntries(count.value as nat, v, baseOffsetSize, indexSize, offsetSize, lengthSize, count.rest);
    Some(Parsed(ItemLocationBox(fb.value, indexSize, count.value, offsetSize, lengthSize, baseOffsetSize, items.value), items.rest))
  }

  /** An `iloc` box that reads back as itself: a well-formed full box
      header, field sizes of 0, 4 or 8 bytes (no index size in version 0),
      an item count its field can hold, and that many entries that fit. */
  predicate LocationBoxFits(b: ItemLocationBox)
  {
    && FullBoxWellFormed(b.fullBox)
    && SizeAllowed(b.offsetSize as int) && SizeAllowed(b.lengthSize as int)
    && SizeAllowed(b.baseOffsetSize as int) && SizeAllowed(b.indexSize as int)
    && (b.fullBox.version == 0 ==> b.indexSize == 0)
    && (b.fullBox.version < 2 ==> b.itemCount < 0x1_0000)
    && |b.items| == b.itemCount as int
    && LocationEntriesFit(b.fullBox.version, b.baseOffsetSize, b.indexSize, b.offsetSize, b.lengthSize, b.items)
  }

  /** The bytes of an `iloc` box. */
  function EncodeItemLocationBox(b: ItemLocationBox): Bytes
    requires LocationBoxFits(b)
  {
    EncodeFullBox(b.fullBox) + SizesBytes(b.offsetSize, b.lengthSize, b.baseOffsetSize, b.indexSize)
      + IdBytes(b.fullBox.version, b.itemCount)
      + EncodeLocationEntries(b.fullBox.version, b.baseOffsetSize, b.indexSize, b.offsetSize, b.lengthSize, b.items)
  }

  /** A laid-out `iloc` box reads back as the box, its entries in order. */
  lemma ItemLocationBoxRoundTrip(b: ItemLocationBox, rest: Bytes)
    requires LocationBoxFits(b)
    ensures ParseItemLocationBox(EncodeItemLocationBox(b) + rest) == Some(Parsed(b, rest))
  {
    var v := b.fullBox.version;
    var entries := EncodeLocationEntries(v, b.baseOffsetSize, b.indexSize, b.offsetSize, b.lengthSize, b.items) + rest;
    var counted := IdBytes(v, b.itemCount) + entries;
    var body := SizesBytes(b.offsetSize, b.lengthSize, b.baseOffsetSize, b.indexSize) + counted;
    LocationBoxLayout(b, rest);
    FullBoxRoundTrip(b.fullBox, body);
    SizesRoundTrip(v, b.offsetSize, b.lengthSize, b.baseOffsetSize, b.indexSize, counted);
    IdFieldRoundTrip(v, b.itemCount, entries);
    LocationEntriesRoundTrip(v, b.baseOffsetSize, b.indexSize, b.offsetSize, b.lengthSize, b.items, rest);
    ParseItemLocationBoxSteps(EncodeItemLocationBox(b) + rest, b.fullBox, body, b.offsetSize, b.lengthSize, b.baseOffsetSize, b.indexSize,
                              counted, b.itemCount, entries, b.items, rest);
  }

  /** An `iloc` box followed by more input, part by part. */
  lemma LocationBoxLayout(b: ItemLocationBox, rest: Bytes)
    requires LocationBoxFits(b)
    ensures EncodeItemLocationBox(b) + rest
            == EncodeFullBox(b.fullBox) + (SizesBytes(b.offsetSize, b.lengthSize, b.baseOffsetSize, b.indexSize)
                 + (IdBytes(b.fullBox.version, b.itemCount)
                    + (EncodeLocationEntries(b.fullBox.version, b.baseOffsetSize, b.indexSize, b.offsetSize, b.lengthSize, b.items) + rest)))
  {
    var a := EncodeFullBox(b.fullBox);
    var sizes := SizesBytes(b.offsetSize, b.lengthSize, b.baseOffsetSize, b.indexSize);
    var count := IdBytes(b.fullBox.version, b.itemCount);
    var entries := EncodeLocationEntries(b.fullBox.version, b.baseOffsetSize, b.indexSize, b.offsetSize, b.lengthSize, b.items);
    AppendAssoc(a + sizes + count, entries, rest);
    AppendAssoc(a + sizes, count, entries + rest);
    AppendAssoc(a, sizes, count + (entries + rest));
  }

  /** `ParseItemLocationBox` from the results of its four reads. */
  lemma ParseItemLocationBoxSteps(input: Bytes, fb: FullBox, body: Bytes,
                                  offsetSize: uint8, lengthSize: uint8, baseOffsetSize: uint8, indexSize: uint8, counted: Bytes,
                                  count: uint32, entries: Bytes, items: seq<ItemLocationEntry>, rest: Bytes)
    requires ParseFullBox(input) == Some(Parsed(fb, body))
    requires ParseSizes(fb.version, body) == Some(Parsed((offsetSize, lengthSize, baseOffsetSize, indexSize), counted))
    requires ParseIdField(fb.version, counted) == Some(Parsed(count, entries))
    requires ParseLocationEntries(count as nat, fb.version, baseOffsetSize, indexSize, offsetSize, lengthSize, entries)
             == Some(Parsed(items, rest))
    ensures ParseItemLocationBox(input)
            == Some(Parsed(ItemLocationBox(fb, indexSize, count, offsetSize, lengthSize, baseOffsetSize, items), rest))
  {
  }
}

=== FILE: iptc4xmp.dfy ===
/** IPTC metadata carried inside XMP (xmp/iptc4xmp.rs): a bare-bones walk
    over the `rdf:Description` elements of a packet that turns the
    attributes and child elements it recognises into IPTC key/value pairs.

    This reader goes by prefixed names (`rdf:li`, `x:xmp_meta`) rather than
    namespaces. The key table (`IptcKey::from_xmp_id`, `has_vec_ty`,
    `has_struct_ty`) is generated from the IPTC schema at build time, and
    the struct-valued keys have parsers of their own; all of these, and
    `f64` parsing, are parameters here (`Catalog`). */
module Iptc4Xmp {
  import opened Std
  import opened XmlTree
  import opened XmpTypes
  import opened XmpPrims

  /** The IPTC properties (`IptcKey`). */
  datatype IptcKey =
    // text-valued
    | AltTextAccessibility | CityLegacy | CopyrightNotice | CountryLegacy | CountryCodeLegacy
    | CreatorsJobtitle | CreditLine | DateCreated | Description | DescriptionWriter
    | ExtendedDescriptionAccessibility | Headline | Instructions | IntellectualGenreLegacy
    | JobId | ProvinceOrStateLegacy | RightsUsageTerms | SourceSupplyChain | SublocationLegacy
    | Title | AdditionalModelInformation | DataMining | OtherConstraints | DigitalImageGuid
    | DigitalSourceType | EventName | ImageSupplierImageId | MinorModelAgeDisclosure
    | ModelReleaseStatus | PropertyReleaseStatus | WebStatementOfRights
    // numeric
    | ImageRating | MaxAvailHeight | MaxAvailWidth
    // lists
    | Creator | Keywords | SceneCode | SubjectCodeLegacy | CodeOfOrganisationFeaturedInTheImage
    | EventIdentifier | ModelReleaseId | NameOfOrganisationFeaturedInTheImage
    | PersonShownInTheImage | PropertyReleaseId | ModelAge
    // structs
    | CreatorsContactInfo | ArtworkOrObjectInTheImage | Contributor | CopyrightOwner
    | CvTermAboutImage | EmbeddedEncodedRightsExpression | Genre | ImageCreator | ImageRegion
    | ImageRegistryEntry | ImageSupplier | Licensor | LinkedEncodedRightsExpression
    | LocationCreated | LocationShownInTheImage | PersonShownInTheImageWithDetails
    | ProductShownInTheImage

  /** What a key's value is. */
  datatype ValueClass = TextClass | RatingClass | DimensionClass | ListClass | AgeListClass | StructClass

  function ClassOf(k: IptcKey): ValueClass
  {
    match k
    case ImageRating => RatingClass
    case MaxAvailHeight | MaxAvailWidth => DimensionClass
    case Creator | Keywords | SceneCode | SubjectCodeLegacy | CodeOfOrganisationFeaturedInTheImage
      | EventIdentifier | ModelReleaseId | NameOfOrganisationFeaturedInTheImage
      | PersonShownInTheImage | PropertyReleaseId => ListClass
    case ModelAge => AgeListClass
    case CreatorsContactInfo | ArtworkOrObjectInTheImage | Contributor | CopyrightOwner
      | CvTermAboutImage | EmbeddedEncodedRightsExpression | Genre | ImageCreator | ImageRegion
      | ImageRegistryEntry | ImageSupplier | Licensor | LinkedEncodedRightsExpression
      | LocationCreated | LocationShownInTheImage | PersonShownInTheImageWithDetails
      | ProductShownInTheImage => StructClass
    case _ => TextClass
  }

  /** An IPTC key with its value (`IptcKeyValue`). A struct value is kept
      as its field names and texts. */
  datatype IptcPair =
    | TextPair(key: IptcKey, text: string)
    | RatingPair(key: IptcKey, rating: Float)
    | DimensionPair(key: IptcKey, n: i64)
    | ListPair(key: IptcKey, items: seq<string>)
    | AgeListPair(key: IptcKey, ages: seq<i64>)
    | StructPair(key: IptcKey, fields: seq<(string, string)>)

  /** The parts of the reader that live elsewhere: the generated key table,
      the struct parsers (shorthand, for a childless element, and regular),
      and `f64` parsing. */
  datatype Catalog = Catalog(
    fromXmpId: string -> Option<IptcKey>,
    hasVecTy: IptcKey -> bool,
    hasStructTy: IptcKey -> bool,
    shorthandStruct: (IptcKey, Element) -> Option<IptcPair>,
    regularStruct: (IptcKey, Element) -> Option<IptcPair>,
    parseF64: string -> Option<Float>)

  // ---------------------------------------------------------------------
  // Prefixed names

  /** No colon: an XML local name or namespace prefix always is one. */
  predicate ColonFree(s: string) { ':' !in s }

  /** An element whose prefix and local name are colon-free, as every
      element of a namespace-aware parse is. */
  predicate WellNamed(e: Element)
  {
    ColonFree(e.name) && (e.prefix.Some? ==> ColonFree(e.prefix.value))
  }

  /** The position of the first colon. */
  predicate FirstColonAt(s: string, i: int)
  {
    0 <= i < |s| && s[i] == ':' && ColonFree(s[..i])
  }

  /** A string with a colon has a first one. */
  lemma {:induction false} FirstColonExists(s: string)
    requires !ColonFree(s)
    ensures exists i :: FirstColonAt(s, i)
  {
    if s[0] == ':' {
      assert FirstColonAt(s, 0);
    } else {
      assert s == [s[0]] + s[1..];
      FirstColonExists(s[1..]);
      var i :| FirstColonAt(s[1..], i);
      assert s[..i + 1] == [s[0]] + s[1..][..i];
      assert FirstColonAt(s, i + 1);
    }
  }

  /** There is only one first colon. */
  lemma FirstColonUnique(s: string, i: int, j: int)
    requires FirstColonAt(s, i) && FirstColonAt(s, j)
    ensures i == j
  {
    forall k | 0 <= k < j
      ensures s[k] != ':'
    {
      assert s[..j][k] == s[k];
    }
    forall k | 0 <= k < i
      ensures s[k] != ':'
    {
      assert s[..i][k] == s[k];
    }
  }

  /** `str::split_once(':')`: the parts before and after the first colon. */
  function SplitOnce(s: string): (r: Option<(string, string)>)
    ensures r.None? <==> ColonFree(s)
    ensures r.Some? ==> s == r.value.0 + ":" + r.value.1 && ColonFree(r.value.0)
  {
    if ColonFree(s) then None
    else
      FirstColonExists(s);
      var i :| FirstColonAt(s, i);
      assert s == s[..i] + ":" + s[i + 1..];
      Some((s[..i], s[i + 1..]))
  }

  /** Splitting undoes joining at a colon-free head. */
  lemma SplitOnceJoin(a: string, b: string)
    requires ColonFree(a)
    ensures SplitOnce(a + ":" + b) == Some((a, b))
  {
    var s := a + ":" + b;
    assert s[..|a|] == a && s[|a|] == ':' && s[|a| + 1..] == b;
    assert FirstColonAt(s, |a|);
    forall i | FirstColonAt(s, i)
      ensures i == |a|
    {
      FirstColonUnique(s, i, |a|);
    }
  }

  /** `prefixed_name`: `prefix:name`, or the bare name without a prefix. */
  function PrefixedName(e: Element): string
  {
    match e.prefix
    case Some(p) => p + ":" + e.name
    case None => e.name
  }

  /** A well-named element's prefixed name splits back into its prefix and
      name; without a prefix it does not split at all. */
  lemma SplitPrefixedName(e: Element)
    requires WellNamed(e)
    ensures SplitOnce(PrefixedName(e)) == if e.prefix.Some? then Some((e.prefix.value, e.name)) else None
  {
    if e.prefix.Some? {
      SplitOnceJoin(e.prefix.value, e.name);
    }
  }

  /** A well-named element has prefixed name `p:n`, for colon-free `p` and
      `n`, exactly when its prefix is `p` and its name `n`. */
  lemma PrefixedNameIs(e: Element, p: string, n: string)
    requires WellNamed(e) && ColonFree(p)
    ensures PrefixedName(e) == p + ":" + n <==> e.prefix == Some(p) && e.name == n
  {
    SplitPrefixedName(e);
    if PrefixedName(e) == p + ":" + n {
      SplitOnceJoin(p, n);
    }
  }

  /** `is_li_element`. */
  predicate IsLiElement(e: Element) { PrefixedName(e) == "rdf:li" }

  /** `is_collection_element`: `rdf:Alt`, `rdf:Bag` or `rdf:Seq`. */
  predicate IsCollectionElement(e: Element)
  {
    PrefixedName(e) == "rdf:Alt" || PrefixedName(e) == "rdf:Bag" || PrefixedName(e) == "rdf:Seq"
  }

  /** For a well-named element the two tests are on prefix and name. */
  lemma ListElementsByParts(e: Element)
    requires WellNamed(e)
    ensures IsLiElement(e) <==> e.prefix == Some("rdf") && e.name == "li"
    ensures IsCollectionElement(e) <==> e.prefix == Some("rdf") && (e.name == "Alt" || e.name == "Bag" || e.name == "Seq")
  {
    PrefixedNameIs(e, "rdf", "li");
    PrefixedNameIs(e, "rdf", "Alt");
    PrefixedNameIs(e, "rdf", "Bag");
    PrefixedNameIs(e, "rdf", "Seq");
  }

  /** The first of `cs` with prefix `p` and local name `n`. */
  function FirstWithName(cs: seq<Element>, p: string, n: string): (r: Option<Element>)
    ensures r.Some? ==> r.value in cs && r.value.prefix == Some(p) && r.value.name == n
    ensures r.None? <==> forall c | c in cs :: !(c.prefix == Some(p) && c.name == n)
    ensures r.Some? ==> exists i | 0 <= i < |cs| :: cs[i] == r.value && forall j | 0 <= j < i :: !(cs[j].prefix == Some(p) && cs[j].name == n)
  {
    if cs == [] then None
    else if cs[0].prefix == Some(p) && cs[0].name == n then Some(cs[0])
    else
      var r := FirstWithName(cs[1..], p, n);
      assert forall c | c in cs[1..] :: c in cs;
      if r.Some? then
        var i :| 0 <= i < |cs[1..]| && cs[1..][i] == r.value && forall j | 0 <= j < i :: !(cs[1..][j].prefix == Some(p) && cs[1..][j].name == n);
        assert cs[i + 1] == r.value;
        r
      else r
  }

  /** `prefixed_child` in a release build: split the key at its first colon
      (no colon: `None`) and find the first child element with that prefix
      and local name. */
  function PrefixedChild(e: Element, key: string): (r: Option<Element>)
    ensures ColonFree(key) ==> r.None?
    ensures r.Some? ==> r.value in Children(e) && PrefixedName(r.value) == key
  {
    match SplitOnce(key)
    case None => None
    case Some((p, n)) => FirstWithName(Children(e), p, n)
  }

  /** A key with a colon-free prefix part looks the child up by its two
      parts. */
  lemma PrefixedChildSplit(e: Element, p: string, n: string)
    requires ColonFree(p)
    ensures PrefixedChild(e, p + ":" + n) == FirstWithName(Children(e), p, n)
  {
    SplitOnceJoin(p, n);
  }

  /** Looking a child up by its own prefixed name finds the first child so
      named. */
  lemma PrefixedChildFinds(e: Element, c: Element)
    requires c in Children(e) && WellNamed(c) && c.prefix.Some?
    ensures PrefixedChild(e, PrefixedName(c)).Some?
    ensures PrefixedChild(e, PrefixedName(c)).value.prefix == c.prefix
    ensures PrefixedChild(e, PrefixedName(c)).value.name == c.name
  {
    SplitPrefixedName(c);
  }

  /** The first attribute with prefix `p` and local name `n`; un-prefixed
      attributes never match. */
  function FirstAttr(attrs: seq<Attribute>, p: string, n: string): (r: Option<string>)
    ensures r.Some? <==> exists i | 0 <= i < |attrs| :: attrs[i].prefix == Some(p) && attrs[i].localName == n
    ensures r.Some? ==> exists i | 0 <= i < |attrs| :: attrs[i].prefix == Some(p) && attrs[i].localName == n && attrs[i].value == r.value
  {
    if attrs == [] then None
    else if attrs[0].prefix == Some(p) && attrs[0].localName == n then Some(attrs[0].value)
    else
      var r := FirstAttr(attrs[1..], p, n);
      assert forall i | 1 <= i < |attrs| :: attrs[i] == attrs[1..][i - 1];
      r
  }

  /** `prefixed_attr`: the value of the first attribute whose prefix and
      local name are the key's parts; a key without a colon finds nothing. */
  function PrefixedAttr(e: Element, key: string): (r: Option<string>)
    ensures ColonFree(key) ==> r.None?
    ensures r.Some? ==> exists i | 0 <= i < |e.attributes| ::
              && e.attributes[i].prefix.Some?
              && e.attributes[i].prefix.value + ":" + e.attributes[i].localName == key
              && e.attributes[i].value == r.value
  {
    match SplitOnce(key)
    case None => None
    case Some((p, n)) => FirstAttr(e.attributes, p, n)
  }

  /** The attribute `family:guy="true"` is found by its prefixed key. */
  lemma PrefixedAttrExample()
    ensures PrefixedAttr(Element(Some("dc"), Some("http://purl.org/dc/elements/1.1/"), "title",
                                 [Attribute(Some("family"), Some("https://www.fox.com/family-guy/"), "guy", "true")], []),
                         "family:guy") == Some("true")
  {
    SplitOnceJoin("family", "guy");
    assert "family" + ":" + "guy" == "family:guy";
  }

  // ---------------------------------------------------------------------
  // List helpers

  /** The texts of the elements among `nodes` that have text, in order. */
  function ElementTexts(nodes: seq<Node>): (r: seq<string>)
    ensures |r| <= |nodes|
  {
    var cs := ChildElements(nodes);
    FilterSome(seq(|cs|, i requires 0 <= i < |cs| => GetText(cs[i])))
  }

  /** `get_list`: for every collection child of `e`, in order, the texts of
      that collection's element children. */
  function GetList(e: Element): seq<string>
  {
    ListsOf(Children(e))
  }

  function ListsOf(cs: seq<Element>): (r: seq<string>)
    ensures (forall c | c in cs :: !IsCollectionElement(c)) ==> r == []
  {
    if cs == [] then []
    else (if IsCollectionElement(cs[0]) then ElementTexts(cs[0].children) else []) + ListsOf(cs[1..])
  }

  /** `get_list` reads the lists its collection children hold: each
      collection contributes its items' texts, in order, and nothing else
      contributes. */
  lemma {:induction false} ListsOfAppend(a: seq<Element>, b: seq<Element>)
    ensures ListsOf(a + b) == ListsOf(a) + ListsOf(b)
  {
    if a == [] {
      assert a + b == b;
    } else {
      assert (a + b)[0] == a[0] && (a + b)[1..] == a[1..] + b;
      ListsOfAppend(a[1..], b);
      var h := if IsCollectionElement(a[0]) then ElementTexts(a[0].children) else [];
      assert ListsOf(a + b) == h + ListsOf(a[1..] + b);
      assert h + (ListsOf(a[1..]) + ListsOf(b)) == (h + ListsOf(a[1..])) + ListsOf(b);
    }
  }

  /** `<rdf:li>t</rdf:li>`. */
  function LiOf(t: string): Element
  {
    Element(Some("rdf"), Some(RdfNamespace), "li", [], [TextNode(t)])
  }

  /** Three `rdf:li` items have their three texts, in order. */
  lemma ThreeLiTexts(t1: string, t2: string, t3: string)
    ensures ElementTexts([ElementNode(LiOf(t1)), ElementNode(LiOf(t2)), ElementNode(LiOf(t3))]) == [t1, t2, t3]
  {
    var ns := [ElementNode(LiOf(t1)), ElementNode(LiOf(t2)), ElementNode(LiOf(t3))];
    assert ns[1..][1..][1..] == [];
    assert ChildElements(ns[1..][1..]) == [LiOf(t3)];
    assert ChildElements(ns[1..]) == [LiOf(t2), LiOf(t3)];
    var cs := ChildElements(ns);
    assert cs == [LiOf(t1), LiOf(t2), LiOf(t3)];
    SingleTextChild(LiOf(t1), t1);
    SingleTextChild(LiOf(t2), t2);
    SingleTextChild(LiOf(t3), t3);
    var texts := seq(|cs|, i requires 0 <= i < |cs| => GetText(cs[i]));
    assert texts == [Some(t1), Some(t2), Some(t3)];
    FilterSomeAllSome(texts, [t1, t2, t3]);
  }

  /** `rdf:Alt`, `rdf:Bag` and `rdf:Seq` are collection elements. */
  lemma RdfCollectionIs(e: Element)
    requires e.prefix == Some("rdf") && (e.name == "Alt" || e.name == "Bag" || e.name == "Seq")
    ensures IsCollectionElement(e)
  {
    assert "rdf" + ":" + "Alt" == "rdf:Alt";
    assert "rdf" + ":" + "Bag" == "rdf:Bag";
    assert "rdf" + ":" + "Seq" == "rdf:Seq";
  }

  /** An element whose only child is a collection lists that collection's
      items. */
  lemma OnlyCollectionList(e: Element, coll: Element)
    requires e.children == [ElementNode(coll)] && IsCollectionElement(coll)
    ensures GetList(e) == ElementTexts(coll.children)
  {
    assert ChildElements(e.children[1..]) == [];
    assert Children(e) == [coll];
    assert ListsOf([coll]) == ElementTexts(coll.children) + ListsOf([]);
  }

  /** The list under `<dc:title><rdf:Bag>` with three items is their three
      texts, in order. */
  lemma GetListExample(t1: string, t2: string, t3: string)
    ensures var bag := Element(Some("rdf"), Some(RdfNamespace), "Bag", [],
                               [ElementNode(LiOf(t1)), ElementNode(LiOf(t2)), ElementNode(LiOf(t3))]);
            GetList(Element(Some("dc"), Some("http://purl.org/dc/elements/1.1/"), "title", [], [ElementNode(bag)]))
              == [t1, t2, t3]
  {
    var bag := Element(Some("rdf"), Some(RdfNamespace), "Bag", [],
                       [ElementNode(LiOf(t1)), ElementNode(LiOf(t2)), ElementNode(LiOf(t3))]);
    RdfCollectionIs(bag);
    OnlyCollectionList(Element(Some("dc"), Some("http://purl.org/dc/elements/1.1/"), "title", [], [ElementNode(bag)]), bag);
    ThreeLiTexts(t1, t2, t3);
  }

  /** The first collection child. */
  function FirstCollection(cs: seq<Element>): (r: Option<Element>)
    ensures r.Some? ==> r.value in cs && IsCollectionElement(r.value)
    ensures r.None? <==> forall c | c in cs :: !IsCollectionElement(c)
  {
    if cs == [] then None
    else if IsCollectionElement(cs[0]) then Some(cs[0])
    else
      var r := FirstCollection(cs[1..]);
      assert forall c | c in cs[1..] :: c in cs;
      r
  }

  /** The first `rdf:li` child. */
  function FirstLi(cs: seq<Element>): (r: Option<Element>)
    ensures r.Some? ==> r.value in cs && IsLiElement(r.value)
    ensures r.None? <==> forall c | c in cs :: !IsLiElement(c)
  {
    if cs == [] then None
    else if IsLiElement(cs[0]) then Some(cs[0])
    else
      var r := FirstLi(cs[1..]);
      assert forall c | c in cs[1..] :: c in cs;
      r
  }

  /** The texts of the `rdf:li` elements among `cs` that have text. */
  function LiTexts(cs: seq<Element>): (r: seq<string>)
    ensures |r| <= |cs|
    ensures forall t | t in r :: exists c | c in cs :: IsLiElement(c) && GetText(c) == Some(t)
  {
    if cs == [] then []
    else
      var rest := LiTexts(cs[1..]);
      assert forall c | c in cs[1..] :: c in cs;
      if IsLiElement(cs[0]) && GetText(cs[0]).Some? then [GetText(cs[0]).value] + rest else rest
  }

  /** `all_li_texts`: the texts of the `rdf:li` children of the first
      collection child only; `None` when there is no collection child. */
  function AllLiTexts(e: Element): (r: Option<seq<string>>)
    ensures r.None? <==> forall c | c in Children(e) :: !IsCollectionElement(c)
    ensures r.Some? ==> r.value == LiTexts(Children(FirstCollection(Children(e)).value))
  {
    match FirstCollection(Children(e))
    case None => None
    case Some(coll) => Some(LiTexts(Children(coll)))
  }

  /** `self_or_li_text`: the element's own text, else the text of the first
      `rdf:li` of its first collection child. */
  function SelfOrLiText(e: Element): (r: Option<string>)
    ensures GetText(e).Some? ==> r == GetText(e)
    ensures GetText(e).None? && r.Some? ==>
              exists coll, li | coll in Children(e) && li in Children(coll) ::
                IsCollectionElement(coll) && IsLiElement(li) && GetText(li) == r
    ensures GetText(e).None? && (forall c | c in Children(e) :: !IsCollectionElement(c)) ==> r.None?
  {
    match GetText(e)
    case Some(t) => Some(t)
    case None =>
      match FirstCollection(Children(e))
      case None => None
      case Some(coll) =>
        match FirstLi(Children(coll))
        case None => None
        case Some(li) => GetText(li)
  }

  /** `get_first_alt_or_text` as written: it looks for a child whose local
      name is `"rdf:Alt"`, which no well-named element has, so it always
      falls back to the element's own text. */
  function FirstAltOrTextAsWritten(e: Element): Option<string>
  {
    match FirstNamed(Children(e), "rdf:Alt")
    case None => GetText(e)
    case Some(alt) =>
      match FirstLi(Children(alt))
      case None => GetText(e)
      case Some(li) => if GetText(li).Some? then GetText(li) else GetText(e)
  }

  /** As written, the `rdf:Alt` branch is dead for well-named children. */
  lemma FirstAltIgnored(e: Element)
    requires forall c | c in Children(e) :: WellNamed(c)
    ensures FirstAltOrTextAsWritten(e) == GetText(e)
  {
    assert ':' in "rdf:Alt";
  }

  /** `get_first_alt_or_text` as documented: the text of the first `rdf:li`
      in the first `rdf:Alt` child, falling back to the element's own text. */
  function FirstAltOrText(e: Element): (r: Option<string>)
    ensures (forall c | c in Children(e) :: PrefixedName(c) != "rdf:Alt") ==> r == GetText(e)
    ensures r.Some? && r != GetText(e) ==>
              exists alt, li | alt in Children(e) && li in Children(alt) ::
                PrefixedName(alt) == "rdf:Alt" && IsLiElement(li) && GetText(li) == r
  {
    match FirstAltChild(Children(e))
    case None => GetText(e)
    case Some(alt) =>
      match FirstLi(Children(alt))
      case None => GetText(e)
      case Some(li) =>
        assert alt in Children(e) && li in Children(alt);
        if GetText(li).Some? then GetText(li) else GetText(e)
  }

  function FirstAltChild(cs: seq<Element>): (r: Option<Element>)
    ensures r.Some? ==> r.value in cs && PrefixedName(r.value) == "rdf:Alt"
    ensures r.None? <==> forall c | c in cs :: PrefixedName(c) != "rdf:Alt"
  {
    if cs == [] then None
    else if PrefixedName(cs[0]) == "rdf:Alt" then Some(cs[0])
    else
      var r := FirstAltChild(cs[1..]);
      assert forall c | c in cs[1..] :: c in cs;
      r
  }

  /** `<CvTermName><rdf:Alt><rdf:li xml:lang="x-default">Bay</rdf:li></rdf:Alt></CvTermName>`. */
  function AltNameExample(): Element
  {
    var li := Element(Some("rdf"), Some(RdfNamespace), "li",
                      [Attribute(Some("xml"), None, "lang", "x-default")], [TextNode("Bay")]);
    var alt := Element(Some("rdf"), Some(RdfNamespace), "Alt", [], [ElementNode(li)]);
    Element(Some("Iptc4xmpExt"), Some("http://iptc.org/std/Iptc4xmpExt/2008-02-29/"), "CvTermName", [], [ElementNode(alt)])
  }

  /** On that input the code as written finds no text; the documented
      behaviour reads the alternative. */
  lemma AltNameMissed()
    ensures FirstAltOrTextAsWritten(AltNameExample()) == None
    ensures FirstAltOrText(AltNameExample()) == Some("Bay")
  {
    var li := Element(Some("rdf"), Some(RdfNamespace), "li",
                      [Attribute(Some("xml"), None, "lang", "x-default")], [TextNode("Bay")]);
    var alt := Element(Some("rdf"), Some(RdfNamespace), "Alt", [], [ElementNode(li)]);
    var e := AltNameExample();
    FirstAltIgnored(e);
    assert ChildElements(e.children[1..]) == [];
    assert Children(e) == [alt];
    assert GetText(e) == None;
    assert "rdf" + ":" + "Alt" == "rdf:Alt";
    assert FirstAltChild([alt]) == Some(alt);
    assert ChildElements(alt.children[1..]) == [];
    assert Children(alt) == [li];
    assert "rdf" + ":" + "li" == "rdf:li";
    assert FirstLi([li]) == Some(li);
    SingleTextChild(li, "Bay");
  }

  // ---------------------------------------------------------------------
  // Values

  /** `iptc_pair_from_simple_text_value`: text keys take the text as is,
      the rating and the two maximum dimensions parse it as a number, and
      list and struct keys take no simple value. */
  function PairFromSimpleText(k: IptcKey, value: string, parseF64: string -> Option<Float>): (r: Option<IptcPair>)
    ensures r.Some? ==> r.value.key == k
    ensures ClassOf(k) == TextClass ==> r == Some(TextPair(k, value))
    ensures ClassOf(k) == RatingClass ==> (r.Some? <==> parseF64(value).Some?)
    ensures ClassOf(k) == RatingClass && r.Some? ==> r.value == RatingPair(k, parseF64(value).value)
    ensures ClassOf(k) in {ListClass, AgeListClass, StructClass} ==> r.None?
  {
    match ClassOf(k)
    case TextClass => Some(TextPair(k, value))
    case RatingClass =>
      (match parseF64(value)
       case Some(f) => Some(RatingPair(k, f))
       case None => None)
    case DimensionClass =>
      (match ParseI64(value)
       case Ok(n) => Some(DimensionPair(k, n))
       case Err(_) => None)
    case _ => None
  }

  /** A maximum dimension is kept exactly when its text is a decimal `i64`,
      and then as that number. */
  lemma DimensionPairs(k: IptcKey, value: string, parseF64: string -> Option<Float>)
    requires ClassOf(k) == DimensionClass
    ensures PairFromSimpleText(k, value, parseF64).Some? <==> WellFormedInt(value) && InI64(IntValue(value))
    ensures PairFromSimpleText(k, value, parseF64).Some? ==>
              PairFromSimpleText(k, value, parseF64) == Some(DimensionPair(k, IntValue(value)))
  {
    ParseI64Spec(value);
  }

  /** The ages that parse as `i64`, in order. */
  function Ages(items: seq<string>): (r: seq<i64>)
    ensures |r| <= |items|
    ensures forall n | n in r :: exists t | t in items :: ParseI64(t) == Ok(n as int)
  {
    if items == [] then []
    else
      var rest := Ages(items[1..]);
      assert forall t | t in items[1..] :: t in items;
      match ParseI64(items[0])
      case Ok(n) => [n as i64] + rest
      case Err(_) => rest
  }

  /** The list a vec-typed key carries, as a pair. */
  function ListPairOf(k: IptcKey, list: seq<string>): (r: Option<IptcPair>)
    ensures r.Some? <==> ClassOf(k) in {ListClass, AgeListClass}
    ensures ClassOf(k) == ListClass ==> r == Some(ListPair(k, list))
    ensures ClassOf(k) == AgeListClass ==> r == Some(AgeListPair(k, Ages(list)))
  {
    match ClassOf(k)
    case ListClass => Some(ListPair(k, list))
    case AgeListClass => Some(AgeListPair(k, Ages(list)))
    case _ => None
  }

  /** The element a list hangs under: an `rdf:Description` child when some
      serialiser inserted one, the element itself otherwise. */
  function ListParent(e: Element): (r: Element)
    ensures r == e || (r in Children(e) && r.prefix == Some("rdf") && r.name == "Description")
  {
    match FirstWithName(Children(e), "rdf", "Description")
    case Some(d) => d
    case None => e
  }

  /** `parse_vec_types` as written: it hands the collection element itself
      to `get_list`, which looks for collections among that element's
      children, so the `rdf:li` items of a flat list are never read. */
  function VecPairAsWritten(k: IptcKey, e: Element): Option<IptcPair>
  {
    match FirstCollection(Children(ListParent(e)))
    case None => None
    case Some(list) => ListPairOf(k, GetList(list))
  }

  /** `parse_vec_types` as intended: the texts of the items of the first
      collection under the list parent. */
  function VecPair(k: IptcKey, e: Element): (r: Option<IptcPair>)
    ensures r.Some? ==> ClassOf(k) in {ListClass, AgeListClass} && r.value.key == k
    ensures (forall c | c in Children(ListParent(e)) :: !IsCollectionElement(c)) ==> r.None?
    ensures ClassOf(k) == ListClass && r.Some? ==>
              r.value == ListPair(k, ElementTexts(FirstCollection(Children(ListParent(e))).value.children))
  {
    match FirstCollection(Children(ListParent(e)))
    case None => None
    case Some(list) => ListPairOf(k, ElementTexts(list.children))
  }

  /** A well-named collection element is never an `rdf:Description`. */
  lemma CollectionNotDescription(c: Element)
    requires WellNamed(c) && IsCollectionElement(c)
    ensures !(c.prefix == Some("rdf") && c.name == "Description")
  {
    ListElementsByParts(c);
  }

  /** An element whose only child is a flat collection: as written the
      list comes out empty, while the intended reading has the texts of the
      collection's items. */
  lemma FlatListLost(k: IptcKey, e: Element, coll: Element)
    requires ClassOf(k) == ListClass
    requires e.children == [ElementNode(coll)] && WellNamed(coll) && IsCollectionElement(coll)
    requires forall c | c in Children(coll) :: !IsCollectionElement(c)
    ensures VecPairAsWritten(k, e) == Some(ListPair(k, []))
    ensures VecPair(k, e) == Some(ListPair(k, ElementTexts(coll.children)))
  {
    assert ChildElements(e.children[1..]) == [];
    assert Children(e) == [coll];
    CollectionNotDescription(coll);
    assert FirstWithName([coll], "rdf", "Description") == None;
    assert ListParent(e) == e;
    assert FirstCollection([coll]) == Some(coll);
  }

  /** `<dc:creator><rdf:Seq><rdf:li>t</rdf:li></rdf:Seq></dc:creator>`. */
  function CreatorExample(t: string): Element
  {
    var sq := Element(Some("rdf"), Some(RdfNamespace), "Seq", [], [ElementNode(LiOf(t))]);
    Element(Some("dc"), Some("http://purl.org/dc/elements/1.1/"), "creator", [], [ElementNode(sq)])
  }

  /** One `rdf:li` item has its one text. */
  lemma OneLiText(t: string)
    ensures ElementTexts([ElementNode(LiOf(t))]) == [t]
  {
    var ns := [ElementNode(LiOf(t))];
    assert ChildElements(ns[1..]) == [];
    assert ChildElements(ns) == [LiOf(t)];
    SingleTextChild(LiOf(t), t);
    FilterSomeAllSome([GetText(LiOf(t))], [t]);
  }

  /** On that input the code as written yields an empty creator list; the
      intended reading has the one creator. */
  lemma CreatorListLost(t: string)
    ensures VecPairAsWritten(Creator, CreatorExample(t)) == Some(ListPair(Creator, []))
    ensures VecPair(Creator, CreatorExample(t)) == Some(ListPair(Creator, [t]))
  {
    var sq := Element(Some("rdf"), Some(RdfNamespace), "Seq", [], [ElementNode(LiOf(t))]);
    assert ChildElements(sq.children[1..]) == [];
    assert Children(sq) == [LiOf(t)];
    ListElementsByParts(LiOf(t));
    RdfCollectionIs(sq);
    FlatListLost(Creator, CreatorExample(t), sq);
    OneLiText(t);
  }

  // ---------------------------------------------------------------------
  // The packet walk

  /** The text of a simple element as written: its own text, else the text
      of its child looked up as `"rdf::Description"`, which splits into
      prefix `rdf` and name `:Description` and so matches no well-named
      child. */
  function SimpleTextAsWritten(e: Element): Option<string>
  {
    match GetText(e)
    case Some(t) => Some(t)
    case None =>
      match PrefixedChild(e, "rdf::Description")
      case Some(d) => GetText(d)
      case None => None
  }

  /** As written, the `rdf:Description` fallback never fires. */
  lemma DescriptionFallbackDead(e: Element)
    requires forall c | c in Children(e) :: WellNamed(c)
    ensures SimpleTextAsWritten(e) == GetText(e)
  {
    DoubleColonKeySplits();
    PrefixedChildSplit(e, "rdf", ":Description");
    ColonNameUnmatched(Children(e), "rdf", ":Description");
  }

  /** The key as written splits at its first colon, leaving a colon in the
      local name. */
  lemma DoubleColonKeySplits()
    ensures "rdf" + ":" + ":Description" == "rdf::Description"
    ensures ColonFree("rdf") && ':' in ":Description"
  {
    assert ":Description"[0] == ':';
  }

  /** The intended key splits into `rdf` and `Description`. */
  lemma DescriptionKeySplits()
    ensures "rdf" + ":" + "Description" == "rdf:Description"
    ensures ColonFree("rdf")
  {
  }

  /** No well-named element has a local name with a colon in it. */
  lemma ColonNameUnmatched(cs: seq<Element>, p: string, n: string)
    requires ':' in n && forall c | c in cs :: WellNamed(c)
    ensures FirstWithName(cs, p, n) == None
  {
    forall c | c in cs
      ensures c.name != n
    {
      assert ColonFree(c.name);
    }
  }

  /** The text of a simple element: its own text, else that of its first
      `rdf:Description` child. */
  function SimpleText(e: Element): (r: Option<string>)
    ensures GetText(e).Some? ==> r == GetText(e)
    ensures GetText(e).None? && r.Some? ==>
              exists d | d in Children(e) :: d.prefix == Some("rdf") && d.name == "Description" && GetText(d) == r
  {
    match GetText(e)
    case Some(t) => Some(t)
    case None =>
      DescriptionKeySplits();
      PrefixedChildSplit(e, "rdf", "Description");
      match PrefixedChild(e, "rdf:Description")
      case Some(d) => GetText(d)
      case None => None
  }

  /** `<Iptc4xmpCore:CountryCode><rdf:Description>US</rdf:Description></Iptc4xmpCore:CountryCode>`. */
  function WrappedCodeExample(): Element
  {
    var d := Element(Some("rdf"), Some(RdfNamespace), "Description", [], [TextNode("US")]);
    Element(Some("Iptc4xmpCore"), Some("http://iptc.org/std/Iptc4xmpCore/1.0/xmlns/"), "CountryCode", [], [ElementNode(d)])
  }

  /** On that input the code as written finds no text. */
  lemma WrappedTextMissedAsWritten()
    ensures SimpleTextAsWritten(WrappedCodeExample()) == None
  {
    var d := Element(Some("rdf"), Some(RdfNamespace), "Description", [], [TextNode("US")]);
    var e := WrappedCodeExample();
    assert Children(e) == [d];
    assert WellNamed(d);
    DescriptionFallbackDead(e);
  }

  /** On that input the intended reading finds `US`. */
  lemma WrappedTextFound()
    ensures SimpleText(WrappedCodeExample()) == Some("US")
  {
    var d := Element(Some("rdf"), Some(RdfNamespace), "Description", [], [TextNode("US")]);
    SingleTextChild(d, "US");
    WrappedText(WrappedCodeExample(), d);
  }

  /** An element whose only child is an `rdf:Description` has that child's
      text. */
  lemma WrappedText(e: Element, d: Element)
    requires e.children == [ElementNode(d)] && d.prefix == Some("rdf") && d.name == "Description"
    ensures SimpleText(e) == GetText(d)
  {
    assert Children(e) == [d];
    assert GetText(e) == None;
    DescriptionKeySplits();
    PrefixedChildSplit(e, "rdf", "Description");
    assert FirstWithName([d], "rdf", "Description") == Some(d);
  }

  /** The pair an attribute of an `rdf:Description` gives: only a prefixed
      attribute whose `prefix:name` is an IPTC key, with a simple value. */
  function AttrPair(a: Attribute, cat: Catalog): (r: Option<IptcPair>)
    ensures a.prefix.None? ==> r.None?
    ensures r.Some? ==> cat.fromXmpId(a.prefix.value + ":" + a.localName) == Some(r.value.key)
    ensures r.Some? ==> r == PairFromSimpleText(r.value.key, a.value, cat.parseF64)
  {
    match a.prefix
    case None => None
    case Some(p) =>
      match cat.fromXmpId(p + ":" + a.localName)
      case None => None
      case Some(k) => PairFromSimpleText(k, a.value, cat.parseF64)
  }

  /** The key table accepts whole `prefix:name` ids only, as the generated
      `from_xmp_id` does: an id it knows always holds a colon. */
  ghost predicate PrefixedIds(cat: Catalog)
  {
    forall s | cat.fromXmpId(s).Some? :: !ColonFree(s)
  }

  /** The text of a simple element, as written or as intended. */
  function TextFor(e: Element, asWritten: bool): Option<string>
  {
    if asWritten then SimpleTextAsWritten(e) else SimpleText(e)
  }

  /** The list pair of a vec-typed key, as written or as intended. */
  function VecPairFor(k: IptcKey, e: Element, asWritten: bool): Option<IptcPair>
  {
    if asWritten then VecPairAsWritten(k, e) else VecPair(k, e)
  }

  /** The pair a child element of an `rdf:Description` gives once its key
      is looked up by `id`: a simple text value is tried first, then a list
      for a vec-typed key, then a struct for a struct-typed key (shorthand
      when it has no children). With `asWritten`, the text and the list are
      read as the source writes them. */
  function ChildPairFor(e: Element, id: string, cat: Catalog, asWritten: bool): (r: Option<IptcPair>)
    ensures cat.fromXmpId(id).None? ==> r.None?
    ensures r.Some? ==> cat.fromXmpId(id).Some?
    ensures var k := cat.fromXmpId(id);
            var text := TextFor(e, asWritten);
            k.Some? && text.Some? && PairFromSimpleText(k.value, text.value, cat.parseF64).Some? ==>
              r == PairFromSimpleText(k.value, text.value, cat.parseF64)
    ensures var k := cat.fromXmpId(id);
            k.Some? && r.Some? && r.value.ListPair? ==> cat.hasVecTy(k.value) || cat.hasStructTy(k.value)
  {
    match cat.fromXmpId(id)
    case None => None
    case Some(k) =>
      var text := TextFor(e, asWritten);
      var simple := if text.Some? then PairFromSimpleText(k, text.value, cat.parseF64) else None;
      if simple.Some? then simple
      else
        var vec := if cat.hasVecTy(k) then VecPairFor(k, e, asWritten) else None;
        if vec.Some? then vec
        else if cat.hasStructTy(k) then
          if e.children == [] then cat.shorthandStruct(k, e) else cat.regularStruct(k, e)
        else None
  }

  /** The pair a child element gives as the source writes it: the key is
      looked up by the element's local name, which an id table of whole
      `prefix:name` ids never holds, so a well-named child gives nothing;
      past that lookup, the text and the list are read as written too. */
  function ChildPairAsWritten(e: Element, cat: Catalog): (r: Option<IptcPair>)
    ensures cat.fromXmpId(e.name).None? ==> r.None?
    ensures PrefixedIds(cat) && WellNamed(e) ==> r.None?
  {
    ChildPairFor(e, e.name, cat, true)
  }

  /** The pair a child element of an `rdf:Description` gives, with its key
      looked up by its prefixed name, as the attributes' keys are. */
  function ChildPair(e: Element, cat: Catalog): (r: Option<IptcPair>)
    ensures cat.fromXmpId(PrefixedName(e)).None? ==> r.None?
    ensures r.Some? ==> cat.fromXmpId(PrefixedName(e)).Some?
    ensures var k := cat.fromXmpId(PrefixedName(e));
            k.Some? && SimpleText(e).Some? && PairFromSimpleText(k.value, SimpleText(e).value, cat.parseF64).Some? ==>
              r == PairFromSimpleText(k.value, SimpleText(e).value, cat.parseF64)
    ensures var k := cat.fromXmpId(PrefixedName(e));
            k.Some? && r.Some? && r.value.ListPair? ==> cat.hasVecTy(k.value) || cat.hasStructTy(k.value)
  {
    ChildPairFor(e, PrefixedName(e), cat, false)
  }

  /** The pairs of one `rdf:Description`: its attribute pairs in attribute
      order, then its child-element pairs in document order. */
  function DescriptionPairs(d: Element, cat: Catalog): (r: seq<IptcPair>)
    ensures AttrPairs(d.attributes, cat) <= r
    ensures r[|AttrPairs(d.attributes, cat)|..] == ChildPairs(Children(d), cat)
  {
    var a := AttrPairs(d.attributes, cat);
    var c := ChildPairs(Children(d), cat);
    assert (a + c)[..|a|] == a && (a + c)[|a|..] == c;
    a + c
  }

  function AttrPairs(attrs: seq<Attribute>, cat: Catalog): (r: seq<IptcPair>)
    ensures forall p | p in r :: exists i | 0 <= i < |attrs| :: AttrPair(attrs[i], cat) == Some(p)
  {
    FilterSome(seq(|attrs|, i requires 0 <= i < |attrs| => AttrPair(attrs[i], cat)))
  }

  function ChildPairs(cs: seq<Element>, cat: Catalog): (r: seq<IptcPair>)
    ensures forall p | p in r :: exists i | 0 <= i < |cs| :: ChildPair(cs[i], cat) == Some(p)
  {
    FilterSome(seq(|cs|, i requires 0 <= i < |cs| => ChildPair(cs[i], cat)))
  }

  /** The child pairs as the source looks them up, by local name. */
  function ChildPairsAsWritten(cs: seq<Element>, cat: Catalog): (r: seq<IptcPair>)
    ensures forall p | p in r :: exists i | 0 <= i < |cs| :: ChildPairAsWritten(cs[i], cat) == Some(p)
  {
    FilterSome(seq(|cs|, i requires 0 <= i < |cs| => ChildPairAsWritten(cs[i], cat)))
  }

  /** As written, no well-named child element yields a pair: only the
      attributes of an `rdf:Description` do. */
  lemma ChildPairsLostAsWritten(cs: seq<Element>, cat: Catalog)
    requires PrefixedIds(cat) && forall i | 0 <= i < |cs| :: WellNamed(cs[i])
    ensures ChildPairsAsWritten(cs, cat) == []
  {
    FilterSomeNone(seq(|cs|, i requires 0 <= i < |cs| => ChildPairAsWritten(cs[i], cat)));
  }

  /** `<Iptc4xmpCore:CountryCode>v</Iptc4xmpCore:CountryCode>`, a country
      code written as a child element. */
  function CountryCodeChild(v: string): Element
  {
    Element(Some("Iptc4xmpCore"), Some("http://iptc.org/std/Iptc4xmpCore/1.0/xmlns/"), "CountryCode", [], [TextNode(v)])
  }

  /** A country code written as a child element is lost as written and
      read as its pair when the key is looked up by prefixed name. */
  lemma CountryCodeChildLost(cat: Catalog, v: string)
    requires PrefixedIds(cat) && cat.fromXmpId("Iptc4xmpCore:CountryCode") == Some(CountryCodeLegacy)
    ensures ChildPairsAsWritten([CountryCodeChild(v)], cat) == []
    ensures ChildPairs([CountryCodeChild(v)], cat) == [TextPair(CountryCodeLegacy, v)]
  {
    var e := CountryCodeChild(v);
    assert WellNamed(e);
    ChildPairsLostAsWritten([e], cat);
    CountryCodeChildPair(cat, v);
    FilterSomeAllSome(seq(1, i requires 0 <= i < 1 => ChildPair([e][i], cat)), [TextPair(CountryCodeLegacy, v)]);
  }

  /** Looked up by its prefixed name, the `CountryCode` child gives its
      text as the legacy country code. */
  lemma CountryCodeChildPair(cat: Catalog, v: string)
    requires cat.fromXmpId("Iptc4xmpCore:CountryCode") == Some(CountryCodeLegacy)
    ensures ChildPair(CountryCodeChild(v), cat) == Some(TextPair(CountryCodeLegacy, v))
  {
    var e := CountryCodeChild(v);
    assert PrefixedName(e) == "Iptc4xmpCore:CountryCode";
    SingleTextChild(e, v);
    assert SimpleText(e) == Some(v);
  }

  /** The `rdf:Description` children of `rdf:RDF`, by prefixed name. */
  function Descriptions(cs: seq<Element>): (r: seq<Element>)
    ensures forall d | d in r :: d in cs && PrefixedName(d) == "rdf:Description"
    ensures forall d | d in cs && PrefixedName(d) == "rdf:Description" :: d in r
  {
    if cs == [] then []
    else
      var rest := Descriptions(cs[1..]);
      assert forall c | c in cs[1..] :: c in cs;
      if PrefixedName(cs[0]) == "rdf:Description" then [cs[0]] + rest else rest
  }

  function AllPairs(ds: seq<Element>, cat: Catalog): seq<IptcPair>
  {
    if ds == [] then [] else DescriptionPairs(ds[0], cat) + AllPairs(ds[1..], cat)
  }

  /** What reading a packet gives. The source stops with `todo!()` when
      there is no `rdf:RDF` element. */
  datatype IptcOutcome = Pairs(pairs: seq<IptcPair>) | NoRdfElement

  /** The element `rdf:RDF` is looked for under: a child `x:xmp_meta` of a
      root so named, else the root itself. */
  function PacketParent(doc: Element): (r: Element)
    ensures PrefixedName(doc) != "x:xmp_meta" ==> r == doc
  {
    if PrefixedName(doc) == "x:xmp_meta" then
      match PrefixedChild(doc, "x:xmp_meta")
      case Some(m) => m
      case None => doc
    else doc
  }

  /** `parse_xmp_for_iptc` on a parsed document: the pairs of every
      `rdf:Description` under `rdf:RDF`, description by description. */
  function ParseXmpForIptc(doc: Element, cat: Catalog): (r: IptcOutcome)
    ensures r == NoRdfElement <==> PrefixedChild(PacketParent(doc), "rdf:RDF").None?
    ensures r.Pairs? ==> r.pairs == AllPairs(Descriptions(Children(PrefixedChild(PacketParent(doc), "rdf:RDF").value)), cat)
  {
    match PrefixedChild(PacketParent(doc), "rdf:RDF")
    case None => NoRdfElement
    case Some(rdf) => Pairs(AllPairs(Descriptions(Children(rdf)), cat))
  }

  /** A packet whose `rdf:RDF` holds one `rdf:Description` yields that
      description's pairs. */
  lemma OneDescriptionPacket(doc: Element, rdf: Element, desc: Element, cat: Catalog)
    requires PrefixedName(doc) != "x:xmp_meta"
    requires doc.children == [ElementNode(rdf)] && rdf.prefix == Some("rdf") && rdf.name == "RDF"
    requires rdf.children == [ElementNode(desc)] && PrefixedName(desc) == "rdf:Description"
    ensures ParseXmpForIptc(doc, cat) == Pairs(DescriptionPairs(desc, cat))
  {
    PrefixedChildSplit(doc, "rdf", "RDF");
    assert "rdf" + ":" + "RDF" == "rdf:RDF";
    assert ChildElements(doc.children[1..]) == [];
    assert Children(doc) == [rdf];
    assert FirstWithName([rdf], "rdf", "RDF") == Some(rdf);
    assert ChildElements(rdf.children[1..]) == [];
    assert Children(rdf) == [desc];
    assert Descriptions([desc]) == [desc];
    assert AllPairs([desc], cat) == DescriptionPairs(desc, cat) + AllPairs([], cat);
  }

  /** A childless description with one attribute that gives a pair yields
      that one pair. */
  lemma OneAttributeDescription(desc: Element, cat: Catalog, p: IptcPair)
    requires desc.children == [] && |desc.attributes| == 1 && AttrPair(desc.attributes[0], cat) == Some(p)
    ensures DescriptionPairs(desc, cat) == [p]
  {
    assert Children(desc) == [];
    assert ChildPairs([], cat) == [];
    var ps := seq(1, i requires 0 <= i < 1 => AttrPair(desc.attributes[i], cat));
    FilterSomeAllSome(ps, [p]);
    assert AttrPairs(desc.attributes, cat) == [p];
    assert [p] + [] == [p];
  }

  /** A packet whose one description has one attribute, and that attribute
      a pair, yields that one pair. */
  lemma OneAttributePacket(doc: Element, rdf: Element, desc: Element, cat: Catalog, p: IptcPair)
    requires PrefixedName(doc) != "x:xmp_meta"
    requires doc.children == [ElementNode(rdf)] && rdf.prefix == Some("rdf") && rdf.name == "RDF"
    requires rdf.children == [ElementNode(desc)] && PrefixedName(desc) == "rdf:Description"
    requires desc.children == [] && |desc.attributes| == 1 && AttrPair(desc.attributes[0], cat) == Some(p)
    ensures ParseXmpForIptc(doc, cat) == Pairs([p])
  {
    OneDescriptionPacket(doc, rdf, desc, cat);
    OneAttributeDescription(desc, cat, p);
  }

  /** A packet whose one description carries `Iptc4xmpCore:CountryCode="v"`
      yields the one country-code pair. */
  lemma CountryCodeExample(cat: Catalog, v: string)
    requires cat.fromXmpId("Iptc4xmpCore:CountryCode") == Some(CountryCodeLegacy)
    ensures var iptc := "http://iptc.org/std/Iptc4xmpCore/1.0/xmlns/";
            var desc := Element(Some("rdf"), Some(RdfNamespace), "Description",
                                [Attribute(Some("Iptc4xmpCore"), Some(iptc), "CountryCode", v)], []);
            var rdf := Element(Some("rdf"), Some(RdfNamespace), "RDF", [], [ElementNode(desc)]);
            var doc := Element(Some("x"), Some("adobe:ns:meta/"), "xmpmeta", [], [ElementNode(rdf)]);
            ParseXmpForIptc(doc, cat) == Pairs([TextPair(CountryCodeLegacy, v)])
  {
    var iptc := "http://iptc.org/std/Iptc4xmpCore/1.0/xmlns/";
    var a := Attribute(Some("Iptc4xmpCore"), Some(iptc), "CountryCode", v);
    var desc := Element(Some("rdf"), Some(RdfNamespace), "Description", [a], []);
    var rdf := Element(Some("rdf"), Some(RdfNamespace), "RDF", [], [ElementNode(desc)]);
    var doc := Element(Some("x"), Some("adobe:ns:meta/"), "xmpmeta", [], [ElementNode(rdf)]);
    assert |PrefixedName(doc)| == 9;
    assert "rdf" + ":" + "Description" == "rdf:Description";
    assert "Iptc4xmpCore" + ":" + "CountryCode" == "Iptc4xmpCore:CountryCode";
    assert AttrPair(a, cat) == Some(TextPair(CountryCodeLegacy, v));
    OneAttributePacket(doc, rdf, desc, cat, TextPair(CountryCodeLegacy, v));
  }
}

=== FILE: jpeg.dfy ===
/** JPEG files: markers, the segment scan, and the Exif and XMP carried in
    APP1 segments (raves_metadata/src/providers/jpeg/parse.rs).
 */
module Jpeg {
  import opened Std
  import opened Bytes

  const App1Code: uint8 := 0xE1
  const SoiCode: uint8 := 0xD8
  const EoiCode: uint8 := 0xD9
  const SosCode: uint8 := 0xDA

  /** `STANDALONE_MARKERS`: the restart markers, SOI, EOI and TEM, which
      carry no length and no payload. */
  const StandaloneCodes: set<uint8> := {0xD0, 0xD1, 0xD2, 0xD3, 0xD4, 0xD5, 0xD6, 0xD7, 0xD8, 0xD9, 0x01}

  /** `Marker`: a standalone marker, or one whose payload of `len` bytes
      follows (the stored length less its own two bytes). */
  datatype Marker = Standalone(code: uint8) | Full(code: uint8, len: uint16)

  /** `JpegConstructionError`; the errors of the XML parser and writer the
      source calls are not told apart. */
  datatype JpegError =
    | FirstMarkerWasNotSoi(markerCode: uint8)
    | FirstMarkerByteWasWrong(found: uint8)
    | NoMarkerCode
    | MarkerCodeDisallowed(code: uint8)
    | NoLength(markerCode: uint8)
    | NegativeLength(markerCode: uint8, originalLen: uint16)
    | NoDataForPayload(markerCode: uint8, originalLen: uint16, remainingInputLen: nat)
    | OuttaDataForApp1
    | OuttaDataForSos
    | NoOffsetForExtendedXmp
    | MultipleStandardXmpBlobs
    | CantConcatExtendedXmpWithoutStandardXmp
    | ExtendedXmpMissingChunk(offset: uint32)
    | XmpDidntParse
    | ExtendedXmpCouldntFindGuid
    | ExtendedXmpGuidNot32Bytes
    | ExtendedXmpWriteFailure

  // ---------------------------------------------------------------------
  // Markers

  /** `n` fill bytes. */
  function Fill(n: nat): (r: Bytes)
    ensures |r| == n && forall i | 0 <= i < n :: r[i] == 0xFF
  {
    seq(n, _ => 0xFF)
  }

  /** The marker code after the leading `0xFF`: fill bytes are skipped and
      the first other byte is the code. */
  function MarkerCode(input: Bytes): (r: Result<Parsed<uint8>, JpegError>)
    ensures r.Err? ==> r.error == NoMarkerCode && forall i | 0 <= i < |input| :: input[i] == 0xFF
    ensures r.Ok? ==>
              var k := |input| - |r.value.rest| - 1;
              && 0 <= k && input[k] == r.value.value != 0xFF && r.value.rest == input[k + 1..]
              && forall i | 0 <= i < k :: input[i] == 0xFF
    decreases |input|
  {
    if input == [] then Err(NoMarkerCode)
    else if input[0] != 0xFF then Ok(Parsed(input[0], input[1..]))
    else MarkerCode(input[1..])
  }

  /** `marker`: a `0xFF`, fill bytes, the code, and for a marker with a
      payload the big-endian length that counts its own two bytes. */
  function ParseMarker(input: Bytes): (r: Result<Parsed<Marker>, JpegError>)
    ensures input == [] ==> r == Err(NoMarkerCode)
    ensures input != [] && input[0] != 0xFF ==> r == Err(FirstMarkerByteWasWrong(input[0]))
    ensures r.Ok? ==> |r.value.rest| < |input| && input[|input| - |r.value.rest|..] == r.value.rest
    ensures r.Ok? ==> r.value.value.code !in {0x00, 0xFF}
    ensures r.Ok? ==> (r.value.value.Standalone? <==> r.value.value.code in StandaloneCodes)
    ensures r.Err? && r.error.MarkerCodeDisallowed? ==> r.error.code == 0
    ensures r.Err? && r.error.NegativeLength? ==> r.error.originalLen < 2
  {
    if input == [] then Err(NoMarkerCode)
    else if input[0] != 0xFF then Err(FirstMarkerByteWasWrong(input[0]))
    else
      var code :- MarkerCode(input[1..]);
      assert input[1..][|input| - 1 - |code.rest|..] == code.rest;
      if code.value in {0x00, 0xFF} then Err(MarkerCodeDisallowed(code.value))
      else if code.value in StandaloneCodes then Ok(Parsed(Standalone(code.value), code.rest))
      else
        var len :- ReadU16(Big, code.rest).OkOr(NoLength(code.value));
        if len.value < 2 then Err(NegativeLength(code.value, len.value))
        else Ok(Parsed(Full(code.value, len.value - 2), len.rest))
  }

  /** A marker the parser can give back. */
  predicate ValidMarker(m: Marker)
  {
    && m.code !in {0x00, 0xFF}
    && (m.Standalone? <==> m.code in StandaloneCodes)
    && (m.Full? ==> m.len as int + 2 < 0x1_0000)
  }

  /** The bytes of a marker with `fill` fill bytes. */
  function EncodeMarker(m: Marker, fill: nat): Bytes
  {
    [0xFF] + Fill(fill) + [m.code] + (if m.Full? && m.len as int + 2 < 0x1_0000 then Encode(Big, 2, m.len + 2) else [])
  }

  /** Fill bytes then a code read back as that code. */
  lemma MarkerCodeRoundTrip(fill: nat, code: uint8, rest: Bytes)
    requires code != 0xFF
    ensures MarkerCode(Fill(fill) + [code] + rest) == Ok(Parsed(code, rest))
  {
    var input := Fill(fill) + [code] + rest;
    assert input[fill] == code;
    var r := MarkerCode(input);
    var k := |input| - |r.value.rest| - 1;
    assert input[k] != 0xFF;
    assert input[fill + 1..] == rest;
  }

  /** A laid-out marker reads back, whatever fill it was given. */
  lemma MarkerRoundTrip(m: Marker, fill: nat, rest: Bytes)
    requires ValidMarker(m)
    ensures ParseMarker(EncodeMarker(m, fill) + rest) == Ok(Parsed(m, rest))
  {
    var tail := if m.Full? then Encode(Big, 2, m.len + 2) + rest else rest;
    var input := EncodeMarker(m, fill) + rest;
    assert input == [0xFF] + (Fill(fill) + [m.code] + tail);
    assert input[1..] == Fill(fill) + [m.code] + tail;
    MarkerCodeRoundTrip(fill, m.code, tail);
    if m.Full? {
      ReadU16RoundTrip(Big, m.len + 2, rest);
    }
    ParseMarkerSteps(input, m, tail, rest);
  }

  /** The reads `ParseMarker` makes, when they give a valid marker's code
      and (for a marker with a payload) its stored length, give the marker. */
  lemma ParseMarkerSteps(input: Bytes, m: Marker, tail: Bytes, rest: Bytes)
    requires ValidMarker(m)
    requires input != [] && input[0] == 0xFF && MarkerCode(input[1..]) == Ok(Parsed(m.code, tail))
    requires m.Standalone? ==> tail == rest
    requires m.Full? ==> ReadU16(Big, tail) == Some(Parsed((m.len as int + 2) as uint16, rest))
    ensures ParseMarker(input) == Ok(Parsed(m, rest))
  {
  }

  // ---------------------------------------------------------------------
  // Entropy-coded data after SOS

  /** A marker starts at `i`: a `0xFF` that is followed by neither a stuffed
      `0x00` nor a restart code. */
  predicate MarkerStartAt(s: Bytes, i: nat)
  {
    i + 1 < |s| && s[i] == 0xFF && s[i + 1] != 0x00 && !(0xD0 <= s[i + 1] <= 0xD7)
  }

  /** The SOS loop: bytes are skipped one at a time until a marker starts;
      fewer than two bytes left is an error. */
  function SkipEntropy(input: Bytes): (r: Result<Bytes, JpegError>)
    ensures r.Err? ==> r.error == OuttaDataForSos
    ensures r.Ok? ==> |r.value| <= |input| && input[|input| - |r.value|..] == r.value
    decreases |input|
  {
    if |input| < 2 then Err(OuttaDataForSos)
    else if input[0] != 0xFF || input[1] == 0x00 || 0xD0 <= input[1] <= 0xD7 then
      var r := SkipEntropy(input[1..]);
      if r.Ok? then assert input[1..][|input| - 1 - |r.value|..] == r.value; r else r
    else Ok(input)
  }

  /** The SOS loop stops at the first marker in the input, and fails
      exactly when there is none. */
  lemma {:induction false} SkipEntropyFindsFirst(input: Bytes)
    ensures SkipEntropy(input).Ok? <==> exists i :: MarkerStartAt(input, i)
    ensures SkipEntropy(input).Ok? ==>
              var at := |input| - |SkipEntropy(input).value|;
              MarkerStartAt(input, at) && forall j | 0 <= j < at :: !MarkerStartAt(input, j)
    decreases |input|
  {
    if |input| >= 2 && !MarkerStartAt(input, 0) {
      var tail := input[1..];
      SkipEntropyFindsFirst(tail);
      forall i: nat | MarkerStartAt(input, i) ensures i >= 1 && MarkerStartAt(tail, i - 1) {
        if i == 0 { assert false; }
      }
      forall i: nat | MarkerStartAt(tail, i) ensures MarkerStartAt(input, i + 1) {
      }
      if SkipEntropy(input).Ok? {
        var at := |input| - |SkipEntropy(input).value|;
        forall j | 0 <= j < at ensures !MarkerStartAt(input, j) {
          if j > 0 { assert !MarkerStartAt(tail, j - 1); }
        }
      }
    } else if |input| < 2 {
      forall i ensures !MarkerStartAt(input, i) {}
    } else {
      assert MarkerStartAt(input, 0);
    }
  }

  // ---------------------------------------------------------------------
  // APP1 payloads

  /** `Exif\0\0`. */
  const ExifSig: Bytes := [0x45, 0x78, 0x69, 0x66, 0x00, 0x00]

  /** `http://ns.adobe.com/xap/1.0/` and a NUL: StandardXMP. */
  const XmpSig: Bytes := [
    0x68, 0x74, 0x74, 0x70, 0x3A, 0x2F, 0x2F, 0x6E, 0x73, 0x2E, 0x61, 0x64,
    0x6F, 0x62, 0x65, 0x2E, 0x63, 0x6F, 0x6D, 0x2F, 0x78, 0x61, 0x70, 0x2F,
    0x31, 0x2E, 0x30, 0x2F, 0x00
  ]

  /** `http://ns.adobe.com/xmp/extension/` and a NUL: ExtendedXMP. */
  const XmpExtSig: Bytes := [
    0x68, 0x74, 0x74, 0x70, 0x3A, 0x2F, 0x2F, 0x6E, 0x73, 0x2E, 0x61, 0x64,
    0x6F, 0x62, 0x65, 0x2E, 0x63, 0x6F, 0x6D, 0x2F, 0x78, 0x6D, 0x70, 0x2F,
    0x65, 0x78, 0x74, 0x65, 0x6E, 0x73, 0x69, 0x6F, 0x6E, 0x2F, 0x00
  ]

  /** An ExtendedXMP GUID: 32 ASCII hex digits. */
  type Guid = s: Bytes | |s| == 32 witness seq(32, _ => 0)

  /** `JpegXmpExtended`: one ExtendedXMP chunk. */
  datatype ExtendedChunk = ExtendedChunk(totalLen: uint32, offset: uint32, payload: Bytes)

  /** `JpegXmp`: the StandardXMP packet, and the ExtendedXMP chunks by GUID
      and then by offset. */
  datatype JpegXmp = JpegXmp(standard: Option<Bytes>, extended: map<Guid, map<uint32, ExtendedChunk>>)

  /** What the scan has collected so far. */
  datatype Collected = Collected(exif: Option<Bytes>, xmp: Option<JpegXmp>)

  /** The Exif part of an APP1 payload: a payload starting with the Exif
      signature loses it, and what follows is kept unless an Exif blob was
      already found. Gives the payload the XMP checks see next. */
  function App1Exif(payload: Bytes, exif: Option<Bytes>): (r: (Bytes, Option<Bytes>))
    ensures exif.Some? ==> r.1 == exif
    ensures ExifSig <= payload ==> r.0 == payload[6..] && (exif.None? ==> r.1 == Some(payload[6..]))
    ensures !(ExifSig <= payload) ==> r == (payload, exif)
  {
    if ExifSig <= payload then
      (payload[|ExifSig|..], if exif.None? then Some(payload[|ExifSig|..]) else exif)
    else (payload, exif)
  }

  /** The StandardXMP part: a payload starting with the XMP signature loses
      it, and is kept as the StandardXMP packet; a second one is an
      error. */
  function App1StandardXmp(payload: Bytes, xmp: Option<JpegXmp>): (r: Result<(Bytes, Option<JpegXmp>), JpegError>)
    ensures r.Err? <==> XmpSig <= payload && xmp.Some?
    ensures r.Err? ==> r.error == MultipleStandardXmpBlobs
    ensures r.Ok? && XmpSig <= payload ==>
              r.value == (payload[|XmpSig|..], Some(JpegXmp(Some(payload[|XmpSig|..]), map[])))
    ensures !(XmpSig <= payload) ==> r == Ok((payload, xmp))
  {
    if XmpSig <= payload then
      if xmp.Some? then Err(MultipleStandardXmpBlobs)
      else
        var body := payload[|XmpSig|..];
        Ok((body, Some(JpegXmp(Some(body), map[]))))
    else Ok((payload, xmp))
  }

  /** The fields of an ExtendedXMP chunk after its signature: the GUID, the
      full length, the offset, and the chunk's bytes. */
  function ParseExtendedChunk(payload: Bytes): (r: Result<(Guid, ExtendedChunk), JpegError>)
    ensures r.Ok? <==> |payload| >= 40
    ensures |payload| < 36 ==> r == Err(OuttaDataForApp1)
    ensures 36 <= |payload| < 40 ==> r == Err(NoOffsetForExtendedXmp)
    ensures r.Ok? ==> r.value.0 == payload[..32] && r.value.1.payload == payload[40..]
  {
    var guid :- Take(32, payload).OkOr(OuttaDataForApp1);
    var total :- ReadU32(Big, guid.rest).OkOr(OuttaDataForApp1);
    var offset :- ReadU32(Big, total.rest).OkOr(NoOffsetForExtendedXmp);
    assert offset.rest == payload[40..];
    Ok((guid.value, ExtendedChunk(total.value, offset.value, offset.rest)))
  }

  /** A chunk filed under its GUID and offset; a later chunk at the same
      offset replaces the earlier one. */
  function AddChunk(xmp: Option<JpegXmp>, guid: Guid, chunk: ExtendedChunk): (r: JpegXmp)
    ensures guid in r.extended && chunk.offset in r.extended[guid] && r.extended[guid][chunk.offset] == chunk
    ensures r.standard == if xmp.Some? then xmp.value.standard else None
    ensures xmp.Some? ==> forall g | g in xmp.value.extended && g != guid :: g in r.extended && r.extended[g] == xmp.value.extended[g]
    ensures xmp.Some? && guid in xmp.value.extended ==>
              forall o | o in xmp.value.extended[guid] && o != chunk.offset ::
                o in r.extended[guid] && r.extended[guid][o] == xmp.value.extended[guid][o]
    ensures r.extended.Keys == (if xmp.Some? then xmp.value.extended.Keys else {}) + {guid}
  {
    match xmp
    case None => JpegXmp(None, map[guid := map[chunk.offset := chunk]])
    case Some(x) =>
      var inner := if guid in x.extended then x.extended[guid] else map[];
      x.(extended := x.extended[guid := inner[chunk.offset := chunk]])
  }

  /** The ExtendedXMP part: a payload starting with the extension signature
      is read as a chunk and filed. */
  function App1ExtendedXmp(payload: Bytes, xmp: Option<JpegXmp>): (r: Result<Option<JpegXmp>, JpegError>)
    ensures !(XmpExtSig <= payload) ==> r == Ok(xmp)
    ensures r.Err? ==> r.error == OuttaDataForApp1 || r.error == NoOffsetForExtendedXmp
    ensures r.Ok? && XmpExtSig <= payload ==> r.value.Some? && |r.value.value.extended| > 0
  {
    if XmpExtSig <= payload then
      var found :- ParseExtendedChunk(payload[|XmpExtSig|..]);
      Ok(Some(AddChunk(xmp, found.0, found.1)))
    else Ok(xmp)
  }

  /** An APP1 payload, checked for Exif, then StandardXMP, then
      ExtendedXMP, each check seeing the payload the previous one left. */
  function ReadApp1(payload: Bytes, acc: Collected): (r: Result<Collected, JpegError>)
    ensures acc.exif.Some? && r.Ok? ==> r.value.exif == acc.exif
    ensures r.Ok? && r.value.exif != acc.exif ==> ExifSig <= payload && r.value.exif == Some(payload[6..])
    ensures r.Err? ==> r.error in {MultipleStandardXmpBlobs, OuttaDataForApp1, NoOffsetForExtendedXmp}
  {
    var (p1, exif) := App1Exif(payload, acc.exif);
    var (p2, xmp) :- App1StandardXmp(p1, acc.xmp);
    var xmp' :- App1ExtendedXmp(p2, xmp);
    Ok(Collected(exif, xmp'))
  }

  // ---------------------------------------------------------------------
  // The segment scan

  /** What one turn of the scan does: stop, or go on with the input left
      and what has been collected. */
  datatype Turn = Stop | Go(next: Bytes, acc: Collected)

  /** One turn of the loop in `parse`: EOI stops the scan; other standalone
      markers are passed over; SOS is followed by the skip over the
      entropy-coded data; any other marker's payload is taken (an error when
      it overruns the input), and an APP1 payload is read. */
  function ScanTurn(input: Bytes, acc: Collected): (r: Result<Turn, JpegError>)
    ensures r.Ok? && r.value.Go? ==>
              |r.value.next| < |input| && input[|input| - |r.value.next|..] == r.value.next
    ensures r.Ok? && r.value.Go? && acc.exif.Some? ==> r.value.acc.exif == acc.exif
    ensures r.Ok? && r.value.Go? && r.value.acc.exif != acc.exif ==> InfixOf(r.value.acc.exif.value, input)
  {
    var m :- ParseMarker(input);
    var rest := m.rest;
    match m.value
    case Standalone(code) => if code == EoiCode then Ok(Stop) else Ok(Go(rest, acc))
    case Full(code, len) =>
      if code == SosCode then
        var next :- SkipEntropy(rest);
        SuffixOfSuffix(input, rest, |rest| - |next|);
        assert rest[|rest| - |next|..] == next;
        Ok(Go(next, acc))
      else SegmentTurn(input, rest, code, len, acc)
  }

  /** The rest of a turn for a marker with a payload other than SOS, the
      input after the marker being `rest`. */
  function SegmentTurn(input: Bytes, rest: Bytes, code: uint8, len: uint16, acc: Collected): (r: Result<Turn, JpegError>)
    requires |rest| < |input| && input[|input| - |rest|..] == rest
    ensures len as int > |rest| <==> r == Err(NoDataForPayload(code, len, |rest|))
    ensures r.Ok? ==> r.value.Go? && r.value.next == rest[len..]
    ensures r.Ok? && r.value.Go? ==>
              |r.value.next| < |input| && input[|input| - |r.value.next|..] == r.value.next
    ensures r.Ok? && acc.exif.Some? ==> r.value.acc.exif == acc.exif
    ensures r.Ok? && r.value.acc.exif != acc.exif ==> InfixOf(r.value.acc.exif.value, input)
    ensures code != App1Code && r.Ok? ==> r.value.acc == acc
    ensures code == App1Code && len as int <= |rest| ==>
              var app1 := ReadApp1(rest[..len], acc);
              && (app1.Err? ==> r == Err(app1.error))
              && (app1.Ok? ==> r == Ok(Go(rest[len..], app1.value)))
  {
    if len as int > |rest| then Err(NoDataForPayload(code, len, |rest|))
    else
      var payload := rest[..len];
      SuffixOfSuffix(input, rest, len as nat);
      var acc' :- if code == App1Code then ReadApp1(payload, acc) else Ok(acc);
      if acc'.exif != acc.exif then
        PayloadTailInInput(input, rest, len as nat, |ExifSig|);
        Ok(Go(rest[len..], acc'))
      else Ok(Go(rest[len..], acc'))
  }

  /** The tail of a payload lies in the input. */
  lemma PayloadTailInInput(input: Bytes, rest: Bytes, len: nat, k: nat)
    requires |rest| <= |input| && input[|input| - |rest|..] == rest && k <= len <= |rest|
    ensures InfixOf(rest[..len][k..], input)
  {
    var at := |input| - |rest|;
    assert input[at + k..at + len] == rest[..len][k..];
    assert InfixAt(rest[..len][k..], input, at + k);
  }

  /** The loop in `parse`: turns until the input is empty, EOI, or an
      error. */
  function Scan(input: Bytes, acc: Collected): (r: Result<Collected, JpegError>)
    ensures r.Ok? && acc.exif.Some? ==> r.value.exif == acc.exif
    decreases |input|
  {
    if input == [] then Ok(acc)
    else
      var turn :- ScanTurn(input, acc);
      match turn
      case Stop => Ok(acc)
      case Go(next, acc') => Scan(next, acc')
  }

  /** The Exif blob the scan keeps lies in the input. */
  lemma {:induction false} ScanExifInInput(input: Bytes, acc: Collected)
    requires acc.exif.None?
    ensures Scan(input, acc).Ok? && Scan(input, acc).value.exif.Some? ==>
              InfixOf(Scan(input, acc).value.exif.value, input)
    decreases |input|
  {
    if input != [] && ScanTurn(input, acc).Ok? && ScanTurn(input, acc).value.Go? {
      var Go(next, acc') := ScanTurn(input, acc).value;
      if acc'.exif.None? {
        ScanExifInInput(next, acc');
        if Scan(next, acc').Ok? && Scan(next, acc').value.exif.Some? {
          InfixOfSuffix(Scan(next, acc').value.exif.value, input, |input| - |next|);
        }
      }
    }
  }

  /** The Exif blob a scan of a tail of the file keeps lies in the file. */
  lemma ExifInFile(input: Bytes, rest: Bytes)
    requires |rest| <= |input| && input[|input| - |rest|..] == rest
    ensures var r := Scan(rest, Collected(None, None));
            r.Ok? && r.value.exif.Some? ==> InfixOf(r.value.exif.value, input)
  {
    var r := Scan(rest, Collected(None, None));
    ScanExifInInput(rest, Collected(None, None));
    if r.Ok? && r.value.exif.Some? {
      InfixOfSuffix(r.value.exif.value, input, |input| - |rest|);
    }
  }

  /** EOI ends the scan: nothing after it is read. */
  lemma EoiEndsScan(fill: nat, rest: Bytes, acc: Collected)
    ensures Scan(EncodeMarker(Standalone(EoiCode), fill) + rest, acc) == Ok(acc)
  {
    MarkerRoundTrip(Standalone(EoiCode), fill, rest);
  }

  /** A segment that is neither APP1 nor SOS is passed over whole. */
  lemma SkipsOtherSegment(code: uint8, payload: Bytes, rest: Bytes, acc: Collected)
    requires code !in StandaloneCodes && code !in {0x00, 0xFF, App1Code, SosCode}
    requires |payload| + 2 < 0x1_0000
    ensures Scan(EncodeMarker(Full(code, |payload|), 0) + (payload + rest), acc) == Scan(rest, acc)
  {
    MarkerRoundTrip(Full(code, |payload|), 0, payload + rest);
    assert (payload + rest)[..|payload|] == payload && (payload + rest)[|payload|..] == rest;
  }

  /** An APP1 payload of the Exif signature and a blob that does not go on
      to start an XMP signature sets the Exif blob when none was found yet,
      and nothing else. */
  lemma ReadsExifPayload(b: Bytes, acc: Collected)
    requires !(XmpSig <= b) && !(XmpExtSig <= b)
    ensures ReadApp1(ExifSig + b, acc) == Ok(acc.(exif := if acc.exif.None? then Some(b) else acc.exif))
  {
    assert (ExifSig + b)[..|ExifSig|] == ExifSig && (ExifSig + b)[|ExifSig|..] == b;
  }

  /** An APP1 segment holding Exif is read, and the scan goes on after it
      with its blob as the Exif blob. */
  lemma ReadsExifSegment(b: Bytes, rest: Bytes, acc: Collected)
    requires acc.exif.None? && !(XmpSig <= b) && !(XmpExtSig <= b)
    requires |ExifSig + b| + 2 < 0x1_0000
    ensures Scan(EncodeMarker(Full(App1Code, |ExifSig + b|), 0) + (ExifSig + b + rest), acc) == Scan(rest, acc.(exif := Some(b)))
  {
    var payload := ExifSig + b;
    MarkerRoundTrip(Full(App1Code, |payload|), 0, payload + rest);
    assert (payload + rest)[..|payload|] == payload && (payload + rest)[|payload|..] == rest;
    ReadsExifPayload(b, acc);
  }

  /** An APP1 segment holding the StandardXMP packet is read when no XMP
      was found yet, and the scan goes on after it with that packet. */
  lemma ReadsStandardXmpSegment(b: Bytes, rest: Bytes, acc: Collected)
    requires acc.xmp.None? && !(XmpExtSig <= b)
    requires |XmpSig + b| + 2 < 0x1_0000
    ensures Scan(EncodeMarker(Full(App1Code, |XmpSig + b|), 0) + (XmpSig + b + rest), acc)
         == Scan(rest, acc.(xmp := Some(JpegXmp(Some(b), map[]))))
  {
    var payload := XmpSig + b;
    MarkerRoundTrip(Full(App1Code, |payload|), 0, payload + rest);
    assert (payload + rest)[..|payload|] == payload && (payload + rest)[|payload|..] == rest;
    ReadsStandardXmpPayload(b, acc);
  }

  /** An APP1 payload of the XMP signature and a packet that does not start
      the extension signature sets the StandardXMP packet when no XMP was
      found yet, and nothing else. */
  lemma ReadsStandardXmpPayload(b: Bytes, acc: Collected)
    requires acc.xmp.None? && !(XmpExtSig <= b)
    ensures ReadApp1(XmpSig + b, acc) == Ok(acc.(xmp := Some(JpegXmp(Some(b), map[]))))
  {
    var payload := XmpSig + b;
    assert payload[0] != ExifSig[0];
    assert payload[..|XmpSig|] == XmpSig && payload[|XmpSig|..] == b;
  }

  /** A file of SOI, one APP1 segment holding Exif and EOI gives that Exif
      blob and no XMP. */
  lemma ExifOnlyFile(b: Bytes, lookup: GuidLookup)
    requires !(XmpSig <= b) && !(XmpExtSig <= b)
    requires |ExifSig + b| + 2 < 0x1_0000
    ensures var eoi := EncodeMarker(Standalone(EoiCode), 0);
            var segment := EncodeMarker(Full(App1Code, |ExifSig + b|), 0) + (ExifSig + b + eoi);
            ParseJpeg(EncodeMarker(Standalone(SoiCode), 0) + segment, lookup) == Ok(JpegMeta(Some(b), None))
  {
    var eoi := EncodeMarker(Standalone(EoiCode), 0);
    var segment := EncodeMarker(Full(App1Code, |ExifSig + b|), 0) + (ExifSig + b + eoi);
    MarkerRoundTrip(Standalone(SoiCode), 0, segment);
    ReadsExifSegment(b, eoi, Collected(None, None));
    assert eoi == eoi + [];
    EoiEndsScan(0, [], Collected(Some(b), None));
  }

  // ---------------------------------------------------------------------
  // Putting ExtendedXMP together

  /** The chunks laid end to end from offset `total` on: each chunk must sit
      at the running total of the lengths before it (`total_offset`, a u32
      that wraps), and every chunk must be used. */
  function Assemble(chunks: map<uint32, ExtendedChunk>, total: uint32): (r: Result<Bytes, JpegError>)
    ensures r.Err? ==> r.error.ExtendedXmpMissingChunk? && |chunks| > 0
    ensures |chunks| > 0 && total !in chunks ==> r == Err(ExtendedXmpMissingChunk(total))
    ensures r.Ok? && |chunks| > 0 ==> total in chunks && chunks[total].payload <= r.value
    decreases |chunks|
  {
    if |chunks| == 0 then Ok([])
    else if total !in chunks then Err(ExtendedXmpMissingChunk(total))
    else
      var chunk := chunks[total];
      var left := chunks - {total};
      assert |left| < |chunks| by {
        assert left.Keys == chunks.Keys - {total};
        assert |chunks.Keys| == |left.Keys| + 1;
      }
      var more :- Assemble(left, WrapU32(total + |chunk.payload|));
      Ok(chunk.payload + more)
  }

  /** Chunks filed at the offsets a writer gives them, from `start` on. */
  function Chunked(parts: seq<Bytes>, start: nat): map<uint32, ExtendedChunk>
    decreases |parts|
  {
    if parts == [] || start >= 0x1_0000_0000 then map[]
    else Chunked(parts[1..], start + |parts[0]|)[start := ExtendedChunk(0, start, parts[0])]
  }

  /** All parts laid end to end. */
  function Concat(parts: seq<Bytes>): (r: Bytes)
  {
    if parts == [] then [] else parts[0] + Concat(parts[1..])
  }

  /** The offsets of filed chunks are at or after their start. */
  lemma {:induction false} ChunkedKeys(parts: seq<Bytes>, start: nat)
    ensures forall k | k in Chunked(parts, start) :: k >= start
    decreases |parts|
  {
    if parts != [] && start < 0x1_0000_0000 {
      ChunkedKeys(parts[1..], start + |parts[0]|);
    }
  }

  /** ExtendedXMP chunks, each non-empty and at the offset of the bytes
      before it, put back together give the whole packet, in offset order. */
  lemma {:induction false} AssembleInOrder(parts: seq<Bytes>, start: nat)
    requires start + |Concat(parts)| < 0x1_0000_0000
    requires forall i | 0 <= i < |parts| :: |parts[i]| > 0
    ensures Assemble(Chunked(parts, start), start) == Ok(Concat(parts))
    decreases |parts|
  {
    if parts != [] {
      var next := start + |parts[0]|;
      var tail := Chunked(parts[1..], next);
      ChunkedKeys(parts[1..], next);
      assert start !in tail;
      var m := Chunked(parts, start);
      assert m == tail[start := ExtendedChunk(0, start, parts[0])];
      assert m - {start} == tail;
      AssembleInOrder(parts[1..], next);
    }
  }

  /** The metadata found in a JPEG: the raw Exif blob, and the XMP as the
      StandardXMP packet alone or together with the assembled ExtendedXMP
      bytes. */
  datatype JpegXmpOut = StandaloneXmp(packet: Bytes) | WithExtended(standard: Bytes, extended: Bytes)
  datatype JpegMeta = JpegMeta(exif: Option<Bytes>, xmp: Option<JpegXmpOut>)

  /** What the XML reading of the StandardXMP packet gives `concat_xmp`: the
      packet written back and the GUID of its ExtendedXMP, or an error. */
  type GuidLookup = Bytes -> Result<(Bytes, Guid), JpegError>

  /** `concat_xmp`: the StandardXMP packet must exist; its GUID picks the
      chunks, which are assembled from offset 0. */
  function ConcatXmp(xmp: JpegXmp, lookup: GuidLookup): (r: Result<JpegXmpOut, JpegError>)
    ensures xmp.standard.None? ==> r == Err(CantConcatExtendedXmpWithoutStandardXmp)
    ensures r.Ok? ==> r.value.WithExtended? && xmp.standard.Some? && lookup(xmp.standard.value).Ok?
    ensures r.Ok? ==>
              var guid := lookup(xmp.standard.value).value.1;
              && r.value.standard == lookup(xmp.standard.value).value.0
              && (guid in xmp.extended ==> Assemble(xmp.extended[guid], 0) == Ok(r.value.extended))
              && (guid !in xmp.extended ==> r.value.extended == [])
  {
    var standard :- xmp.standard.OkOr(CantConcatExtendedXmpWithoutStandardXmp);
    var found :- lookup(standard);
    var chunks := if found.1 in xmp.extended then xmp.extended[found.1] else map[];
    var extended :- Assemble(chunks, 0);
    Ok(WithExtended(found.0, extended))
  }

  /** The XMP `parse` returns: the StandardXMP packet alone when there is
      no ExtendedXMP, and the two put together when there is. */
  function FinishXmp(xmp: Option<JpegXmp>, lookup: GuidLookup): (r: Result<Option<JpegXmpOut>, JpegError>)
    ensures xmp.None? ==> r == Ok(None)
    ensures xmp.Some? && |xmp.value.extended| == 0 ==>
              r == Ok(if xmp.value.standard.Some? then Some(StandaloneXmp(xmp.value.standard.value)) else None)
    ensures xmp.Some? && |xmp.value.extended| > 0 ==>
              (r.Ok? <==> ConcatXmp(xmp.value, lookup).Ok?) && (r.Ok? ==> r.value == Some(ConcatXmp(xmp.value, lookup).value))
  {
    match xmp
    case None => Ok(None)
    case Some(x) =>
      if |x.extended| > 0 then
        var out :- ConcatXmp(x, lookup);
        Ok(Some(out))
      else Ok(if x.standard.Some? then Some(StandaloneXmp(x.standard.value)) else None)
  }

  /** `parse`: SOI first, then the scan; the XMP is the StandardXMP packet
      alone when there is no ExtendedXMP, and the two put together when
      there is. */
  function ParseJpeg(input: Bytes, lookup: GuidLookup): (r: Result<JpegMeta, JpegError>)
    ensures ParseMarker(input).Err? ==> r == Err(ParseMarker(input).error)
    ensures ParseMarker(input).Ok? && ParseMarker(input).value.value != Standalone(SoiCode) ==>
              r == Err(FirstMarkerWasNotSoi(ParseMarker(input).value.value.code))
    ensures r.Ok? && r.value.exif.Some? ==> InfixOf(r.value.exif.value, input)
  {
    var first :- ParseMarker(input);
    if first.value != Standalone(SoiCode) then Err(FirstMarkerWasNotSoi(first.value.code))
    else
      var found :- Scan(first.rest, Collected(None, None));
      ExifInFile(input, first.rest);
      var xmp :- FinishXmp(found.xmp, lookup);
      Ok(JpegMeta(found.exif, xmp))
  }

  /** A second StandardXMP packet is refused. */
  lemma SecondStandardXmp(body: Bytes, acc: Collected)
    requires acc.xmp.Some?
    ensures ReadApp1(XmpSig + body, acc) == Err(MultipleStandardXmpBlobs)
  {
    assert (XmpSig + body)[0] != ExifSig[0];
    assert (XmpSig + body)[..|XmpSig|] == XmpSig;
  }

  /** A StandardXMP packet met after an ExtendedXMP chunk is refused as a
      second StandardXMP packet: the chunk has already made the XMP found
      so far present. */
  lemma StandardAfterExtended(chunk: Bytes, body: Bytes)
    requires |chunk| >= 40
    ensures var first := ReadApp1(XmpExtSig + chunk, Collected(None, None));
            && first.Ok? && first.value.xmp.Some? && first.value.xmp.value.standard.None?
            && ReadApp1(XmpSig + body, first.value) == Err(MultipleStandardXmpBlobs)
  {
    var payload := XmpExtSig + chunk;
    assert payload[0] != ExifSig[0] && payload[21] != XmpSig[21];
    assert payload[..|XmpExtSig|] == XmpExtSig && payload[|XmpExtSig|..] == chunk;
    SecondStandardXmp(body, ReadApp1(payload, Collected(None, None)).value);
  }

  /** ExtendedXMP met before any StandardXMP, with none after it, cannot be
      put together. */
  lemma ExtendedWithoutStandard(chunk: Bytes, lookup: GuidLookup)
    requires |chunk| >= 40
    ensures var r := ReadApp1(XmpExtSig + chunk, Collected(None, None));
            r.Ok? && FinishXmp(r.value.xmp, lookup) == Err(CantConcatExtendedXmpWithoutStandardXmp)
  {
    var payload := XmpExtSig + chunk;
    assert payload[0] != ExifSig[0] && payload[21] != XmpSig[21];
    assert payload[..|XmpExtSig|] == XmpExtSig && payload[|XmpExtSig|..] == chunk;
  }
}

=== FILE: mp4.dfy ===
/** MP4 files: the `ftyp` brand check and the search for the XMP `uuid` box
    (raves_metadata/src/providers/mp4.rs).
 */
module Mp4 {
  import opened Std
  import opened Bytes
  import opened BmffBox
  import opened BmffFtyp

  /** `XMP_UUID`: the extended type of the box that carries XMP. */
  const XmpUuid: UuidBytes :=
    [0xBE, 0x7A, 0xCF, 0xCB, 0x97, 0xA9, 0x42, 0xE8, 0x9C, 0x71, 0x99, 0x94, 0x91, 0xE3, 0xAF, 0xAC]

  /** `MP4_FORMATS`: `iso2`, `isom`, `mp41` and `mp42`. */
  const Mp4Brands: seq<FourCC> := [
    [0x69, 0x73, 0x6F, 0x32],
    [0x69, 0x73, 0x6F, 0x6D],
    [0x6D, 0x70, 0x34, 0x31],
    [0x6D, 0x70, 0x34, 0x32]
  ]

  /** `Mp4ConstructionError`. */
  datatype Mp4Error = NoFtypBox | NotAnMp4(majorBrand: FourCC)

  /** `parse_ftyp`: the file must open with an `ftyp` box naming an MP4
      brand, as its major brand or among its compatible brands. */
  function CheckFtyp(input: Bytes): (r: Result<(), Mp4Error>)
    ensures r.Ok? <==> ParseFtyp(input).Some? && BrandSupported(ParseFtyp(input).value.value, Mp4Brands)
    ensures r == Err(NoFtypBox) <==> ParseFtyp(input).None?
    ensures r.Err? && r.error.NotAnMp4? ==>
              && ParseFtyp(input).Some?
              && r.error.majorBrand == ParseFtyp(input).value.value.majorBrand
              && r.error.majorBrand !in Mp4Brands
  {
    var ftyp :- ParseFtyp(input).OkOr(NoFtypBox);
    if BrandSupported(ftyp.value, Mp4Brands) then Ok(()) else Err(NotAnMp4(ftyp.value.majorBrand))
  }

  /** `magic_number`: the input reads as an MP4 exactly when its `ftyp` box
      names an MP4 brand. */
  function MagicNumber(input: Bytes): (r: bool)
    ensures r <==> ParseFtyp(input).Some? && BrandSupported(ParseFtyp(input).value.value, Mp4Brands)
  {
    CheckFtyp(input).Ok?
  }

  /** What one turn of the XMP search does. */
  datatype Turn = Found(xmp: Bytes) | Continue(tail: Bytes) | Stop

  /** The box header at the front of the input, with the input after it,
      which is a proper tail of the input. */
  function NextHeader(input: Bytes): (r: Option<Parsed<BoxHeader>>)
    ensures r.Some? ==> |r.value.rest| < |input| && input[|input| - |r.value.rest|..] == r.value.rest
  {
    match ParseBoxHeader(input)
    case Err(_) => None
    case Ok(h) => Some(h)
  }

  /** One turn of `parse_boxes_until_xmp`. A plain box is skipped by its
      payload length (only its header when the payload overruns the input);
      a plain box that runs to the end stops the search. The XMP `uuid` box
      gives its payload (everything left when it runs to the end; when its
      payload overruns the input the search goes on after its header). Any
      other `uuid` box is not skipped: the search goes on with its payload.
      An unreadable header stops the search. */
  function XmpTurn(input: Bytes): (r: Turn)
    ensures r.Continue? ==> |r.tail| < |input| && input[|input| - |r.tail|..] == r.tail
    ensures r.Found? ==> InfixOf(r.xmp, input)
  {
    match NextHeader(input)
    case None => Stop
    case Some(h) =>
      var rest := h.rest;
      match h.value.boxType
      case Id(_) =>
        (match PayloadLen(h.value)
         case None => Stop
         case Some(n) =>
           if n as int <= |rest| then SuffixOfSuffix(input, rest, n as nat); Continue(rest[n..])
           else Continue(rest))
      case Uuid(u) =>
        if u != XmpUuid then Continue(rest)
        else
          match PayloadLen(h.value)
          case None =>
            assert rest[..|rest|] == rest;
            PrefixOfSuffix(input, rest, |rest|);
            Found(rest)
          case Some(n) =>
            if n as int <= |rest| then PrefixOfSuffix(input, rest, n as nat); Found(rest[..n])
            else Continue(rest)
  }

  /** `parse_boxes_until_xmp`: turns until the input is empty, the XMP box
      is found or the search stops. */
  function UntilXmp(input: Bytes): (r: Option<Bytes>)
    ensures r.Some? ==> InfixOf(r.value, input)
    decreases |input|
  {
    if input == [] then None
    else
      match XmpTurn(input)
      case Found(xmp) => Some(xmp)
      case Continue(tail) =>
        var r := UntilXmp(tail);
        if r.Some? then InfixOfSuffix(r.value, input, |input| - |tail|); r else r
      case Stop => None
  }

  /** `parse`: the `ftyp` check, then the XMP search from the start of the
      file (the `ftyp` box is read from a copy of the input). */
  function ParseMp4(input: Bytes): (r: Result<Option<Bytes>, Mp4Error>)
    ensures r.Ok? <==> MagicNumber(input)
    ensures r.Err? ==> CheckFtyp(input) == Err(r.error)
    ensures r.Ok? && r.value.Some? ==> InfixOf(r.value.value, input)
  {
    var _ :- CheckFtyp(input);
    Ok(UntilXmp(input))
  }

  /** A plain box of known size is skipped whole. */
  lemma SkipsPlainBox(code: FourCC, payload: Bytes, rest: Bytes)
    requires code != UuidCode && 8 + |payload| < 0x1_0000_0000
    ensures UntilXmp(EncodeBoxHeader(Small(8 + |payload|), Id(code)) + (payload + rest)) == UntilXmp(rest)
  {
    var body := payload + rest;
    BoxHeaderRoundTrip(Small(8 + |payload|), Id(code), body);
    assert body[|payload|..] == rest;
  }

  /** A plain box that runs to the end of the file stops the scan. */
  lemma StopsAtPlainEof(code: FourCC, rest: Bytes)
    requires code != UuidCode
    ensures UntilXmp(EncodeBoxHeader(Eof, Id(code)) + rest) == None
  {
    BoxHeaderRoundTrip(Eof, Id(code), rest);
  }

  /** The XMP box of known size gives exactly its payload. */
  lemma FindsXmpBox(payload: Bytes, rest: Bytes)
    requires 24 + |payload| < 0x1_0000_0000
    ensures UntilXmp(EncodeBoxHeader(Small(24 + |payload|), Uuid(XmpUuid)) + (payload + rest)) == Some(payload)
  {
    var body := payload + rest;
    BoxHeaderRoundTrip(Small(24 + |payload|), Uuid(XmpUuid), body);
    assert body[..|payload|] == payload;
  }

  /** The XMP box that runs to the end gives everything after its header. */
  lemma FindsXmpToEnd(rest: Bytes)
    ensures UntilXmp(EncodeBoxHeader(Eof, Uuid(XmpUuid)) + rest) == Some(rest)
  {
    BoxHeaderRoundTrip(Eof, Uuid(XmpUuid), rest);
  }

  /** Any other `uuid` box is entered rather than skipped: the scan goes on
      right after its header, whatever size it states. */
  lemma EntersOtherUuidBox(size: BoxSize, uuid: UuidBytes, rest: Bytes)
    requires uuid != XmpUuid && (size.Small? ==> size.small >= 2)
    ensures UntilXmp(EncodeBoxHeader(size, Uuid(uuid)) + rest) == UntilXmp(rest)
  {
    BoxHeaderRoundTrip(size, Uuid(uuid), rest);
  }

  /** A file opening with an `ftyp` box of an MP4 major brand is accepted,
      and the scan passes over that `ftyp` box to what follows it. */
  lemma ParseAfterFtyp(major: FourCC, minor: uint32, brands: seq<FourCC>, rest: Bytes)
    requires major in Mp4Brands && 16 + 4 * |brands| < 0x1_0000_0000
    ensures var box := FtypBox(FtypHeader(|brands|), major, minor, brands);
            ParseMp4(EncodeFtyp(box) + rest) == Ok(UntilXmp(rest))
  {
    var box := FtypBox(FtypHeader(|brands|), major, minor, brands);
    FtypRoundTrip(major, minor, brands, rest);
    assert CheckFtyp(EncodeFtyp(box) + rest) == Ok(());
    var payload := FtypAsPlainBox(box, rest);
    SkipsPlainBox(FtypCode, payload, rest);
  }

  /** An `ftyp` box with a small header is a plain box to the XMP search. */
  lemma FtypAsPlainBox(box: FtypBox, rest: Bytes) returns (payload: Bytes)
    requires 16 + 4 * |box.compatibleBrands| < 0x1_0000_0000
    requires box.header == FtypHeader(|box.compatibleBrands|)
    ensures 8 + |payload| < 0x1_0000_0000
    ensures EncodeFtyp(box) + rest == EncodeBoxHeader(Small(8 + |payload|), Id(FtypCode)) + (payload + rest)
  {
    FtypLayout(box, rest);
    payload := box.majorBrand + (Encode(Big, 4, box.minorVersion) + Flatten(box.compatibleBrands));
  }

  /** A file whose `ftyp` box names no MP4 brand is refused with its major
      brand. */
  lemma RefusesOtherBrand(major: FourCC, minor: uint32, brands: seq<FourCC>, rest: Bytes)
    requires major !in Mp4Brands && (forall b | b in brands :: b !in Mp4Brands)
    requires 16 + 4 * |brands| < 0x1_0000_0000
    ensures var box := FtypBox(FtypHeader(|brands|), major, minor, brands);
            ParseMp4(EncodeFtyp(box) + rest) == Err(NotAnMp4(major))
  {
    FtypRoundTrip(major, minor, brands, rest);
  }
}

=== FILE: pitm.dfy ===
/** The primary item box `pitm`
    (raves_metadata/src/providers/shared/bmff/heif/pitm.rs), after section
    8.11.4 of ISO/IEC 14496-12.
 */
module HeifPitm {
  import opened Std
  import opened Bytes
  import opened BmffBox
  import opened HeifIinf

  /** The box type `pitm`. */
  const PitmCode: FourCC := [0x70, 0x69, 0x74, 0x6D]

  /** `PrimaryItemBox`. */
  datatype PrimaryItemBox = PrimaryItemBox(fullBox: FullBox, itemId: uint32)

  /** The item id: 16 bits in version 0, 32 bits otherwise. */
  function ParseItemId(version: uint8, input: Bytes): (r: Option<Parsed<uint32>>)
    ensures r.Some? <==> |input| >= (if version == 0 then 2 else 4)
    ensures r.Some? && version == 0 ==> r.value.value < 0x1_0000
    ensures r.Some? ==> |r.value.rest| < |input|
  {
    if version == 0 then
      var p :- ReadU16(Big, input);
      Some(Parsed(p.value as uint32, p.rest))
    else ReadU32(Big, input)
  }

  /** `PrimaryItemBox::new`: a full box header of type `pitm`, then the item
      id. */
  function ParsePrimaryItem(input: Bytes): (r: Option<Parsed<PrimaryItemBox>>)
    ensures r.Some? ==> ParseFullBox(input).Some?
    ensures r.Some? ==>
              var fb := ParseFullBox(input).value;
              && r.value.value.fullBox == fb.value
              && fb.value.header.boxType == Id(PitmCode)
              && ParseItemId(fb.value.version, fb.rest) == Some(Parsed(r.value.value.itemId, r.value.rest))
    ensures ParseFullBox(input).Some? && ParseFullBox(input).value.value.header.boxType != Id(PitmCode) ==> r.None?
    ensures r.Some? ==> |r.value.rest| < |input|
  {
    var fb :- ParseFullBox(input);
    if fb.value.header.boxType != Id(PitmCode) then None
    else
      var id :- ParseItemId(fb.value.version, fb.rest);
      Some(Parsed(PrimaryItemBox(fb.value, id.value), id.rest))
  }

  /** The bytes of an item id field. */
  function EncodeItemId(version: uint8, id: uint32): Bytes
    requires version == 0 ==> id < 0x1_0000
  {
    Pow256Widths();
    if version == 0 then Encode(Big, 2, id) else Encode(Big, 4, id)
  }

  /** An item id field reads back. */
  lemma ItemIdRoundTrip(version: uint8, id: uint32, rest: Bytes)
    requires version == 0 ==> id < 0x1_0000
    ensures ParseItemId(version, EncodeItemId(version, id) + rest) == Some(Parsed(id, rest))
  {
    if version == 0 {
      ReadU16RoundTrip(Big, id, rest);
    } else {
      ReadU32RoundTrip(Big, id, rest);
    }
  }

  /** A laid-out `pitm` box reads back, leaving what follows it. */
  lemma PrimaryItemRoundTrip(fb: FullBox, id: uint32, rest: Bytes)
    requires FullBoxWellFormed(fb) && fb.header.boxType == Id(PitmCode)
    requires fb.version == 0 ==> id < 0x1_0000
    ensures ParsePrimaryItem(EncodeFullBox(fb) + (EncodeItemId(fb.version, id) + rest))
            == Some(Parsed(PrimaryItemBox(fb, id), rest))
  {
    FullBoxRoundTrip(fb, EncodeItemId(fb.version, id) + rest);
    ItemIdRoundTrip(fb.version, id, rest);
  }
}

=== FILE: png_helpers.dfy ===
/** The helpers that build PNG chunk bytes for test cases
    (raves_metadata/scripts/png_chunk_helpers.rs): a chunk's data length and
    its CRC-32, the bitwise, reflected CRC of section 5.5 of the PNG
    specification (ISO/IEC 15948). */
module PngHelpers {
  import opened Bytes

  /** `compute_data_length`: the length `as u32`, which truncates. */
  function ComputeDataLength(data: Bytes): (r: uint32)
    ensures |data| < 0x1_0000_0000 ==> r == |data|
    ensures r == |data| % 0x1_0000_0000
  {
    WrapU32(|data|)
  }

  /** The reflected generator polynomial. */
  const Poly: bv32 := 0xEDB8_8320

  /** The register before the first byte. */
  const Init: bv32 := 0xFFFF_FFFF

  /** One pass of the inner loop: the low bit of `crc ^ cur` decides whether
      the shifted register takes the polynomial; `cur` shifts along. */
  function BitStep(crc: bv32, cur: bv32): (r: (bv32, bv32))
    ensures r.1 == cur >> 1
    ensures (crc ^ cur) & 1 == 0 ==> r.0 == crc >> 1
    ensures (crc ^ cur) & 1 != 0 ==> r.0 == (crc >> 1) ^ Poly
  {
    var bit := (crc ^ cur) & 1;
    var shifted := crc >> 1;
    (if bit != 0 then shifted ^ Poly else shifted, cur >> 1)
  }

  /** `k` passes of the inner loop. */
  function BitSteps(crc: bv32, cur: bv32, k: nat): (bv32, bv32)
    decreases k
  {
    if k == 0 then (crc, cur)
    else
      var next := BitStep(crc, cur);
      BitSteps(next.0, next.1, k - 1)
  }

  /** The register after one byte: eight passes, starting from the byte. */
  function ByteStep(crc: bv32, b: uint8): bv32
  {
    BitSteps(crc, b as bv32, 8).0
  }

  /** The register after the bytes of `data`, from `crc`: the outer loop as
      a left fold. */
  function RegisterFrom(crc: bv32, data: Bytes): bv32
    decreases |data|
  {
    if data == [] then crc else RegisterFrom(ByteStep(crc, data[0]), data[1..])
  }

  /** The CRC: the complemented register, as big-endian bytes. */
  function Crc32(data: Bytes): (r: Bytes)
    ensures |r| == 4
  {
    Pow256Widths();
    BeEncode(4, (!RegisterFrom(Init, data)) as nat)
  }

  /** The inner loop of `compute_crc32`: eight passes over one byte. */
  method UpdateByte(crc0: bv32, b: uint8) returns (crc: bv32)
    ensures crc == ByteStep(crc0, b)
  {
    crc := crc0;
    var cur: bv32 := b as bv32;
    var j := 0;
    while j < 8
      invariant 0 <= j <= 8
      invariant BitSteps(crc, cur, 8 - j) == BitSteps(crc0, b as bv32, 8)
    {
      var bit := (crc ^ cur) & 1;
      crc := crc >> 1;
      if bit != 0 {
        crc := crc ^ Poly;
      }
      cur := cur >> 1;
      j := j + 1;
    }
  }

  /** `compute_crc32`: the register starts at all ones, takes every byte in
      turn, and is complemented and written big-endian. */
  method ComputeCrc32(data: Bytes) returns (r: Bytes)
    ensures r == Crc32(data)
  {
    var crc: bv32 := Init;
    var i := 0;
    while i < |data|
      invariant 0 <= i <= |data|
      invariant RegisterFrom(crc, data[i..]) == RegisterFrom(Init, data)
    {
      assert data[i..][0] == data[i] && data[i..][1..] == data[i + 1..];
      crc := UpdateByte(crc, data[i]);
      i := i + 1;
    }
    assert data[i..] == [];
    Pow256Widths();
    r := BeEncode(4, (!crc) as nat);
  }

  /** Reading a concatenation continues from the register the first part
      leaves: the CRC can be computed chunk by chunk. */
  lemma {:induction false} RegisterAppend(crc: bv32, a: Bytes, b: Bytes)
    ensures RegisterFrom(crc, a + b) == RegisterFrom(RegisterFrom(crc, a), b)
    decreases |a|
  {
    if a == [] {
      assert a + b == b;
    } else {
      assert (a + b)[0] == a[0] && (a + b)[1..] == a[1..] + b;
      RegisterAppend(ByteStep(crc, a[0]), a[1..], b);
    }
  }

  /** No data leaves the register at all ones, whose complement is zero. */
  lemma EmptyCrc()
    ensures Crc32([]) == [0, 0, 0, 0]
  {
    Pow256Widths();
    assert !Init == 0;
    assert BeEncode(4, 0) == BeEncode(3, 0) + [0];
    assert BeEncode(3, 0) == BeEncode(2, 0) + [0];
    assert BeEncode(2, 0) == BeEncode(1, 0) + [0];
  }
}

=== FILE: std.dfy ===
/** Failure-compatible wrappers shared by every parser of the model.

    `Option` stands for Rust's `Option` and for winnow's `EmptyError` results
    (a parser that fails without saying why); `Result` stands for Rust's
    `Result` with a typed error.
 */
module Std {

  datatype Option<+T> = None | Some(value: T) {
    predicate IsFailure() { None? }

    function PropagateFailure<U>(): Option<U>
      requires None?
    {
      None
    }

    function Extract(): T
      requires Some?
    {
      value
    }

    function OkOr<E>(error: E): Result<T, E> {
      match this
      case Some(v) => Ok(v)
      case None => Err(error)
    }
  }

  datatype Result<+T, +E> = Ok(value: T) | Err(error: E) {
    predicate IsFailure() { Err? }

    function PropagateFailure<U>(): Result<U, E>
      requires Err?
    {
      Err(error)
    }

    function Extract(): T
      requires Ok?
    {
      value
    }

    /** Rust's `Result::ok`. */
    function ToOption(): Option<T> {
      match this
      case Ok(v) => Some(v)
      case Err(_) => None
    }
  }

  /** The values of the `Some` entries of `s`, in order (Rust's `flatten` over
      options). */
  function FilterSome<T(!new)>(s: seq<Option<T>>): (r: seq<T>)
    ensures |r| <= |s|
    ensures forall x :: x in r <==> Some(x) in s
  {
    if |s| == 0 then []
    else
      var tail := FilterSome(s[1..]);
      assert forall x :: Some(x) in s <==> Some(x) == s[0] || Some(x) in s[1..];
      match s[0]
      case Some(v) => [v] + tail
      case None => tail
  }

  /** A property every `Some` entry has, every kept value has. */
  lemma FilterSomeAll<T(!new)>(s: seq<Option<T>>, p: T -> bool)
    requires forall i | 0 <= i < |s| :: s[i].Some? ==> p(s[i].value)
    ensures forall x | x in FilterSome(s) :: p(x)
  {
    forall x | x in FilterSome(s)
      ensures p(x)
    {
      assert Some(x) in s;
      var i :| 0 <= i < |s| && s[i] == Some(x);
    }
  }

  /** Everything is kept from a sequence of `Some`s. */
  lemma {:induction false} FilterSomeAllSome<T(!new)>(s: seq<Option<T>>, v: seq<T>)
    requires |s| == |v| && forall i | 0 <= i < |s| :: s[i] == Some(v[i])
    ensures FilterSome(s) == v
  {
    if |s| > 0 {
      FilterSomeAllSome(s[1..], v[1..]);
      assert v == [v[0]] + v[1..];
    }
  }

  /** Nothing is kept from a sequence of `None`s. */
  lemma {:induction false} FilterSomeNone<T(!new)>(s: seq<Option<T>>)
    requires forall i | 0 <= i < |s| :: s[i].None?
    ensures FilterSome(s) == []
  {
    if |s| > 0 {
      FilterSomeNone(s[1..]);
    }
  }

  /** Every position one further on. */
  function Shift(t: seq<nat>): (r: seq<nat>)
    ensures |r| == |t| && forall j | 0 <= j < |t| :: r[j] == t[j] + 1
  {
    seq(|t|, j requires 0 <= j < |t| => t[j] + 1)
  }

  /** Increasing positions stay increasing one further on. */
  lemma ShiftIncreasing(t: seq<nat>)
    requires forall j, k | 0 <= j < k < |t| :: t[j] < t[k]
    ensures forall j, k | 0 <= j < k < |Shift(t)| :: Shift(t)[j] < Shift(t)[k]
  {
  }

  /** Position 0 comes before any shifted increasing positions. */
  lemma ZeroBeforeShift(t: seq<nat>)
    requires forall j, k | 0 <= j < k < |t| :: t[j] < t[k]
    ensures var r := [0] + Shift(t); forall j, k | 0 <= j < k < |r| :: r[j] < r[k]
  {
    var u := Shift(t);
    var r := [0] + u;
    forall j, k | 0 <= j < k < |r|
      ensures r[j] < r[k]
    {
      assert r[k] == u[k - 1];
      if j > 0 {
        assert r[j] == u[j - 1];
      }
    }
  }

  /** The positions of the `Some` entries of `s`, in order. */
  function SomeIndices<T>(s: seq<Option<T>>): seq<nat>
  {
    if |s| == 0 then []
    else
      var tail := Shift(SomeIndices(s[1..]));
      if s[0].Some? then [0] + tail else tail
  }

  /** The `Some` positions increase. */
  lemma {:induction false} SomeIndicesIncreasing<T>(s: seq<Option<T>>)
    ensures forall j, k | 0 <= j < k < |SomeIndices(s)| :: SomeIndices(s)[j] < SomeIndices(s)[k]
  {
    if |s| > 0 {
      var t := SomeIndices(s[1..]);
      SomeIndicesIncreasing(s[1..]);
      assert forall j, k | 0 <= j < k < |t| :: t[j] < t[k];
      ShiftIncreasing(t);
      if s[0].Some? {
        ZeroBeforeShift(t);
      }
    }
  }

  /** The `Some` positions are exactly the positions of `Some` entries. */
  lemma {:induction false} SomeIndicesCover<T>(s: seq<Option<T>>)
    ensures forall i | 0 <= i < |s| :: s[i].Some? <==> i in SomeIndices(s)
  {
    if |s| > 0 {
      var s' := s[1..];
      SomeIndicesCover(s');
      var t := SomeIndices(s');
      var tail := Shift(t);
      forall i | 1 <= i < |s|
        ensures s[i].Some? <==> i in tail
      {
        assert s[i] == s'[i - 1];
        if i - 1 in t {
          var j :| 0 <= j < |t| && t[j] == i - 1;
          assert tail[j] == i;
        }
        if i in tail {
          var j :| 0 <= j < |tail| && tail[j] == i;
          assert t[j] == i - 1;
        }
      }
      assert 0 !in tail;
    }
  }

  /** The `j`-th value `FilterSome` keeps is the entry at the `j`-th `Some`
      position. */
  lemma {:induction false} SomeIndicesValues<T(!new)>(s: seq<Option<T>>)
    ensures var r := SomeIndices(s);
            && |r| == |FilterSome(s)|
            && forall j | 0 <= j < |r| :: r[j] < |s| && s[r[j]] == Some(FilterSome(s)[j])
  {
    if |s| > 0 {
      var s' := s[1..];
      SomeIndicesValues(s');
      var t := SomeIndices(s');
      var tail := Shift(t);
      var f := FilterSome(s');
      forall j | 0 <= j < |tail|
        ensures tail[j] < |s| && s[tail[j]] == Some(f[j])
      {
        assert s[tail[j]] == s'[t[j]];
      }
      if s[0].Some? {
        assert FilterSome(s) == [s[0].value] + f;
      } else {
        assert FilterSome(s) == f;
      }
    }
  }

  /** `FilterSome` keeps the `Some` entries in order: its `j`-th value is
      the entry at the `j`-th `Some` position, those positions increase,
      and every `Some` entry is among them. */
  lemma SomeIndicesSpec<T(!new)>(s: seq<Option<T>>)
    ensures var r := SomeIndices(s);
            && |r| == |FilterSome(s)|
            && (forall j | 0 <= j < |r| :: r[j] < |s| && s[r[j]] == Some(FilterSome(s)[j]))
            && (forall j, k | 0 <= j < k < |r| :: r[j] < r[k])
            && (forall i | 0 <= i < |s| :: s[i].Some? <==> i in r)
  {
    SomeIndicesIncreasing(s);
    SomeIndicesCover(s);
    SomeIndicesValues(s);
  }

  function Min(a: int, b: int): int { if a <= b then a else b }
  function Max(a: int, b: int): int { if a <= b then b else a }
}

=== FILE: string_case.dfy ===
/** The identifier-case conversions of the IPTC code generator
    (`string_case` in raves_metadata_types/build.rs). Each conversion is a
    left fold over the characters, modelled as such, and is paired with an
    independent character-by-character definition it is proved equal to. */
module StringCase {

  /** `char::to_ascii_uppercase`: only `a`..`z` change. */
  function AsciiUpper(c: char): (r: char)
    ensures 'a' <= c <= 'z' ==> 'A' <= r <= 'Z' && r as int == c as int - 32
    ensures !('a' <= c <= 'z') ==> r == c
  {
    if 'a' <= c <= 'z' then (c as int - 32) as char else c
  }

  /** `char::make_ascii_lowercase`: only `A`..`Z` change. */
  function AsciiLower(c: char): (r: char)
    ensures 'A' <= c <= 'Z' ==> 'a' <= r <= 'z' && r as int == c as int + 32
    ensures !('A' <= c <= 'Z') ==> r == c
  {
    if 'A' <= c <= 'Z' then (c as int + 32) as char else c
  }

  // ---------------------------------------------------------------------
  // kebab-case to PascalCase

  /** `#` and `-` separate words. */
  predicate Separator(c: char) { c == '#' || c == '-' }

  /** The characters the Pascal conversion drops: separators and `'`. */
  predicate Dropped(c: char) { Separator(c) || c == '\'' }

  /** The fold of `kebab_case_to_pascal_case`: a separator sets the
      capitalise flag and is dropped, an apostrophe is dropped and leaves the
      flag alone, any other character is kept (upper-cased when the flag is
      set) and clears the flag. */
  function PascalFold(s: string, capitalize: bool, acc: string): (r: string)
    ensures |r| <= |acc| + |s|
    ensures acc <= r
    ensures (forall i | 0 <= i < |acc| :: !Dropped(acc[i])) ==> forall i | 0 <= i < |r| :: !Dropped(r[i])
    decreases |s|
  {
    if s == [] then acc
    else if Separator(s[0]) then PascalFold(s[1..], true, acc)
    else if s[0] == '\'' then PascalFold(s[1..], capitalize, acc)
    else PascalFold(s[1..], false, acc + [if capitalize then AsciiUpper(s[0]) else s[0]])
  }

  /** `kebab_case_to_pascal_case`: the fold from an empty string with the
      flag clear. */
  function KebabToPascal(kebab: string): (r: string)
    ensures |r| <= |kebab|
    ensures forall i | 0 <= i < |r| :: !Dropped(r[i])
  {
    PascalFold(kebab, false, [])
  }

  /** Whether the character at `i` is upper-cased: the nearest character
      before it that is not an apostrophe is a separator. */
  function CapitalizeAt(s: string, i: nat): bool
    requires i <= |s|
  {
    if i == 0 then false
    else if Separator(s[i - 1]) then true
    else if s[i - 1] == '\'' then CapitalizeAt(s, i - 1)
    else false
  }

  /** What the character at `i` becomes on its own. */
  function PascalAt(s: string, i: nat): string
    requires i < |s|
  {
    if Dropped(s[i]) then []
    else if CapitalizeAt(s, i) then [AsciiUpper(s[i])]
    else [s[i]]
  }

  /** The conversion of the first `n` characters, character by character. */
  function PascalUpTo(s: string, n: nat): string
    requires n <= |s|
  {
    if n == 0 then [] else PascalUpTo(s, n - 1) + PascalAt(s, n - 1)
  }

  lemma {:induction false} PascalFoldFrom(s: string, i: nat)
    requires i <= |s|
    ensures PascalFold(s[i..], CapitalizeAt(s, i), PascalUpTo(s, i)) == PascalUpTo(s, |s|)
    decreases |s| - i
  {
    if i < |s| {
      assert s[i..][0] == s[i] && s[i..][1..] == s[i + 1..];
      var acc := PascalUpTo(s, i);
      assert PascalUpTo(s, i + 1) == acc + PascalAt(s, i);
      if Dropped(s[i]) {
        assert acc + PascalAt(s, i) == acc;
      }
      PascalFoldFrom(s, i + 1);
    }
  }

  /** The fold computes the character-by-character conversion. */
  lemma KebabToPascalIsPerCharacter(s: string)
    ensures KebabToPascal(s) == PascalUpTo(s, |s|)
  {
    PascalFoldFrom(s, 0);
    assert s[0..] == s;
  }

  /** Only apostrophes strictly between `j` and `i`. */
  predicate ApostrophesBetween(s: string, j: nat, i: nat)
    requires j < i <= |s|
  {
    forall k | j < k < i :: s[k] == '\''
  }

  /** A character is upper-cased exactly when a separator comes before it
      with nothing but apostrophes in between; in particular the first kept
      character is upper-cased only when a `#` or `-` precedes it. */
  lemma {:induction false} CapitalizeAtIff(s: string, i: nat)
    requires i <= |s|
    ensures CapitalizeAt(s, i) <==>
              exists j: nat | j < i :: Separator(s[j]) && ApostrophesBetween(s, j, i)
  {
    if i > 0 {
      if Separator(s[i - 1]) {
        assert ApostrophesBetween(s, i - 1, i);
      } else if s[i - 1] == '\'' {
        CapitalizeAtIff(s, i - 1);
        if CapitalizeAt(s, i - 1) {
          var j: nat :| j < i - 1 && Separator(s[j]) && ApostrophesBetween(s, j, i - 1);
          assert ApostrophesBetween(s, j, i);
        } else {
          forall j: nat | j < i && Separator(s[j])
            ensures !ApostrophesBetween(s, j, i)
          {
            assert j < i - 1;
            assert !ApostrophesBetween(s, j, i - 1);
          }
        }
      } else {
        forall j: nat | j < i && Separator(s[j])
          ensures !ApostrophesBetween(s, j, i)
        {
          assert j < i - 1 && s[i - 1] != '\'';
        }
      }
    }
  }

  /** A string with no separators and no apostrophes converts to itself:
      nothing is dropped and nothing is upper-cased. */
  lemma {:induction false} PascalUpToPlain(s: string, n: nat)
    requires n <= |s|
    requires forall i | 0 <= i < |s| :: !Dropped(s[i])
    ensures PascalUpTo(s, n) == s[..n]
  {
    if n > 0 {
      PascalUpToPlain(s, n - 1);
      assert !CapitalizeAt(s, n - 1) by {
        if n - 1 > 0 {
          assert !Dropped(s[n - 2]);
        }
      }
      assert s[..n] == s[..n - 1] + [s[n - 1]];
    }
  }

  lemma KebabToPascalPlain(s: string)
    requires forall i | 0 <= i < |s| :: !Dropped(s[i])
    ensures KebabToPascal(s) == s
  {
    KebabToPascalIsPerCharacter(s);
    PascalUpToPlain(s, |s|);
    assert s[..|s|] == s;
  }

  /** `#an-ex` becomes `AnEx`. */
  lemma KebabToPascalExample()
    ensures KebabToPascal("#an-ex") == "AnEx"
  {
  }

  // ---------------------------------------------------------------------
  // kebab-case to snake_case

  /** The fold of `kebab_case_to_snake_case`. */
  function SnakeFold(s: string, acc: string): (r: string)
    ensures |r| <= |acc| + |s|
    ensures acc <= r
    decreases |s|
  {
    if s == [] then acc
    else if s[0] == '#' then SnakeFold(s[1..], acc)
    else if s[0] == '-' then SnakeFold(s[1..], acc + ['_'])
    else SnakeFold(s[1..], acc + [s[0]])
  }

  /** `kebab_case_to_snake_case`. */
  function KebabToSnake(kebab: string): (r: string)
    ensures |r| <= |kebab|
  {
    SnakeFold(kebab, [])
  }

  /** What one character becomes: `#` nothing, `-` an underscore, any other
      character itself. */
  function SnakeChar(c: char): string
  {
    if c == '#' then [] else if c == '-' then "_" else [c]
  }

  /** The character-by-character conversion. */
  function SnakeMap(s: string): string
  {
    if s == [] then [] else SnakeChar(s[0]) + SnakeMap(s[1..])
  }

  lemma {:induction false} SnakeFoldMaps(s: string, acc: string)
    ensures SnakeFold(s, acc) == acc + SnakeMap(s)
  {
    if s != [] {
      SnakeFoldMaps(s[1..], acc + SnakeChar(s[0]));
      if s[0] == '#' {
        assert acc + SnakeChar(s[0]) == acc;
      }
      assert acc + SnakeChar(s[0]) + SnakeMap(s[1..]) == acc + SnakeMap(s);
    }
  }

  /** The fold computes the character-by-character conversion. */
  lemma KebabToSnakeIsPerCharacter(s: string)
    ensures KebabToSnake(s) == SnakeMap(s)
  {
    SnakeFoldMaps(s, []);
  }

  /** Converting a concatenation converts each part. */
  lemma {:induction false} SnakeMapAppend(a: string, b: string)
    ensures SnakeMap(a + b) == SnakeMap(a) + SnakeMap(b)
  {
    if a == [] {
      assert a + b == b;
    } else {
      assert (a + b)[0] == a[0] && (a + b)[1..] == a[1..] + b;
      SnakeMapAppend(a[1..], b);
      assert SnakeChar(a[0]) + (SnakeMap(a[1..]) + SnakeMap(b)) == (SnakeChar(a[0]) + SnakeMap(a[1..])) + SnakeMap(b);
    }
  }

  /** The result never holds `#` or `-`, and every underscore the input did
      not have comes from a `-`. */
  lemma {:induction false} SnakeMapClean(s: string)
    ensures '#' !in SnakeMap(s) && '-' !in SnakeMap(s)
    ensures '_' in SnakeMap(s) ==> '_' in s || '-' in s
  {
    if s != [] {
      SnakeMapClean(s[1..]);
      assert SnakeMap(s) == SnakeChar(s[0]) + SnakeMap(s[1..]);
    }
  }

  /** The converted length is the input's length less its `#`s. */
  function HashCount(s: string): nat
  {
    if s == [] then 0 else (if s[0] == '#' then 1 else 0) + HashCount(s[1..])
  }

  lemma {:induction false} SnakeMapLength(s: string)
    ensures |SnakeMap(s)| == |s| - HashCount(s)
  {
    if s != [] {
      SnakeMapLength(s[1..]);
    }
  }

  // ---------------------------------------------------------------------
  // camelCase to snake_case

  /** The fold of `camel_case_to_snake_case`. Rust's `char::is_uppercase`
      consults the Unicode tables, which are not modelled: `upper` stands for
      it. Lower-casing is the ASCII one the source uses. */
  function CamelFold(s: string, upper: char -> bool, acc: string): (r: string)
    ensures |r| >= |acc| + |s|
    ensures acc <= r
    decreases |s|
  {
    if s == [] then acc
    else if upper(s[0]) then CamelFold(s[1..], upper, acc + ['_', AsciiLower(s[0])])
    else CamelFold(s[1..], upper, acc + [s[0]])
  }

  /** `camel_case_to_snake_case`. */
  function CamelToSnake(original: string, upper: char -> bool): (r: string)
    ensures |r| >= |original|
  {
    CamelFold(original, upper, [])
  }

  /** What one character becomes. */
  function CamelChar(c: char, upper: char -> bool): string
  {
    if upper(c) then ['_', AsciiLower(c)] else [c]
  }

  /** The character-by-character conversion. */
  function CamelMap(s: string, upper: char -> bool): string
  {
    if s == [] then [] else CamelChar(s[0], upper) + CamelMap(s[1..], upper)
  }

  lemma {:induction false} CamelFoldMaps(s: string, upper: char -> bool, acc: string)
    ensures CamelFold(s, upper, acc) == acc + CamelMap(s, upper)
  {
    if s != [] {
      CamelFoldMaps(s[1..], upper, acc + CamelChar(s[0], upper));
    }
  }

  /** The fold computes the character-by-character conversion. */
  lemma CamelToSnakeIsPerCharacter(s: string, upper: char -> bool)
    ensures CamelToSnake(s, upper) == CamelMap(s, upper)
  {
    CamelFoldMaps(s, upper, []);
  }

  /** The number of upper-case characters. */
  function UpperCount(s: string, upper: char -> bool): nat
  {
    if s == [] then 0 else (if upper(s[0]) then 1 else 0) + UpperCount(s[1..], upper)
  }

  /** Each upper-case character adds exactly one underscore. */
  lemma {:induction false} CamelMapLength(s: string, upper: char -> bool)
    ensures |CamelMap(s, upper)| == |s| + UpperCount(s, upper)
  {
    if s != [] {
      CamelMapLength(s[1..], upper);
    }
  }

  /** Converting a concatenation converts each part. */
  lemma {:induction false} CamelMapAppend(a: string, b: string, upper: char -> bool)
    ensures CamelMap(a + b, upper) == CamelMap(a, upper) + CamelMap(b, upper)
  {
    if a == [] {
      assert a + b == b;
    } else {
      assert (a + b)[0] == a[0] && (a + b)[1..] == a[1..] + b;
      CamelMapAppend(a[1..], b, upper);
      var h := CamelChar(a[0], upper);
      assert h + (CamelMap(a[1..], upper) + CamelMap(b, upper)) == (h + CamelMap(a[1..], upper)) + CamelMap(b, upper);
    }
  }

  /** When the upper-case letters are exactly ASCII `A`..`Z`, the result
      holds no ASCII upper-case letter. */
  lemma {:induction false} CamelMapLowers(s: string, upper: char -> bool)
    requires forall i | 0 <= i < |s| :: upper(s[i]) <==> 'A' <= s[i] <= 'Z'
    ensures forall i | 0 <= i < |CamelMap(s, upper)| :: !('A' <= CamelMap(s, upper)[i] <= 'Z')
  {
    if s != [] {
      CamelMapLowers(s[1..], upper);
      var head := CamelChar(s[0], upper);
      var tail := CamelMap(s[1..], upper);
      assert CamelMap(s, upper) == head + tail;
      assert forall i | 0 <= i < |head| :: !('A' <= head[i] <= 'Z');
    }
  }

  /** `aT` becomes `a_t`. */
  lemma CamelToSnakeExample()
    ensures CamelToSnake("aT", c => 'A' <= c <= 'Z') == "a_t"
  {
  }
}

=== FILE: webp.dfy ===
/** WebP files: the header, the first chunk, the VP8X flags, and the EXIF
    and XMP chunks they announce (raves_metadata/src/providers/webp/mod.rs).
 */
module Webp {
  import opened Std
  import opened Bytes
  import opened WebpHeader
  import opened WebpChunk

  /** `VP8X`: the chunk that opens an extended WebP file. */
  const Vp8xId: FourCC := [0x56, 0x50, 0x38, 0x58]

  /** `EXIF`. */
  const ExifId: FourCC := [0x45, 0x58, 0x49, 0x46]

  /** `XMP ` (with a trailing space). */
  const XmpId: FourCC := [0x58, 0x4D, 0x50, 0x20]

  /** `WebpConstructionError`. */
  datatype WebpError = NoHeader | NoChunks | MalformedExtendedHeader

  /** The raw Exif and XMP blobs found, if any. */
  datatype WebpMeta = WebpMeta(exif: Option<Bytes>, xmp: Option<Bytes>)

  /** A chunk kept by the scan: its code and its data. */
  type Kept = (FourCC, Bytes)

  /** The E (Exif) bit of the VP8X flags. */
  predicate HasExif(flags: uint8)
  {
    (flags as bv8 & 0x08) != 0
  }

  /** The X (XMP) bit of the VP8X flags. */
  predicate HasXmp(flags: uint8)
  {
    (flags as bv8 & 0x10) != 0
  }

  /** `required_chunks`: the chunk codes the flags announce. */
  function Wanted(flags: uint8): (r: seq<FourCC>)
    ensures ExifId in r <==> HasExif(flags)
    ensures XmpId in r <==> HasXmp(flags)
    ensures forall c | c in r :: c == ExifId || c == XmpId
  {
    (if HasExif(flags) then [ExifId] else []) + (if HasXmp(flags) then [XmpId] else [])
  }

  /** The padding byte after a chunk of odd length, skipped when present. */
  function SkipPad(len: uint32, input: Bytes): (r: Bytes)
    ensures len % 2 == 0 || input == [] ==> r == input
    ensures len % 2 == 1 && input != [] ==> r == input[1..]
  {
    if len % 2 == 1 && input != [] then input[1..] else input
  }

  /** One turn of the chunk loop: nothing when no chunk header can be read.
      A wanted chunk is kept with its data, and the padding byte of an odd
      length is skipped; when its data overruns the input, nothing is kept
      and the scan goes on right after its header. Any other chunk's data is
      skipped when it fits, and then the padding byte. */
  function ChunkTurn(input: Bytes, wanted: seq<FourCC>): (r: Option<(Option<Kept>, Bytes)>)
    ensures r.Some? ==> |r.value.1| < |input| && input[|input| - |r.value.1|..] == r.value.1
    ensures r.Some? && r.value.0.Some? ==> r.value.0.value.0 in wanted && InfixOf(r.value.0.value.1, input)
  {
    var c :- ParseChunk(input);
    var rest := c.rest;
    var len := c.value.len;
    assert input[|input| - |rest|..] == rest;
    if c.value.fourcc in wanted then
      if len as int > |rest| then Some((None, rest))
      else
        PrefixOfSuffix(input, rest, len);
        Some((Some((c.value.fourcc, rest[..len])), Tail(input, rest, len, len)))
    else
      var skipped := if len as int <= |rest| then len else 0;
      Some((None, Tail(input, rest, skipped, len)))
  }

  /** What is left after `n` bytes of a tail and then the padding byte. */
  function Tail(input: Bytes, rest: Bytes, n: nat, len: uint32): (r: Bytes)
    requires |rest| < |input| && input[|input| - |rest|..] == rest && n <= |rest|
    ensures r == SkipPad(len, rest[n..])
    ensures |r| < |input| && input[|input| - |r|..] == r
  {
    SuffixOfSuffix(input, rest, n);
    var after := rest[n..];
    var r := SkipPad(len, after);
    if r != after then SuffixOfSuffix(input, after, 1); r else r
  }

  /** The loop in `Webp::new`: the kept chunks in file order, until the
      input is empty or a chunk header cannot be read. */
  function ScanChunks(input: Bytes, wanted: seq<FourCC>): (r: seq<Kept>)
    ensures forall k | k in r :: k.0 in wanted
    decreases |input|
  {
    if input == [] then []
    else
      match ChunkTurn(input, wanted)
      case None => []
      case Some((kept, tail)) => (if kept.Some? then [kept.value] else []) + ScanChunks(tail, wanted)
  }

  /** Every chunk the scan keeps lies in the input. */
  lemma {:induction false} KeptInInput(input: Bytes, wanted: seq<FourCC>)
    ensures forall k | k in ScanChunks(input, wanted) :: InfixOf(k.1, input)
    decreases |input|
  {
    if input != [] && ChunkTurn(input, wanted).Some? {
      var (kept, tail) := ChunkTurn(input, wanted).value;
      KeptInInput(tail, wanted);
      forall k | k in ScanChunks(tail, wanted) ensures InfixOf(k.1, input) {
        InfixOfSuffix(k.1, input, |input| - |tail|);
      }
    }
  }

  /** `find_chunk`: the data of the first chunk with this code. */
  function FindChunk(needle: FourCC, chunks: seq<Kept>): (r: Option<Bytes>)
    ensures r.None? <==> forall k | k in chunks :: k.0 != needle
    ensures r.Some? ==> exists i | 0 <= i < |chunks| :: chunks[i] == (needle, r.value) && forall j | 0 <= j < i :: chunks[j].0 != needle
  {
    if chunks == [] then None
    else if chunks[0].0 == needle then
      assert chunks[0] == (needle, chunks[0].1);
      Some(chunks[0].1)
    else
      var r := FindChunk(needle, chunks[1..]);
      if r.Some? then
        var i :| 0 <= i < |chunks[1..]| && chunks[1..][i] == (needle, r.value) && forall j | 0 <= j < i :: chunks[1..][j].0 != needle;
        assert chunks[i + 1] == (needle, r.value);
        r
      else r
  }

  /** The 9 bytes after the VP8X flags (the rest of the flags word and the
      canvas size), then the first chunk's padding byte. */
  function Vp8xRest(first: RiffChunk, input: Bytes): (r: Result<Bytes, WebpError>)
    ensures r.Err? <==> |input| < 9
    ensures r.Err? ==> r.error == MalformedExtendedHeader
    ensures r.Ok? ==> r.value == SkipPad(first.len, input[9..])
  {
    var reserved :- Take(9, input).OkOr(MalformedExtendedHeader);
    assert reserved.rest == input[9..];
    Ok(SkipPad(first.len, reserved.rest))
  }

  /** The part of `Webp::new` after a VP8X chunk header: the flags; when
      they announce neither Exif nor XMP, no metadata, with nothing more
      read; otherwise the rest of the VP8X data and the scan of the
      remaining chunks for the first EXIF and XMP chunks among the
      announced ones. */
  function ReadExtended(first: RiffChunk, input: Bytes): (r: Result<WebpMeta, WebpError>)
    ensures r.Err? <==> input == [] || ((HasExif(input[0]) || HasXmp(input[0])) && |input| < 10)
    ensures r.Err? ==> r.error == MalformedExtendedHeader
    ensures input != [] && !HasExif(input[0]) && !HasXmp(input[0]) ==> r == Ok(WebpMeta(None, None))
    ensures r.Ok? && r.value.exif.Some? ==> HasExif(input[0]) && InfixOf(r.value.exif.value, input)
    ensures r.Ok? && r.value.xmp.Some? ==> HasXmp(input[0]) && InfixOf(r.value.xmp.value, input)
  {
    var flags :- ReadU8(input).OkOr(MalformedExtendedHeader);
    var wanted := Wanted(flags.value);
    if wanted == [] then Ok(WebpMeta(None, None))
    else
      var tail :- Vp8xRest(first, flags.rest);
      assert flags.rest[9..] == input[10..];
      SuffixOfSuffix(input, input[1..], 9);
      assert |SkipPad(first.len, input[10..])| <= |input[10..]|;
      var chunks := ScanChunks(tail, wanted);
      BlobsInInput(input, tail, wanted);
      Ok(WebpMeta(FindChunk(ExifId, chunks), FindChunk(XmpId, chunks)))
  }

  /** The blobs the scan of a tail finds lie in the whole. */
  lemma BlobsInInput(input: Bytes, tail: Bytes, wanted: seq<FourCC>)
    requires |tail| <= |input| && input[|input| - |tail|..] == tail
    ensures forall id: FourCC | FindChunk(id, ScanChunks(tail, wanted)).Some? ::
              InfixOf(FindChunk(id, ScanChunks(tail, wanted)).value, input)
  {
    var chunks := ScanChunks(tail, wanted);
    KeptInInput(tail, wanted);
    forall id: FourCC | FindChunk(id, chunks).Some? ensures InfixOf(FindChunk(id, chunks).value, input) {
      var blob := FindChunk(id, chunks).value;
      var i :| 0 <= i < |chunks| && chunks[i] == (id, blob) && forall j | 0 <= j < i :: chunks[j].0 != id;
      assert chunks[i] in chunks;
      InfixOfSuffix(blob, input, |input| - |tail|);
    }
  }

  /** `Webp::new`. The header and a first chunk are required. Unless the
      first chunk is VP8X, there is no metadata. */
  function NewWebp(input: Bytes): (r: Result<WebpMeta, WebpError>)
    ensures ParseFileHeader(input).None? <==> r == Err(NoHeader)
    ensures ParseFileHeader(input).Some? && ParseChunk(input[12..]).None? <==> r == Err(NoChunks)
    ensures r == Err(MalformedExtendedHeader) <==>
              && |input| >= 20 && ParseFileHeader(input).Some? && input[12..16] == Vp8xId
              && (|input| == 20 || ((HasExif(input[20]) || HasXmp(input[20])) && |input| < 30))
    ensures r.Ok? && (r.value.exif.Some? || r.value.xmp.Some?) ==> input[12..16] == Vp8xId
    ensures r.Ok? && r.value.exif.Some? ==> HasExif(input[20]) && InfixOf(r.value.exif.value, input)
    ensures r.Ok? && r.value.xmp.Some? ==> HasXmp(input[20]) && InfixOf(r.value.xmp.value, input)
  {
    var header :- ParseFileHeader(input).OkOr(NoHeader);
    var first :- ParseChunk(header.rest).OkOr(NoChunks);
    assert header.rest[..4] == input[12..16] && first.rest == input[20..];
    if first.value.fourcc != Vp8xId then Ok(WebpMeta(None, None))
    else
      var meta :- ReadExtended(first.value, first.rest);
      MetaInInput(meta, input, 20);
      Ok(meta)
  }

  /** Blobs that lie in a tail of the input lie in the input. */
  lemma MetaInInput(meta: WebpMeta, input: Bytes, k: nat)
    requires k <= |input|
    requires meta.exif.Some? ==> InfixOf(meta.exif.value, input[k..])
    requires meta.xmp.Some? ==> InfixOf(meta.xmp.value, input[k..])
    ensures meta.exif.Some? ==> InfixOf(meta.exif.value, input)
    ensures meta.xmp.Some? ==> InfixOf(meta.xmp.value, input)
  {
    if meta.exif.Some? { InfixOfSuffix(meta.exif.value, input, k); }
    if meta.xmp.Some? { InfixOfSuffix(meta.xmp.value, input, k); }
  }

  /** The padding a chunk of this length carries. */
  function Padding(len: uint32, pad: uint8): (r: Bytes)
  {
    if len % 2 == 1 then [pad] else []
  }

  /** A whole chunk: header, data and padding. */
  function ChunkBytes(c: RiffChunk, data: Bytes, pad: uint8): Bytes
  {
    EncodeChunk(c) + (data + (Padding(c.len, pad) + []))
  }

  /** The input after a whole chunk's header. */
  lemma ChunkLayout(c: RiffChunk, data: Bytes, pad: uint8, rest: Bytes)
    requires |data| == c.len as int
    ensures var body := data + (Padding(c.len, pad) + rest);
            && ParseChunk(ChunkBytes(c, data, pad) + rest) == Some(Parsed(c, body))
            && body[..c.len] == data && SkipPad(c.len, body[c.len..]) == rest
  {
    var body := data + (Padding(c.len, pad) + rest);
    assert ChunkBytes(c, data, pad) + rest == EncodeChunk(c) + body;
    ChunkRoundTrip(c, body);
    assert body[c.len..] == Padding(c.len, pad) + rest;
  }

  /** A chunk that is not wanted is skipped whole, padding included. */
  lemma SkipsUnwantedChunk(c: RiffChunk, data: Bytes, pad: uint8, rest: Bytes, wanted: seq<FourCC>)
    requires |data| == c.len as int && c.fourcc !in wanted
    ensures ScanChunks(ChunkBytes(c, data, pad) + rest, wanted) == ScanChunks(rest, wanted)
  {
    ChunkLayout(c, data, pad, rest);
  }

  /** A wanted chunk is kept with exactly its data, and the scan goes on
      after its padding. */
  lemma KeepsWantedChunk(c: RiffChunk, data: Bytes, pad: uint8, rest: Bytes, wanted: seq<FourCC>)
    requires |data| == c.len as int && c.fourcc in wanted
    ensures ScanChunks(ChunkBytes(c, data, pad) + rest, wanted) == [(c.fourcc, data)] + ScanChunks(rest, wanted)
  {
    ChunkLayout(c, data, pad, rest);
  }

  /** A file whose first chunk is not VP8X has no metadata. */
  lemma SimpleFileHasNone(size: uint32, c: RiffChunk, rest: Bytes)
    requires size <= FileSizeMax && c.fourcc != Vp8xId
    ensures NewWebp(EncodeFileHeader(size) + (EncodeChunk(c) + rest)) == Ok(WebpMeta(None, None))
  {
    FileHeaderRoundTrip(size, EncodeChunk(c) + rest);
    ChunkRoundTrip(c, rest);
  }

  /** An extended file whose flags announce neither Exif nor XMP has no
      metadata, whatever follows, even nothing at all. */
  lemma UnflaggedFileHasNone(size: uint32, len: uint32, flags: uint8, rest: Bytes)
    requires size <= FileSizeMax && !HasExif(flags) && !HasXmp(flags)
    ensures NewWebp(EncodeFileHeader(size) + (EncodeChunk(RiffChunk(Vp8xId, len)) + ([flags] + rest))) == Ok(WebpMeta(None, None))
  {
    var c := RiffChunk(Vp8xId, len);
    FileHeaderRoundTrip(size, EncodeChunk(c) + ([flags] + rest));
    ChunkRoundTrip(c, [flags] + rest);
  }
}

=== FILE: webp_chunk.dfy ===
/** The header of a RIFF chunk in a WebP file
    (raves_metadata/src/providers/webp/chunk.rs).
 */
module WebpChunk {
  import opened Std
  import opened Bytes

  /** `RiffChunk`: the chunk's four-character code and data length. */
  datatype RiffChunk = RiffChunk(fourcc: FourCC, len: uint32)

  /** `chunk`: the four-character code as it stands, then the little-endian
      length. Only these 8 bytes are taken: the data and any padding byte
      stay in the input. */
  function ParseChunk(input: Bytes): (r: Option<Parsed<RiffChunk>>)
    ensures r.Some? <==> |input| >= 8
    ensures r.Some? ==>
              && r.value.value.fourcc == input[..4]
              && Encode(Little, 4, r.value.value.len) == input[4..8]
              && r.value.rest == input[8..]
  {
    var code :- Take(4, input);
    var len :- ReadU32(Little, code.rest);
    assert code.rest[..4] == input[4..8] && code.rest[4..] == input[8..];
    Some(Parsed(RiffChunk(code.value, len.value), len.rest))
  }

  /** The header bytes of a chunk. */
  function EncodeChunk(c: RiffChunk): (r: Bytes)
    ensures |r| == 8
  {
    Pow256Widths();
    c.fourcc + Encode(Little, 4, c.len)
  }

  /** A laid-out chunk header reads back, leaving what followed it. */
  lemma ChunkRoundTrip(c: RiffChunk, rest: Bytes)
    ensures ParseChunk(EncodeChunk(c) + rest) == Some(Parsed(c, rest))
  {
    var input := EncodeChunk(c) + rest;
    assert input == c.fourcc + (Encode(Little, 4, c.len) + rest);
    ReadU32RoundTrip(Little, c.len, rest);
  }
}

=== FILE: webp_header.dfy ===
/** The RIFF file header of a WebP file
    (raves_metadata/src/providers/webp/header.rs).
 */
module WebpHeader {
  import opened Std
  import opened Bytes

  /** `RIFF`. */
  const RiffTag: FourCC := [0x52, 0x49, 0x46, 0x46]

  /** `WEBP`. */
  const WebpTag: FourCC := [0x57, 0x45, 0x42, 0x50]

  /** `FILE_SIZE_MAX`: `u32::MAX - 10`. */
  const FileSizeMax: uint32 := U32_MAX - 10

  /** `webp_file_header`: `RIFF`, the little-endian file size (at most
      `FileSizeMax`), then `WEBP`; gives the file size and the input after
      those 12 bytes. */
  function ParseFileHeader(input: Bytes): (r: Option<Parsed<uint32>>)
    ensures r.Some? <==>
              && |input| >= 12 && input[..4] == RiffTag && input[8..12] == WebpTag
              && ReadU32(Little, input[4..]).value.value <= FileSizeMax
    ensures r.Some? ==> r.value.rest == input[12..] && Encode(Little, 4, r.value.value) == input[4..8]
  {
    var riff :- Take(4, input);
    if riff.value != RiffTag then None
    else
      var size :- ReadU32(Little, riff.rest);
      if size.value > FileSizeMax then None
      else
        var tag :- Take(4, size.rest);
        assert riff.rest[4..] == input[8..] && input[8..][..4] == input[8..12];
        if tag.value != WebpTag then None
        else
          assert riff.rest[..4] == input[4..8];
          Some(Parsed(size.value, tag.rest))
  }

  /** The header bytes of a file of this size. */
  function EncodeFileHeader(size: uint32): (r: Bytes)
    ensures |r| == 12
  {
    Pow256Widths();
    RiffTag + Encode(Little, 4, size) + WebpTag
  }

  /** A laid-out header of an allowed size reads back as that size, and
      exactly 12 bytes are taken. */
  lemma FileHeaderRoundTrip(size: uint32, rest: Bytes)
    requires size <= FileSizeMax
    ensures ParseFileHeader(EncodeFileHeader(size) + rest) == Some(Parsed(size, rest))
  {
    var input := EncodeFileHeader(size) + rest;
    var tail := Encode(Little, 4, size) + (WebpTag + rest);
    assert input == RiffTag + tail;
    assert input[..4] == RiffTag && input[4..] == tail;
    ReadU32RoundTrip(Little, size, WebpTag + rest);
    assert (WebpTag + rest)[..4] == WebpTag && (WebpTag + rest)[4..] == rest;
  }

  /** A stated size above `FileSizeMax` is refused. */
  lemma RefusesLargeSize(size: uint32, rest: Bytes)
    requires size > FileSizeMax
    ensures ParseFileHeader(EncodeFileHeader(size) + rest).None?
  {
    var tail := Encode(Little, 4, size) + (WebpTag + rest);
    assert EncodeFileHeader(size) + rest == RiffTag + tail;
    assert (RiffTag + tail)[4..] == tail;
    ReadU32RoundTrip(Little, size, WebpTag + rest);
  }
}

=== FILE: xml_tree.dfy ===
/** The XML tree the XMP parsers walk: `xmltree::Element` and its nodes, as
    the parsed document hands them over.

    Parsing XML text into this tree is the `xmltree` crate's work and is not
    modelled; the tree is the parsers' input. An element keeps its
    namespace prefix and URI apart from its local name, its attributes in
    iteration order, and its children as element or text nodes (CDATA
    counts as text). */
module XmlTree {
  import opened Std

  /** An attribute: an optionally prefixed, optionally namespaced local
      name, and its value. */
  datatype Attribute = Attribute(prefix: Option<string>, namespace: Option<string>, localName: string, value: string)

  /** A child node: an element or a run of text. */
  datatype Node = ElementNode(element: Element) | TextNode(text: string)

  /** An element: `prefix:name` in namespace `namespace`. */
  datatype Element = Element(
    prefix: Option<string>,
    namespace: Option<string>,
    name: string,
    attributes: seq<Attribute>,
    children: seq<Node>)

  /** The RDF namespace URI, `rdf:` in every XMP packet. */
  const RdfNamespace: string := "http://www.w3.org/1999/02/22-rdf-syntax-ns#"

  /** The element children among `nodes`, in order (`flat_map(as_element)`). */
  function ChildElements(nodes: seq<Node>): (r: seq<Element>)
    ensures |r| <= |nodes|
    ensures forall c | c in r :: ElementNode(c) in nodes
    ensures forall n | n in nodes && n.ElementNode? :: n.element in r
  {
    if nodes == [] then []
    else
      var rest := ChildElements(nodes[1..]);
      assert forall n | n in nodes[1..] :: n in nodes;
      match nodes[0]
      case ElementNode(c) => [c] + rest
      case TextNode(_) => rest
  }

  /** Keeping the element children commutes with concatenation: no element
      is lost, added or moved. */
  lemma {:induction false} ChildElementsAppend(a: seq<Node>, b: seq<Node>)
    ensures ChildElements(a + b) == ChildElements(a) + ChildElements(b)
  {
    if a == [] {
      assert a + b == b;
    } else {
      assert (a + b)[0] == a[0] && (a + b)[1..] == a[1..] + b;
      ChildElementsAppend(a[1..], b);
    }
  }

  /** The children of `e` that are elements. */
  function Children(e: Element): (r: seq<Element>)
    ensures forall c | c in r :: ElementNode(c) in e.children
  {
    ChildElements(e.children)
  }

  /** A child element is smaller than its parent: recursion over the tree
      terminates. */
  lemma ChildrenBelow(e: Element)
    ensures forall c | c in Children(e) :: c < e
  {
    forall c | c in Children(e)
      ensures c < e
    {
      assert ElementNode(c) in e.children;
    }
  }

  /** The text runs among `nodes`, in order. */
  function TextRuns(nodes: seq<Node>): (r: seq<string>)
    ensures |r| <= |nodes|
    ensures forall n | n in nodes && n.TextNode? :: n.text in r
    ensures r == [] <==> forall n | n in nodes :: n.ElementNode?
  {
    if nodes == [] then []
    else
      var rest := TextRuns(nodes[1..]);
      assert forall n | n in nodes[1..] :: n in nodes;
      assert nodes[0] in nodes;
      match nodes[0]
      case TextNode(t) => [t] + rest
      case ElementNode(_) => rest
  }

  function Concat(ss: seq<string>): string
  {
    if ss == [] then [] else ss[0] + Concat(ss[1..])
  }

  /** `Element::get_text`: the concatenated text runs, or `None` when the
      element has no text child. */
  function GetText(e: Element): (r: Option<string>)
    ensures r.None? <==> forall n | n in e.children :: n.ElementNode?
    ensures r.Some? ==> r.value == Concat(TextRuns(e.children))
  {
    var runs := TextRuns(e.children);
    if runs == [] then None else Some(Concat(runs))
  }

  /** An element without children has no text: `get_text` is `None` for it. */
  lemma NoChildrenNoText(e: Element)
    requires e.children == []
    ensures GetText(e).None?
  {
  }

  /** An element whose one child is a text run has that text. */
  lemma SingleTextChild(e: Element, t: string)
    requires e.children == [TextNode(t)]
    ensures GetText(e) == Some(t)
  {
    assert TextRuns(e.children) == [t] + TextRuns([]);
    assert Concat([t]) == t + Concat([]);
    assert t + [] == t;
  }

  /** `Element::get_child(name)`: the first child element whose local name
      is `name`, whatever its prefix or namespace. */
  function FirstChildNamed(e: Element, name: string): (r: Option<Element>)
    ensures r.Some? ==> r.value in Children(e) && r.value.name == name
    ensures r.None? <==> forall c | c in Children(e) :: c.name != name
  {
    FirstNamed(Children(e), name)
  }

  function FirstNamed(cs: seq<Element>, name: string): (r: Option<Element>)
    ensures r.Some? ==> r.value in cs && r.value.name == name
    ensures r.None? <==> forall c | c in cs :: c.name != name
    ensures r.Some? ==> exists i | 0 <= i < |cs| :: cs[i] == r.value && forall j | 0 <= j < i :: cs[j].name != name
  {
    if cs == [] then None
    else if cs[0].name == name then Some(cs[0])
    else
      var r := FirstNamed(cs[1..], name);
      if r.Some? then
        var i :| 0 <= i < |cs[1..]| && cs[1..][i] == r.value && forall j | 0 <= j < i :: cs[1..][j].name != name;
        assert cs[i + 1] == r.value;
        r
      else r
  }
}

=== FILE: xmp_heuristics.dfy ===
/** The guesses the generic XMP parser makes about an element whose schema
    is unknown (xmp/heuristics.rs): is it an `rdf:Description`, a struct, or
    a holder of an RDF collection? */
module XmpHeuristics {
  import opened Std
  import opened XmlTree

  /** `is_rdf_description`: the RDF namespace and the local name
      `Description`; the prefix plays no part. */
  predicate IsRdfDescription(e: Element)
  {
    e.namespace == Some(RdfNamespace) && e.name == "Description"
  }

  /** The attribute `rdf:parseType="Resource"`. */
  predicate IsResourceParseType(a: Attribute)
  {
    a.localName == "parseType" && a.namespace == Some(RdfNamespace) && a.value == "Resource"
  }

  /** An attribute outside the RDF namespace, un-namespaced included. */
  predicate IsForeignAttribute(a: Attribute)
  {
    a.namespace != Some(RdfNamespace)
  }

  /** Whether some attribute of `attrs` has property `p` (`iter().any`). */
  function AnyAttribute(attrs: seq<Attribute>, p: Attribute -> bool): (r: bool)
    ensures r <==> exists i | 0 <= i < |attrs| :: p(attrs[i])
  {
    if attrs == [] then false
    else if p(attrs[0]) then true
    else
      var r := AnyAttribute(attrs[1..], p);
      assert forall i | 1 <= i < |attrs| :: attrs[i] == attrs[1..][i - 1];
      r
  }

  /** Whether some element of `cs` is an `rdf:Description`. */
  function AnyDescription(cs: seq<Element>): (r: bool)
    ensures r <==> exists i | 0 <= i < |cs| :: IsRdfDescription(cs[i])
  {
    if cs == [] then false
    else if IsRdfDescription(cs[0]) then true
    else
      var r := AnyDescription(cs[1..]);
      assert forall i | 1 <= i < |cs| :: cs[i] == cs[1..][i - 1];
      r
  }

  /** `rdf:parseType="Resource"` is among the element's attributes. */
  function HasResourceParseType(e: Element): (r: bool)
    ensures r <==> exists i | 0 <= i < |e.attributes| :: IsResourceParseType(e.attributes[i])
  {
    AnyAttribute(e.attributes, IsResourceParseType)
  }

  /** `is_struct`: the element is marked `rdf:parseType="Resource"`, or
      holds an `rdf:Description`, or has no children at all and some
      attribute outside the RDF namespace. */
  function IsStruct(e: Element): (r: bool)
    ensures r <==>
              || (exists i | 0 <= i < |e.attributes| :: IsResourceParseType(e.attributes[i]))
              || (exists c | c in Children(e) :: IsRdfDescription(c))
              || (e.children == [] && exists i | 0 <= i < |e.attributes| :: IsForeignAttribute(e.attributes[i]))
  {
    if HasResourceParseType(e) then true
    else if AnyDescription(Children(e)) then true
    else e.children == [] && AnyAttribute(e.attributes, IsForeignAttribute)
  }

  /** The kind of RDF collection an element holds. */
  datatype CollectionKind = Alternatives | Unordered | Ordered

  /** The collection kind a local name names: `Alt`, `Bag` or `Seq`, with
      that exact case. */
  function CollectionName(name: string): Option<CollectionKind>
  {
    if name == "Alt" then Some(Alternatives)
    else if name == "Bag" then Some(Unordered)
    else if name == "Seq" then Some(Ordered)
    else None
  }

  /** An `rdf:Alt`, `rdf:Bag` or `rdf:Seq` element, judged by namespace and
      local name. */
  predicate IsRdfCollection(c: Element)
  {
    CollectionName(c.name).Some? && c.namespace == Some(RdfNamespace)
  }

  /** The first RDF collection among `cs`, and its kind. */
  function FirstCollection(cs: seq<Element>): (r: Option<CollectionKind>)
    ensures r.None? <==> forall i | 0 <= i < |cs| :: !IsRdfCollection(cs[i])
    ensures r.Some? ==> exists i | 0 <= i < |cs| ::
              && IsRdfCollection(cs[i]) && r == CollectionName(cs[i].name)
              && forall j | 0 <= j < i :: !IsRdfCollection(cs[j])
  {
    if cs == [] then None
    else if IsRdfCollection(cs[0]) then CollectionName(cs[0].name)
    else
      var r := FirstCollection(cs[1..]);
      assert forall i | 1 <= i < |cs| :: cs[i] == cs[1..][i - 1];
      if r.Some? then
        var i :| 0 <= i < |cs[1..]| && IsRdfCollection(cs[1..][i]) && r == CollectionName(cs[1..][i].name)
                 && forall j | 0 <= j < i :: !IsRdfCollection(cs[1..][j]);
        assert cs[i + 1] == cs[1..][i];
        r
      else r
  }

  /** `has_collection`: the kind of the first child element that is an RDF
      `Alt`, `Bag` or `Seq`; `None` when no child is. */
  function HasCollection(e: Element): (r: Option<CollectionKind>)
    ensures r.None? <==> forall c | c in Children(e) :: !IsRdfCollection(c)
    ensures r.Some? ==> exists i | 0 <= i < |Children(e)| ::
              && IsRdfCollection(Children(e)[i]) && r == CollectionName(Children(e)[i].name)
              && forall j | 0 <= j < i :: !IsRdfCollection(Children(e)[j])
  {
    FirstCollection(Children(e))
  }

  /** A lower-case `alt`, `bag` or `seq`, or a collection outside the RDF
      namespace, is not a collection. */
  lemma CollectionNamesExact(c: Element)
    requires c.name in {"alt", "bag", "seq"} || c.namespace != Some(RdfNamespace)
    ensures !IsRdfCollection(c)
  {
  }

  /** An element with neither children nor attributes is never a struct. */
  lemma BareElementNotStruct(e: Element)
    requires e.children == [] && e.attributes == []
    ensures !IsStruct(e)
  {
  }
}

=== FILE: xmp_prims.dfy ===
/** `parse_primitive` (xmp/value/prims.rs): reading an element's text as the
    primitive its schema names.

    Integers go through `str::parse::<i64>`, modelled here digit by digit as
    the standard library does it: an optional sign, then decimal digits; a
    non-digit is `InvalidDigit`, and the first digit that takes the running
    value out of range is `PosOverflow`/`NegOverflow`. Real numbers are not
    modelled: their parse is the parameter `parseReal`. */
module XmpPrims {
  import opened Std
  import opened XmpTypes

  predicate IsDigit(c: char) { '0' <= c <= '9' }

  function DigitValue(c: char): nat
    requires IsDigit(c)
  {
    c as int - '0' as int
  }

  predicate AllDigits(ds: string)
  {
    forall i | 0 <= i < |ds| :: IsDigit(ds[i])
  }

  /** The value of a digit string, most significant digit first: the last
      digit is the units. */
  function DigitsValue(ds: string): nat
    requires AllDigits(ds)
  {
    if ds == [] then 0 else DigitsValue(ds[..|ds| - 1]) * 10 + DigitValue(ds[|ds| - 1])
  }

  function Signed(v: nat, negative: bool): int
  {
    if negative then -(v as int) else v
  }

  predicate InI64(x: int) { I64Min <= x <= I64Max }

  function OverflowKind(negative: bool): IntErrorKind
  {
    if negative then NegOverflow else PosOverflow
  }

  /** The digit loop of `from_str_radix`: `acc` is the signed value so far,
      and each digit is added to ten times it (subtracted, for a negative
      number). A character that is not a digit fails before the overflow
      check for that character. */
  function Accumulate(digits: string, acc: int, negative: bool): Result<int, IntErrorKind>
    requires InI64(acc)
    decreases |digits|
  {
    if digits == [] then Ok(acc)
    else if !IsDigit(digits[0]) then Err(InvalidDigit)
    else
      var next := if negative then acc * 10 - DigitValue(digits[0]) else acc * 10 + DigitValue(digits[0]);
      if !InI64(next) then Err(OverflowKind(negative)) else Accumulate(digits[1..], next, negative)
  }

  predicate HasSign(s: string)
  {
    |s| > 0 && (s[0] == '+' || s[0] == '-')
  }

  /** The digits after an optional sign. */
  function DigitPart(s: string): string
  {
    if HasSign(s) then s[1..] else s
  }

  predicate Negative(s: string)
  {
    |s| > 0 && s[0] == '-'
  }

  /** `str::parse::<i64>`. */
  function ParseI64(s: string): (r: Result<int, IntErrorKind>)
    ensures r.Ok? ==> InI64(r.value)
    ensures s == [] <==> r == Err(Empty)
  {
    if s == [] then Err(Empty)
    else if HasSign(s) && |s| == 1 then Err(InvalidDigit)
    else
      var r := Accumulate(DigitPart(s), 0, Negative(s));
      AccumulateNotEmpty(DigitPart(s), 0, Negative(s));
      r
  }

  lemma {:induction false} AccumulateNotEmpty(digits: string, acc: int, negative: bool)
    requires InI64(acc)
    ensures Accumulate(digits, acc, negative).Ok? ==> InI64(Accumulate(digits, acc, negative).value)
    ensures Accumulate(digits, acc, negative) != Err(Empty)
    decreases |digits|
  {
    if digits != [] && IsDigit(digits[0]) {
      var next := if negative then acc * 10 - DigitValue(digits[0]) else acc * 10 + DigitValue(digits[0]);
      if InI64(next) {
        AccumulateNotEmpty(digits[1..], next, negative);
      }
    }
  }

  /** A well-formed decimal integer: an optional sign and at least one digit. */
  predicate WellFormedInt(s: string)
  {
    DigitPart(s) != [] && AllDigits(DigitPart(s))
  }

  /** The integer a well-formed decimal string denotes. */
  function IntValue(s: string): int
    requires WellFormedInt(s)
  {
    Signed(DigitsValue(DigitPart(s)), Negative(s))
  }

  /** Appending a digit multiplies the value so far by ten and adds it. */
  lemma DigitsValueSnoc(ds: string, k: nat)
    requires AllDigits(ds) && k < |ds|
    ensures AllDigits(ds[..k]) && AllDigits(ds[..k + 1])
    ensures DigitsValue(ds[..k + 1]) == DigitsValue(ds[..k]) * 10 + DigitValue(ds[k])
  {
    assert ds[..k + 1][..k] == ds[..k];
  }

  /** A longer prefix never has a smaller value. */
  lemma {:induction false} DigitsValuePrefix(ds: string, k: nat)
    requires AllDigits(ds) && k <= |ds|
    ensures AllDigits(ds[..k])
    ensures DigitsValue(ds[..k]) <= DigitsValue(ds)
    decreases |ds| - k
  {
    if k < |ds| {
      DigitsValueSnoc(ds, k);
      DigitsValuePrefix(ds, k + 1);
    } else {
      assert ds[..k] == ds;
    }
  }

  /** From position `k` on, the digit loop ends in the whole string's value
      when that is in range, and in the sign's overflow otherwise. */
  lemma {:induction false} AccumulateFrom(ds: string, k: nat, negative: bool)
    requires AllDigits(ds) && k <= |ds|
    requires AllDigits(ds[..k]) && InI64(Signed(DigitsValue(ds[..k]), negative))
    ensures Accumulate(ds[k..], Signed(DigitsValue(ds[..k]), negative), negative)
            == if InI64(Signed(DigitsValue(ds), negative)) then Ok(Signed(DigitsValue(ds), negative))
               else Err(OverflowKind(negative))
    decreases |ds| - k
  {
    var acc := Signed(DigitsValue(ds[..k]), negative);
    if k == |ds| {
      assert ds[..k] == ds;
    } else {
      DigitsValueSnoc(ds, k);
      assert ds[k..][0] == ds[k] && ds[k..][1..] == ds[k + 1..];
      var next := Signed(DigitsValue(ds[..k + 1]), negative);
      if InI64(next) {
        AccumulateFrom(ds, k + 1, negative);
      } else {
        DigitsValuePrefix(ds, k + 1);
      }
    }
  }

  /** `str::parse::<i64>` accepts exactly the well-formed decimals in range,
      with their value; a well-formed decimal out of range is the overflow of
      its sign; and anything else is an error. */
  lemma ParseI64Spec(s: string)
    ensures ParseI64(s).Ok? <==> WellFormedInt(s) && InI64(IntValue(s))
    ensures ParseI64(s).Ok? ==> ParseI64(s).value == IntValue(s)
    ensures WellFormedInt(s) && !InI64(IntValue(s)) ==> ParseI64(s) == Err(OverflowKind(Negative(s)))
  {
    var ds := DigitPart(s);
    if s != [] && !(HasSign(s) && |s| == 1) {
      if AllDigits(ds) {
        assert ds[..0] == [] && ds[0..] == ds;
        AccumulateFrom(ds, 0, Negative(s));
      } else {
        AccumulateRejects(ds, 0, Negative(s));
      }
    }
  }

  /** A string with a non-digit never yields a value. */
  lemma {:induction false} AccumulateRejects(digits: string, acc: int, negative: bool)
    requires InI64(acc) && !AllDigits(digits)
    ensures Accumulate(digits, acc, negative).Err?
    decreases |digits|
  {
    if IsDigit(digits[0]) {
      assert !AllDigits(digits[1..]) by {
        var i :| 0 <= i < |digits| && !IsDigit(digits[i]);
        assert digits[1..][i - 1] == digits[i];
      }
      var next := if negative then acc * 10 - DigitValue(digits[0]) else acc * 10 + DigitValue(digits[0]);
      if InI64(next) {
        AccumulateRejects(digits[1..], next, negative);
      }
    }
  }

  /** Once the digits before a non-digit already overflow, the overflow is
      reported, not the bad character: "99999999999999999999x" is read as an
      out-of-range number. */
  lemma OverflowBeforeBadDigit(ds: string, k: nat, negative: bool)
    requires k <= |ds| && AllDigits(ds[..k]) && !InI64(Signed(DigitsValue(ds[..k]), negative))
    ensures Accumulate(ds, 0, negative) == Err(OverflowKind(negative))
  {
    var pre := ds[..k];
    assert pre[..0] == [] && pre[0..] == pre;
    AccumulateFrom(pre, 0, negative);
    AccumulatePrefixErr(ds, k, 0, negative);
  }

  /** An error on the first `k` characters is the error on the whole
      string: the loop never looks further. */
  lemma {:induction false} AccumulatePrefixErr(ds: string, k: nat, acc: int, negative: bool)
    requires k <= |ds| && InI64(acc) && Accumulate(ds[..k], acc, negative).Err?
    ensures Accumulate(ds, acc, negative) == Accumulate(ds[..k], acc, negative)
    decreases k
  {
    assert ds[..k][0] == ds[0];
    if IsDigit(ds[0]) {
      var next := if negative then acc * 10 - DigitValue(ds[0]) else acc * 10 + DigitValue(ds[0]);
      if InI64(next) {
        assert ds[..k][1..] == ds[1..][..k - 1];
        AccumulatePrefixErr(ds[1..], k - 1, next, negative);
      }
    }
  }

  /** `parse_primitive`: the text read as the primitive `prim` names. */
  function ParsePrimitive(text: string, prim: PrimKind, parseReal: string -> Option<Float>): (r: Result<XmpValue, XmpError>)
    ensures r.Ok? ==> r.value.Simple?
    ensures prim == BooleanKind ==>
              (r.Ok? <==> text == "True" || text == "False")
              && (r.Ok? ==> r.value.prim == Boolean(text == "True"))
              && (r.Err? ==> r.error == PrimitiveUnknownBool(text))
    ensures prim == DateKind ==> r == Ok(Simple(Date(text)))
    ensures prim == TextKind ==> r == Ok(Simple(Text(text)))
    ensures prim == IntegerKind && r.Ok? ==> r.value.prim.Integer? || r.value.prim == Text(text)
    ensures prim == RealKind ==>
              (r.Ok? <==> parseReal(text).Some?)
              && (r.Ok? ==> r.value.prim == Real(parseReal(text).value))
              && (r.Err? ==> r.error == PrimitiveRealParseFail(text))
  {
    match prim
    case BooleanKind =>
      if text == "True" then Ok(Simple(Boolean(true)))
      else if text == "False" then Ok(Simple(Boolean(false)))
      else Err(PrimitiveUnknownBool(text))
    case DateKind => Ok(Simple(Date(text)))
    case IntegerKind =>
      (match ParseI64(text)
       case Ok(n) => Ok(Simple(Integer(n)))
       case Err(PosOverflow) => Ok(Simple(Text(text)))
       case Err(NegOverflow) => Ok(Simple(Text(text)))
       case Err(kind) => Err(PrimitiveIntegerParseFail(text, kind)))
    case RealKind =>
      (match parseReal(text)
       case Some(f) => Ok(Simple(Real(f)))
       case None => Err(PrimitiveRealParseFail(text)))
    case TextKind => Ok(Simple(Text(text)))
  }

  /** An integer schema reads a well-formed decimal in the `i64` range as
      that integer, keeps a well-formed decimal outside it as the original
      text, and rejects a malformed one with the text it was given. */
  lemma ParseInteger(text: string, parseReal: string -> Option<Float>)
    ensures WellFormedInt(text) && InI64(IntValue(text)) ==>
              ParsePrimitive(text, IntegerKind, parseReal) == Ok(Simple(Integer(IntValue(text))))
    ensures WellFormedInt(text) && !InI64(IntValue(text)) ==>
              ParsePrimitive(text, IntegerKind, parseReal) == Ok(Simple(Text(text)))
    ensures !WellFormedInt(text) && ParsePrimitive(text, IntegerKind, parseReal).Err? ==>
              ParsePrimitive(text, IntegerKind, parseReal).error.PrimitiveIntegerParseFail?
              && ParsePrimitive(text, IntegerKind, parseReal).error.value == text
    ensures ParsePrimitive(text, IntegerKind, parseReal).Ok? ==>
              ParsePrimitive(text, IntegerKind, parseReal).value.prim.Integer?
              || ParsePrimitive(text, IntegerKind, parseReal).value.prim == Text(text)
  {
    ParseI64Spec(text);
  }

  /** A malformed integer whose text has no overflowing digit run is an
      error: "1.2.3" fails with `InvalidDigit`. */
  lemma MalformedInteger(text: string, parseReal: string -> Option<Float>)
    requires text != [] && !WellFormedInt(text)
    requires forall k | 0 <= k <= |DigitPart(text)| && AllDigits(DigitPart(text)[..k]) ::
               InI64(Signed(DigitsValue(DigitPart(text)[..k]), Negative(text)))
    ensures ParsePrimitive(text, IntegerKind, parseReal) == Err(PrimitiveIntegerParseFail(text, InvalidDigit))
  {
    ParseI64Spec(text);
    if !(HasSign(text) && |text| == 1) {
      AccumulateNoOverflow(DigitPart(text), 0, Negative(text));
    }
  }

  /** The digit loop reports an overflow only for a digit run whose value is
      out of range. */
  lemma {:induction false} AccumulateNoOverflow(ds: string, k: nat, negative: bool)
    requires k <= |ds| && AllDigits(ds[..k]) && InI64(Signed(DigitsValue(ds[..k]), negative))
    requires forall j | k <= j <= |ds| && AllDigits(ds[..j]) :: InI64(Signed(DigitsValue(ds[..j]), negative))
    ensures Accumulate(ds[k..], Signed(DigitsValue(ds[..k]), negative), negative) != Err(PosOverflow)
    ensures Accumulate(ds[k..], Signed(DigitsValue(ds[..k]), negative), negative) != Err(NegOverflow)
    decreases |ds| - k
  {
    if k < |ds| {
      assert ds[k..][0] == ds[k] && ds[k..][1..] == ds[k + 1..];
      if IsDigit(ds[k]) {
        assert AllDigits(ds[..k + 1]) by {
          assert forall i | 0 <= i < k + 1 :: ds[..k + 1][i] == if i < k then ds[..k][i] else ds[k];
        }
        assert ds[..k + 1][..k] == ds[..k];
        AccumulateNoOverflow(ds, k + 1, negative);
      }
    }
  }
}

=== FILE: xmp_types.dfy ===
/** The XMP value types (`raves_metadata_types::xmp`), the schema kinds that
    say how to read an element (`XmpKind` and its struct fields), and the
    errors the value parsers report (`XmpParsingError`). */
module XmpTypes {
  import opened Std
  import opened XmlTree

  /** A 64-bit float, kept as its bit pattern: floating point is not
      modelled, so a real value is only carried, never computed with. */
  datatype Float = Float(bits: bv64)

  /** `i64` bounds. */
  const I64Min: int := -0x8000_0000_0000_0000
  const I64Max: int := 0x7FFF_FFFF_FFFF_FFFF

  type i64 = x: int | I64Min <= x <= I64Max

  /** A primitive XMP value. */
  datatype XmpPrimitive =
    | Boolean(b: bool)
    | Date(date: string)
    | Integer(i: i64)
    | Real(f: Float)
    | Text(text: string)

  /** A parsed XMP value. */
  datatype XmpValue =
    | Simple(prim: XmpPrimitive)
    | Struct(fields: seq<StructField>)
    | Union(discriminant: StructField, expectedFields: seq<StructField>, unexpectedFields: seq<StructField>)
    | UnorderedArray(items: seq<XmpElement>)
    | OrderedArray(items: seq<XmpElement>)
    | Alternatives(chosen: (string, XmpElement), list: seq<(string, XmpElement)>)

  /** A named value: the element's namespace, prefix and local name. */
  datatype XmpElement = XmpElement(namespace: string, prefix: string, name: string, value: XmpValue)

  /** A field of a struct or union: a nested element, or a bare value read
      from an attribute. */
  datatype StructField =
    | ElementField(ident: string, namespace: Option<string>, element: XmpElement)
    | ValueField(ident: string, namespace: Option<string>, value: XmpValue)

  /** The kind of primitive a schema asks for. */
  datatype PrimKind = BooleanKind | DateKind | IntegerKind | RealKind | TextKind

  /** A schema field's identity: a local name, and a namespace URI unless the
      field is un-namespaced. */
  datatype Ident = Ident(name: string, ns: Option<string>)

  /** A schema: how to read an element. */
  datatype Kind =
    | SimpleKind(prim: PrimKind)
    | StructKind(fields: seq<Field>)
    | UnionKind(always: seq<Field>, discriminant: Field, optional: seq<(string, seq<Field>)>)
    | UnorderedArrayKind(item: Kind)
    | OrderedArrayKind(item: Kind)
    | AlternativesKind(item: Kind)

  /** A field of a struct or union schema. */
  datatype Field = Field(ident: Ident, ty: Kind)

  /** Why `str::parse::<i64>` failed (`core::num::IntErrorKind`). */
  datatype IntErrorKind = Empty | InvalidDigit | PosOverflow | NegOverflow

  /** `XmpParsingError`. */
  datatype XmpError =
    | XmpElementCreationNoNamespace(elementName: string)
    | XmpElementCreationNoPrefix(elementName: string)
    | PrimitiveUnknownBool(value: string)
    | PrimitiveIntegerParseFail(value: string, kind: IntErrorKind)
    | PrimitiveRealParseFail(value: string)
    | PrimitiveTextHadNoText(elementName: string)
    | UnionDiscriminantWasntText(elementName: string, discriminantKind: Field)
    | UnionNoDiscriminant(elementName: string)
    | ArrayNoInnerCollectionType(elementName: string, children: seq<Node>)
    | ArrayAltNoDefault(elementName: string, alternatives: seq<(string, XmpElement)>)
    | ArrayGivenNonArraySchema(elementName: string, weirdSchema: Kind)
    | GenericLikelyPrimitiveHadNoText(elementName: string)
    | GenericNoOtherOption(elementName: string)
}

=== FILE: xmp_value.dfy ===
/** Reading an XMP element's value (xmp/value/mod.rs, arrays.rs, structs.rs,
    unions.rs): with a schema when one is known (`value_with_schema`), or by
    the generic heuristics otherwise (`value_generic`).

    The parsers call one another on the element's descendants, so they form
    one recursive group here; each call goes to a child element, or stays on
    the same element one step further down the ranking
    `value_with_schema`/`value_generic` > `value_struct`/`value_union`/array
    parsers > their per-child helpers. */
module XmpValueParse {
  import opened Std
  import opened XmlTree
  import opened XmpTypes
  import opened XmpPrims
  import opened XmpHeuristics

  /** How `f64` text is read; floating point is not modelled. */
  type RealParser = string -> Option<Float>

  /** `x` carries the namespace, prefix and local name of `e`. */
  predicate Named(x: XmpElement, e: Element)
  {
    e.namespace == Some(x.namespace) && e.prefix == Some(x.prefix) && x.name == e.name
  }

  /** Every primitive in `v` is text: what a parse without a schema makes. */
  predicate TextOnly(v: XmpValue)
  {
    match v
    case Simple(p) => p.Text?
    case Struct(fs) =>
      forall i | 0 <= i < |fs| ::
        (match fs[i]
         case ElementField(_, _, x) => TextOnly(x.value)
         case ValueField(_, _, w) => TextOnly(w))
    case Union(_, _, _) => false
    case UnorderedArray(items) => forall i | 0 <= i < |items| :: TextOnly(items[i].value)
    case OrderedArray(items) => forall i | 0 <= i < |items| :: TextOnly(items[i].value)
    case Alternatives(chosen, list) =>
      TextOnly(chosen.1.value) && forall i | 0 <= i < |list| :: TextOnly(list[i].1.value)
  }

  /** A primitive of the kind a schema asks for; an integer schema may also
      hold text, for a number outside the `i64` range. */
  predicate PrimConforms(p: XmpPrimitive, k: PrimKind)
  {
    match k
    case BooleanKind => p.Boolean?
    case DateKind => p.Date?
    case IntegerKind => p.Integer? || p.Text?
    case RealKind => p.Real?
    case TextKind => p.Text?
  }

  /** The first field of a struct schema with the given local name and
      namespace (both un-namespaced counts as a match). */
  function SchemaField(fs: seq<Field>, ns: Option<string>, name: string): (r: Option<Field>)
    ensures r.Some? ==> r.value in fs && r.value.ident == Ident(name, ns)
    ensures r.None? <==> forall i | 0 <= i < |fs| :: fs[i].ident != Ident(name, ns)
  {
    if fs == [] then None
    else if fs[0].ident == Ident(name, ns) then Some(fs[0])
    else
      var r := SchemaField(fs[1..], ns, name);
      assert forall i | 1 <= i < |fs| :: fs[i] == fs[1..][i - 1];
      r
  }

  /** `get_field_info`: a field of the schema, when the schema is a struct. */
  function FieldInfo(schema: Option<Kind>, ns: Option<string>, name: string): (r: Option<Field>)
    ensures r.Some? ==> schema.Some? && schema.value.StructKind? && r.value in schema.value.fields
    ensures r.Some? ==> r.value.ident == Ident(name, ns)
  {
    match schema
    case Some(StructKind(fs)) => SchemaField(fs, ns, name)
    case _ => None
  }

  /** A value that fits schema `k`: the value's shape is the kind's, struct
      fields the schema names fit their field's kind and the others are
      text, array items fit the item kind, alternatives choose an
      `x-default` entry among text entries, and a union's discriminant is
      one of its expected fields. */
  predicate Conforms(v: XmpValue, k: Kind)
    decreases k
  {
    match k
    case SimpleKind(p) => v.Simple? && PrimConforms(v.prim, p)
    case StructKind(fs) =>
      && v.Struct?
      && forall i | 0 <= i < |v.fields| :: FieldConforms(v.fields[i], k)
    case UnionKind(_, d, _) =>
      && v.Union?
      && v.discriminant in v.expectedFields
      && v.discriminant.ident == d.ident.name && v.discriminant.namespace == d.ident.ns
    case UnorderedArrayKind(item) =>
      && v.UnorderedArray?
      && forall i | 0 <= i < |v.items| :: Conforms(v.items[i].value, item)
    case OrderedArrayKind(item) =>
      && v.OrderedArray?
      && forall i | 0 <= i < |v.items| :: Conforms(v.items[i].value, item)
    case AlternativesKind(_) =>
      && v.Alternatives?
      && v.chosen.0 == "x-default" && v.chosen in v.list
      && forall i | 0 <= i < |v.list| :: v.list[i].1.value.Simple? && v.list[i].1.value.prim.Text?
  }

  /** A struct field fits struct schema `k`: a field the schema names holds
      a value of that field's kind (a primitive one, for an attribute), and
      any other field holds text only. */
  predicate FieldConforms(f: StructField, k: Kind)
    requires k.StructKind?
    decreases k, 0
  {
    match SchemaField(k.fields, f.namespace, f.ident)
    case None =>
      (match f
       case ElementField(_, _, x) => TextOnly(x.value)
       case ValueField(_, _, w) => TextOnly(w))
    case Some(sf) =>
      (match f
       case ElementField(_, _, x) => Conforms(x.value, sf.ty)
       case ValueField(_, _, w) => sf.ty.SimpleKind? && Conforms(w, sf.ty))
  }

  /** `to_xmp_element`: the value named after the element, which must have
      a namespace and a prefix. */
  function ToXmpElement(e: Element, v: XmpValue): (r: Result<XmpElement, XmpError>)
    ensures r.Ok? <==> e.namespace.Some? && e.prefix.Some?
    ensures r.Ok? ==> Named(r.value, e) && r.value.value == v
    ensures e.namespace.None? ==> r == Err(XmpElementCreationNoNamespace(e.name))
    ensures e.namespace.Some? && e.prefix.None? ==> r == Err(XmpElementCreationNoPrefix(e.name))
  {
    match (e.namespace, e.prefix)
    case (None, _) => Err(XmpElementCreationNoNamespace(e.name))
    case (Some(_), None) => Err(XmpElementCreationNoPrefix(e.name))
    case (Some(ns), Some(prefix)) => Ok(XmpElement(ns, prefix, e.name, v))
  }

  /** The elements of `cs` in the RDF namespace with local name `name`, in
      order. */
  function RdfNamed(cs: seq<Element>, name: string): (r: seq<Element>)
    ensures forall c | c in r :: c in cs && c.namespace == Some(RdfNamespace) && c.name == name
    ensures forall c | c in cs && c.namespace == Some(RdfNamespace) && c.name == name :: c in r
  {
    if cs == [] then []
    else
      var rest := RdfNamed(cs[1..], name);
      assert forall c | c in cs[1..] :: c in cs;
      if cs[0].namespace == Some(RdfNamespace) && cs[0].name == name then [cs[0]] + rest else rest
  }

  /** The first element of `cs` in the RDF namespace with local name
      `name`. */
  function FirstRdfNamed(cs: seq<Element>, name: string): (r: Option<Element>)
    ensures r.Some? ==> r.value in cs && r.value.namespace == Some(RdfNamespace) && r.value.name == name
    ensures r.None? <==> forall c | c in cs :: !(c.namespace == Some(RdfNamespace) && c.name == name)
  {
    if cs == [] then None
    else if cs[0].namespace == Some(RdfNamespace) && cs[0].name == name then Some(cs[0])
    else
      var r := FirstRdfNamed(cs[1..], name);
      assert forall c | c in cs[1..] :: c in cs;
      r
  }

  /** `value_with_schema`: the element read as schema `k` says. A simple
      kind needs text, which is read as that primitive. */
  function ValueWithSchema(e: Element, k: Kind, parseReal: RealParser): (r: Result<XmpElement, XmpError>)
    ensures r.Ok? ==> Named(r.value, e) && Conforms(r.value.value, k)
    ensures k.SimpleKind? && GetText(e).None? ==> r == Err(PrimitiveTextHadNoText(e.name))
    decreases e, 3
  {
    match k
    case SimpleKind(p) =>
      (match GetText(e)
       case None => Err(PrimitiveTextHadNoText(e.name))
       case Some(text) =>
         var v :- ParsePrimitive(text, p, parseReal);
         ToXmpElement(e, v))
    case StructKind(_) => ValueStruct(e, Some(k), parseReal)
    case UnionKind(always, d, optional) => ValueUnion(e, always, d, optional, parseReal)
    case UnorderedArrayKind(_) => ValueArray(e, Some(k), false, parseReal)
    case OrderedArrayKind(_) => ValueArray(e, Some(k), true, parseReal)
    case AlternativesKind(_) => ValueAlternatives(e)
  }

  /** `value_generic`: the element read without a schema, by the
      heuristics in order: a bare element as text, then a struct, then a
      collection, then any text; otherwise `GenericNoOtherOption`. Every
      primitive it makes is text. */
  function ValueGeneric(e: Element, parseReal: RealParser): (r: Result<XmpElement, XmpError>)
    ensures r.Ok? ==> Named(r.value, e) && TextOnly(r.value.value)
    ensures e.children == [] && e.attributes == [] ==> r == Err(GenericLikelyPrimitiveHadNoText(e.name))
    decreases e, 3
  {
    if e.children == [] && e.attributes == [] then
      // text is a child node, so a childless element has none: reading it
      // as text always fails here
      NoChildrenNoText(e);
      Err(GenericLikelyPrimitiveHadNoText(e.name))
    else if IsStruct(e) then ValueStruct(e, None, parseReal)
    else if HasCollection(e).Some? then
      match HasCollection(e).value
      case Alternatives => ValueAlternatives(e)
      case Unordered => ValueArray(e, None, false, parseReal)
      case Ordered => ValueArray(e, None, true, parseReal)
    else
      match GetText(e)
      case Some(text) =>
        var v :- ParsePrimitive(text, TextKind, parseReal);
        ToXmpElement(e, v)
      case None => Err(GenericNoOtherOption(e.name))
  }

  /** The language tag of an `rdf:li`: the value of its first `xml:lang`
      attribute, judged by prefix and local name. */
  function LangTag(attrs: seq<Attribute>): (r: Option<string>)
    ensures r.Some? ==> exists i | 0 <= i < |attrs| :: attrs[i].prefix == Some("xml") && attrs[i].localName == "lang" && attrs[i].value == r.value
    ensures r.None? <==> forall i | 0 <= i < |attrs| :: !(attrs[i].prefix == Some("xml") && attrs[i].localName == "lang")
  {
    if attrs == [] then None
    else if attrs[0].prefix == Some("xml") && attrs[0].localName == "lang" then Some(attrs[0].value)
    else
      var r := LangTag(attrs[1..]);
      assert forall i | 1 <= i < |attrs| :: attrs[i] == attrs[1..][i - 1];
      r
  }

  /** One entry of an `rdf:Alt`: an `li` with a language tag and text, and
      the namespace and prefix an element needs, becomes (tag, text). */
  function AltEntry(li: Element): (r: Option<(string, XmpElement)>)
    ensures r.Some? <==> LangTag(li.attributes).Some? && GetText(li).Some? && li.namespace.Some? && li.prefix.Some?
    ensures r.Some? ==> r.value.0 == LangTag(li.attributes).value
                        && Named(r.value.1, li) && r.value.1.value == Simple(Text(GetText(li).value))
  {
    match LangTag(li.attributes)
    case None => None
    case Some(tag) =>
      match GetText(li)
      case None => None
      case Some(text) =>
        match ToXmpElement(li, Simple(Text(text)))
        case Ok(x) => Some((tag, x))
        case Err(_) => None
  }

  /** The entries an `rdf:Alt` element yields, in document order. */
  function AltEntries(alt: Element): seq<(string, XmpElement)>
  {
    var lis := RdfNamed(Children(alt), "li");
    FilterSome(seq(|lis|, i requires 0 <= i < |lis| => AltEntry(lis[i])))
  }

  /** The first entry tagged `x-default`. */
  function FirstDefault(entries: seq<(string, XmpElement)>): (r: Option<(string, XmpElement)>)
    ensures r.None? <==> forall i | 0 <= i < |entries| :: entries[i].0 != "x-default"
    ensures r.Some? ==> exists i | 0 <= i < |entries| ::
              && entries[i] == r.value && r.value.0 == "x-default"
              && forall j | 0 <= j < i :: entries[j].0 != "x-default"
  {
    if entries == [] then None
    else if entries[0].0 == "x-default" then Some(entries[0])
    else
      var r := FirstDefault(entries[1..]);
      assert forall i | 1 <= i < |entries| :: entries[i] == entries[1..][i - 1];
      if r.Some? then
        var i :| 0 <= i < |entries[1..]| && entries[1..][i] == r.value && r.value.0 == "x-default"
                 && forall j | 0 <= j < i :: entries[1..][j].0 != "x-default";
        assert entries[i + 1] == r.value;
        r
      else r
  }

  /** `value_alternatives`: the entries of the first `rdf:Alt` child, the
      first `x-default` one chosen. */
  function ValueAlternatives(e: Element): (r: Result<XmpElement, XmpError>)
    ensures r.Ok? ==> Named(r.value, e) && Conforms(r.value.value, AlternativesKind(SimpleKind(TextKind)))
    ensures r.Ok? ==> TextOnly(r.value.value)
    ensures FirstRdfNamed(Children(e), "Alt").None? ==> r == Err(ArrayNoInnerCollectionType(e.name, e.children))
    ensures r.Ok? ==> var alt := FirstRdfNamed(Children(e), "Alt").value;
                      && r.value.value.list == AltEntries(alt)
                      && exists i | 0 <= i < |AltEntries(alt)| ::
                           && AltEntries(alt)[i] == r.value.value.chosen
                           && forall j | 0 <= j < i :: AltEntries(alt)[j].0 != "x-default"
    ensures r.Err? && r.error.ArrayAltNoDefault? ==>
              forall i | 0 <= i < |r.error.alternatives| :: r.error.alternatives[i].0 != "x-default"
  {
    match FirstRdfNamed(Children(e), "Alt")
    case None => Err(ArrayNoInnerCollectionType(e.name, e.children))
    case Some(alt) =>
      var entries := AltEntries(alt);
      match FirstDefault(entries)
      case None => Err(ArrayAltNoDefault(e.name, entries))
      case Some(chosen) =>
        AltEntriesText(alt);
        ToXmpElement(e, XmpValue.Alternatives(chosen, entries))
  }

  /** Every alternative holds text. */
  lemma AltEntriesText(alt: Element)
    ensures forall i | 0 <= i < |AltEntries(alt)| ::
              AltEntries(alt)[i].1.value.Simple? && AltEntries(alt)[i].1.value.prim.Text?
  {
    var lis := RdfNamed(Children(alt), "li");
    var s := seq(|lis|, i requires 0 <= i < |lis| => AltEntry(lis[i]));
    forall i | 0 <= i < |AltEntries(alt)|
      ensures AltEntries(alt)[i].1.value.Simple? && AltEntries(alt)[i].1.value.prim.Text?
    {
      assert Some(AltEntries(alt)[i]) in s;
    }
  }

  /** One `li` of an array: read with the item schema when there is one,
      generically otherwise; `None` when that fails. */
  function ItemAttempt(li: Element, itemKind: Option<Kind>, parseReal: RealParser): (r: Option<XmpElement>)
    ensures r.Some? ==> Named(r.value, li)
    ensures r.Some? && itemKind.Some? ==> Conforms(r.value.value, itemKind.value)
    ensures r.Some? && itemKind.None? ==> TextOnly(r.value.value)
    decreases li, 4
  {
    match itemKind
    case Some(k) => ValueWithSchema(li, k, parseReal).ToOption()
    case None => ValueGeneric(li, parseReal).ToOption()
  }

  /** The attempts on every RDF `li` child of a collection element, in
      document order. */
  function ItemAttempts(coll: Element, itemKind: Option<Kind>, parseReal: RealParser): (r: seq<Option<XmpElement>>)
    ensures |r| == |RdfNamed(Children(coll), "li")|
    ensures forall i | 0 <= i < |r| :: r[i].Some? ==> ItemFits(r[i].value, itemKind)
    decreases coll, 1
  {
    var lis := RdfNamed(Children(coll), "li");
    ChildrenBelow(coll);
    assert forall i | 0 <= i < |lis| :: lis[i] in Children(coll);
    seq(|lis|, i requires 0 <= i < |lis| => ItemAttempt(lis[i], itemKind, parseReal))
  }

  /** An array item fits the item schema, or is text only without one. */
  predicate ItemFits(x: XmpElement, itemKind: Option<Kind>)
  {
    match itemKind
    case Some(k) => Conforms(x.value, k)
    case None => TextOnly(x.value)
  }

  /** The item schema of an array schema. */
  function ArrayItemKind(ty: Option<Kind>): Result<Option<Kind>, Kind>
  {
    match ty
    case None => Ok(None)
    case Some(UnorderedArrayKind(k)) => Ok(Some(k))
    case Some(OrderedArrayKind(k)) => Ok(Some(k))
    case Some(other) => Err(other)
  }

  /** `value_array`: the items of the first `rdf:Seq` (ordered) or `rdf:Bag`
      (unordered) child that parse, in document order. */
  function ValueArray(e: Element, ty: Option<Kind>, ordered: bool, parseReal: RealParser): (r: Result<XmpElement, XmpError>)
    ensures r.Ok? ==> Named(r.value, e)
    ensures r.Ok? ==> (if ordered then r.value.value.OrderedArray? else r.value.value.UnorderedArray?)
    ensures r.Ok? && ty.None? ==> TextOnly(r.value.value)
    ensures r.Ok? && ty.Some? ==>
              (ty.value.OrderedArrayKind? || ty.value.UnorderedArrayKind?)
              && forall i | 0 <= i < |r.value.value.items| :: Conforms(r.value.value.items[i].value, ty.value.item)
    ensures FirstRdfNamed(Children(e), if ordered then "Seq" else "Bag").None? ==>
              r == Err(ArrayNoInnerCollectionType(e.name, e.children))
    ensures FirstRdfNamed(Children(e), if ordered then "Seq" else "Bag").Some? && ArrayItemKind(ty).Err? ==>
              r == Err(ArrayGivenNonArraySchema(e.name, ty.value))
    decreases e, 2
  {
    match FirstRdfNamed(Children(e), if ordered then "Seq" else "Bag")
    case None => Err(ArrayNoInnerCollectionType(e.name, e.children))
    case Some(coll) =>
      match ArrayItemKind(ty)
      case Err(weird) => Err(ArrayGivenNonArraySchema(e.name, weird))
      case Ok(itemKind) =>
        var attempts := ItemAttempts(coll, itemKind, parseReal);
        var items := FilterSome(attempts);
        FilterSomeAll(attempts, x => ItemFits(x, itemKind));
        assert forall i | 0 <= i < |items| :: items[i] in items;
        assert forall i | 0 <= i < |items| :: ItemFits(items[i], itemKind);
        ToXmpElement(e, if ordered then OrderedArray(items) else UnorderedArray(items))
  }

  /** One attribute of a struct as a field: `rdf:parseType` and `rdf:about`
      are skipped; an attribute the schema names is read as that field's
      primitive kind (and dropped if the kind is not primitive or the read
      fails); any other attribute is a text field of its own name. */
  function AttrField(a: Attribute, schema: Option<Kind>, parseReal: RealParser): (r: Option<StructField>)
    ensures r.Some? ==> r.value.ValueField? && r.value.ident == a.localName && r.value.namespace == a.namespace
    ensures (a.localName == "parseType" || a.localName == "about") && a.namespace == Some(RdfNamespace) ==> r.None?
    ensures FieldInfo(schema, a.namespace, a.localName).None? && !((a.localName == "parseType" || a.localName == "about") && a.namespace == Some(RdfNamespace)) ==>
              r == Some(ValueField(a.localName, a.namespace, Simple(Text(a.value))))
    ensures r.Some? && FieldInfo(schema, a.namespace, a.localName).Some? ==>
              var f := FieldInfo(schema, a.namespace, a.localName).value;
              f.ty.SimpleKind? && ParsePrimitive(a.value, f.ty.prim, parseReal) == Ok(r.value.value)
  {
    if (a.localName == "parseType" || a.localName == "about") && a.namespace == Some(RdfNamespace) then None
    else
      match FieldInfo(schema, a.namespace, a.localName)
      case Some(f) =>
        if !f.ty.SimpleKind? then None
        else
          (match ParsePrimitive(a.value, f.ty.prim, parseReal)
           case Ok(v) => Some(ValueField(f.ident.name, f.ident.ns, v))
           case Err(_) => None)
      case None => Some(ValueField(a.localName, a.namespace, Simple(Text(a.value))))
  }

  /** The attribute fields of a struct, in attribute order. */
  function AttrFields(attrs: seq<Attribute>, schema: Option<Kind>, parseReal: RealParser): (r: seq<StructField>)
    ensures |r| <= |attrs|
    ensures forall f | f in r :: exists i | 0 <= i < |attrs| :: AttrField(attrs[i], schema, parseReal) == Some(f)
  {
    var s := seq(|attrs|, i requires 0 <= i < |attrs| => AttrField(attrs[i], schema, parseReal));
    FilterSome(s)
  }

  /** Where a struct's element fields live: the element itself when it is
      marked `rdf:parseType="Resource"`, otherwise its first child named
      `Description` when that is an `rdf:Description`. */
  function FieldsContainer(e: Element): (r: Option<Element>)
    ensures r.Some? ==> r.value == e || ElementNode(r.value) in e.children
    ensures HasResourceParseType(e) ==> r == Some(e)
    ensures !HasResourceParseType(e) && r.Some? ==> IsRdfDescription(r.value) && r == FirstChildNamed(e, "Description")
  {
    if HasResourceParseType(e) then Some(e)
    else
      match FirstChildNamed(e, "Description")
      case Some(d) => if IsRdfDescription(d) then Some(d) else None
      case None => None
  }

  /** `value_struct_field`: a child element as a field, named after the
      schema field when there is one (and read with its kind), after the
      element otherwise (and read generically); `None` when the read
      fails. */
  function ValueStructField(c: Element, f: Option<Field>, parseReal: RealParser): (r: Option<StructField>)
    ensures r.Some? ==> r.value.ElementField? && Named(r.value.element, c)
    ensures r.Some? && f.Some? ==>
              r.value.ident == f.value.ident.name && r.value.namespace == f.value.ident.ns
              && Conforms(r.value.element.value, f.value.ty)
    ensures r.Some? && f.None? ==>
              r.value.ident == c.name && r.value.namespace == c.namespace && TextOnly(r.value.element.value)
    decreases c, 4
  {
    match f
    case Some(field) =>
      (match ValueWithSchema(c, field.ty, parseReal)
       case Ok(x) => Some(ElementField(field.ident.name, field.ident.ns, x))
       case Err(_) => None)
    case None =>
      (match ValueGeneric(c, parseReal)
       case Ok(x) => Some(ElementField(c.name, c.namespace, x))
       case Err(_) => None)
  }

  /** The element fields of a struct: every child element of the container,
      in document order, that reads as a field. */
  function ChildFieldAttempts(container: Element, schema: Option<Kind>, parseReal: RealParser): (r: seq<Option<StructField>>)
    ensures |r| == |Children(container)|
    ensures forall i | 0 <= i < |r| :: r[i].Some? ==> FieldFits(r[i].value, schema)
    decreases container, 1
  {
    var cs := Children(container);
    ChildrenBelow(container);
    assert forall i | 0 <= i < |cs| :: cs[i] in Children(container);
    var r := seq(|cs|, i requires 0 <= i < |cs| => ValueStructField(cs[i], FieldInfo(schema, cs[i].namespace, cs[i].name), parseReal));
    ChildFieldsFit(cs, r, schema);
    r
  }

  /** A field read from child `c` with the field info the schema has for
      it fits the schema. */
  lemma ChildFieldsFit(cs: seq<Element>, r: seq<Option<StructField>>, schema: Option<Kind>)
    requires |r| == |cs|
    requires forall i | 0 <= i < |r| :: r[i].Some? ==>
               var fi := FieldInfo(schema, cs[i].namespace, cs[i].name);
               && r[i].value.ElementField?
               && (fi.Some? ==> r[i].value.ident == fi.value.ident.name && r[i].value.namespace == fi.value.ident.ns
                                && Conforms(r[i].value.element.value, fi.value.ty))
               && (fi.None? ==> r[i].value.ident == cs[i].name && r[i].value.namespace == cs[i].namespace
                                && TextOnly(r[i].value.element.value))
    ensures forall i | 0 <= i < |r| :: r[i].Some? ==> FieldFits(r[i].value, schema)
  {
    forall i | 0 <= i < |r| && r[i].Some?
      ensures FieldFits(r[i].value, schema)
    {
      var fi := FieldInfo(schema, cs[i].namespace, cs[i].name);
      if schema.Some? && schema.value.StructKind? {
        if fi.Some? {
          assert fi.value.ident == Ident(cs[i].name, cs[i].namespace);
          assert SchemaField(schema.value.fields, r[i].value.namespace, r[i].value.ident) == fi;
        } else {
          assert SchemaField(schema.value.fields, r[i].value.namespace, r[i].value.ident).None?;
        }
      }
    }
  }

  /** `value_struct`: the attribute fields, then (when the element is or
      holds a field container) the container's child fields. */
  function ValueStruct(e: Element, schema: Option<Kind>, parseReal: RealParser): (r: Result<XmpElement, XmpError>)
    ensures r.Ok? ==> Named(r.value, e) && r.value.value.Struct?
    ensures r.Ok? && schema.None? ==> TextOnly(r.value.value)
    ensures r.Ok? && schema.Some? && schema.value.StructKind? ==> Conforms(r.value.value, schema.value)
    ensures r.Ok? ==> AttrFields(e.attributes, schema, parseReal) <= r.value.value.fields
    ensures r.Ok? && FieldsContainer(e).None? ==> r.value.value.fields == AttrFields(e.attributes, schema, parseReal)
    decreases e, 2
  {
    var attrFields := AttrFields(e.attributes, schema, parseReal);
    AttrFieldsConform(e.attributes, schema, parseReal);
    match FieldsContainer(e)
    case None =>
      StructFits(attrFields, schema);
      ToXmpElement(e, Struct(attrFields))
    case Some(container) =>
      ChildrenBelow(e);
      var attempts := ChildFieldAttempts(container, schema, parseReal);
      var inner := FilterSome(attempts);
      FilterSomeAll(attempts, f => FieldFits(f, schema));
      ConformsAppend(attrFields, inner, schema);
      StructFits(attrFields + inner, schema);
      ToXmpElement(e, Struct(attrFields + inner))
  }

  /** Fields that each fit the schema make a struct that does. */
  lemma StructFits(fields: seq<StructField>, schema: Option<Kind>)
    requires forall f | f in fields :: FieldFits(f, schema)
    ensures schema.None? ==> TextOnly(Struct(fields))
    ensures schema.Some? && schema.value.StructKind? ==> Conforms(Struct(fields), schema.value)
  {
    assert forall i | 0 <= i < |fields| :: fields[i] in fields;
  }

  /** A field fits the schema `schema` names: with no schema, it is text
      only; with a struct schema, `FieldConforms`. */
  predicate FieldFits(f: StructField, schema: Option<Kind>)
  {
    match schema
    case None =>
      (match f
       case ElementField(_, _, x) => TextOnly(x.value)
       case ValueField(_, _, w) => TextOnly(w))
    case Some(k) => k.StructKind? ==> FieldConforms(f, k)
  }

  lemma AttrFieldsConform(attrs: seq<Attribute>, schema: Option<Kind>, parseReal: RealParser)
    ensures forall f | f in AttrFields(attrs, schema, parseReal) :: FieldFits(f, schema)
  {
    forall f | f in AttrFields(attrs, schema, parseReal)
      ensures FieldFits(f, schema)
    {
      var i :| 0 <= i < |attrs| && AttrField(attrs[i], schema, parseReal) == Some(f);
      var a := attrs[i];
      if schema.Some? && schema.value.StructKind? {
        var fi := FieldInfo(schema, a.namespace, a.localName);
        assert SchemaField(schema.value.fields, f.namespace, f.ident) == fi;
      }
    }
  }

  lemma ConformsAppend(a: seq<StructField>, b: seq<StructField>, schema: Option<Kind>)
    requires forall f | f in a :: FieldFits(f, schema)
    requires forall f | f in b :: FieldFits(f, schema)
    ensures forall f | f in a + b :: FieldFits(f, schema)
    ensures a <= a + b
  {
    assert (a + b)[..|a|] == a;
  }

  /** Whether child `c` is the field `f` names: same namespace (both absent
      counts) and same local name. */
  predicate IsField(c: Element, f: Field)
  {
    c.namespace == f.ident.ns && c.name == f.ident.name
  }

  function Flatten<T>(ss: seq<seq<T>>): seq<T>
  {
    if ss == [] then [] else ss[0] + Flatten(ss[1..])
  }

  /** Every field a union schema knows: the always fields, the
      discriminant, then every optional field of every variant. */
  function KnownFields(always: seq<Field>, d: Field, optional: seq<(string, seq<Field>)>): seq<Field>
  {
    always + [d] + Flatten(seq(|optional|, i requires 0 <= i < |optional| => optional[i].1))
  }

  /** The expected fields child `c` yields: one read per known field it
      matches, in the known fields' order, each kept when it parses. */
  function ChildExpected(c: Element, known: seq<Field>, parseReal: RealParser): (r: seq<StructField>)
    ensures forall f | f in r :: exists j | 0 <= j < |known| :: IsField(c, known[j]) && ValueStructField(c, Some(known[j]), parseReal) == Some(f)
    decreases c, 5
  {
    FilterSome(seq(|known|, j requires 0 <= j < |known| =>
      if IsField(c, known[j]) then ValueStructField(c, Some(known[j]), parseReal) else None))
  }

  /** The unexpected field child `c` yields: a generic read, only when it
      matches no known field. */
  function ChildUnexpected(c: Element, known: seq<Field>, parseReal: RealParser): (r: Option<StructField>)
    ensures r.Some? ==> forall j | 0 <= j < |known| :: !IsField(c, known[j])
    ensures r.Some? ==> r == ValueStructField(c, None, parseReal)
    ensures r.Some? ==> r.value.ElementField? && TextOnly(r.value.element.value)
    decreases c, 5
  {
    if exists j | 0 <= j < |known| :: IsField(c, known[j]) then None
    else ValueStructField(c, None, parseReal)
  }

  /** The first expected field named as the discriminant. */
  function FindDiscriminant(fields: seq<StructField>, d: Field): (r: Option<StructField>)
    ensures r.Some? ==> r.value in fields && r.value.ident == d.ident.name && r.value.namespace == d.ident.ns
    ensures r.None? <==> forall i | 0 <= i < |fields| :: !(fields[i].ident == d.ident.name && fields[i].namespace == d.ident.ns)
  {
    if fields == [] then None
    else if fields[0].ident == d.ident.name && fields[0].namespace == d.ident.ns then Some(fields[0])
    else
      var r := FindDiscriminant(fields[1..], d);
      assert forall i | 1 <= i < |fields| :: fields[i] == fields[1..][i - 1];
      r
  }

  /** `value_union`: each child element is read once per known field it
      matches (expected fields) or, matching none, generically (unexpected
      fields); the discriminant is the first expected field named as the
      schema's discriminant, which must be a text field. */
  function ValueUnion(e: Element, always: seq<Field>, d: Field, optional: seq<(string, seq<Field>)>, parseReal: RealParser): (r: Result<XmpElement, XmpError>)
    ensures r.Ok? ==> Named(r.value, e) && Conforms(r.value.value, UnionKind(always, d, optional))
    ensures d.ty != SimpleKind(TextKind) ==> r == Err(UnionDiscriminantWasntText(e.name, d))
    ensures r.Ok? ==> forall i | 0 <= i < |r.value.value.unexpectedFields| ::
              r.value.value.unexpectedFields[i].ElementField? && TextOnly(r.value.value.unexpectedFields[i].element.value)
    decreases e, 2
  {
    if d.ty != SimpleKind(TextKind) then Err(UnionDiscriminantWasntText(e.name, d))
    else
      var known := KnownFields(always, d, optional);
      var cs := Children(e);
      ChildrenBelow(e);
      assert forall i | 0 <= i < |cs| :: cs[i] in Children(e);
      var expected := Flatten(seq(|cs|, i requires 0 <= i < |cs| => ChildExpected(cs[i], known, parseReal)));
      var attempts := seq(|cs|, i requires 0 <= i < |cs| => ChildUnexpected(cs[i], known, parseReal));
      var unexpected := FilterSome(attempts);
      FilterSomeAll(attempts, (f: StructField) => f.ElementField? && TextOnly(f.element.value));
      assert forall i | 0 <= i < |unexpected| :: unexpected[i] in unexpected;
      match FindDiscriminant(expected, d)
      case None => Err(UnionNoDiscriminant(e.name))
      case Some(found) => ToXmpElement(e, Union(found, expected, unexpected))
  }

  /** An array keeps exactly the `li` items that read, in document order:
      its `j`-th item is the read of the `li` at the `j`-th successful
      position, those positions increase, and an `li` is kept exactly when
      its read succeeds. */
  lemma ArrayItemsInOrder(e: Element, ty: Option<Kind>, ordered: bool, parseReal: RealParser)
    requires ValueArray(e, ty, ordered, parseReal).Ok?
    ensures var coll := FirstRdfNamed(Children(e), if ordered then "Seq" else "Bag").value;
            var lis := RdfNamed(Children(coll), "li");
            var itemKind := ArrayItemKind(ty).value;
            var items := ValueArray(e, ty, ordered, parseReal).value.value.items;
            var idx := SomeIndices(ItemAttempts(coll, itemKind, parseReal));
            && |idx| == |items|
            && (forall j | 0 <= j < |idx| :: idx[j] < |lis| && ItemAttempt(lis[idx[j]], itemKind, parseReal) == Some(items[j]))
            && (forall j, k | 0 <= j < k < |idx| :: idx[j] < idx[k])
            && (forall i | 0 <= i < |lis| :: ItemAttempt(lis[i], itemKind, parseReal).Some? <==> i in idx)
  {
    var coll := FirstRdfNamed(Children(e), if ordered then "Seq" else "Bag").value;
    var itemKind := ArrayItemKind(ty).value;
    ArrayItemsAreReads(e, ty, ordered, parseReal);
    ReadsInOrder(coll, itemKind, parseReal, ValueArray(e, ty, ordered, parseReal).value.value.items);
  }

  /** The successful reads of a collection's `li` children, kept in order,
      are the reads at the increasing positions where a read succeeds. */
  lemma ReadsInOrder(coll: Element, itemKind: Option<Kind>, parseReal: RealParser, items: seq<XmpElement>)
    requires items == FilterSome(ItemAttempts(coll, itemKind, parseReal))
    ensures var lis := RdfNamed(Children(coll), "li");
            var idx := SomeIndices(ItemAttempts(coll, itemKind, parseReal));
            && |idx| == |items|
            && (forall j | 0 <= j < |idx| :: idx[j] < |lis| && ItemAttempt(lis[idx[j]], itemKind, parseReal) == Some(items[j]))
            && (forall j, k | 0 <= j < k < |idx| :: idx[j] < idx[k])
            && (forall i | 0 <= i < |lis| :: ItemAttempt(lis[i], itemKind, parseReal).Some? <==> i in idx)
  {
    ItemAttemptsAt(coll, itemKind, parseReal);
    SomeIndicesSpec(ItemAttempts(coll, itemKind, parseReal));
  }

  /** An array's items are the reads of its `li` children that succeed. */
  lemma ArrayItemsAreReads(e: Element, ty: Option<Kind>, ordered: bool, parseReal: RealParser)
    requires ValueArray(e, ty, ordered, parseReal).Ok?
    ensures var coll := FirstRdfNamed(Children(e), if ordered then "Seq" else "Bag").value;
            ValueArray(e, ty, ordered, parseReal).value.value.items
            == FilterSome(ItemAttempts(coll, ArrayItemKind(ty).value, parseReal))
  {
  }

  /** The `i`-th attempt is the read of the `i`-th `li` child. */
  lemma ItemAttemptsAt(coll: Element, itemKind: Option<Kind>, parseReal: RealParser)
    ensures var lis := RdfNamed(Children(coll), "li");
            forall i | 0 <= i < |lis| :: ItemAttempts(coll, itemKind, parseReal)[i] == ItemAttempt(lis[i], itemKind, parseReal)
  {
  }

  /** In a union, a child element that matches no known field and reads
      generically is kept as an unexpected field, and one that matches a
      known field never is. */
  lemma UnionUnexpectedFields(e: Element, always: seq<Field>, d: Field, optional: seq<(string, seq<Field>)>, parseReal: RealParser)
    requires ValueUnion(e, always, d, optional, parseReal).Ok?
    ensures var known := KnownFields(always, d, optional);
            var u := ValueUnion(e, always, d, optional, parseReal).value.value;
            && (forall c | c in Children(e) && (forall j | 0 <= j < |known| :: !IsField(c, known[j]))
                  && ValueStructField(c, None, parseReal).Some? :: ValueStructField(c, None, parseReal).value in u.unexpectedFields)
            && (forall f | f in u.unexpectedFields :: exists c | c in Children(e) ::
                  (forall j | 0 <= j < |known| :: !IsField(c, known[j])) && ValueStructField(c, None, parseReal) == Some(f))
  {
    var known := KnownFields(always, d, optional);
    var cs := Children(e);
    var attempts := seq(|cs|, i requires 0 <= i < |cs| => ChildUnexpected(cs[i], known, parseReal));
    forall c | c in cs && (forall j | 0 <= j < |known| :: !IsField(c, known[j])) && ValueStructField(c, None, parseReal).Some?
      ensures Some(ValueStructField(c, None, parseReal).value) in attempts
    {
      var i :| 0 <= i < |cs| && cs[i] == c;
      assert attempts[i] == ValueStructField(c, None, parseReal);
    }
    forall f | f in FilterSome(attempts)
      ensures exists c | c in cs :: (forall j | 0 <= j < |known| :: !IsField(c, known[j])) && ValueStructField(c, None, parseReal) == Some(f)
    {
      var i :| 0 <= i < |attempts| && attempts[i] == Some(f);
      assert cs[i] in cs;
    }
  }

  /** What a call returns, or that it panics. */
  datatype Outcome = Returns(result: Result<XmpElement, XmpError>) | Panics

  /** `value_union` as written: after the discriminant check it reserves
      room for `children.len() - always.len()` unexpected fields, a `usize`
      subtraction that underflows, and so panics, whenever the element has
      fewer child nodes than the union has always-present fields. */
  function ValueUnionAsWritten(e: Element, always: seq<Field>, d: Field, optional: seq<(string, seq<Field>)>, parseReal: RealParser): (r: Outcome)
    ensures d.ty != SimpleKind(TextKind) ==> r == Returns(Err(UnionDiscriminantWasntText(e.name, d)))
    ensures d.ty == SimpleKind(TextKind) ==> (r.Panics? <==> |e.children| < |always|)
    ensures r.Returns? ==> r.result == ValueUnion(e, always, d, optional, parseReal)
  {
    if d.ty != SimpleKind(TextKind) then Returns(Err(UnionDiscriminantWasntText(e.name, d)))
    else if |e.children| < |always| then Panics
    else Returns(ValueUnion(e, always, d, optional, parseReal))
  }

  /** A union written in RDF's attribute shorthand (its fields as
      attributes, no child nodes) with any always-present field panics as
      written; the corrected parser reports that no discriminant was found. */
  lemma UnionShorthandPanics(e: Element, always: seq<Field>, d: Field, optional: seq<(string, seq<Field>)>, parseReal: RealParser)
    requires e.children == [] && |always| > 0 && d.ty == SimpleKind(TextKind)
    ensures ValueUnionAsWritten(e, always, d, optional, parseReal) == Panics
    ensures ValueUnion(e, always, d, optional, parseReal) == Err(UnionNoDiscriminant(e.name))
  {
    assert Children(e) == [];
    assert Flatten<StructField>([]) == [];
  }

  /** The XMP graphics namespace of the colorant schema. */
  const GraphicsNamespace: string := "http://ns.adobe.com/xap/1.0/g/"

  /** The colorant union's always-present fields: mode, swatch name (listed
      twice), all text. */
  function ColorantAlways(): seq<Field>
  {
    [ Field(Ident("mode", Some(GraphicsNamespace)), SimpleKind(TextKind)),
      Field(Ident("swatchName", Some(GraphicsNamespace)), SimpleKind(TextKind)),
      Field(Ident("swatchName", Some(GraphicsNamespace)), SimpleKind(TextKind)) ]
  }

  /** `<rdf:li xmpG:mode="RGB"/>`, a colorant given by attributes only. */
  function ShorthandColorant(): Element
  {
    Element(Some("rdf"), Some(RdfNamespace), "li",
            [Attribute(Some("xmpG"), Some(GraphicsNamespace), "mode", "RGB")], [])
  }

  /** The concrete input: reading that colorant panics as written. */
  lemma ShorthandColorantPanics(parseReal: RealParser)
    ensures ValueUnionAsWritten(ShorthandColorant(), ColorantAlways(), ColorantAlways()[0], [], parseReal) == Panics
    ensures ValueUnion(ShorthandColorant(), ColorantAlways(), ColorantAlways()[0], [], parseReal).Err?
  {
    UnionShorthandPanics(ShorthandColorant(), ColorantAlways(), ColorantAlways()[0], [], parseReal);
  }
}
